=== FILE: README.md ===
# MangosBasedServer core, modelled in Dafny

This project models the core of MangosBasedServer, a MaNGOS-derived world and
authentication server for an early game client. It covers the world server's
entity, session and protocol machinery. It also covers a handful of
self-contained rules on the authentication side and in the shared utilities.

- **Entities.** The 32-bit slot store of an object, with its changed bits and
  "mark for client update" gating (`FieldStore`), lives in `field_store.dfy`.
  The unit and player layers with their clamped health, power and money pools
  are in `unit.dfy`, `player.dfy` and `player_life.dfy`. The sparse create and
  values-update encoders and the update-packet builder are in
  `update_codec.dfy` and `sparse.dfy`. The GUID generator and type names are in
  `object_guid.dfy`, and the player registry is in `accessor.dfy`.
- **Maps.** The map registry, its per-tick phases and the pairwise nearby
  lists are in `map.dfy`. The map manager and the map-type predicates of a
  `MapEntry` are in `map_manager.dfy` and `map.dfy`.
- **World.** The session registry, one session per account, sits in
  `world.dfy`, together with its FIFO wait queue and 1-based positions, the
  admission of parked sessions and the reaping of dead ones. The integer
  option loaders and data-directory normalisation are in `world_config.dfy`.
- **Sessions and protocol.** The opcode table is in `opcodes.dfy`. The
  session filters, packet queue, status gating and logout are in
  `world_session.dfy`. Inbound framing with resume on partial frames, the
  outbound header and the ping-flood counter are in `world_socket.dfy`. The
  decision sequences of the character handlers are in
  `character_handler.dfy`.
- **Authentication and utilities.** The auth command gating and login
  decision are in `auth_socket.dfy`, and the realm list is in
  `realm_list.dfy`. The header stream cipher is in `auth_crypt.dfy`, and the
  configuration file parser is in `config.dfy`. The name validators and
  class-level tables are in `object_mgr.dfy`. Least-loaded worker selection
  and the tick sleep balance are in `runtime.dfy`.

Every operation is a pure function over immutable datatypes, or a method
whose out-parameters are values. The source's mutation of an object and its
map's update set becomes a function from the old pair to the new one.
Database answers, clocks, UTF-8 codecs and the 5000-unit range test are
parameters.

## Where the model follows the code

The model does what the code does, including these behaviours a reader
would not expect from the names or comments:

- `WorldSession::Update` drains every queued packet while the socket is open
  and never consults the filter's `Process`. Only the logout step looks at
  the filter (`WorldSessions.Update`).
- `MapManager::SetMapUpdateInterval` caps the interval at 50 rather than
  flooring it, so 0 stays 0 (`MapManager.IntervalIsCapped`). The world's
  configuration separately loads the option with a minimum of 50.
- `Map::Remove` broadcasts the destroy packet using the tick's own member
  cursor and leaves it at the end. A player removed during a map walk
  therefore ends that walk, and the players after it are not visited
  (`Maps.RemoveLosesWalk`), so removing a player during a walk is not
  iteration-safe.
- The character-delete handler builds a failure reply on an account mismatch
  but never sends it (`CharacterHandler.DeleteOnlyOwn`). A GUID with no
  character row reads as account 0, so account 0 may delete it.
- `World::AddSession_` files the newcomer under its account and kicks the
  older session of that account.
- The outbound header's size field is `uint16`, so a payload of 0xFFFC bytes
  or more wraps (`WorldSocket.ServerFrameRoundTrip`). The character count of
  the enumeration reply is a byte and wraps at 256.
- The per-realm character count read during creation is a `uint8`, so an
  account holding 256 characters on the realm passes the realm limit
  (`CharacterHandler.RealmCountWraps`).
- On the authentication side, a failed login after a successful one leaves
  the connection authenticated but replaces the remembered user name
  (`AuthSocket.FailedLoginKeepsAuth`).
- The offline flag for locked or unsupported realms is commented out in
  `LoadRealmlist`, so such realms are listed as they are. The realm's
  allowed security level therefore has no effect on the list.
- `FindBuildInfo` takes a `uint16`, so the realm's smallest build and the
  client's build are truncated to 16 bits before the lookup.

## Model

| member | source | states |
|---|---|---|
| ObjectGuid.TypeName | src/game/Object/ObjectGuid.cpp:7-23 | the name is `<unknown>` exactly for a high part outside the known list, and "Player" exactly for the player high part |
| ObjectGuid.TypeNamesDistinct | src/game/Object/ObjectGuid.cpp:7-23 | two different known high parts never share a name, so the name identifies the type |
| ObjectGuid.GuidString | src/game/Object/ObjectGuid.cpp:25-42 | the text starts with the type name, is longer than the name plus ` (`, and ends with `)` |
| ObjectGuid.GuidStringCounter | src/game/Object/ObjectGuid.cpp:25-42 | `Guid: ` stands right after the optional entry part, and the decimal text between it and the closing bracket reads back as the counter |
| ObjectGuid.Generate | src/game/Object/ObjectGuid.cpp:44-54 | hands out the current counter, advances it by one while it fits in 32 bits, and raises the stop request exactly when the counter has reached the limit less one |
| ObjectGuid.GenerateIncreases | src/game/Object/ObjectGuid.cpp:44-54 | until the 32-bit counter runs out, `n` calls hand out `next, next+1, …`, so the counters are strictly increasing and never repeat |
| Packet.LittleEndianRoundTrip | src/game/Object/ObjectGuid.cpp:55-65 | a value that fits in n bytes, written little-endian, reads back as itself: a GUID streamed out as a raw `uint64` is read back unchanged |
| Packet.FromLittleEndianRoundTrip | src/game/Object/ObjectGuid.cpp:61-65 | n bytes read as a value and written back give the same bytes |
| FieldStore.NewObject | src/game/Object/Object.cpp:31-41 | a constructed object has no value array yet, is not in the world and is not queued for a client update |
| FieldStore.InitValues | src/game/Object/Object.cpp:79-88 | after `_InitValues` every slot is 0, no changed bit is set and the object is not queued; identity, slot count and in-world flag are kept |
| FieldStore.EnsureValues | src/game/Object/Object.cpp:105-107 | the arrays are allocated (and zeroed) only when they did not exist; an object that has them is untouched |
| FieldStore.MarkForClientUpdate | src/game/Object/Object.cpp:519-529 | only an in-world object that is not yet queued is queued and flagged; values, changed bits and every other queued object are unaffected; the bookkeeping invariant (queued exactly when flagged, only in-world objects queued) is preserved |
| FieldStore.MarkIdempotent | src/game/Object/Object.cpp:519-529 | marking twice has the same effect as marking once |
| FieldStore.ClearUpdateMask | src/game/Object/Object.cpp:42-56 | afterwards no changed bit and no updated flag remain, values and in-world flag are kept, and the object leaves its map's update list only when `remove` is set and it was queued; with `remove` the bookkeeping invariant is preserved |
| FieldStore.AddToWorld | src/game/Object/Object.h:124-131 | an object already in the world is unchanged; otherwise it enters the world with its values kept and no pending change; the invariant is preserved |
| FieldStore.RemoveFromWorld | src/game/Object/Object.h:132-137 | the object leaves the world and its map's update list, with no pending change and its values kept |
| FieldStore.AddToWorldIdempotent | src/game/Object/Object.h:124-131 | adding to the world twice is adding once |
| FieldStore.RemoveFromWorldIdempotent | src/game/Object/Object.h:132-137 | removing from the world twice is removing once |
| FieldStore.Store | src/game/Object/Object.cpp:402-413 | the common write step: slot `index` takes the value, its changed bit is set, the object is marked for a client update (marking again changes nothing), nothing else in the arrays changes, and the invariant is preserved |
| FieldStore.GetInt32Value | src/game/Object/Object.h:158-162 | the signed reading of a slot lies in the `int32` range |
| FieldStore.SetUInt32Value | src/game/Object/Object.cpp:402-413 | the slot reads back the value; writing the value already there changes nothing; otherwise the slot's changed bit is set and the object is marked; all other slots and bits are kept; the invariant is preserved |
| FieldStore.SetUInt32Idempotent | src/game/Object/Object.cpp:402-413 | setting the same value twice is setting it once |
| FieldStore.SetInt32Value | src/game/Object/Object.cpp:390-401 | the signed reading of the slot is the value written; writing the current value changes nothing; otherwise the slot's changed bit is set and the object is marked for a client update; identity, in-world flag and all other slots and bits are kept |
| FieldStore.SetStatInt32Value | src/game/Object/Object.cpp:485-491 | a negative value is stored as 0, any other value as itself; storing what the slot holds changes nothing, otherwise the slot's changed bit is set and the object is marked for a client update; other slots are kept |
| FieldStore.GetUInt64Value | src/game/Object/Object.h:168-172 | a slot pair reads as a value below 2^64 |
| FieldStore.SetUInt64Value | src/game/Object/Object.cpp:414-426 | the pair reads back the 64-bit value; an equal value changes nothing; a different one sets both changed bits, even when one half was already equal, and marks the object for a client update; other slots are kept |
| FieldStore.GuardsAdmitOffsetPastLastLane | src/game/Object/Object.cpp:443-447 | the byte-lane guard as written lets offset 4 through, and the 16-bit guard lets offset 2 through, although neither names a lane |
| FieldStore.SetByteValue | src/game/Object/Object.cpp:439-457 | with the guard corrected, an offset of 4 or more changes nothing; otherwise the named byte lane reads back the byte, the other three lanes and all other slots are kept, and only when the lane held another byte is the slot's changed bit set and the object marked for a client update |
| FieldStore.SetUInt16Value | src/game/Object/Object.cpp:458-476 | with the guard corrected, an offset of 2 or more changes nothing; otherwise the named half reads back the value, the other half and all other slots are kept, an equal value changes nothing, and a different one sets the slot's changed bit and marks the object for a client update |
| FieldStore.HasFlagMeansSharedBit | src/game/Object/Object.h:200-204 | `HasFlag` holds exactly when the slot and the mask have a set bit in common |
| FieldStore.SetFlag | src/game/Object/Object.cpp:492-505 | each bit of the slot afterwards is its old bit OR the mask's bit; when nothing changes the object is untouched, otherwise the slot's changed bit is set and the object is marked for a client update; other slots are kept |
| FieldStore.RemoveFlag | src/game/Object/Object.cpp:506-518 | each bit of the slot afterwards is its old bit AND NOT the mask's bit; when nothing changes the object is untouched, otherwise the slot's changed bit is set and the object is marked for a client update; other slots are kept |
| FieldStore.FlagSlotValues | src/game/Object/Object.cpp:492-518 | as whole words, `SetFlag` leaves `v \| flag` and `RemoveFlag` leaves `v & ~flag` in the slot |
| FieldStore.ToggleFlag | src/game/Object/Object.h:193-199 | toggling keeps the slot count and the bookkeeping invariant |
| FieldStore.HasOneBitFlag | src/game/Object/Object.h:200-204 | for the mask `1 << k`, `HasFlag` reads exactly bit `k` of the slot |
| FieldStore.ToggleTwiceRestores | src/game/Object/Object.h:193-204 | toggling a one-bit flag flips `HasFlag`, and toggling it twice restores the slot values |
| FieldStore.ParseSlot | src/game/Object/Object.cpp:118 | a token is accepted exactly when `std::stoul` reads it without throwing, and the slot takes the value read truncated to 32 bits |
| FieldStore.ParseSlotDecimal | src/game/Object/Object.cpp:118 | the decimal text of any 32-bit value is read back as that value |
| FieldStore.ParseSlotThrows | src/game/Object/Object.cpp:118 | a token without digits, and a number past the `unsigned long` range, are refused |
| FieldStore.StoreTokens | src/game/Object/Object.cpp:115-120 | the slot loop keeps the slot count and completes exactly when every token is read |
| FieldStore.StoreTokensAt | src/game/Object/Object.cpp:115-120 | slot `i` takes token `i`'s value when that token and all before it were read, and keeps its old value when the loop threw earlier or at it |
| FieldStore.LoadValues | src/game/Object/Object.cpp:105-122 | the arrays are allocated if missing; the load is refused exactly when the number of space-separated tokens differs from the slot count, and then the object is otherwise untouched; with the right count it completes exactly when every token is read, and a throw leaves the slots before the bad token written; changed bits and the queue flag are never touched |
| FieldStore.LoadValuesSlot | src/game/Object/Object.cpp:105-122 | after a load with the right count, each slot holds its token's value when the loop got past it, and its old value otherwise |
| FieldStore.LoadValuesRoundTrip | src/game/Object/Object.cpp:105-122 | slot values written out in decimal and joined with spaces load back as exactly those values |
| Packet.GuidStreamRoundTrip | src/game/Object/ObjectGuid.cpp:56-66 | a GUID streamed as one raw 64-bit value is read back unchanged from the start of the buffer, whatever follows it |
| Opcodes.AllOpcodes | src/game/Server/Opcodes.h:14-46 | the protocol's opcodes are exactly 0 up to one below `SMG_END`, each at its own number |
| Opcodes.StoreOpcode | src/game/Server/Opcodes.h:88-95 | the entry for the opcode gets every field given (creating it if absent); the other entries are kept and no other opcode is added |
| Opcodes.LookupOpcode | src/game/Server/Opcodes.h:98-104 | nothing exactly for an opcode never stored, otherwise its stored entry |
| Opcodes.Handle | src/game/Server/Opcodes.h:108-114 | the stored entry when `LookupOpcode` finds one, the empty handler otherwise |
| Opcodes.LookupOpcodeName | src/game/Server/Opcodes.h:124-130 | the stored name, or the fixed unknown-opcode text for an opcode never stored |
| Opcodes.StoreThenLookup | src/game/Server/Opcodes.h:88-114 | looking up a just-stored opcode gives what was stored, and every other opcode answers as before |
| Opcodes.BuildOpcodeList | src/game/Server/Opcodes.cpp:50-71 | the table holds exactly the sixteen opcodes the list registers |
| Opcodes.SessionOpcodeStatuses | src/game/Server/Opcodes.cpp:55-64 | character create, enum and delete need an authed session and run in the world update; logout, logout request and cancel need a logged-in player; login runs on receipt; entering the world is thread-safe |
| Opcodes.MovementOpcodeStatuses | src/game/Server/Opcodes.cpp:66-68 | the three movement opcodes need a logged-in player and run in the map update |
| Opcodes.SocketAndServerOpcodes | src/game/Server/Opcodes.cpp:52-63 | auth session, ping and keep-alive are never accepted as session packets, and every unregistered opcode below `NUM_MSG_TYPES` resolves to the empty handler |
| Sparse.Select | src/game/Object/Object.cpp:613-628 | the entries are exactly the kept slots below the bound, each with its value, in ascending slot order |
| Sparse.SelectAscending | src/game/Object/Object.cpp:618-626 | the slot walk lists each slot at most once and in strictly ascending order |
| Sparse.SelectComplete | src/game/Object/Object.cpp:618-626 | no kept slot is skipped: every kept slot below the bound appears with its value |
| Sparse.Apply | src/game/Object/Object.cpp:613-628 | applying entries changes only the slots they name and leaves the length alone |
| Sparse.ApplySelectAt | src/game/Object/Object.cpp:613-628 | after applying a selection, slot `k` holds the new value when kept and the old one otherwise |
| Sparse.ApplySelectRebuilds | src/game/Object/Object.cpp:613-628 | a holder that already agrees on every unkept slot obtains exactly the new values |
| Ordering.HeadBelowTail | src/game/Object/UpdateData.cpp:44-45 | in an ascending set, the first element is below every later one |
| Ordering.Insert | src/game/Object/UpdateData.cpp:19-22 | set insertion keeps the set strictly ascending, adds exactly the new element and loses none |
| Ordering.InsertPresent | src/game/Object/UpdateData.cpp:19-22 | inserting an element already present leaves the set unchanged |
| Ordering.InsertAll | src/game/Object/UpdateData.cpp:14-17 | range insertion keeps the set ascending and its members are those of either set |
| UpdateCodec.NonZero | src/game/Object/Object.cpp:620 | the keep mask of a create block is set exactly on the non-zero slots |
| UpdateCodec.CreateRoundTrip | src/game/Object/Object.cpp:613-628 | a client starting from all-zero slots rebuilds every slot of the object from the non-zero pairs |
| UpdateCodec.ChangedRoundTrip | src/game/Object/Player.cpp:162-172 | a client that agrees on every unchanged slot is brought fully up to date by the changed pairs |
| UpdateCodec.PairItemsSnoc | src/game/Object/Object.cpp:623-624 | appending one more `index, value` pair extends the written items by exactly those two items |
| UpdateCodec.PairBytes | src/game/Object/Object.cpp:623-624 | one pair is written as a 2-byte little-endian index followed by a 4-byte little-endian value |
| UpdateCodec.PairBytesOf | src/game/Object/Object.cpp:623-624 | the byte image of the pairs is six bytes per pair |
| UpdateCodec.PairItemsBytes | src/game/Object/Object.cpp:623-624 | the items written for the pairs serialize to exactly their six-byte image |
| UpdateCodec.ReadPairsInverse | src/game/Object/Object.cpp:623-624 | reading six-byte pairs back recovers exactly the pairs written |
| UpdateCodec.PairsRoundTrip | src/game/Object/Object.cpp:622-627 | the pairs take six bytes each and read back unchanged |
| UpdateCodec.PairsReadBack | src/game/Object/Object.cpp:613-628 | pairs appended after any prefix occupy six bytes each past its end and read back from there unchanged |
| UpdateCodec.AppendPairs | src/game/Object/Player.cpp:161-172 | the 16-bit slot walk appends one pair per kept slot in slot order, counts six bytes per pair, and the final resize leaves the buffer exactly as written |
| UpdateCodec.CreateUpdateCountAndSize | src/game/Object/Object.cpp:613-628 | appends one pair for every non-zero slot after the existing contents, grows the buffer by six bytes per pair, and a client reads those pairs back from where the buffer used to end |
| UpdateCodec.CreateHeader | src/game/Object/Object.cpp:596-607 | the header carries the create type, flags, type id and name, and the four position floats only when the flags are not the self flag |
| UpdateCodec.BuildCreateUpdateBlockForPlayer | src/game/Object/Object.cpp:566-612 | nothing is built without a target; otherwise a create packet whose header uses the self flag for the object itself and the object's own flags otherwise, followed by every non-zero slot |
| UpdateCodec.CreateBlockLayout | src/game/Object/Object.cpp:575-612 | under the self flag the slot pairs follow the name directly; under any other flag the position sits between name and pairs |
| UpdateCodec.CreateBlockReadsBack | src/game/Object/Object.cpp:566-628 | a client reads the object's non-zero slots back from where the create header ends |
| UpdateCodec.AddOutOfRangeGUIDs | src/game/Object/UpdateData.cpp:14-17 | the out-of-range set stays ordered and becomes the union of the old set and the added GUIDs; blocks and count are untouched |
| UpdateCodec.AddOutOfRangeGUID | src/game/Object/UpdateData.cpp:19-22 | the out-of-range set stays ordered and gains exactly the GUID; adding one already present changes nothing |
| UpdateCodec.AddUpdateBlock | src/game/Object/UpdateData.cpp:24-28 | the block is appended to the queued bytes and the 32-bit block count goes up by one, wrapping |
| UpdateCodec.AddUpdateBlocksAccumulate | src/game/Object/UpdateData.cpp:24-28 | blocks queued one after another are kept in order and counted (modulo 2^32), and the out-of-range set is untouched |
| UpdateCodec.Clear | src/game/Object/UpdateData.cpp:56-60 | the accumulator is left with no blocks, no out-of-range GUIDs and no bytes |
| UpdateCodec.PackedGuids | src/game/Object/UpdateData.cpp:44-45 | each out-of-range GUID, in set order, is written once in packed form |
| UpdateCodec.UpdateItems | src/game/Object/UpdateData.cpp:34-50 | after the existing contents: the block count (plus one when there are out-of-range GUIDs), the transport byte, then — only when the set is non-empty — the out-of-range type, the set size and the packed GUIDs in order, and last the queued blocks verbatim |
| UpdateCodec.BuildPacket | src/game/Object/UpdateData.cpp:30-54 | demands an empty packet, and yields the update opcode with the update items |
| UpdateCodec.UpdateItemsRead | src/game/Object/UpdateData.cpp:34-50 | a client reads the adjusted block count right where the old contents end, and the packet's bytes end with the queued blocks |
| UpdateCodec.BuildPacketReads | src/game/Object/UpdateData.cpp:30-54 | the built packet starts with the adjusted block count and ends with the queued blocks |
| UnitModel.DeathStateClassification | src/game/Object/Unit.h:143-144 | no death state is both alive and dead, and exactly the two transient states (just died, just alived) are neither |
| UnitModel.StatIndex | src/game/Object/Unit.cpp:74-99 | each of the four stats has its own entry of the four-entry stat array |
| UnitModel.NewUnit | src/game/Object/Unit.cpp:13-22 | a new unit is alive (and so not dead) with its regeneration timer at 0 |
| UnitModel.SetStat | src/game/Object/Unit.cpp:74-99 | the signed value lands, as its 32-bit pattern, in the chosen stat's entry; the other stats and the rest of the unit are kept |
| UnitModel.StatRoundTrip | src/game/Object/Unit.cpp:74-122 | a stat reads back the 32-bit pattern of what was set — the value itself when not negative — and the other stats read as before |
| UnitModel.KeepsTrans | src/game/Object/Object.cpp:402-413 | two field writes in a row change at most the union of the slots each changes |
| UnitModel.SetField | src/game/Object/Unit.cpp:31-37 | the field reads back the value, no other slot or dirty bit moves, and writing the value already there changes nothing |
| UnitModel.SetFieldReadBack | src/game/Object/Unit.cpp:31-37 | the field set reads back the value and every other written field reads as before |
| UnitModel.CreateObject | src/game/Object/Object.cpp:89-99 | the 64-bit GUID reads back from its slot pair and the type mask from its slot; a fresh object has every other slot zero, an existing one keeps them |
| UnitModel.SetClass | src/game/Object/Unit.h:103-104 | the class reads back from lane 0 of bytes-0, lanes 1 to 3 are kept, and no other slot moves |
| UnitModel.ClassMask | src/game/Object/Unit.h:105 | for a class from 1 to 32 the mask has exactly the one bit numbered class - 1 |
| UnitModel.SetGender | src/game/Object/Unit.h:106-107 | the gender reads back through `getGender`, the other 16-bit half of player-bytes-3 is kept, and no other slot moves |
| UnitModel.ByteOfSmall | src/game/Object/Unit.h:107 | a value that already fits a byte is unchanged by the byte truncation |
| UnitModel.SetHealth | src/game/Object/Unit.cpp:38-45 | the stored health is the value capped at the maximum, the maximum is kept, and only the health slot moves |
| UnitModel.SetMaxHealth | src/game/Object/Unit.cpp:123-130 | the maximum reads back the value, the health becomes the smaller of the old health and the value, and only those two slots move |
| UnitModel.Clamp | src/game/Object/Unit.cpp:207-231 | the result lies in the range, and a value already in range is kept |
| UnitModel.ModifyHealth | src/game/Object/Unit.cpp:207-231 | a zero delta changes nothing and returns 0; otherwise only the health moves, it stays at most the maximum, and the returned gain fits an `int32` |
| UnitModel.ModifyHealthClamps | src/game/Object/Unit.cpp:207-231 | without `int32` overflow the new health is the old plus the delta clamped to 0..maximum, and the returned gain is exactly the change |
| UnitModel.StoredAsStat | src/game/Object/Object.cpp:485-491 | an unsigned value below 2^31 is stored as is, and one from 2^31 up, negative as an `int32`, is stored as 0 |
| UnitModel.SetPower | src/game/Object/Unit.cpp:165-185 | nothing changes for the health power or when the value is already there; otherwise energy or mana becomes the value capped at its maximum, written through the negative-clamping writer, and the maximum is kept |
| UnitModel.SetPowerCaps | src/game/Object/Unit.cpp:165-185 | for energy or mana within an `int32`-sized maximum, the pool ends at the value capped at the maximum, whatever it held |
| UnitModel.SetMaxPower | src/game/Object/Unit.cpp:50-68 | the health power is left alone; energy or mana gets the new maximum through the negative-clamping writer and its current value lowered to it when above |
| UnitModel.ModifyPower | src/game/Object/Unit.cpp:249-273 | a zero delta changes nothing; the health power never changes; only the pool's slot moves and the returned gain fits an `int32` |
| UnitModel.ModifyPowerClamps | src/game/Object/Unit.cpp:249-273 | without `int32` overflow the new pool is the old plus the delta clamped to 0..maximum, and the returned gain is exactly the change |
| UnitModel.GetCreatePowers | src/game/Object/Unit.cpp:154-164 | the create energy for energy, 0 for health and mana |
| UnitModel.ResetPool | src/game/Object/Unit.cpp:139-151 | a switch to mana leaves its maximum and current value at 0; a switch to health changes nothing |
| UnitModel.SetPowerType | src/game/Object/Unit.cpp:131-153 | the power code reads back from lane 3 of bytes-0 with lanes 0 to 2 kept; for a player switching to mana the mana maximum and value become 0, and otherwise nothing else moves |
| ObjectMgr.GetPlayerClassInfo | src/game/Object/ObjectMgr.h:33-37 | nothing exactly for a class number at or above the class count, otherwise that class's level table |
| ObjectMgr.GetPlayerInfo | src/game/Object/ObjectMgr.h:40-46 | found exactly when the class is in range and both display ids are loaded (non-zero), and then it is that class's entry |
| ObjectMgr.GetPlayerClassLevelInfo | src/game/Object/ObjectMgr.cpp:358-369 | the caller's entry is left as it was for level 0 or a class out of range; otherwise the entry for the level, a level above the maximum reading the maximum level's entry |
| ObjectMgr.GetXPForLevel | src/game/Object/ObjectMgr.cpp:462-467 | for a level other than 0, the table's experience for that level |
| ObjectMgr.XPForLevelZeroIsOne | src/game/Object/ObjectMgr.cpp:464-466 | level 0 reads the same experience as level 1 |
| ObjectMgr.GeneratePlayerLowGuid | src/game/Object/ObjectMgr.h:69 | hands out the player counter's current value and advances only that counter, by one while it is below the limit |
| ObjectMgr.CheckPlayerNameOutcome | src/game/Object/ObjectMgr.cpp:469-491 | success exactly for ASCII-letter names of the configured minimum up to 15 characters; invalid character exactly when a non-letter occurs; too long exactly for letter names over 15; too short exactly for letter names up to 15 but under the minimum |
| ObjectMgr.IsValidCharterName | src/game/Object/ObjectMgr.cpp:493-509 | accepted only when the name decodes, and rejected when it does not decode or its decoded length is over 24 or under the configured minimum |
| ObjectMgr.CharterNameOutcome | src/game/Object/ObjectMgr.cpp:493-509 | for a name of letters, valid exactly when its length is between the configured minimum and 24 |
| ObjectMgr.StoreCreateRow | src/game/Object/ObjectMgr.cpp:158-170 | the row's class gets its map and position and both display ids set non-zero (so it counts as loaded); no other class changes |
| ObjectMgr.CreateRowsLoaded | src/game/Object/ObjectMgr.cpp:143-174 | after loading, every class that had a create row has both display ids set, and a class without one keeps its entry |
| ObjectMgr.StoreClassLevelRow | src/game/Object/ObjectMgr.cpp:266-300 | a row with its class out of range, level 0 or a level above the maximum changes nothing; an accepted row allocates its class's table if missing and sets exactly the entry at its level to its 16-bit-truncated values |
| ObjectMgr.LoadClassLevelRows | src/game/Object/ObjectMgr.cpp:250-304 | the tables keep their shape, each present table holding one entry per level |
| ObjectMgr.LastRowFor | src/game/Object/ObjectMgr.cpp:255-301 | a found row is one of the rows, accepted, for the class and level asked |
| ObjectMgr.ClassLevelRowsLoaded | src/game/Object/ObjectMgr.cpp:250-304 | after loading, each class and level holds the truncated values of the last accepted row for it, and its starting entry when there was none |
| ObjectMgr.NearestFilled | src/game/Object/ObjectMgr.cpp:320-326 | the nearest level at or below `k` that has base health: it has health and every level strictly between it and `k` has none |
| ObjectMgr.FillLevelGaps | src/game/Object/ObjectMgr.cpp:320-326 | every level takes the entry of the nearest level at or below it with base health, so every level ends with base health |
| ObjectMgr.FillClassLevelGaps | src/game/Object/ObjectMgr.cpp:306-328 | fails exactly when some class from 1 up has no table or no level-1 health; otherwise class 0 is untouched and every other class's table is gap-filled from the nearest filled level below |
| ObjectMgr.FilledLevelsHaveHealth | src/game/Object/ObjectMgr.cpp:358-369 | once the gaps are filled, every class from 1 reads an entry with base health for every level from 1, however far above the maximum |
| PlayerModel.MoneyAfterAsWrittenBelowCap | src/game/Object/Player.h:151-157 | for a purse and a delta both within the cap, the code as written adds and caps at `MAX_MONEY_AMOUNT` |
| PlayerModel.MoneyAfterAsWrittenExceedsCap | src/game/Object/Player.h:156 | as written, an empty purse given 0xFFFFFFFF ends at 0xFFFFFFFF, above `MAX_MONEY_AMOUNT`, because `MAX_MONEY_AMOUNT - d` wraps |
| PlayerModel.MoneyAfter | src/game/Object/Player.h:151-157 | the intended balance for a signed delta: from a purse within the cap, the sum clamped to 0..`MAX_MONEY_AMOUNT`; a credit never ends above the cap |
| PlayerModel.MoneyAfterAgreesBelowCap | src/game/Object/Player.h:151-157 | for deltas up to the cap the written and the intended balance agree |
| PlayerModel.ModifyMoney | src/game/Object/Player.h:147-157 | corrected (see Findings); the as-written balance is `MoneyAfterAsWritten`: only the money slot moves; from a purse within the cap it becomes the sum clamped to 0..`MAX_MONEY_AMOUNT`; a zero delta changes nothing |
| PlayerModel.AddToList | src/game/Object/Player.cpp:114-120 | the list gains the GUID's key; a GUID already listed keeps its old handle, a new one maps to the added player, and every other entry is kept |
| PlayerModel.RemoveFromList | src/game/Object/Player.cpp:121-137 | the GUID is no longer listed, every other key stays exactly as listed, with its handle |
| PlayerModel.LogoutList | src/game/Object/Player.cpp:40-48 | no GUID is listed afterwards |
| PlayerModel.ListMembership | src/game/Object/Player.cpp:74-137 | a player added while in the world under its own GUID is found by `isInList`; a removed GUID is not; adding one GUID does not change whether another is found |
| PlayerModel.OtherRecipients | src/game/Object/Player.cpp:138-152 | the recipients are exactly the sessions of listed players that are in the world |
| PlayerModel.AddToListAndIntroduce | src/game/Object/Player.cpp:114-120 | the list is updated as by `addToList` and the added player receives this player's create block, header then every non-zero slot |
| PlayerModel.UpdateObject | src/game/Object/Player.cpp:153-177 | the packet is the values type, the type id, the low GUID and a pair for every dirty slot in slot order; it goes to the in-world listed players; afterwards every dirty bit is clear and the values are unchanged |
| PlayerModel.UpdateObjectReadsBack | src/game/Object/Player.cpp:153-177 | a receiver reads the low GUID at byte 2 and the dirty pairs from byte 6, and a receiver that agreed on every clean slot ends with the object's values |
| PlayerModel.HeaderBytes | src/game/Object/Player.cpp:155-158 | the values header takes six bytes, the GUID starting at byte 2 |
| PlayerModel.RegenerateHealth | src/game/Object/Player.cpp:266-283 | nothing at or above the maximum; otherwise only health moves and stays at most the maximum |
| PlayerModel.RegenerateEnergy | src/game/Object/Player.cpp:241-265 | only the energy moves, its maximum is kept, and energy within an `int32`-sized maximum stays within it |
| PlayerModel.RegenerateAll | src/game/Object/Player.cpp:284-300 | nothing while the timer runs; once it has run out, only health and energy move and the timer restarts at the full period |
| PlayerModel.TickTimer | src/game/Object/Player.cpp:229-235 | the timer never grows; it reaches 0 exactly when the elapsed time covers it, and otherwise drops by the elapsed time |
| PlayerModel.Update | src/game/Object/Player.cpp:211-240 | a player out of the world is left exactly as it was |
| PlayerModel.UpdateRegenerates | src/game/Object/Player.cpp:211-240 | in the world, a living player whose timer runs out regenerates and restarts the timer; otherwise only the timer moves; health and energy stay within their maxima either way |
| PlayerLifecycle.NewPlayer | src/game/Object/Player.cpp:18-39 | a new player has room for the player slot count but no slots allocated yet, is alive with its timer at 0, and has an empty nearby list |
| PlayerLifecycle.FlagBits | src/game/Object/Unit.h:39-58 | each unit and player flag the level reset touches is the single bit its enumerator names |
| PlayerLifecycle.PvpNotReset | src/game/Object/Player.cpp:375-381 | the player-attackable flag is bit 2 alone, and bit 2 is not among the unit flags the reset clears |
| PlayerLifecycle.FlagsAfterReset | src/game/Object/Player.cpp:375-382 | after the reset a unit has the player-attackable flag and none of the cleared unit flags, every other unit bit is as before; the player flags lose exactly the cleared ones |
| PlayerLifecycle.ResetFlags | src/game/Object/Player.cpp:375-382 | the unit flags lose the cleared mask and gain the set mask, the player flags lose their cleared mask, and no other slot moves |
| PlayerLifecycle.SetBaseValues | src/game/Object/Player.cpp:320-340 | the next-level experience, create health and create energy take the given values and no other slot moves |
| PlayerLifecycle.ResetMaxPower | src/game/Object/Player.cpp:384-385 | a power's maximum becomes its create value as stored by the negative-clamping writer, and its current value is lowered to it when above |
| PlayerLifecycle.ResetMaxPowers | src/game/Object/Player.cpp:384-385 | the energy maximum becomes the create energy and the mana maximum and mana become 0; energy is lowered to its new maximum when above |
| PlayerLifecycle.FillHealth | src/game/Object/Player.cpp:386-388 | the maximum health and the health both become the given maximum |
| PlayerLifecycle.FillEnergy | src/game/Object/Player.cpp:389 | energy is filled to its maximum when that fits an `int32` |
| PlayerLifecycle.FillHealthAndEnergy | src/game/Object/Player.cpp:386-389 | maximum health and health become the given maximum and energy becomes its maximum; nothing else moves |
| PlayerLifecycle.SetLevelPools | src/game/Object/Player.cpp:384-389 | the energy maximum and energy become the entry's base energy, mana and its maximum 0, and maximum health and health the entry's base health |
| PlayerLifecycle.LevelValuesUpdates | src/game/Object/Player.cpp:316-390 | the level reset is exactly the sequence of slot writes of `InitStatsForLevel`, in its order |
| PlayerLifecycle.LevelValuesPools | src/game/Object/Player.cpp:337-389 | after the level reset, health is full at the entry's base health, energy full at its base energy, and mana empty |
| PlayerLifecycle.LevelValuesKeep | src/game/Object/Player.cpp:316-390 | the level reset leaves every field it does not write unchanged |
| PlayerLifecycle.LevelValuesKeepSlot | src/game/Object/Player.cpp:316-390 | any slot outside the level fields keeps its value through the reset |
| PlayerLifecycle.LevelValuesKeepCreated | src/game/Object/Player.cpp:524-543 | the class, gender and appearance `Create` writes before the reset survive it |
| PlayerLifecycle.ApplyLevel | src/game/Object/Player.cpp:324-389 | the host's slots become exactly the level reset of what they held |
| PlayerLifecycle.InitStatsForLevel | src/game/Object/Player.cpp:316-390 | the stats become zero and the slots become the level reset for the table entry and experience of the unit's own class and level |
| PlayerLifecycle.LevelValuesFlags | src/game/Object/Player.cpp:375-382 | the level reset leaves both flag words in their reset form |
| PlayerLifecycle.LevelValuesKeepLoaded | src/game/Object/Player.cpp:441-450 | the level reset keeps the level, experience, money and appearance `LoadFromDB` wrote before it |
| PlayerLifecycle.LevelValuesNextXp | src/game/Object/Player.cpp:324 | the level reset stores the next level's experience |
| PlayerLifecycle.SetLane | src/game/Object/Object.cpp:439-457 | byte lane `k` of the field becomes the byte and the other three lanes stay; no other slot moves |
| PlayerLifecycle.SetTwoLanes | src/game/Object/Object.cpp:439-457 | two byte lanes set in turn: the field's lanes are the old ones with both replaced |
| PlayerLifecycle.SetPlayerBytes | src/game/Object/Player.cpp:528-533 | player-bytes lanes 0 to 3 become skin, hair, hair colour and jaw |
| PlayerLifecycle.SetPlayerBytes2 | src/game/Object/Player.cpp:534-536 | player-bytes-2 lanes 0 to 2 become skin, nose and eyes, lane 3 is kept |
| PlayerLifecycle.SetAppearance | src/game/Object/Player.cpp:528-536 | both appearance fields read the chosen looks and no other slot moves |
| PlayerLifecycle.WriteClass | src/game/Object/Player.cpp:524 | the class reads back and lanes 1 to 3 of bytes-0 are kept |
| PlayerLifecycle.WriteGender | src/game/Object/Player.cpp:525 | the gender reads back and only player-bytes-3 moves |
| PlayerLifecycle.WriteEnergyType | src/game/Object/Player.cpp:526 | lane 3 of bytes-0 holds the energy code, lanes 0 to 2 are kept |
| PlayerLifecycle.SetIdentity | src/game/Object/Player.cpp:524-526 | class and gender read back, lane 3 of bytes-0 holds the energy code, lanes 1 and 2 are kept, and only bytes-0 and player-bytes-3 move |
| PlayerLifecycle.RestoreHealth | src/game/Object/Player.cpp:479-480 | health becomes the saved value capped at the maximum; no other slot moves |
| PlayerLifecycle.RestorePower | src/game/Object/Player.cpp:481-485 | a power becomes its saved value capped at its maximum (when that fits an `int32`); no other slot moves |
| PlayerLifecycle.RestorePools | src/game/Object/Player.cpp:479-485 | health, energy and mana each become the saved value capped at their maximum, and nothing else moves |
| PlayerLifecycle.WriteField | src/game/Object/Player.cpp:537-538 | the field's slot takes the value and no other slot moves |
| PlayerLifecycle.RefillToCreateValues | src/game/Object/Player.cpp:546-552 | maximum health and health become the create health, the energy maximum and energy the create energy; on an object already at those values nothing changes |
| PlayerLifecycle.Create | src/game/Object/Player.cpp:498-554 | refused exactly when the class has no create information or the gender is not 0 or 1, and then only `_Create` and the name have happened; stops the server in `SetMap` (Object.cpp:362-368) exactly when the class's start map is unknown to the store or instanced; otherwise the player holds the start map's key, filed with the manager, and the slots are the level-1 reset over the created fields with the chosen class, gender, energy power type and looks |
| PlayerLifecycle.CreateFieldsStep | src/game/Object/Player.cpp:524-538 | class, gender, energy power type and looks read back, the level is 1, and the slots are exactly the created fields |
| PlayerLifecycle.CreatedFieldsUpdates | src/game/Object/Player.cpp:524-538 | the fields `Create` writes before the reset are exactly its writes, in order |
| PlayerLifecycle.CreatedFieldsKeep | src/game/Object/Player.cpp:524-538 | a field `Create` does not write before the reset keeps its value |
| PlayerLifecycle.CreatedFieldsReadBack | src/game/Object/Player.cpp:537-538 | a new character has level 1 and no money, and its flag words are as before |
| PlayerLifecycle.CreatedValuesReadBack | src/game/Object/Player.cpp:498-554 | a created character is level 1 with no money, the level-1 next experience, full health and energy at its class's level-1 values, no mana, and both flag words reset |
| PlayerLifecycle.StatRoundTrip | src/game/Object/Player.cpp:662-665 | a stat written from an unsigned column reads back as exactly that column |
| PlayerLifecycle.Column | src/game/Server/PacketHandler/CharacterHandler.cpp:38-39 | `fields[i]` of a stats row is one of the eleven columns the login query selects, in its order, exactly for `i` below 11 |
| PlayerLifecycle.StatsFrom | src/game/Object/Player.cpp:662-665 | the four stats read from `fields[first]` on are, stat by stat, the columns `first` to `first + 3` |
| PlayerLifecycle.StatsOfColumns | src/game/Server/PacketHandler/CharacterHandler.cpp:38-39 | the intended stats (each from the column bearing its name) are the four columns from `fields[0]` on |
| PlayerLifecycle.StatsShiftedAsWritten | src/game/Object/Player.cpp:662-672 | read from `fields[1]` on, STR gets stamina, STA intellect, INT health and HEA the block percentage, which differs from the row's own stats whenever strength and stamina differ; `fields[11]` names no column |
| PlayerLifecycle.ReadStats | src/game/Object/Player.cpp:654-676 | the stats loop: with no rows the stats stay; otherwise they are the last row's columns from `first` on, since each row overwrites them; nothing else in the unit moves |
| PlayerLifecycle.LoadStatsAsWritten | src/game/Object/Player.cpp:654-676 | as written, the stats become the last row's stamina, intellect, health and block percentage columns (no rows: unchanged) |
| PlayerLifecycle.LoadStats | src/game/Object/Player.cpp:654-676 | corrected (see Findings): with no rows the stats stay; otherwise each stat is the last row's column of its own name, since each row overwrites them |
| PlayerLifecycle.LoadedMoney | src/game/Object/Player.cpp:444-447 | the loaded money never exceeds `MAX_MONEY_AMOUNT` nor the saved amount, and a saved amount within the cap is kept |
| PlayerLifecycle.LoadSavedWords | src/game/Object/Player.cpp:441-450 | level (as a byte), experience, capped money, both appearance words and the player flags take the row's values; class and gender slots stay |
| PlayerLifecycle.WriteClassAndGender | src/game/Object/Player.cpp:435-437 | class and gender read back, and only their two slots move |
| PlayerLifecycle.LoadedFieldsUpdates | src/game/Object/Player.cpp:435-450 | the fields `LoadFromDB` writes before the reset are exactly its writes, in order |
| PlayerLifecycle.LoadFieldsStep | src/game/Object/Player.cpp:435-450 | class reads the row's class as a byte, gender its low bit, level the row's level as a byte, and the slots are exactly the loaded fields |
| PlayerLifecycle.LoadedFieldsReadBack | src/game/Object/Player.cpp:441-450 | the loaded fields read back as the row's level (as a byte), experience, capped money, appearance and player flags |
| PlayerLifecycle.LoadAndReset | src/game/Object/Player.cpp:435-468 | the slots are the level reset over the loaded fields, the maxima are the class's level values (mana 0), and the stats are zero |
| PlayerLifecycle.RestoreAfterReset | src/game/Object/Player.cpp:479-485 | right after the reset, health and energy become their saved values capped at the create values and mana 0; class and gender are kept |
| PlayerLifecycle.LoadedValuesUpdates | src/game/Object/Player.cpp:435-485 | what `LoadFromDB` leaves is the level reset over the loaded fields followed by the three capped pool writes |
| PlayerLifecycle.LoadSteps | src/game/Object/Player.cpp:435-485 | stops (the `SetMap` assertion at line 471) exactly when no map was given; otherwise the slots are the loaded values, class and gender come from the row, and the stats are the last stats row's own-name columns through the corrected `LoadStats` (zero when none) |
| PlayerLifecycle.LoadFromDB | src/game/Object/Player.cpp:391-497 | refused exactly when there is no row or it belongs to another account, leaving the player untouched; stops the server in `SetMap` exactly when the saved map id is unknown to the store or instanced; otherwise the player holds the saved map's key, filed with the manager, its name is the row's, the slots are the loaded values and the stats the last stats row's own-name columns (corrected `LoadStats`) |
| PlayerLifecycle.RestoreKeeps | src/game/Object/Player.cpp:479-485 | the three pool writes leave every other written field alone |
| PlayerLifecycle.RestoreKeepsSaved | src/game/Object/Player.cpp:479-485 | the pool writes keep level, experience, money, appearance and player flags |
| PlayerLifecycle.RestoreReadsPools | src/game/Object/Player.cpp:479-485 | the pool writes keep the maxima and the pools read back what was written |
| PlayerLifecycle.LoadedValuesSaved | src/game/Object/Player.cpp:391-497 | a loaded character holds the row's level as a byte, experience, capped money and appearance, and the saved player flags after the reset |
| PlayerLifecycle.LoadedValuesPools | src/game/Object/Player.cpp:468-485 | a loaded character's maxima are its class's level values (mana 0), health and energy are the saved values capped at them, and mana is empty |
| AuthCrypt.NewCrypt | src/Shared/Auth/AuthCrypt.cpp:5-8 | a new cipher is not initialised |
| AuthCrypt.Init | src/Shared/Auth/AuthCrypt.cpp:10-21 | the cipher is initialised with the first 40 bytes of the session key and both directions' index and previous byte at 0 |
| AuthCrypt.NextIndex | src/Shared/Auth/AuthCrypt.cpp:30-32 | the key index after a byte is the old index reduced modulo the key length, plus one: always between 1 and the key length |
| AuthCrypt.EncryptStep | src/Shared/Auth/AuthCrypt.cpp:45-48 | one enciphered byte advances the index and becomes the new previous byte |
| AuthCrypt.DecryptStep | src/Shared/Auth/AuthCrypt.cpp:30-34 | one deciphered byte advances the index and the received cipher byte becomes the new previous byte |
| AuthCrypt.AddSubCancel | src/Shared/Auth/AuthCrypt.cpp:31 | adding and then subtracting the previous byte in `uint8` arithmetic gives the byte back |
| AuthCrypt.XorTwice | src/Shared/Auth/AuthCrypt.cpp:31 | xoring with the same key byte twice gives the byte back |
| AuthCrypt.Cancel | src/Shared/Auth/AuthCrypt.cpp:31-46 | deciphering a byte with the key byte and previous byte it was enciphered with gives the plain byte |
| AuthCrypt.StepRoundTrip | src/Shared/Auth/AuthCrypt.cpp:23-50 | from the same index and previous byte, deciphering the enciphered byte yields the plain byte and the same next state |
| AuthCrypt.EncryptRun | src/Shared/Auth/AuthCrypt.cpp:43-49 | a run keeps the length; an empty run leaves the state; otherwise the last cipher byte is the new previous byte and the index lies within the key |
| AuthCrypt.DecryptRun | src/Shared/Auth/AuthCrypt.cpp:28-35 | a run keeps the length; an empty run leaves the state; otherwise the last received byte is the new previous byte and the index lies within the key |
| AuthCrypt.RunRoundTrip | src/Shared/Auth/AuthCrypt.cpp:23-50 | deciphering an enciphered run from the same state yields the plain run and the sender's final state |
| AuthCrypt.EncryptSend | src/Shared/Auth/AuthCrypt.cpp:38-50 | nothing changes before `Init` or for a header shorter than the send length; otherwise exactly the first `CRYPTED_SEND_LEN` bytes are enciphered, the rest kept, and only the send state advances |
| AuthCrypt.DecryptRecv | src/Shared/Auth/AuthCrypt.cpp:23-36 | nothing changes before `Init` or for a header shorter than the receive length; otherwise exactly the first `CRYPTED_RECV_LEN` bytes are deciphered, the rest kept, and only the receive state advances |
| AuthCrypt.SendThenReceive | src/Shared/Auth/AuthCrypt.cpp:23-50 | a receiver in step with the sender deciphers a sent header back to the plain header and ends in the sender's state |
| AuthCrypt.IndicesStayWithinKey | src/Shared/Auth/AuthCrypt.cpp:30-45 | the send and receive indices never exceed the key length |
| Workers.NewWorkers | src/Shared/Network/Listener.h:54-60 | one network worker per requested thread, each with no sockets |
| Workers.SelectWorker | src/Shared/Network/Listener.h:26-43 | the chosen worker has the fewest sockets, and every earlier worker strictly more |
| Workers.ChoiceUnique | src/Shared/Network/Listener.h:26-43 | at most one worker meets that choice, so the selection is determined by the loads |
| WorldLoop.NextSleep | src/worldServer/WorldRunnable.cpp:39-49 | the next sleep never exceeds the budget of `WORLD_SLEEP_CONST` plus the last sleep; when the tick fits it, sleep plus tick is exactly the budget, otherwise the sleep is 0 |
| WorldLoop.SleepBalances | src/worldServer/WorldRunnable.cpp:39-47 | without 32-bit wrap-around, the sleep tops the tick up to exactly `WORLD_SLEEP_CONST` plus the previous sleep |
| WorldLoop.Tick | src/worldServer/WorldRunnable.cpp:29-50 | each pass of the world loop increments the 32-bit loop counter and computes the next sleep |
| WorldLoop.RunCountsTicks | src/worldServer/WorldRunnable.cpp:29-52 | after any run of passes the loop counter has grown by their number, modulo 2^32 |
| Config.ParseLine | src/Shared/Config/Config.cpp:35-50 | a line is skipped exactly when it is blank or starts with `#` or `[` after leading spaces, malformed exactly when it is not skipped and has no `=`, and a parsed key has no upper-case letter |
| Config.ParsedKeyTrimmed | src/Shared/Config/Config.cpp:47 | a parsed key neither starts nor ends with whitespace |
| Config.ParseLineEntry | src/Shared/Config/Config.cpp:35-50 | a line `k=v`, where `k` has no `=` and is not blank, a comment or a section header, is the entry under the trimmed lower-cased `k` with the trimmed `v`, stripped of its surrounding quotes, as its value |
| Config.NoUpperFixed | src/Shared/Config/Config.cpp:47 | lower-casing leaves a string unchanged exactly when it has no upper-case letter |
| Config.TrimOfLowerIsLower | src/Shared/Config/Config.cpp:47 | a trimmed lower-cased key has no upper-case letter |
| Config.Reload | src/Shared/Config/Config.cpp:20-56 | an unreadable file fails and keeps the entries; a file loads exactly when none of its lines is malformed, and then the entries are those parsed from it; a failed load keeps the old entries |
| Config.ParseFailsIffBadLine | src/Shared/Config/Config.cpp:30-51 | parsing fails exactly when some line is malformed |
| Config.LastValueCons | src/Shared/Config/Config.cpp:50 | the value a key gets is that of its last line, an earlier line counting only when no later one names the key |
| Config.ParseLinesApply | src/Shared/Config/Config.cpp:30-51 | parsing the lines is folding their parsed results into the map |
| Config.ApplyLookup | src/Shared/Config/Config.cpp:30-51 | after a successful fold, a key holds the value of its last line, and a key no line names is as before |
| Config.ParseLinesLookup | src/Shared/Config/Config.cpp:30-51 | after a successful parse, a key holds the value of the last line naming it, and a key no line names is as before |
| Config.ParsedKeysLowerCase | src/Shared/Config/Config.cpp:47 | every key a successful parse stores is lower case |
| Config.GetStringDefault | src/Shared/Config/Config.cpp:64-71 | the value stored under the lower-cased name when it is set, otherwise the default |
| Config.LookupIgnoresCase | src/Shared/Config/Config.cpp:58-71 | two names that lower-case alike are set together and read the same value |
| Config.ReloadThenGet | src/Shared/Config/Config.cpp:20-71 | after a successful reload a name reads the value of the last line naming it in any case, and the default when none does |
| Config.GetBoolDefault | src/Shared/Config/Config.cpp:73-81 | an unset option reads the default; a set one is true exactly when its lower-cased value is `true`, `1` or `yes` |
| ObjectAccessor.Insert | src/game/Object/ObjectAccessor.h:30-34 | the player is stored under its GUID, replacing any earlier entry for it, and every other entry is kept |
| ObjectAccessor.Remove | src/game/Object/ObjectAccessor.h:36-40 | the player's GUID is no longer stored and every other entry is kept |
| ObjectAccessor.Find | src/game/Object/ObjectAccessor.h:42-47 | found exactly when the GUID is stored, and then it is the stored player |
| ObjectAccessor.InsertThenFind | src/game/Object/ObjectAccessor.h:30-47 | after inserting, the player is found under its GUID and every other GUID finds what it found before |
| ObjectAccessor.RemoveThenFind | src/game/Object/ObjectAccessor.h:30-47 | after removing, the GUID finds nothing and others are unaffected; removing what was just inserted restores the registry |
| ObjectAccessor.FindPlayer | src/game/Object/ObjectAccessor.cpp:44-54 | found exactly when the GUID is not empty, is registered, and the player is in the world or the caller does not require it |
| ObjectAccessor.FindPlayerInWorldIsStricter | src/game/Object/ObjectAccessor.cpp:44-54 | a player found when the world is required is also found, the same one, when it is not |
| ObjectAccessor.GetUnit | src/game/Object/ObjectAccessor.cpp:28-42 | nothing for the empty GUID or a GUID that is not a player's; a player GUID finds the registered in-world player |
| ObjectAccessor.FindPlayerByName | src/game/Object/ObjectAccessor.cpp:56-65 | finds nothing exactly when no registered in-world player has the name; a found player is in the world and has exactly the name |
| ObjectAccessor.KickTarget | src/game/Object/ObjectAccessor.cpp:76-84 | a session is kicked exactly when the GUID is not empty and registered, in the world or not, and it is that player's session |
| SetOrder.LeastExists | src/game/Map/Map.cpp:242-245 | every non-empty set of object handles has a least one, which is what `begin()` of a `std::set` yields |
| SetOrder.WalkStep | src/game/Map/Map.cpp:242-245 | taking the least handle still in the set extends an ascending walk that covers exactly the handles taken so far |
| SetOrder.PickLeast | src/game/Map/Map.cpp:244 | the handle returned is in the set and no larger than any other in it |
| SetOrder.InOrder | src/game/Map/Map.cpp:242-250 | draining a set from its front visits every element once, in strictly ascending order |
| MapEntries.KindsNest | src/game/Server/DBStorage/DBStorageStructure.h:20-24 | a dungeon is exactly a raid or a five-player dungeon, never both; an instanced map is exactly a dungeon or a battleground, and a battleground is never a dungeon |
| MapEntries.MountsInDungeons | src/game/Server/DBStorage/DBStorageStructure.h:25-29 | mounts are allowed everywhere outside dungeons, and inside one exactly on maps 209, 269, 309 and 509 |
| Maps.NewMap | src/game/Map/Map.cpp:15-20 | a new map carries the store's entry for its id (none when the store lacks it), no players, no unload countdown, the default visibility distance and empty update and remove sets |
| Maps.InitVisibilityDistance | src/game/Map/Map.cpp:21-25 | only the visibility distance changes, to the continent distance |
| Maps.CanUnload | src/game/Map/Map.h:27-34 | a map may unload exactly when its countdown is running and the elapsed time reaches it; otherwise a running countdown shrinks by the elapsed time |
| Maps.CountdownUnloads | src/game/Map/Map.h:27-34 | asked tick after tick, a map unloads exactly when the ticks add up to its countdown; until then the countdown is the original less their sum, and a map without a countdown never unloads |
| Maps.AddUpdateObject | src/game/Map/Map.h:61-64 | the object joins the set of objects waiting for a client update; nothing else changes |
| Maps.RemoveUpdateObject | src/game/Map/Map.h:66-69 | the object leaves the waiting set; nothing else changes |
| Maps.UpdateSetLaws | src/game/Map/Map.h:61-69 | queueing an object twice is queueing it once, and removing an object just queued restores the map |
| Maps.SendObjectUpdates | src/game/Map/Map.cpp:240-251 | every waiting object is updated exactly once, in ascending handle order, and the waiting set ends empty |
| Maps.RemoveAllObjectsInRemoveList | src/game/Map/Map.cpp:203-239 | the remove set is emptied and nothing else changes |
| Maps.NoEntryNoType | src/game/Map/Map.h:37-41 | a map the store has no entry for is neither instanced, a dungeon, a raid, a battleground nor a continent |
| Maps.NewMapStays | src/game/Map/Map.cpp:15-20 | a new map has no players and never asks to unload, whatever time passes |
| Maps.AddPlayer | src/game/Map/Map.cpp:173-197 | the player is linked at the end of the map's list and added to the world, the call answers true, and the player is sent a create block for itself |
| Maps.Unlink | src/game/Map/Map.cpp:120 | the list after unlinking holds exactly the other players |
| Maps.OthersSessions | src/game/Map/Map.cpp:96-103 | the sessions notified are exactly those of the players on the map other than the one leaving |
| Maps.AfterRemove | src/game/Map/Map.cpp:112-120 | the leaving player is no longer on the map, every other player still is, and the walk cursor is at the end |
| Maps.RemovePlayer | src/game/Map/Map.cpp:90-128 | the other players' sessions receive a destroy packet carrying the low 32 bits of the leaving player's GUID; the player leaves the world and the update set; when asked to remove, the player also leaves the object registry |
| Maps.NextVisited | src/game/Map/Map.cpp:29-30 | the player the map walk visits next is on the map |
| Maps.RemoveLosesWalk | src/game/Map/Map.cpp:112-120 | when the player under the cursor leaves during a walk, the player after it is still on the map but the walk visits nobody further |
| Maps.ViewStep | src/game/Map/Map.cpp:56-81 | one player looked at by another: a player out of the world or with the viewer's GUID changes nothing; every other list entry is kept; the packets produced are a destroy of that player's GUID for the viewer when it is out of range, or the viewer's create block for that player when it is in range |
| Maps.ViewAll | src/game/Map/Map.cpp:56-82 | while one player looks at all others, every destroy goes to that player's session, and every create block is that player's, sent to the session of an in-world player of the list |
| Maps.ViewAllUntouched | src/game/Map/Map.cpp:56-82 | a GUID that no other player in the world carries keeps its list entry, is never destroyed and is never sent a create block |
| Maps.ViewAllMembership | src/game/Map/Map.cpp:56-82 | with unique GUIDs, another player is in the viewer's list afterwards exactly when in range (and not shadowed by a stale entry); it is sent the viewer's create block exactly when in range and not found by `isInList`; and a destroy is sent exactly when out of range and listed |
| Maps.InWorld | src/game/Map/Map.cpp:41-49 | the players updated are exactly the map's players that are in the world |
| Maps.PhaseSentSessions | src/game/Map/Map.cpp:50-84 | every packet of the nearby phase goes to an in-world player: a destroy to a viewer, a create block of a viewer to a player of the map |
| Maps.PhaseListsContents | src/game/Map/Map.cpp:50-84 | with each player listed once, every in-world player's list becomes its own view of all the others, started from its list before the phase, and the other lists are untouched |
| Maps.NearbyPhase | src/game/Map/Map.cpp:50-84 | every in-world player's list becomes its view of all the others, the other lists are untouched, the packets are those of the inner loops in list order, and with unique GUIDs membership follows the range test |
| Maps.Update | src/game/Map/Map.cpp:26-89 | the sessions of exactly the in-world players are updated, then those players, then their lists and packets as in the nearby phase, and finally every waiting object is flushed in ascending order |
| Maps.AfterUpdate | src/game/Map/Map.cpp:26-89 | after an update the waiting set is empty and the walk cursor at the end, with players, countdown and entry unchanged |
| Maps.SessionsOf | src/game/Map/Map.cpp:29-39 | each player walked contributes its own session, in order |
| MapManager.MapIDOf | src/game/Map/MapManager.h:17 | the key of a map that is not instanced has instance id 0 |
| MapManager.LessIsRankOrder | src/game/Map/MapManager.h:20-28 | the key order is the order of the 64-bit number with the map id in the high half, and equal numbers are equal keys |
| MapManager.LessIsStrictTotalOrder | src/game/Map/MapManager.h:20-28 | the key order is irreflexive, transitive, total and asymmetric, as a `std::map` key needs |
| MapManager.Reset | src/game/Map/MapManager.h:59-60 | a reset keeps the interval and takes one interval off a current value that has reached it |
| MapManager.SetMapUpdateInterval | src/game/Map/MapManager.h:54-61 | the interval stored is the one asked for, cut down to 50 when larger; the timer is then reset and the maps untouched |
| MapManager.IntervalIsCapped | src/game/Map/MapManager.h:54-61 | the stored interval is the smaller of the request and 50, so 0 stays 0 |
| MapManager.InitMaxInstanceId | src/game/Map/MapManager.cpp:190-200 | the counter starts at the largest saved instance id, or 0 when none is saved |
| MapManager.GenerateInstanceId | src/game/Map/MapManager.h:104 | the counter is bumped in 32 bits and the bumped value is handed out |
| MapManager.InstanceIdsIncrease | src/game/Map/MapManager.h:104 | until the counter wraps, the ids handed out one after another are the counter plus 1, 2, 3 …, strictly increasing |
| MapManager.FindMap | src/game/Map/MapManager.cpp:100-116 | the map under the key, or nothing when there is none or when instance 0 of an instanced map is asked for |
| MapManager.CreateMap | src/game/Map/MapManager.cpp:65-98 | an unknown or instanced map id yields nothing and changes nothing; otherwise the map under `MapID(id)` is the answer, created and filed only if it was missing; the filing invariants are kept |
| MapManager.CreateMapTwice | src/game/Map/MapManager.cpp:65-98 | creating the same map twice is creating it once |
| MapManager.DeleteInstance | src/game/Map/MapManager.cpp:118-134 | only an instanced map under the key is erased; anything else leaves the manager as it was |
| MapManager.DeleteThenFind | src/game/Map/MapManager.cpp:118-134 | after a delete the key finds no instanced map, and every other key finds what it found before |
| MapManager.NothingToDelete | src/game/Map/MapManager.cpp:228-269 | as no instanced map is ever filed, a delete changes nothing |
| MapManager.Update | src/game/Map/MapManager.cpp:136-163 | until the gathered time reaches the interval only the timer moves; then every map is updated with the gathered time, exactly the maps whose countdown that time reaches are dropped, the rest keep their shortened countdowns, and the timer restarts at 0 |
| MapManager.NoCountdownNoUnload | src/game/Map/MapManager.cpp:145-160 | with no countdown running, an update drops no map and starts no countdown |
| MapManager.UpdateKeepsFiling | src/game/Map/MapManager.cpp:136-163 | an update keeps every map filed under its own key and keeps instanced maps out |
| MapManager.RemoveAllObjectsInRemoveList | src/game/Map/MapManager.cpp:165-169 | every map's remove set is emptied and nothing else changes |
| MapManager.InitializeVisibilityDistanceInfo | src/game/Map/MapManager.cpp:58-62 | every map gets the continent visibility distance and no map is added or dropped |
| MapManager.UnloadAll | src/game/Map/MapManager.cpp:178-188 | no map is left; timer and instance counter are kept |
| MapManager.ValidMapIsOpen | src/game/Map/MapManager.cpp:171-176 | a map id is valid exactly when the store knows it and it is neither a raid nor a five-player dungeon, and mounts are allowed on a valid map |
| MapManager.GetNumInstances | src/game/Map/MapManager.cpp:202-212 | the count is the number of dungeon maps loaded, never more than the maps loaded |
| MapManager.PlayersOnRemove | src/game/Map/MapManager.cpp:214-224 | the sum of the dungeon players over a set of maps does not depend on the order the maps are taken in |
| MapManager.GetNumPlayersInInstances | src/game/Map/MapManager.cpp:214-224 | the total is the number of players summed over the dungeon maps; it is zero exactly when every dungeon is empty, and no dungeon holds more players than the total |
| MapManager.NoInstancesNoDungeons | src/game/Map/MapManager.cpp:202-212 | with no instanced map loaded there is no dungeon to count |
| MapManager.DoForAllMapsWithMapId | src/game/Map/MapManager.h:134-141 | exactly the instances of the map id are visited, in ascending instance order |
| SharedDefines.CapSecurity | src/authserver/AuthSocket.cpp:153 | a stored security level is capped at administrator and kept when already at or below it |
| WorldConfig.LoadUInt | src/game/World/World.cpp:955-963 | a `uint32` option holds what the file gave when that reads as a non-negative `int32`, and its default otherwise |
| WorldConfig.AbsentUIntIsDefault | src/game/World/World.cpp:955-963 | an absent option loads exactly its default, even a default of 2^31 or more |
| WorldConfig.LoadUIntMin | src/game/World/World.cpp:990-998 | the option is never below its minimum, keeps a loaded value that meets it and is raised to it otherwise |
| WorldConfig.LoadUIntMinMax | src/game/World/World.cpp:1020-1033 | a loaded value below the minimum becomes the minimum, one above the maximum the maximum, and one in range is kept |
| WorldConfig.LoadIntMin | src/game/World/World.cpp:1000-1008 | an `int32` option is never below its minimum and keeps a value that meets it |
| WorldConfig.LoadIntMinMax | src/game/World/World.cpp:1035-1048 | an `int32` value below the minimum becomes the minimum, one above the maximum the maximum, and one in range is kept |
| WorldConfig.MinMaxInRange | src/game/World/World.cpp:1020-1048 | with a sensible range the loaded value always lies in it, and loading it again changes nothing |
| WorldConfig.InvertedRange | src/game/World/World.cpp:1035-1048 | with the minimum above the maximum, small values become the minimum and all others the maximum |
| WorldConfig.LoadGuardedUInt | src/game/World/World.cpp:1086-1096 | a guarded option is loaded on the first pass and keeps its current value on a reload |
| WorldConfig.GuardedStable | src/game/World/World.cpp:1086-1096 | any run of reloads leaves a guarded option where it was |
| WorldConfig.NormalizeDataDir | src/game/World/World.cpp:520-525 | the data directory always ends in a separator; an empty setting means `./`, and otherwise the setting is kept with at most one `/` appended |
| WorldConfig.NormalizeDataDirIdempotent | src/game/World/World.cpp:520-525 | normalising twice is normalising once, and a path already ending in a separator is kept |
| WorldConfig.DataDir | src/game/World/World.cpp:517-536 | on the first load the data directory is the normalised setting (`./` when absent); on a reload the current one stays |
| WorldConfig.SetPlayerLimit | src/game/World/World.cpp:941-953 | the stored limit is never below minus the administrator level, and a limit at or above it is stored as given |
| WorldConfig.SetPlayerLimitSettles | src/game/World/World.cpp:941-953 | without a request the realm row is rewritten only when a security floor is involved and the limit changes, and repeating the call rewrites nothing |
| WorldSessions.NewSession | src/game/Server/WorldSession.cpp:57-63 | a new session belongs to the given account at the given security level, has no player, an open socket and an empty queue, and no flag set |
| WorldSessions.LogoutRequest | src/game/Server/WorldSession.h:119-122 | only the logout request time changes |
| WorldSessions.LogoutCooldown | src/game/Server/WorldSession.h:116-128 | after a request at a positive time the session should log out exactly from 20 seconds later on; a request at time 0 cancels; any non-zero request marks the session as logging out |
| WorldSessions.Process | src/game/Server/WorldSession.cpp:17-54 | the plain filter passes every packet, and every filter passes a packet handled in place |
| WorldSessions.FiltersPartition | src/game/Server/WorldSession.cpp:17-54 | a packet not handled in place passes exactly one of the map filter and the world filter, the map filter taking it exactly when it is thread-safe and the player is in the world |
| WorldSessions.QueuePacket | src/game/Server/WorldSession.cpp:127-131 | the packet goes to the back of the queue, ahead of it the old queue unchanged, and nothing else changes |
| WorldSessions.Admit | src/game/Server/WorldSession.cpp:166-212 | a packet let through runs on the session as it was, except that an authenticated-status packet first clears the recently-logged-out flag |
| WorldSessions.AdmitByStatus | src/game/Server/WorldSession.cpp:166-222 | logged-in packets need a player in the world, transfer packets a player out of it, the relaxed status a player or a recent logout, authenticated packets a session out of the queue; never and unhandled opcodes are always dropped |
| WorldSessions.Drain | src/game/Server/WorldSession.cpp:152-250 | the packets taken are a prefix of the queue and the rest is left; on a socket that stays open the queue ends empty; on a closed socket nothing is taken |
| WorldSessions.DrainInOrder | src/game/Server/WorldSession.cpp:155-222 | packets are dispatched in arrival order, and no handler runs for a never or unhandled opcode |
| WorldSessions.QueueThenDrain | src/game/Server/WorldSession.cpp:127-161 | a packet queued behind others is dispatched after them, and last when the socket stays open |
| WorldSessions.SendPacket | src/game/Server/WorldSession.cpp:83-125 | a closed socket sends nothing; an open one sends exactly the packet |
| WorldSessions.LogoutPlayer | src/game/Server/WorldSession.cpp:338-404 | a session that just logged out is left alone; otherwise its player is removed from its map when in the world and deleted otherwise, the client is sent a logout-complete packet, and the session ends with no player, flags cleared, marked recently logged out and with no logout request |
| WorldSessions.LogoutSettles | src/game/Server/WorldSession.cpp:338-404 | after a logout that ran, the session holds no player and is not logging out, and a second logout changes nothing |
| WorldSessions.KickPlayer | src/game/Server/WorldSession.cpp:406-409 | the socket ends closed and nothing else changes |
| WorldSessions.SendAuthWaitQue | src/game/Server/WorldSession.cpp:298-313 | position 0 sends an `AUTH_OK` response, any other position `AUTH_WAIT_QUEUE` followed by the position, and a closed socket sends nothing |
| WorldSessions.Update | src/game/Server/WorldSession.cpp:152-267 | the queue is drained first; when the filter permits, the player is logged out (with saving) if the socket is closed or the cooldown ran out and no player is loading; the session asks to be dropped exactly when the filter permits and its socket is closed |
| WorldSessions.MapUpdateNeverLogsOut | src/game/Server/WorldSession.cpp:256-267 | an update under the map filter never logs out or drops the session; under the world filter a dropped session has logged out and holds no player |
| World.QueueWithinSessions | src/game/World/World.cpp:1264-1267 | under the registry invariant the queue is no longer than the registry, so the active count (registered less queued) does not wrap |
| World.QueueFits | src/game/World/World.cpp:1264-1267 | a queue without repeats whose sessions are filed under distinct accounts is no longer than the registry |
| World.QueuedSessionPos | src/game/World/World.cpp:1383-1391 | the position is 0 exactly when the session is not queued; otherwise it is the 1-based index of its first occurrence |
| World.PositionOfDistinct | src/game/World/World.cpp:1383-1391 | in a queue without repeats the session at index k stands at position k + 1 |
| World.Unqueue | src/game/World/World.cpp:1223-1233 | a session not queued leaves the queue alone; a queued one is cut out at its first occurrence, the others keeping their order |
| World.UnqueueDistinct | src/game/World/World.cpp:1223-1233 | taking a session out of a queue without repeats leaves every other session, once each |
| World.PopDistinct | src/game/World/World.cpp:1244-1252 | dropping the head of a queue without repeats leaves every other session, once each |
| World.Renotify | src/game/World/World.cpp:1256-1258 | every session from the given index on is sent `AUTH_WAIT_QUEUE` with its 1-based position |
| World.RemoveQueuedSession | src/game/World/World.cpp:1215-1261 | the answer says whether the session was queued; only the queue and the in-queue flags change; the queue loses the session and, when the head is promoted, that head is told `AUTH_OK` first |
| World.RemoveQueuedSessionPromotes | src/game/World/World.cpp:1237-1258 | the head is promoted exactly when someone waits and there is no limit or the active count (less one when the session was not queued) is below it; without a promotion exactly the sessions behind the removed one are renotified |
| World.RemoveQueuedSessionKeeps | src/game/World/World.cpp:1215-1261 | removal keeps the registry invariant, leaves the session unqueued and adds nobody to the queue |
| World.RenotifyTruthful | src/game/World/World.cpp:1256-1258 | in a queue without repeats each renotified session is told its true position |
| World.RemoveQueuedSessionPositions | src/game/World/World.cpp:1215-1261 | every wait-queue position a removal sends is the position the session really holds in the queue that results |
| World.AddQueuedSession | src/game/World/World.cpp:1269-1281 | the session joins the tail with its flag set and is told `AUTH_WAIT_QUEUE`, its new position and a 0 |
| World.UpdateMaxSessionCounters | src/game/World/World.cpp:1264-1267 | the high-water marks never fall, cover the current active and queued counts, and change only to those counts |
| World.RemoveSession | src/game/World/World.cpp:1284-1297 | the answer is false exactly when the account's session is loading a player; otherwise that session, if any, is the one kicked |
| World.AddSession | src/game/World/World.cpp:1209-1213 | the session goes to the back of the add queue and nothing else changes |
| World.AddSessionNow | src/game/World/World.cpp:1308-1381 | a newcomer whose account is loading a player is kicked and nothing else changes; otherwise it replaces the account's old session (which is kicked), receives the last notice, and the limits are untouched while the counters only rise |
| World.AddSessionKeeps | src/game/World/World.cpp:1308-1381 | admitting a session the registry has not seen keeps the invariant and the filing by account |
| World.AddedSteps | src/game/World/World.cpp:1322-1351 | a successful admission removes the old session from the queue, files the newcomer under its account and either queues it or leaves the queue as it was |
| World.AddedKeeps | src/game/World/World.cpp:1322-1351 | the invariant holds through the three steps of a successful admission |
| World.AdmitEachCons | src/game/World/World.cpp:1398-1401 | admitting a non-empty batch is one admission followed by the rest, outputs concatenated |
| World.AdmitEachAppend | src/game/World/World.cpp:1398-1401 | admitting two batches in turn is admitting their concatenation |
| World.AdmitAll | src/game/World/World.cpp:1398-1401 | the add-queue loop leaves the limit and the add queue alone and never lowers the counters |
| World.AdmitAllLimits | src/game/World/World.cpp:1398-1401 | the same for any number of parked sessions, by induction on the batch |
| World.AdmitAllFirst | src/game/World/World.cpp:1398-1401 | the first parked session is admitted first, into the registry as it stands |
| World.AdmitAllAppend | src/game/World/World.cpp:1398-1401 | sessions parked in order are admitted in order |
| World.AdmitAllKeeps | src/game/World/World.cpp:1393-1404 | admitting fresh sessions, none twice, keeps the registry invariant |
| World.AdmitAllKeyed | src/game/World/World.cpp:1393-1404 | admission files every session under its own account |
| World.AdmittedFrom | src/game/World/World.cpp:1308-1381 | admitting one session leaves every other unseen session unseen |
| World.Reap | src/game/World/World.cpp:1406-1422 | exactly the visited sessions whose update failed leave the registry, the rest keep their entries, and limits and counters are untouched |
| World.ReapKeeps | src/game/World/World.cpp:1406-1422 | reaping keeps the registry invariant |
| World.UpdateSessions | src/game/World/World.cpp:1393-1423 | the parked sessions are admitted in order and the add queue emptied, then exactly the sessions whose update fails are dropped; counters never fall, and the invariant holds with only live sessions left waiting |
| World.SessionPassKeeps | src/game/World/World.cpp:1393-1423 | a whole session pass keeps the invariant and leaves only live sessions in the queue |
| World.ReapedAlive | src/game/World/World.cpp:1406-1422 | when every registered session is visited, the queue left holds only live sessions |
| WorldSocket.Pow256Of4 | src/game/Server/WorldSocket.h:20-24 | four bytes span exactly the `uint32` range |
| WorldSocket.DecodeClientHeader | src/game/Server/WorldSocket.cpp:107-115 | the frame size is the first two bytes read big-endian |
| WorldSocket.EncodeClientHeader | src/game/Server/WorldSocket.h:20-24 | a client header takes six bytes |
| WorldSocket.ClientHeaderRoundTrip | src/game/Server/WorldSocket.cpp:107-115 | decoding an encoded header gives it back, and encoding a decoded six bytes gives them back |
| WorldSocket.Open | src/game/Server/WorldSocket.cpp:37-40 | a new connection has no buffered input, no saved header, no session, no ping yet and a zero over-speed count |
| WorldSocket.Receive | src/game/Server/WorldSocket.cpp:94-103 | arriving bytes are appended to the input, and a saved header still matches the bytes in front |
| WorldSocket.SendPacket | src/game/Server/WorldSocket.cpp:42-69 | a closed socket sends nothing; otherwise a four-byte header precedes exactly the packet's bytes |
| WorldSocket.ServerFrameRoundTrip | src/game/Server/WorldSocket.cpp:50-56 | the header read back gives the opcode and the size plus four, each truncated to 16 bits, and unchanged when they fit |
| WorldSocket.WholeSeconds | src/game/Server/WorldSocket.cpp:278 | a millisecond span becomes whole seconds truncated toward zero |
| WorldSocket.PingCount | src/game/Server/WorldSocket.cpp:272-299 | the first ping keeps the count; a ping 27 seconds or more after the last resets it to 0; a quicker one adds one in 32 bits |
| WorldSocket.HandlePing | src/game/Server/WorldSocket.cpp:265-322 | a ping too short to read is a bad packet; otherwise the time and count are recorded, the ping is refused exactly for a flooding player or a connection without session, and an accepted one is answered by a `PONG` carrying the ping value |
| WorldSocket.PingFloodRule | src/game/Server/WorldSocket.cpp:265-322 | an eight-byte ping is accepted exactly when a session exists and the player is not flooding; the pong echoes the ping value, and a slow ping clears the count |
| WorldSocket.Route | src/game/Server/WorldSocket.cpp:166-193 | only `PING` sends anything; a second `AUTH_SESSION` is refused and a first with a known account opens a player-level session parked with the world; exactly the other opcodes on a session are queued, as they are |
| WorldSocket.ProcessIncomingData | src/game/Server/WorldSocket.cpp:94-215 | a saved header still matches the input afterwards; a frame handled successfully consumes input and clears the saved header; fewer than six bytes without a saved header change nothing |
| WorldSocket.WholeFrameRouted | src/game/Server/WorldSocket.cpp:94-215 | on an open socket without a saved header, a well-formed header followed by its whole payload is consumed exactly and routed as the packet it encodes, leaving the following bytes |
| WorldSocket.HeaderOf | src/game/Server/WorldSocket.cpp:96-116 | the header used is the one the front six bytes encode, whether saved or read afresh |
| WorldSocket.FrameChecks | src/game/Server/WorldSocket.cpp:118-148 | a header with a size below 4 or above 0x2800 or an unknown opcode is refused with its six bytes consumed and nothing queued; a valid header whose payload is incomplete is saved with the input left in place |
| WorldSocket.ResumeAgrees | src/game/Server/WorldSocket.cpp:98-104 | resuming with a saved header gives the same outcome as reading that header afresh |
| WorldSocket.SplitFrame | src/game/Server/WorldSocket.cpp:136-148 | a frame cut short is saved, and once more bytes arrive it is processed as if they had all arrived together |
| WorldSocket.BeforeZero | src/game/Server/WorldSocket.cpp:219-221 | the accepted builds are the entries before the first zero |
| WorldSocket.IsAcceptableClientBuild | src/game/Server/WorldSocket.cpp:217-224 | a build is acceptable exactly when its `int` value is among the entries before the terminating zero |
| WorldSocket.AcceptedBuilds | src/game/Server/WorldSocket.cpp:217-224 | build 0 is never acceptable, and entries after the terminator make no difference |
| WorldSocket.BeforeZeroPrefix | src/game/Server/WorldSocket.cpp:219-221 | a list of non-zero builds followed by a zero has exactly that list before the terminator |
| CharacterHandler.Capitalize | src/game/Server/PacketHandler/CharacterHandler.cpp:265-267 | the length is kept, the first character is upper-cased and every later one lower-cased |
| CharacterHandler.NormalizePlayerName | src/game/Server/PacketHandler/CharacterHandler.cpp:256-275 | an empty name is refused, and a name accepted is the capitalised wide form of the name (at most 15 wide characters) encoded back |
| CharacterHandler.CapitalizeLetters | src/game/Server/PacketHandler/CharacterHandler.cpp:265-267 | case mapping keeps a string of letters a string of letters |
| CharacterHandler.NormalizeAsciiName | src/game/Server/PacketHandler/CharacterHandler.cpp:256-275 | a name of one to 15 ASCII letters normalises to its capitalised form, and a normalised name normalises to itself |
| CharacterHandler.CapitalizeTwice | src/game/Server/PacketHandler/CharacterHandler.cpp:265-267 | capitalising twice is capitalising once |
| CharacterHandler.EnumRow | src/game/Server/PacketHandler/CharacterHandler.cpp:104-140 | every character row takes the same fixed number of items in the list |
| CharacterHandler.ConcatBlocksLength | src/game/Server/PacketHandler/CharacterHandler.cpp:102-142 | rows of one size n fill n items each |
| CharacterHandler.ConcatBlocksAppend | src/game/Server/PacketHandler/CharacterHandler.cpp:102-142 | the list of two runs of rows is the first run's items followed by the second's |
| CharacterHandler.ConcatBlocksAt | src/game/Server/PacketHandler/CharacterHandler.cpp:102-142 | item j of row k sits at position n·k + j of the list |
| CharacterHandler.EnumRows | src/game/Server/PacketHandler/CharacterHandler.cpp:102-142 | the rows fill exactly their fixed size times their number |
| CharacterHandler.CharEnum | src/game/Server/PacketHandler/CharacterHandler.cpp:97-148 | an `SMSG_CHAR_ENUM` packet whose first byte is the number of rows modulo 256, followed by every row |
| CharacterHandler.CharEnumReadBack | src/game/Server/PacketHandler/CharacterHandler.cpp:111-125 | character k's guid, name and class sit where the client reads them, and its four appearance bytes reassemble into exactly its stored `playerBytes` |
| CharacterHandler.EnumItemAt | src/game/Server/PacketHandler/CharacterHandler.cpp:102-142 | item j of character k in the packet, behind the count byte, is item j of its row |
| CharacterHandler.Reply | src/game/Server/WorldSession.cpp:83-86 | a reply is sent exactly when the socket is open |
| CharacterHandler.CharCreate | src/game/Server/PacketHandler/CharacterHandler.cpp:276-377 | exactly one result byte is sent (on an open socket); the realm count is written back exactly on success; a guid is drawn exactly when `Player::Create` is reached |
| CharacterHandler.FirstFailure | src/game/Server/PacketHandler/CharacterHandler.cpp:298-360 | the result is that of the first failing check, and success when none fails |
| CharacterHandler.CreatePrecedence | src/game/Server/PacketHandler/CharacterHandler.cpp:298-377 | creation reports the first failing check in the order name, name rules, name in use, account limit, realm limit, creation, and succeeds exactly when none fails |
| CharacterHandler.RealmCountWraps | src/game/Server/PacketHandler/CharacterHandler.cpp:339-350 | an account with 256 characters on the realm reads as having none and passes the realm limit |
| CharacterHandler.InitializeHolder | src/game/Server/PacketHandler/CharacterHandler.cpp:26-59 | the holder is ready exactly when every query registered |
| CharacterHandler.PlayerLoginRequest | src/game/Server/PacketHandler/CharacterHandler.cpp:149-172 | a login while loading or with a player attached is ignored; otherwise loading starts exactly when the holder initialises, and is reset otherwise |
| CharacterHandler.HandlePlayerLogin | src/game/Server/PacketHandler/CharacterHandler.cpp:173-209 | a refused load kicks the client, ends loading and attaches no player; a load whose saved map `CreateMap` does not give stops the server (the `SetMap` assertion reached from Player.cpp:471); a completed one attaches the player (not yet in the world), registers it, and sends the verify-world and login-finished packets on an open socket |
| CharacterHandler.LoadedMapNull | src/game/Map/MapManager.cpp:65-98 | the map `LoadFromDB` hands a loaded character is null exactly when its saved map id is unknown to the store or names an instanced map |
| CharacterHandler.LoginKicked | src/game/Server/PacketHandler/CharacterHandler.cpp:178-185 | the failed-load path closes the socket, ends loading and leaves the session's player as it was |
| CharacterHandler.LoginAttached | src/game/Server/PacketHandler/CharacterHandler.cpp:186-208 | the completed-load path attaches the loaded player, out of the world, and registers it |
| CharacterHandler.HandlePlayerLoginChecked | src/game/Server/PacketHandler/CharacterHandler.cpp:173-209 | corrected (see Findings): never stops the server; a refused load or one without a map is kicked with nothing sent and no player; otherwise the player is attached and registered |
| CharacterHandler.LoginCheckedAgrees | src/game/Server/PacketHandler/CharacterHandler.cpp:173-209 | where the handler as written does not stop the server the checked one is identical; it stops exactly where the checked one kicks a loaded character, leaving no player and loading over |
| CharacterHandler.DungeonPlayerStopsLogin | src/game/Object/Object.cpp:362-368 | a character saved on an instanced or unknown map stops the server while it loads; with the check it is kicked instead |
| CharacterHandler.EnterWorldFinishedAsWritten | src/game/Server/PacketHandler/CharacterHandler.cpp:210-215 | as written, the handler dereferences a null player exactly when the session has none, and the null map of `GetMap` exactly when the attached player holds no map (an arm a completed login never reaches, see `LoginSequence`); otherwise the player enters the world and loading ends |
| CharacterHandler.EnterWorldWithoutPlayer | src/game/Server/PacketHandler/CharacterHandler.cpp:210-215 | a session out of the queue without a player has the packet dispatched and the handler dereferences the null player |
| CharacterHandler.FreshSessionCrashesOnEnterWorld | src/game/Server/PacketHandler/CharacterHandler.cpp:210-215 | a freshly created session is such a session |
| CharacterHandler.EnterWorldFinished | src/game/Server/PacketHandler/CharacterHandler.cpp:210-215 | with both checks: no player, or a player without a map, leaves the session unchanged; otherwise the attached player enters the world and loading ends, nothing else changing |
| CharacterHandler.EnterWorldFinishedAgrees | src/game/Server/PacketHandler/CharacterHandler.cpp:210-215 | the handler as written completes exactly when a player with a map is attached, and then the guarded handler does the same |
| CharacterHandler.LoginSequence | src/game/Server/PacketHandler/CharacterHandler.cpp:149-215 | a refused load leaves the socket closed, no player and loading over; a character whose saved map `CreateMap` gives (a known, non-instanced one) is attached, and entering the world, as written or checked, leaves it in the world with loading over and never meets a null map; any other character stops the server during the load, and the checked handler kicks it instead; a second request while loading is ignored |
| CharacterHandler.CharDelete | src/game/Server/PacketHandler/CharacterHandler.cpp:216-251 | the character is deleted exactly when its owner (0 when there is no row) is the session's account; only then is a success reply sent, and a refusal sends nothing |
| CharacterHandler.DeleteOnlyOwn | src/game/Server/PacketHandler/CharacterHandler.cpp:216-251 | another account's request deletes nothing and gets no answer, the owner's request deletes and is answered, and a guid without a row is deleted exactly for account 0 |
| RealmList.FindExact | src/authserver/RealmList.cpp:24-27 | a build found by the exact scan is the build asked for, non-zero and in the rest of the table; a build not found does not occur before the terminator |
| RealmList.FindIn | src/authserver/RealmList.cpp:18-31 | a build at or above the first entry's gets the first entry; any other build found is an entry with exactly that build |
| RealmList.FindBuildInfoShipped | src/authserver/RealmList.cpp:12-31 | with the shipped table exactly the builds from 1499 on are known, and all map to the 1499 entry, version 0.1.0 |
| RealmList.MaskRealmFlagsExact | src/authserver/RealmList.cpp:123-130 | the stored flags keep exactly their allowed bits (offline, specify-build, new players, recommended), and masking again changes nothing |
| Text.LeadingDigits | src/authserver/RealmList.cpp:69 | the digits `atol` reads form the longest run of digits at the front of the token |
| Text.AllDigitsLead | src/authserver/RealmList.cpp:69 | a token of digits only is read whole |
| RealmList.AtolDecimal | src/authserver/RealmList.cpp:69 | `atol` reads back any number written in decimal |
| RealmList.InsertBuild | src/authserver/RealmList.cpp:70 | inserting a build into the set gives the old builds plus that one, still ascending and without repeats |
| RealmList.InsertBuilds | src/authserver/RealmList.cpp:64-71 | adding the tokens' builds keeps the set ascending |
| RealmList.InsertBuildsContents | src/authserver/RealmList.cpp:64-71 | adding the tokens' builds keeps every build there was and adds every token's `atol` value as a `uint32`, and nothing else |
| RealmList.FirstBuild | src/authserver/RealmList.cpp:73 | the realm's first build is its least build cut to 16 bits |
| RealmList.FirstBuildInfo | src/authserver/RealmList.cpp:75-84 | the version info shown is for the realm's first build |
| RealmList.Find | src/authserver/RealmList.h:39 | a realm found under a name is stored under that name |
| RealmList.FindNames | src/authserver/RealmList.h:39 | a name is found exactly when it is one of the map's names |
| RealmList.OrderedTail | src/authserver/RealmList.h:39 | in a name-ordered map the first name comes before all others, and the rest is ordered |
| RealmList.FindEntry | src/authserver/RealmList.h:39 | in a name-ordered map each entry is what its name finds |
| RealmList.PutNames | src/authserver/RealmList.cpp:55 | storing under a name adds that name and no other |
| RealmList.PutOrdered | src/authserver/RealmList.cpp:55 | storing under a name keeps the map ordered by name |
| RealmList.PutFind | src/authserver/RealmList.cpp:55 | storing under a name binds that name to the realm and leaves every other name's realm as it was |
| RealmList.PutKeeps | src/authserver/RealmList.cpp:55 | order, names and lookups after storing, together |
| RealmList.UpdateRealmSets | src/authserver/RealmList.cpp:52-90 | the realm under the name carries the new id, icon, flags, timezone and security; it keeps its old builds and gains exactly the listed ones; it shows its first build, with version 0.1.0 exactly for 1499; its address is the given one, a colon and the port in decimal; other realms are untouched |
| RealmList.UpdateRow | src/authserver/RealmList.cpp:119-136 | applying one row keeps the map ordered |
| RealmList.UpdateRealms | src/authserver/RealmList.cpp:107-143 | applying the rows in order keeps the map ordered |
| RealmList.PutEntries | src/authserver/RealmList.cpp:55 | every entry after storing is the new one or an old one |
| RealmList.UpdateRowSane | src/authserver/RealmList.cpp:123-136 | a row keeps every realm's flags within the allowed bits and its security at most administrator, and adds its name |
| RealmList.UpdateRealmsSane | src/authserver/RealmList.cpp:107-143 | whatever the database holds, loading keeps every realm sane, and the names are the old ones plus exactly the rows' |
| RealmList.NewRealmList | src/authserver/RealmList.cpp:33-35 | a new list is empty, with reloading disabled and the next reload due now |
| RealmList.Initialize | src/authserver/RealmList.cpp:44-50 | the interval is stored, the rows are loaded on top of the realms, and the list stays sane |
| RealmList.UpdateIfNeed | src/authserver/RealmList.cpp:92-105 | with reloading disabled or not yet due nothing changes; otherwise the next reload is set one interval ahead and the list holds exactly the rows' names |
| RealmList.UpdateIfNeedSettles | src/authserver/RealmList.cpp:92-105 | a due reload happens, and asking again before the interval has passed changes nothing |
| RealmList.NameLessIrreflexive | src/authserver/RealmList.h:39 | no name sorts before itself |
| RealmList.NameLessTotal | src/authserver/RealmList.h:39 | of two different names one sorts before the other |
| RealmList.NameLessTransitive | src/authserver/RealmList.h:39 | the name order is transitive |
| AuthSocket.LookupCmd | src/authserver/AuthSocket.cpp:192-195 | a row found is in the table and carries the command; nothing is found exactly when no row carries it |
| AuthSocket.Decide | src/authserver/AuthSocket.cpp:94-168 | any result but success leaves the connection at player level, and the level granted never exceeds administrator |
| AuthSocket.DecideOutcomes | src/authserver/AuthSocket.cpp:94-168 | success exactly when the address is not banned, the account exists, is not locked to another address, has no active ban and the hash matches (the level then capped at administrator); banned exactly for a banned address or a permanent ban; suspended exactly for a foreign address on a locked account or a temporary ban; no other result occurs |
| AuthSocket.NewConn | src/authserver/AuthSocket.cpp:62-65 | a new connection is unauthenticated, at build 0 and player level, open, and has sent nothing |
| AuthSocket.OnLogin | src/authserver/AuthSocket.cpp:66-172 | with less than a whole login request buffered it fails and reads nothing; otherwise it consumes exactly one request, succeeds, and appends exactly one reply |
| AuthSocket.VersionSuffix | src/authserver/AuthSocket.cpp:299-300 | the version suffix fits the 20-byte buffer: at most 19 characters |
| AuthSocket.EntryFor | src/authserver/AuthSocket.cpp:272-315 | a realm's entry carries its id, flags (unchanged) and address, and a name that starts with the realm's own |
| AuthSocket.LoadRealmlist | src/authserver/AuthSocket.cpp:262-320 | for build 0 nothing is filled in; otherwise the count is the number of realms modulo 256 and there is one entry per realm, in name order |
| AuthSocket.EntryNames | src/authserver/AuthSocket.cpp:287-302 | without the specify-build flag a realm shows its own name; with it, a client build the realm lists at 1499 or above adds " (0,1,0)", and any other adds the realm's own version |
| AuthSocket.OnRealmList | src/authserver/AuthSocket.cpp:228-260 | with fewer than 5 bytes it fails and reads nothing; otherwise it skips 5 bytes; an unknown remembered user closes the connection and sends nothing; a known one refreshes the realm list when due and is sent the list for its account |
| AuthSocket.ProcessIncomingData | src/authserver/AuthSocket.cpp:174-225 | the realm list stays sane; success consumes all input; authentication is never lost; replies are only appended |
| AuthSocket.Gating | src/authserver/AuthSocket.cpp:187-220 | an unknown command, or a realm list request before any successful login, or an incomplete login request, is refused and reads nothing; a complete login request is handled and processing continues |
| AuthSocket.LoginAuthenticates | src/authserver/AuthSocket.cpp:84-169 | the reply carries the decision's result; the connection is authenticated afterwards exactly when it was before or the login succeeded; a failure leaves it at player level |
| AuthSocket.FailedLoginKeepsAuth | src/authserver/AuthSocket.cpp:86-90 | a failed login after a successful one keeps the connection authenticated but replaces the remembered user, so a following realm list request is answered for the new user |
| Text.ToLower | src/Shared/Config/Config.cpp:47 | lower-casing keeps the length and maps every character through `tolower` |
| Text.ToLowerIdempotent | src/Shared/Config/Config.cpp:47 | lower-casing twice is lower-casing once |
| Text.TrimLeft | src/Shared/Config/Config.cpp:35 | the result does not start with whitespace, is no longer than the line, and everything dropped is whitespace |
| Text.TrimLeftIsSuffix | src/Shared/Config/Config.cpp:35 | what the left trim keeps is a suffix of the line |
| Text.TrimRight | src/Shared/Config/Config.cpp:47-48 | the result does not end with whitespace, starts where the input starts, and everything dropped is whitespace |
| Text.TrimRightIsPrefix | src/Shared/Config/Config.cpp:47-48 | what the right trim keeps is a prefix of the input |
| Text.TrimEnds | src/Shared/Config/Config.cpp:47-48 | what the two-sided trim keeps neither starts nor ends with whitespace |
| Text.TrimChar | src/Shared/Config/Config.cpp:48 | the result is no longer than the input and neither starts nor ends with the trimmed character |
| Text.TrimCharIsSlice | src/Shared/Config/Config.cpp:48 | what the trim keeps is one contiguous slice of the input |
| Text.Split | src/game/Object/Object.cpp:109 | every piece is non-empty and free of the separator |
| Text.SplitKeepsText | src/authserver/RealmList.cpp:64 | concatenating the pieces gives the input with the separators removed |
| Text.Stoul | src/game/Object/Object.cpp:118 | a value is read only below 2^64, the range of `unsigned long` |
| Text.StoulReads | src/game/Object/Object.cpp:118 | leading blanks, one optional sign, a run of digits and any tail that is no digit: the digits' value is read, negated modulo 2^64 after a minus, and a value of 2^64 or more throws |
| Text.StoulDecimal | src/game/Object/Object.cpp:118 | the decimal text of a number is read back as that number when it fits `unsigned long`, and throws otherwise |
| Text.StoulNoDigits | src/game/Object/Object.cpp:118 | a token without a digit throws |
| Text.SplitJoin | src/game/Object/Object.cpp:109 | splitting the separator-joined pieces gives the pieces back, when each is non-empty and free of the separator |
| Text.DecimalRoundTrip | src/authserver/AuthSocket.cpp:300 | reading back a rendered number gives the number |

## Left out

- Floating point. This covers distance, range and angle geometry,
  `NormalizeOrientation`, object scale, float slot writers, health
  percentages, attack power, cast speed, float regeneration amounts, and the
  visibility and population floats. Float slots are carried as their 32-bit
  patterns and never computed with.
- The 5000-unit range test in the map's pairwise phase is a boolean input to
  the model, because it is float geometry.
- The database layer is left out: query execution, prepared statements, the
  delay thread and the save system. Query results are inputs, and writes the
  handlers issue are not modelled.
- Concurrency is left out: threads, mutexes, the network thread pool, the
  freeze detector and the actual sleeps. Locked code is modelled as
  sequential code.
- Clocks are left out. Times and tick lengths are parameters. The interval
  timer of the map manager is taken as `current += diff`, with "passed"
  meaning `current >= interval`, because Timer.h is not part of this model.
- Several headers are not part of this model: ByteBuffer.h, ObjectGuid.h,
  World.h, Timer.h and UpdateFields.h. The same goes for the header that
  defines the expected client builds. The `StrSplit` and `EndianConvert`
  helpers are not part of this model either.
  - Slot indices are fields of a layout record with a distinctness
    predicate.
  - The `Powers`, `MAP_*`, `SEC_*` and response-code enums are symbolic.
  - The world's session counters are taken from standard MaNGOS:
    registered sessions less queued ones.
  - `StrSplit` is taken to drop empty pieces.
  - The host is taken to be little-endian.
- `std::stoi` is not reproduced. Integer options take the `int32` the read
  produced. `atol` reads a build token as an unbounded integer, which is
  then cut to 32 bits, so the overflow of `long` is not modelled.
- `std::stoul` is modelled for base 10 with a 64-bit `unsigned long`. The
  whitespace it skips is the "C" locale's `isspace` set. Its exception is
  the `BadNumber` outcome of `LoadValues`, which keeps the slots already
  written. What the caller does with the escaping exception is not modelled.
- The `GetIntDefault` and `GetFloatDefault` configuration getters are left
  out.
- UTF-8 decoding and encoding, and wide-character case mapping, are
  parameters. Name normalisation maps case on ASCII letters only.
- The raw `LOGIN` and `REALM_RESULT` struct reads and writes of the
  authentication server are not modelled byte for byte. The login request a
  buffer holds comes from a decoding parameter, and a request is a fixed
  number of bytes.
  - Because of this, the model cannot exhibit two source behaviours: the
    `memcpy` into a `std::string`, which assumes the size of that type, and
    the nine-entry `REALM_RESULT` array overrunning with more realms.
  - The realm size byte is not set for build 0. The model fills in no
    entries then, as the code does.
  - The localised realm name is not modelled.
- MD5, SHA-1, the big-number session key and the password hash are left out,
  because they are foreign code. The login decision takes "the hash matches"
  as an input. `AuthCrypt.Init` takes a key of at least 40 bytes, the length
  it copies.
- The world loop's counter is 32 bits wide. Only its increment and the sleep
  balance are modelled, not the sleeping itself. `SelectWorker` is modelled
  over the workers' socket counts.
- `World::SaveAllPlayers`, the console runnable, the startup code and the
  movement handlers are left out. The movement handlers relay float
  coordinates.
- `Map::Add<T>` and `Map::Remove<T>` for non-players are left out, because
  they are templates referring to an undefined variable.
- `MapManager::CreateInstance` has its body commented out. It is modelled as
  inserting nothing.
- `WorldSession::HandleLogoutRequestOpcode` and its companions have empty
  bodies, so they change nothing and are left out.
- `Player::removeFromList` loops over null handles. Only its effect on the
  list is modelled: the entry for that GUID is erased.
- A GUID's counter is its low 32 bits, and the high part is a parameter.
- An object's type mask and GUID value are inputs to `_Create`.
- `SetLatency` and the rest of the world socket's bookkeeping that no decision
  reads are left out.
- MapManager.DoForAllMapsWithMapId: requires the map id to be below
  0xFFFFFFFF. The source's upper bound `mapId + 1` wraps to 0 for the last
  id, which makes the walk empty.
- WorldLoop.SleepBalances: states the balance without 32-bit wrap-around.
  `WorldLoop.NextSleep` carries the wrapped form.
- MapManager.InstanceIdsIncrease: states monotonicity only until the 32-bit
  counter wraps.
- ObjectGuid.GenerateIncreases: states monotonicity only until the 32-bit
  counter runs out.
- UnitModel.ModifyHealthClamps: states the clamped result only for a
  current value within the maximum and a sum that does not overflow `int32`.
  `UnitModel.ModifyHealth` computes the wrapped sum for every input.
- UnitModel.ModifyPowerClamps: the same restriction, on the power slot.
- MapManager.GetNumPlayersInInstances: the total is the unbounded sum. The
  source adds into a `uint32`, which would wrap past 2^32 - 1 players.
- ObjectMgr.GetPlayerClassLevelInfo: requires `CanReadLevel`, that the
  class's level table is loaded. With a class below `MAX_CLASSES` whose table
  is missing, the source reads through an unloaded table and crashes.
- ObjectMgr.GetXPForLevel: requires the level's row to exist. The source
  dereferences the null entry `LookupEntry` returns for a missing row and
  crashes.
- ObjectMgr.StoreCreateRow: requires the row's class to index the player
  info array. The source writes past the array for a larger class, which is
  undefined behaviour.
- PlayerLifecycle.Create: requires `CanInitStats` for a creatable class at
  level 1 whose start map `CreateMap` gives, because `InitStatsForLevel` then reads the level and experience
  tables. With those tables inconsistent, the source crashes.
- PlayerLifecycle.LoadFromDB: requires `CanInitStats` for the loaded row's
  class and level, for the same reason. With those tables inconsistent, the
  source crashes.
- PlayerLifecycle.LoadFromDB: uses the corrected `LoadStats`, so each stat
  takes its own column (see Findings); `LoadStatsAsWritten` is the shifted
  reading. The player's map is kept as the key `CreateMap` files it under;
  the map object and the position within it are not modelled.
- PlayerLifecycle.LoadSteps: uses the corrected `LoadStats` for the same
  reason.
- PlayerLifecycle.LoadStats: applies only the four stat columns; the block,
  dodge, parry and crit percentages are floats and the attack powers are
  left out with them (as written they, too, are read one column late, the
  last from `fields[11]`, past the row).
- CharacterHandler.HandlePlayerLogin: the load's outcome is an input
  (`loaded`, absent when `LoadFromDB` is refused) together with the map
  store; the slot effects of the load are `PlayerLifecycle.LoadFromDB`'s,
  and the two agree on which characters stop the server because both are
  stated through `MapManager.GivesMap`.
- CharacterHandler.CharCreate: `created` is the answer `Player::Create`
  returns; the class whose start map stops the server inside it is
  `PlayerLifecycle.Create`'s `NullMap` outcome and is not composed here.
- CharacterHandler.EnterWorldFinished: entering the world is recorded as
  the session's in-world flag. The `Map::Add` the handler calls (list link,
  `AddToWorld`, the player's own create block) is `Maps.AddPlayer`; the two
  are not composed because a session holds its player by id, not as an
  object with slots.

## Findings

| source | as written | input that shows it | evidently intended | confidence | as-written member | corrected member |
|---|---|---|---|---|---|---|
| src/game/Object/Object.cpp:443-447 | `SetByteValue` refuses only `offset > 4` | offset 4: `offset * 8` is 32, which names no byte lane of the slot | refuse `offset >= 4` | not executed | FieldStore.GuardsAdmitOffsetPastLastLane | FieldStore.SetByteValue |
| src/game/Object/Object.cpp:462-466 | `SetUInt16Value` refuses only `offset > 2` | offset 2: `offset * 16` is 32, past the slot's upper half | refuse `offset >= 2` | not executed | FieldStore.GuardsAdmitOffsetPastLastLane | FieldStore.SetUInt16Value |
| src/game/Server/PacketHandler/CharacterHandler.cpp:210-215 | `HandlePlayerEnterWorldfinished` calls `GetPlayer()->GetMap()` without a null check, although the opcode only asks for an authenticated session | a fresh session, out of the queue and without a player, sends `CMSG_ENTER_WORLD_FINISHED`: the handler dereferences a null player | ignore the packet when no player is attached | not executed | CharacterHandler.FreshSessionCrashesOnEnterWorld | CharacterHandler.EnterWorldFinished |
| src/game/Object/Player.cpp:471 | `LoadFromDB` calls `SetMap(sMapMgr.CreateMap(GetMapId(), this))`; `CreateMap` returns null for a map id the store lacks and for every instanced map (`CreateInstance` never sets its result), and `SetMap` (Object.cpp:362-368) asserts the map even in release builds | a character saved on an instanced map logs in; the load asserts in `SetMap` and the server stops | fail the load, so the handler kicks the client as for a refused load | not executed | CharacterHandler.HandlePlayerLogin | CharacterHandler.HandlePlayerLoginChecked |
| src/game/Object/Player.cpp:662-672 | `_LoadStats` reads the stats from `fields[1]` to `fields[4]` of a query whose first column (`fields[0]`) is strength, and reads `fields[11]` of eleven columns | any stats row with strength 10 and stamina 20: STR becomes 20 | read the stats from `fields[0]` to `fields[3]` | not executed | PlayerLifecycle.LoadStatsAsWritten | PlayerLifecycle.LoadStats |
| src/game/Object/Player.h:151-157 | `ModifyMoney` compares against `uint32(MAX_MONEY_AMOUNT - d)` for an unsigned `d`, and its `d < 0` branch can never run | an empty purse given `d = 0xFFFFFFFF`: the bound wraps to 0x7FFFFFFF, so the purse becomes 0xFFFFFFFF, above the cap | a signed delta whose credit caps at `MAX_MONEY_AMOUNT` and whose debit floors at 0 | not executed | PlayerModel.MoneyAfterAsWrittenExceedsCap | PlayerModel.MoneyAfter |

=== FILE: accessor.dfy ===
/**
 * The player registry: one map from GUID to player, filled and emptied by
 * the players themselves as they enter and leave the world, and the look-ups
 * built on it.  A player is a handle; what a look-up needs to know of it at
 * the time of the call is given by `players`.
 */
module ObjectAccessor {
  import opened Wrappers
  import opened Packet

  /** What the registry's users read from a player. */
  datatype PlayerView = PlayerView(guid: Quad, name: string, inWorld: bool, session: nat)

  /** `HashMapHolder<Player>`: GUID to player handle. */
  type Registry = map<Quad, nat>

  /** The empty GUID, which no look-up finds. */
  const EMPTY_GUID: Quad := 0

  /** `Insert` (and `AddObject`): the player's GUID now maps to it, replacing any earlier entry. */
  function Insert(reg: Registry, players: nat -> PlayerView, p: nat): (r: Registry)
    ensures r.Keys == reg.Keys + {players(p).guid}
    ensures r[players(p).guid] == p
    ensures forall g :: g in reg && g != players(p).guid ==> r[g] == reg[g]
  {
    reg[players(p).guid := p]
  }

  /** `Remove` (and `RemoveObject`): erases the player's GUID and nothing else. */
  function Remove(reg: Registry, players: nat -> PlayerView, p: nat): (r: Registry)
    ensures players(p).guid !in r
    ensures forall g :: g != players(p).guid ==> (g in r <==> g in reg)
    ensures forall g :: g in r ==> r[g] == reg[g]
  {
    reg - {players(p).guid}
  }

  /** `Find`: the mapped player, or nothing. */
  function Find(reg: Registry, guid: Quad): (r: Option<nat>)
    ensures r.Some? <==> guid in reg
    ensures r.Some? ==> r.value == reg[guid]
  {
    if guid in reg then Some(reg[guid]) else None
  }

  /** Inserting then finding gives the player back; finding another GUID is unaffected. */
  lemma InsertThenFind(reg: Registry, players: nat -> PlayerView, p: nat, g: Quad)
    ensures Find(Insert(reg, players, p), players(p).guid) == Some(p)
    ensures g != players(p).guid ==> Find(Insert(reg, players, p), g) == Find(reg, g)
  {
  }

  /** Removing a player hides it from `Find`, and removing undoes an insert of a new GUID. */
  lemma RemoveThenFind(reg: Registry, players: nat -> PlayerView, p: nat, g: Quad)
    ensures Find(Remove(reg, players, p), players(p).guid) == None
    ensures g != players(p).guid ==> Find(Remove(reg, players, p), g) == Find(reg, g)
    ensures players(p).guid !in reg ==> Remove(Insert(reg, players, p), players, p) == reg
  {
  }

  /**
   * `FindPlayer`: nothing for the empty GUID or an absent one; a registered
   * player that is out of the world is returned only when `inWorld` is not
   * asked for.
   */
  function FindPlayer(reg: Registry, players: nat -> PlayerView, guid: Quad, inWorld: bool): (r: Option<nat>)
    ensures r.Some? <==> guid != EMPTY_GUID && guid in reg && (players(reg[guid]).inWorld || !inWorld)
    ensures r.Some? ==> r.value == reg[guid]
  {
    if guid == EMPTY_GUID then None
    else match Find(reg, guid)
      case None => None
      case Some(p) => if !players(p).inWorld && inWorld then None else Some(p)
  }

  /** Asking for in-world players finds fewer: whatever it finds, the relaxed look-up finds too. */
  lemma FindPlayerInWorldIsStricter(reg: Registry, players: nat -> PlayerView, guid: Quad)
    ensures FindPlayer(reg, players, guid, true).Some? ==> FindPlayer(reg, players, guid, false) == FindPlayer(reg, players, guid, true)
  {
  }

  /**
   * `GetUnit`: nothing for the empty GUID; a player GUID goes to
   * `FindPlayer` (in-world only); every other GUID finds nothing, since the
   * creature look-up is not there.  Whether a GUID is a player's is decided
   * in ObjectGuid.h, so it is an input.
   */
  function GetUnit(reg: Registry, players: nat -> PlayerView, guid: Quad, isPlayerGuid: bool): (r: Option<nat>)
    ensures guid == EMPTY_GUID || !isPlayerGuid ==> r == None
    ensures guid != EMPTY_GUID && isPlayerGuid ==>
      (r.Some? <==> guid in reg && players(reg[guid]).inWorld)
    ensures r.Some? ==> r.value == reg[guid]
  {
    if guid == EMPTY_GUID then None
    else if isPlayerGuid then FindPlayer(reg, players, guid, true)
    else None
  }

  /** A player `FindPlayerByName` may return: registered, in the world, and named exactly `name`. */
  predicate NamedInWorld(reg: Registry, players: nat -> PlayerView, name: string, g: Quad) {
    g in reg && players(reg[g]).inWorld && players(reg[g]).name == name
  }

  /**
   * `FindPlayerByName`: a walk over the registry in its iteration order
   * (`order`, every key once), returning the first in-world player whose
   * name equals `name` exactly.
   */
  method FindPlayerByName(reg: Registry, players: nat -> PlayerView, order: seq<Quad>, name: string) returns (r: Option<nat>)
    requires forall g :: g in reg <==> g in order
    ensures r.Some? ==> exists g :: NamedInWorld(reg, players, name, g) && reg[g] == r.value
    ensures r.Some? ==> players(r.value).inWorld && players(r.value).name == name
    ensures r.None? <==> forall g :: g in reg ==> !NamedInWorld(reg, players, name, g)
  {
    var i := 0;
    while i < |order|
      invariant 0 <= i <= |order|
      invariant forall k :: 0 <= k < i ==> !NamedInWorld(reg, players, name, order[k])
    {
      var g := order[i];
      var p := reg[g];
      if players(p).inWorld && players(p).name == name {
        return Some(p);
      }
      i := i + 1;
    }
    return None;
  }

  /**
   * `KickPlayer`: looks the player up whether in the world or not, and names
   * the session to kick and log out without saving; nothing for an unknown
   * GUID.
   */
  function KickTarget(reg: Registry, players: nat -> PlayerView, guid: Quad): (r: Option<nat>)
    ensures r.Some? <==> guid != EMPTY_GUID && guid in reg
    ensures r.Some? ==> r.value == players(reg[guid]).session
  {
    match FindPlayer(reg, players, guid, false)
    case None => None
    case Some(p) => Some(players(p).session)
  }
}

=== FILE: auth_crypt.dfy ===
/**
 * The world-socket header cipher: a byte-wise stream cipher keyed by the
 * 40-byte session key.  The server encrypts the first 4 bytes of every
 * outgoing header and decrypts the first 6 bytes of every incoming one,
 * each direction with its own (index, previous cipher byte) pair.
 */
module AuthCrypt {
  import opened Word32

  /** The key length `Init` takes from the session key. */
  const KEY_LEN: nat := 40
  /** Header bytes encrypted on send and decrypted on receive. */
  const CRYPTED_SEND_LEN: nat := 4
  const CRYPTED_RECV_LEN: nat := 6

  /** A byte as the cipher sees it: `uint8` arithmetic wraps modulo 256. */
  type Octet = bv8

  datatype Crypt = Crypt(key: seq<Octet>, sendI: Byte, sendJ: Octet, recvI: Byte, recvJ: Octet, initialized: bool)

  /** The constructor: not initialized, so both directions pass data through. */
  function NewCrypt(): (c: Crypt)
    ensures !c.initialized
  {
    Crypt([], 0, 0, 0, 0, false)
  }

  /** Once initialized, the key has 40 bytes and neither index runs past it. */
  ghost predicate Valid(c: Crypt) {
    c.initialized ==> |c.key| == KEY_LEN && c.sendI <= KEY_LEN && c.recvI <= KEY_LEN
  }

  /** `Init`: the first 40 bytes of the session key, all indices and previous bytes zero. */
  function Init(c: Crypt, sessionKey: seq<Octet>): (r: Crypt)
    requires |sessionKey| >= KEY_LEN
    ensures r.initialized && Valid(r) && r.key == sessionKey[..KEY_LEN]
    ensures r.sendI == r.recvI == 0 && r.sendJ == r.recvJ == 0
  {
    Crypt(sessionKey[..KEY_LEN], 0, 0, 0, 0, true)
  }

  /** One byte through a direction: what it became, and the new index and previous cipher byte. */
  datatype Step = Step(out: Octet, i: Byte, j: Octet)

  /** The index wraps to the key's start before it is used, then moves on by one. */
  function NextIndex(key: seq<Octet>, i: Byte): (r: nat)
    requires 0 < |key| < 256
    ensures 1 <= r <= |key| && r == i % |key| + 1
  {
    i % |key| + 1
  }

  /** The key byte an index selects, after wrapping the index to the key's start. */
  function KeyAt(key: seq<Octet>, i: Byte): Octet
    requires 0 < |key| < 256
  {
    key[i % |key|]
  }

  /** The send direction: `c = (p xor key[i]) + j` in byte arithmetic; the cipher byte becomes `j`. */
  function EncryptStep(key: seq<Octet>, i: Byte, j: Octet, p: Octet): (r: Step)
    requires 0 < |key| < 256
    ensures r.i == NextIndex(key, i) && r.j == r.out
  {
    var c := Encrypt(p, KeyAt(key, i), j);
    Step(c, NextIndex(key, i), c)
  }

  /** The receive direction: `p = (c - j) xor key[i]` in byte arithmetic; the cipher byte becomes `j`. */
  function DecryptStep(key: seq<Octet>, i: Byte, j: Octet, c: Octet): (r: Step)
    requires 0 < |key| < 256
    ensures r.i == NextIndex(key, i) && r.j == c
  {
    Step(Decrypt(c, KeyAt(key, i), j), NextIndex(key, i), c)
  }

  /** One plain byte enciphered with key byte `k` after cipher byte `j`. */
  function Encrypt(p: Octet, k: Octet, j: Octet): Octet {
    (p ^ k) + j
  }

  /** One cipher byte deciphered with key byte `k` after cipher byte `j`. */
  function Decrypt(c: Octet, k: Octet, j: Octet): Octet {
    (c - j) ^ k
  }

  /** Subtracting what was added gives the byte back, modulo 256 as in `uint8`. */
  lemma AddSubCancel(x: Octet, j: Octet)
    ensures x + j - j == x
  {
  }

  /** Xoring twice with the same key byte gives the byte back. */
  lemma XorTwice(p: Octet, k: Octet)
    ensures (p ^ k) ^ k == p
  {
  }

  /** Deciphering undoes enciphering for the same key byte and previous cipher byte. */
  lemma Cancel(p: Octet, k: Octet, j: Octet)
    ensures Decrypt(Encrypt(p, k, j), k, j) == p
  {
    var x := p ^ k;
    AddSubCancel(x, j);
    XorTwice(p, k);
    assert Encrypt(p, k, j) - j == x;
  }

  /** With the same index and previous byte, decrypting a step's output gives its input back and the same state. */
  lemma StepRoundTrip(key: seq<Octet>, i: Byte, j: Octet, p: Octet)
    requires 0 < |key| < 256
    ensures var e := EncryptStep(key, i, j, p);
      DecryptStep(key, i, j, e.out) == Step(p, e.i, e.j)
  {
    Cancel(p, KeyAt(key, i), j);
  }

  /** A run of bytes through one direction, with the state it ends in. */
  datatype Run = Run(out: seq<Octet>, i: Byte, j: Octet)

  function EncryptRun(key: seq<Octet>, i: Byte, j: Octet, data: seq<Octet>): (r: Run)
    requires 0 < |key| < 256
    ensures |r.out| == |data|
    ensures data == [] ==> r == Run([], i, j)
    ensures data != [] ==> r.j == r.out[|data| - 1] && 1 <= r.i <= |key|
    decreases |data|
  {
    if data == [] then Run([], i, j)
    else
      var s := EncryptStep(key, i, j, data[0]);
      var rest := EncryptRun(key, s.i, s.j, data[1..]);
      Run([s.out] + rest.out, rest.i, rest.j)
  }

  function DecryptRun(key: seq<Octet>, i: Byte, j: Octet, data: seq<Octet>): (r: Run)
    requires 0 < |key| < 256
    ensures |r.out| == |data|
    ensures data == [] ==> r == Run([], i, j)
    ensures data != [] ==> r.j == data[|data| - 1] && 1 <= r.i <= |key|
    decreases |data|
  {
    if data == [] then Run([], i, j)
    else
      var s := DecryptStep(key, i, j, data[0]);
      var rest := DecryptRun(key, s.i, s.j, data[1..]);
      Run([s.out] + rest.out, rest.i, rest.j)
  }

  /**
   * The two directions are inverse: started from the same state, decrypting
   * what encryption produced restores the plain bytes and ends in the state
   * encryption ended in.
   */
  lemma {:induction false} RunRoundTrip(key: seq<Octet>, i: Byte, j: Octet, data: seq<Octet>)
    requires 0 < |key| < 256
    ensures var e := EncryptRun(key, i, j, data);
      DecryptRun(key, i, j, e.out) == Run(data, e.i, e.j)
    decreases |data|
  {
    if data != [] {
      var s := EncryptStep(key, i, j, data[0]);
      var e := EncryptRun(key, i, j, data);
      var tail := EncryptRun(key, s.i, s.j, data[1..]);
      assert e.out == [s.out] + tail.out;
      assert e.out[0] == s.out && e.out[1..] == tail.out;
      StepRoundTrip(key, i, j, data[0]);
      RunRoundTrip(key, s.i, s.j, data[1..]);
      var d := DecryptStep(key, i, j, s.out);
      assert DecryptRun(key, i, j, e.out) == Run([d.out] + DecryptRun(key, d.i, d.j, tail.out).out, e.i, e.j);
      assert [data[0]] + data[1..] == data;
    }
  }

  /**
   * `EncryptSend`: a no-op before `Init` or on fewer than 4 bytes; otherwise
   * the first 4 bytes are encrypted and the rest are left as they are.
   */
  function EncryptSend(c: Crypt, data: seq<Octet>): (r: (Crypt, seq<Octet>))
    requires Valid(c)
    ensures Valid(r.0) && |r.1| == |data| && r.0.key == c.key && r.0.initialized == c.initialized
    ensures r.0.recvI == c.recvI && r.0.recvJ == c.recvJ
    ensures !c.initialized || |data| < CRYPTED_SEND_LEN ==> r == (c, data)
    ensures c.initialized && |data| >= CRYPTED_SEND_LEN ==>
      var e := EncryptRun(c.key, c.sendI, c.sendJ, data[..CRYPTED_SEND_LEN]);
      r.1 == e.out + data[CRYPTED_SEND_LEN..] && r.0.sendI == e.i && r.0.sendJ == e.j
  {
    if !c.initialized || |data| < CRYPTED_SEND_LEN then (c, data)
    else
      var e := EncryptRun(c.key, c.sendI, c.sendJ, data[..CRYPTED_SEND_LEN]);
      (c.(sendI := e.i, sendJ := e.j), e.out + data[CRYPTED_SEND_LEN..])
  }

  /**
   * `DecryptRecv`: a no-op before `Init` or on fewer than 6 bytes; otherwise
   * the first 6 bytes are decrypted and the rest are left as they are.
   */
  function DecryptRecv(c: Crypt, data: seq<Octet>): (r: (Crypt, seq<Octet>))
    requires Valid(c)
    ensures Valid(r.0) && |r.1| == |data| && r.0.key == c.key && r.0.initialized == c.initialized
    ensures r.0.sendI == c.sendI && r.0.sendJ == c.sendJ
    ensures !c.initialized || |data| < CRYPTED_RECV_LEN ==> r == (c, data)
    ensures c.initialized && |data| >= CRYPTED_RECV_LEN ==>
      var d := DecryptRun(c.key, c.recvI, c.recvJ, data[..CRYPTED_RECV_LEN]);
      r.1 == d.out + data[CRYPTED_RECV_LEN..] && r.0.recvI == d.i && r.0.recvJ == d.j
  {
    if !c.initialized || |data| < CRYPTED_RECV_LEN then (c, data)
    else
      var d := DecryptRun(c.key, c.recvI, c.recvJ, data[..CRYPTED_RECV_LEN]);
      (c.(recvI := d.i, recvJ := d.j), d.out + data[CRYPTED_RECV_LEN..])
  }

  /**
   * A peer whose receive state equals this side's send state recovers a
   * header this side encrypted, and ends in this side's new send state.
   */
  lemma SendThenReceive(sender: Crypt, receiver: Crypt, data: seq<Octet>)
    requires Valid(sender) && Valid(receiver) && sender.initialized && receiver.initialized
    requires receiver.key == sender.key && receiver.recvI == sender.sendI && receiver.recvJ == sender.sendJ
    requires |data| == CRYPTED_SEND_LEN
    ensures var r := EncryptSend(sender, data);
      DecryptRun(receiver.key, receiver.recvI, receiver.recvJ, r.1) == Run(data, r.0.sendI, r.0.sendJ)
  {
    assert data[..CRYPTED_SEND_LEN] == data && data[CRYPTED_SEND_LEN..] == [];
    RunRoundTrip(sender.key, sender.sendI, sender.sendJ, data);
    assert EncryptSend(sender, data).1 == EncryptRun(sender.key, sender.sendI, sender.sendJ, data).out;
  }

  /** Both directions keep the indices within the key, whatever the data. */
  lemma IndicesStayWithinKey(c: Crypt, data: seq<Octet>)
    requires Valid(c) && c.initialized
    ensures EncryptSend(c, data).0.sendI <= |c.key| && DecryptRecv(c, data).0.recvI <= |c.key|
  {
  }
}

=== FILE: auth_socket.dfy ===
/**
 * The auth server's connection: the command table that gates what a
 * client may send, the login decision, and the realm list reply.
 *
 * The raw struct reads are not modelled byte by byte: the login request a
 * buffer holds is given by a decoding parameter, and the answers of the
 * login database (the address ban, the account row, the account ban, the
 * per-realm character counts) and the clock are inputs.
 */
module AuthSocket {
  import opened Wrappers
  import opened Word32
  import opened Text
  import opened SharedDefines
  import opened RealmList

  // ----- commands and results -----

  /** `eAuthCmd`. */
  const CMD_AUTH_LOGIN: Byte := 0x00
  const CMD_REALM_LIST: Byte := 0x01

  /** The `AuthResult` codes the login handler answers with. */
  const ORIGIN_SUCCESS: Byte := 0x00
  const ORIGIN_FAIL_BANNED: Byte := 0x03
  const ORIGIN_FAIL_UNKNOWN_ACCOUNT: Byte := 0x04
  const ORIGIN_FAIL_SUSPENDED: Byte := 0x0C

  /**
   * `sizeof(LOGIN)` with one-byte packing: the command byte, a
   * `std::string` object (32 bytes in the usual 64-bit library), the
   * 33-byte password and the `uint32` build.
   */
  const LOGIN_SIZE: nat := 1 + 32 + 33 + 4

  /** The bytes a realm list request occupies. */
  const REALM_LIST_SIZE: nat := 5

  /** `eStatus`: what a command needs of the connection. */
  datatype CmdStatus = StatusConnected | StatusAuthed

  datatype Handler = HandleOnLogin | HandleRealmList

  /** An `AuthHandler` table row. */
  datatype AuthHandler = AuthHandler(cmd: Byte, status: CmdStatus, handler: Handler)

  /** The command table: a login at any time, a realm list once authenticated. */
  const AUTH_TABLE: seq<AuthHandler> :=
    [AuthHandler(CMD_AUTH_LOGIN, StatusConnected, HandleOnLogin),
     AuthHandler(CMD_REALM_LIST, StatusAuthed, HandleRealmList)]

  /** The table row for a command: the first with that command, if any. */
  function LookupCmd(table: seq<AuthHandler>, cmd: Byte): (r: Option<AuthHandler>)
    ensures r.Some? ==> r.value in table && r.value.cmd == cmd
    ensures r.None? <==> forall k :: 0 <= k < |table| ==> table[k].cmd != cmd
  {
    if table == [] then None
    else if table[0].cmd == cmd then Some(table[0])
    else
      var r := LookupCmd(table[1..], cmd);
      assert forall k :: 1 <= k < |table| ==> table[k] == table[1..][k - 1];
      r
  }

  /** Whether a row's status lets the connection run it now. */
  predicate Permitted(status: CmdStatus, authed: bool) {
    status == StatusConnected || (authed && status == StatusAuthed)
  }

  // ----- the login decision -----

  /** The `LOGIN` struct's fields, as a decoded request. */
  datatype LoginRequest = LoginRequest(username: string, password: string, build: Word)

  /** The `account` row: password hash, id, the IP lock flag, the last address and the GM level. */
  datatype AccountRow = AccountRow(md5: string, id: Word, locked: Byte, lastIp: string, gmlevel: Byte)

  /** An active `account_banned` row. */
  datatype BanRow = BanRow(bandate: nat, unbandate: nat)

  /**
   * The login database's answers: whether the connecting address is
   * banned, the account row for a user name, and an active ban for an
   * account id.
   */
  datatype LoginDb = LoginDb(ipBanned: bool, accounts: string -> Option<AccountRow>, bans: Word -> Option<BanRow>)

  /** The result of a login attempt, and the security level it grants. */
  datatype Verdict = Verdict(code: Byte, security: nat)

  /**
   * `_HandleOnLogin`'s decision: a banned address is refused as banned; an
   * unknown user as an unknown account; an account locked to another
   * address as suspended; an account under an active ban as banned when
   * the ban is permanent (its end equals its start) and suspended
   * otherwise; then the password hash decides between success, at the
   * account's level capped at administrator, and an unknown account.
   */
  function Decide(address: string, db: LoginDb, req: LoginRequest): (v: Verdict)
    ensures v.code != ORIGIN_SUCCESS ==> v.security == SEC_PLAYER
    ensures v.security <= SEC_ADMINISTRATOR
  {
    if db.ipBanned then Verdict(ORIGIN_FAIL_BANNED, SEC_PLAYER)
    else match db.accounts(req.username)
      case None => Verdict(ORIGIN_FAIL_UNKNOWN_ACCOUNT, SEC_PLAYER)
      case Some(acc) =>
        if acc.locked == 1 && acc.lastIp != address then Verdict(ORIGIN_FAIL_SUSPENDED, SEC_PLAYER)
        else match db.bans(acc.id)
          case Some(ban) =>
            Verdict(if ban.bandate == ban.unbandate then ORIGIN_FAIL_BANNED else ORIGIN_FAIL_SUSPENDED, SEC_PLAYER)
          case None =>
            if acc.md5 == req.password then Verdict(ORIGIN_SUCCESS, CapSecurity(acc.gmlevel))
            else Verdict(ORIGIN_FAIL_UNKNOWN_ACCOUNT, SEC_PLAYER)
  }

  /** Whether the account may log in from `address`: not locked to some other address. */
  predicate FromAllowedAddress(acc: AccountRow, address: string) {
    !(acc.locked == 1 && acc.lastIp != address)
  }

  /**
   * Each outcome in terms of the facts alone: success exactly when the
   * address is not banned, the account exists, is not locked elsewhere,
   * has no active ban and the hash matches (with the level capped at
   * administrator); banned exactly when the address is banned or the
   * reachable ban is permanent; suspended exactly when the lock or a
   * temporary ban stops it; and the code is always one of these four.
   */
  lemma DecideOutcomes(address: string, db: LoginDb, req: LoginRequest)
    ensures var v := Decide(address, db, req);
      var acc := db.accounts(req.username);
      var reachable := !db.ipBanned && acc.Some? && FromAllowedAddress(acc.value, address);
      (v.code == ORIGIN_SUCCESS <==>
         reachable && db.bans(acc.value.id).None? && acc.value.md5 == req.password)
      && (v.code == ORIGIN_SUCCESS ==> v.security == CapSecurity(acc.value.gmlevel))
      && (v.code == ORIGIN_FAIL_BANNED <==>
         db.ipBanned || (reachable && db.bans(acc.value.id).Some?
                         && db.bans(acc.value.id).value.bandate == db.bans(acc.value.id).value.unbandate))
      && (v.code == ORIGIN_FAIL_SUSPENDED <==>
         !db.ipBanned && acc.Some? && (!FromAllowedAddress(acc.value, address)
           || (db.bans(acc.value.id).Some?
               && db.bans(acc.value.id).value.bandate != db.bans(acc.value.id).value.unbandate)))
      && v.code in {ORIGIN_SUCCESS, ORIGIN_FAIL_BANNED, ORIGIN_FAIL_UNKNOWN_ACCOUNT, ORIGIN_FAIL_SUSPENDED}
  {
  }

  // ----- the connection -----

  /** A realm as the realm list reply describes it. */
  datatype RealmEntry = RealmEntry(icon: Byte, flags: Byte, name: string, address: string, chars: Byte,
                                   timezone: Byte, id: Word)

  /** What the server writes back: a login result, or the realm list (its count byte left unset for build 0). */
  datatype AuthReply =
    | LoginResult(code: Byte)
    | RealmListResult(size: Option<Byte>, realms: seq<RealmEntry>)

  /**
   * An auth connection: unread input, whether a login succeeded, the user
   * name and build of the last login attempt, the security level, whether
   * the connection was closed, and the replies written.
   */
  datatype AuthConn = AuthConn(input: seq<Byte>, authed: bool, login: string, build: Half, security: nat,
                               closed: bool, sent: seq<AuthReply>)

  /** A new connection: nothing read, not authenticated, build 0, player level. */
  function NewConn(input: seq<Byte>): (c: AuthConn)
    ensures c.input == input && !c.authed && c.build == 0 && c.security == SEC_PLAYER && !c.closed && c.sent == []
  {
    AuthConn(input, false, [], 0, SEC_PLAYER, false, [])
  }

  /**
   * The inputs of a connection: how a login struct's bytes decode, the
   * client's address, the login database, the clock (seconds), the
   * `realmlist` rows a reload reads, and the `realmcharacters` count for a
   * realm id and account id.
   */
  datatype AuthEnv = AuthEnv(decode: seq<Byte> -> LoginRequest, address: string, db: LoginDb, now: int,
                             realmRows: seq<RealmRow>, numChars: (Word, Word) -> Option<nat>)

  /**
   * `_HandleOnLogin`: with less than a whole `LOGIN` struct buffered it
   * fails and reads nothing; otherwise it reads the struct, remembers the
   * user name and the build (as a `uint16`), resets the level to player,
   * decides, and answers with the result.  Only a success authenticates
   * the connection and sets the level; a failure does not undo an earlier
   * success.  The handler succeeds whatever the result.
   */
  function OnLogin(c: AuthConn, env: AuthEnv): (r: (bool, AuthConn))
    ensures |c.input| < LOGIN_SIZE ==> r == (false, c)
    ensures |c.input| >= LOGIN_SIZE ==> (r.0 && r.1.input == c.input[LOGIN_SIZE..]
      && |r.1.sent| == |c.sent| + 1 && r.1.sent[..|c.sent|] == c.sent)
  {
    if |c.input| < LOGIN_SIZE then (false, c)
    else
      var req := env.decode(c.input[..LOGIN_SIZE]);
      var v := Decide(env.address, env.db, req);
      (true, c.(input := c.input[LOGIN_SIZE..], login := req.username, build := req.build % 0x1_0000,
                security := v.security, authed := c.authed || v.code == ORIGIN_SUCCESS,
                sent := c.sent + [LoginResult(v.code)]))
  }

  /** The version a realm name is suffixed with: `" (%u,%u,%u)"` in a 20-byte buffer, so at most 19 characters. */
  function VersionSuffix(info: BuildInfo): (r: string)
    ensures |r| <= 19
  {
    var full := " (" + ToDecimal(info.major) + "," + ToDecimal(info.minor) + "," + ToDecimal(info.bugfix) + ")";
    if |full| <= 19 then full else full[..19]
  }

  /**
   * One realm of the reply: the account's character count there (a byte,
   * 0 without a row), the name with the version appended when the realm
   * asks for it (the client's build's version when the realm lists that
   * build and the table knows it, else the realm's own), and the stored
   * flags as they are.
   */
  function EntryFor(e: Named, build: Half, acct: Word, numChars: (Word, Word) -> Option<nat>): (r: RealmEntry)
    ensures r.id == e.realm.id && r.flags == e.realm.flags && r.address == e.realm.address
    ensures |r.name| >= |e.name| && r.name[..|e.name|] == e.name
  {
    var realm := e.realm;
    var chars := match numChars(realm.id, acct) case Some(n) => n % 256 case None => 0;
    var found := FindBuildInfo(build);
    var info := if build in realm.builds && found.Some? then found.value else realm.buildInfo;
    var name := if HasRealmFlag(realm.flags, REALM_FLAG_SPECIFYBUILD) then e.name + VersionSuffix(info) else e.name;
    RealmEntry(realm.icon, realm.flags, name, realm.address, chars, realm.timezone, realm.id)
  }

  /**
   * `LoadRealmlist`: for build 0 nothing is filled in; otherwise the count
   * (as a byte) and one entry per realm, in name order.
   */
  function LoadRealmlist(build: Half, realms: seq<Named>, acct: Word, numChars: (Word, Word) -> Option<nat>): (r: AuthReply)
    ensures r.RealmListResult?
    ensures build == 0 ==> r == RealmListResult(None, [])
    ensures build != 0 ==> (r.size == Some(|realms| % 256) && |r.realms| == |realms|
      && forall k :: 0 <= k < |realms| ==> r.realms[k] == EntryFor(realms[k], build, acct, numChars))
  {
    if build == 0 then RealmListResult(None, [])
    else RealmListResult(Some(|realms| % 256), seq(|realms|, k requires 0 <= k < |realms| => EntryFor(realms[k], build, acct, numChars)))
  }

  /**
   * The name a realm shows: its own without the build flag; with it, the
   * version 0.1.0 for a client build of 1499 or more that the realm lists,
   * and the realm's own version otherwise.
   */
  lemma EntryNames(e: Named, build: Half, acct: Word, numChars: (Word, Word) -> Option<nat>)
    ensures !HasRealmFlag(e.realm.flags, REALM_FLAG_SPECIFYBUILD) ==> EntryFor(e, build, acct, numChars).name == e.name
    ensures HasRealmFlag(e.realm.flags, REALM_FLAG_SPECIFYBUILD) && build in e.realm.builds && build >= 1499 ==>
      EntryFor(e, build, acct, numChars).name == e.name + " (0,1,0)"
    ensures HasRealmFlag(e.realm.flags, REALM_FLAG_SPECIFYBUILD) && (build !in e.realm.builds || build < 1499) ==>
      EntryFor(e, build, acct, numChars).name == e.name + VersionSuffix(e.realm.buildInfo)
  {
    FindBuildInfoShipped(build);
    assert ToDecimal(0) == "0" && ToDecimal(1) == "1";
  }

  /**
   * `_HandleRealmList`: fails with fewer than 5 bytes buffered; skips them;
   * closes the connection and fails when the last login's user is not in
   * the database; otherwise reloads the realm list if due and answers
   * with it.
   */
  function OnRealmList(c: AuthConn, list: RealmListState, env: AuthEnv): (r: (bool, AuthConn, RealmListState))
    requires Valid(list)
    ensures Valid(r.2)
    ensures |c.input| < REALM_LIST_SIZE ==> r == (false, c, list)
    ensures |c.input| >= REALM_LIST_SIZE ==> r.1.input == c.input[REALM_LIST_SIZE..]
    ensures |c.input| >= REALM_LIST_SIZE && env.db.accounts(c.login).None? ==>
      !r.0 && r.1.closed && r.1.sent == c.sent && r.2 == list
    ensures |c.input| >= REALM_LIST_SIZE && env.db.accounts(c.login).Some? ==>
      r.0 && r.2 == UpdateIfNeed(list, env.now, env.realmRows)
      && r.1.sent == c.sent + [LoadRealmlist(c.build, r.2.realms, env.db.accounts(c.login).value.id, env.numChars)]
  {
    if |c.input| < REALM_LIST_SIZE then (false, c, list)
    else
      var c1 := c.(input := c.input[REALM_LIST_SIZE..]);
      match env.db.accounts(c.login)
      case None => (false, c1.(closed := true), list)
      case Some(acc) =>
        var list1 := UpdateIfNeed(list, env.now, env.realmRows);
        (true, c1.(sent := c1.sent + [LoadRealmlist(c.build, list1.realms, acc.id, env.numChars)]), list1)
  }

  /** The outcome of `ProcessIncomingData`: its answer, the connection after it, and the realm list. */
  datatype Processed = Processed(ok: bool, conn: AuthConn, list: RealmListState)

  /**
   * `ProcessIncomingData`: while input remains, look the first byte up in
   * the command table; an unknown command, a command the connection may
   * not run yet, or a failing handler ends the call with false; otherwise
   * the next command follows.  Running out of input is success.
   */
  function ProcessIncomingData(c: AuthConn, list: RealmListState, env: AuthEnv): (r: Processed)
    requires Valid(list)
    ensures Valid(r.list)
    ensures r.ok ==> r.conn.input == []
    ensures c.authed ==> r.conn.authed
    ensures |r.conn.sent| >= |c.sent| && r.conn.sent[..|c.sent|] == c.sent
    decreases |c.input|
  {
    if c.input == [] then Processed(true, c, list)
    else
      match LookupCmd(AUTH_TABLE, c.input[0])
      case None => Processed(false, c, list)
      case Some(h) =>
        if !Permitted(h.status, c.authed) then Processed(false, c, list)
        else if h.handler == HandleOnLogin then
          var (ok, c1) := OnLogin(c, env);
          if !ok then Processed(false, c1, list)
          else
            var r := ProcessIncomingData(c1, list, env);
            assert r.conn.sent[..|c.sent|] == r.conn.sent[..|c1.sent|][..|c.sent|];
            r
        else
          var (ok, c1, list1) := OnRealmList(c, list, env);
          if !ok then Processed(false, c1, list1)
          else
            var r := ProcessIncomingData(c1, list1, env);
            assert r.conn.sent[..|c.sent|] == r.conn.sent[..|c1.sent|][..|c.sent|];
            r
  }

  /**
   * The gate: an unknown command is refused and reads nothing; a realm
   * list request before any successful login is refused, reads nothing and
   * is not answered; a login is always let through to its handler.
   */
  lemma Gating(c: AuthConn, list: RealmListState, env: AuthEnv)
    requires Valid(list) && c.input != []
    ensures c.input[0] != CMD_AUTH_LOGIN && c.input[0] != CMD_REALM_LIST ==>
      ProcessIncomingData(c, list, env) == Processed(false, c, list)
    ensures c.input[0] == CMD_REALM_LIST && !c.authed ==>
      ProcessIncomingData(c, list, env) == Processed(false, c, list)
    ensures c.input[0] == CMD_AUTH_LOGIN && |c.input| < LOGIN_SIZE ==>
      ProcessIncomingData(c, list, env) == Processed(false, c, list)
    ensures c.input[0] == CMD_AUTH_LOGIN && |c.input| >= LOGIN_SIZE ==>
      ProcessIncomingData(c, list, env) == ProcessIncomingData(OnLogin(c, env).1, list, env)
  {
    assert AUTH_TABLE[0].cmd == CMD_AUTH_LOGIN && AUTH_TABLE[1].cmd == CMD_REALM_LIST;
  }

  /**
   * Only a successful login authenticates: a login whose result is not
   * success leaves the connection exactly as authenticated as it was, at
   * player level; a success authenticates it at the account's capped
   * level.
   */
  lemma LoginAuthenticates(c: AuthConn, env: AuthEnv)
    requires |c.input| >= LOGIN_SIZE
    ensures var c1 := OnLogin(c, env).1;
      var v := Decide(env.address, env.db, env.decode(c.input[..LOGIN_SIZE]));
      c1.sent[|c.sent|] == LoginResult(v.code)
      && (c1.authed <==> c.authed || v.code == ORIGIN_SUCCESS)
      && c1.security <= SEC_ADMINISTRATOR
      && (v.code != ORIGIN_SUCCESS ==> c1.security == SEC_PLAYER)
  {
  }

  /**
   * A failed login after a successful one keeps the connection
   * authenticated yet replaces the remembered user name, so a following
   * realm list request is let through and answered for the account of the
   * failed attempt.
   */
  lemma FailedLoginKeepsAuth(c: AuthConn, list: RealmListState, env: AuthEnv)
    requires Valid(list) && c.authed && |c.input| >= LOGIN_SIZE
    requires Decide(env.address, env.db, env.decode(c.input[..LOGIN_SIZE])).code != ORIGIN_SUCCESS
    ensures var c1 := OnLogin(c, env).1;
      c1.authed && c1.login == env.decode(c.input[..LOGIN_SIZE]).username
      && (c1.input != [] && c1.input[0] == CMD_REALM_LIST && |c1.input| >= REALM_LIST_SIZE
          && env.db.accounts(c1.login).Some? ==>
            var r := ProcessIncomingData(c1, list, env);
            |r.conn.sent| > |c1.sent|
            && r.conn.sent[|c1.sent|] == LoadRealmlist(c1.build, UpdateIfNeed(list, env.now, env.realmRows).realms,
                                                       env.db.accounts(c1.login).value.id, env.numChars))
  {
    var c1 := OnLogin(c, env).1;
    if c1.input != [] && c1.input[0] == CMD_REALM_LIST && |c1.input| >= REALM_LIST_SIZE && env.db.accounts(c1.login).Some? {
      assert AUTH_TABLE[0].cmd != CMD_REALM_LIST && AUTH_TABLE[1].cmd == CMD_REALM_LIST;
      var (ok, c2, list2) := OnRealmList(c1, list, env);
      var r2 := ProcessIncomingData(c2, list2, env);
      assert r2.conn.sent[..|c2.sent|] == c2.sent;
      assert c2.sent[|c1.sent|] == r2.conn.sent[|c1.sent|];
    }
  }
}

=== FILE: character_handler.dfy ===
/**
 * The character screen handlers of a world session: the character list
 * packet, character creation's sequence of checks, the two halves of a
 * player login, entering the world, and character deletion.
 *
 * Database answers are inputs.  The UTF-8 conversions are parameters; the
 * wide-character case mappings are taken on ASCII letters (`toupper` and
 * `tolower` in the "C" locale).  The result codes are kept symbolic, since
 * their numeric values live in a header that is not part of this model.
 */
module CharacterHandler {
  import opened Wrappers
  import opened Word32
  import opened Text
  import opened Packet
  import opened Opcodes
  import opened ObjectMgr
  import opened WorldSessions
  import MapEntries
  import MapManager

  // ----- names -----

  /** `MAX_INTERNAL_PLAYER_NAME`: the wide buffer a name is decoded into. */
  const MAX_INTERNAL_PLAYER_NAME: nat := 15

  /**
   * The UTF-8 conversions: decoding into a buffer of the given capacity
   * (failing when the text does not decode or does not fit), and encoding
   * back (failing when the wide text cannot be encoded).
   */
  datatype Codec = Codec(toWide: (string, nat) -> Option<string>, toUtf8: string -> Option<string>)

  /** First letter upper case, the rest lower case. */
  function Capitalize(w: string): (r: string)
    ensures |r| == |w|
    ensures w != [] ==> r[0] == UpperChar(w[0]) && r[1..] == ToLower(w[1..])
  {
    if w == [] then [] else [UpperChar(w[0])] + ToLower(w[1..])
  }

  /**
   * `normalizePlayerName`: an empty name, or one that does not decode into
   * 15 wide characters or does not encode back, is refused; otherwise the
   * name becomes its capitalised form.
   */
  function NormalizePlayerName(name: string, codec: Codec): (r: Option<string>)
    ensures name == [] ==> r.None?
    ensures r.Some? ==> (codec.toWide(name, MAX_INTERNAL_PLAYER_NAME).Some?
      && codec.toUtf8(Capitalize(codec.toWide(name, MAX_INTERNAL_PLAYER_NAME).value)) == r)
  {
    if name == [] then None
    else
      match codec.toWide(name, MAX_INTERNAL_PLAYER_NAME)
      case None => None
      case Some(w) => codec.toUtf8(Capitalize(w))
  }

  /** A codec that carries short names of ASCII letters through unchanged, as UTF-8 does. */
  ghost predicate AsciiCodec(codec: Codec) {
    (forall s :: AllLetters(s) && |s| <= MAX_INTERNAL_PLAYER_NAME ==> codec.toWide(s, MAX_INTERNAL_PLAYER_NAME) == Some(s))
    && (forall s :: AllLetters(s) ==> codec.toUtf8(s) == Some(s))
  }

  /** Case mapping keeps a string of letters a string of letters. */
  lemma CapitalizeLetters(w: string)
    requires AllLetters(w)
    ensures AllLetters(Capitalize(w))
  {
    if w != [] {
      var r := Capitalize(w);
      forall i | 0 <= i < |r| ensures IsLetter(r[i]) {
        if i > 0 {
          assert r[i] == r[1..][i - 1] == LowerChar(w[1..][i - 1]);
        }
      }
    }
  }

  /**
   * On a name of one to 15 ASCII letters normalisation succeeds, gives the
   * capitalised name, and is idempotent: a normalised name normalises to
   * itself.
   */
  lemma NormalizeAsciiName(name: string, codec: Codec)
    requires AsciiCodec(codec) && AllLetters(name) && 0 < |name| <= MAX_INTERNAL_PLAYER_NAME
    ensures NormalizePlayerName(name, codec) == Some(Capitalize(name))
    ensures NormalizePlayerName(Capitalize(name), codec) == Some(Capitalize(name))
  {
    CapitalizeLetters(name);
    var c := Capitalize(name);
    assert codec.toWide(name, MAX_INTERNAL_PLAYER_NAME) == Some(name);
    assert codec.toUtf8(c) == Some(c);
    assert codec.toWide(c, MAX_INTERNAL_PLAYER_NAME) == Some(c);
    CapitalizeTwice(name);
  }

  /** Capitalising twice is capitalising once. */
  lemma CapitalizeTwice(w: string)
    ensures Capitalize(Capitalize(w)) == Capitalize(w)
  {
    if w != [] {
      var c := Capitalize(w);
      ToLowerIdempotent(w[1..]);
      assert c[1..] == ToLower(w[1..]);
    }
  }

  // ----- the character list -----

  /** One row of the character list query; the coordinates are the floats' bit patterns. */
  datatype CharRow = CharRow(guid: Word, name: string, cls: Byte, gender: Byte, money: Word,
                             playerBytes: Word, playerBytes2: Word, level: Byte, zone: Word, mapId: Word,
                             x: Word, y: Word, z: Word)

  /** The number of items each character adds to the list. */
  const ENUM_ROW_ITEMS: nat := 17

  /**
   * One character in `SMSG_CHAR_ENUM`: guid, name, class, gender, money,
   * the four appearance bytes of `playerBytes` (hair, hair colour, jaw,
   * skin), the two low bytes of `playerBytes2` (nose, eyes), level, zone,
   * map and position.
   */
  function EnumRow(row: CharRow): (r: seq<Item>)
    ensures |r| == ENUM_ROW_ITEMS
  {
    var b := Lanes(row.playerBytes);
    var b2 := Lanes(row.playerBytes2);
    [U32(row.guid), Str(row.name), U8(row.cls), U8(row.gender), U32(row.money),
     U8(b[0]), U8(b[1]), U8(b[2]), U8(b[3]), U8(b2[0]), U8(b2[1]),
     U8(row.level), U32(row.zone), U32(row.mapId), Float(row.x), Float(row.y), Float(row.z)]
  }

  /** Blocks of items, one after the other. */
  function ConcatBlocks(blocks: seq<seq<Item>>): (r: seq<Item>)
  {
    if blocks == [] then [] else blocks[0] + ConcatBlocks(blocks[1..])
  }

  /** Blocks of one size `n` make `n` items each. */
  lemma {:induction false} ConcatBlocksLength(blocks: seq<seq<Item>>, n: nat)
    requires forall i :: 0 <= i < |blocks| ==> |blocks[i]| == n
    ensures |ConcatBlocks(blocks)| == n * |blocks|
    decreases |blocks|
  {
    if blocks != [] {
      ConcatBlocksLength(blocks[1..], n);
    }
  }

  /** Concatenation distributes over splitting the blocks. */
  lemma {:induction false} ConcatBlocksAppend(a: seq<seq<Item>>, b: seq<seq<Item>>)
    ensures ConcatBlocks(a + b) == ConcatBlocks(a) + ConcatBlocks(b)
    decreases |a|
  {
    if a != [] {
      ConcatBlocksAppend(a[1..], b);
      assert (a + b)[1..] == a[1..] + b;
    } else {
      assert a + b == b;
    }
  }

  /** Blocks of one size `n`: block `k`'s item `j` is item `n * k + j` of the whole. */
  lemma ConcatBlocksAt(blocks: seq<seq<Item>>, n: nat, k: nat, j: nat)
    requires forall i :: 0 <= i < |blocks| ==> |blocks[i]| == n
    requires k < |blocks| && j < n
    ensures |ConcatBlocks(blocks[..k])| == n * k
    ensures |ConcatBlocks(blocks)| == n * k + n + |ConcatBlocks(blocks[k + 1..])|
    ensures ConcatBlocks(blocks)[n * k + j] == blocks[k][j]
  {
    var front, back := blocks[..k], blocks[k..];
    assert blocks == front + back;
    ConcatBlocksAppend(front, back);
    ConcatBlocksLength(front, n);
    assert back[1..] == blocks[k + 1..];
    assert ConcatBlocks(back) == blocks[k] + ConcatBlocks(back[1..]);
  }

  /** The rows' items, one row after the other. */
  function EnumRows(rows: seq<CharRow>): (r: seq<Item>)
    ensures |r| == ENUM_ROW_ITEMS * |rows|
  {
    var blocks := seq(|rows|, i requires 0 <= i < |rows| => EnumRow(rows[i]));
    ConcatBlocksLength(blocks, ENUM_ROW_ITEMS);
    ConcatBlocks(blocks)
  }

  /**
   * `HandleCharEnum`: a count byte, patched at the end to the number of
   * rows as a `uint8` (so modulo 256), then every row in query order.
   */
  function CharEnum(rows: seq<CharRow>): (p: WorldPacket)
    ensures p.opcode == SMSG_CHAR_ENUM
    ensures |p.items| == 1 + ENUM_ROW_ITEMS * |rows|
    ensures p.items[0] == U8(|rows| % 256)
  {
    WorldPacket(SMSG_CHAR_ENUM, [U8(|rows| % 256)] + EnumRows(rows))
  }

  /**
   * Reading the list back: character `k`'s guid, name and class are where
   * the client expects them, and its four appearance bytes reassemble into
   * exactly the stored `playerBytes`.
   */
  lemma CharEnumReadBack(rows: seq<CharRow>, k: nat)
    requires k < |rows|
    ensures var p := CharEnum(rows);
      var at := 1 + ENUM_ROW_ITEMS * k;
      p.items[at] == U32(rows[k].guid) && p.items[at + 1] == Str(rows[k].name) && p.items[at + 2] == U8(rows[k].cls)
      && p.items[at + 5].U8? && p.items[at + 6].U8? && p.items[at + 7].U8? && p.items[at + 8].U8?
      && Compose(p.items[at + 5].b, p.items[at + 6].b, p.items[at + 7].b, p.items[at + 8].b) == rows[k].playerBytes
  {
    var row := EnumRow(rows[k]);
    EnumItemAt(rows, k, 0);
    EnumItemAt(rows, k, 1);
    EnumItemAt(rows, k, 2);
    EnumItemAt(rows, k, 5);
    EnumItemAt(rows, k, 6);
    EnumItemAt(rows, k, 7);
    EnumItemAt(rows, k, 8);
    ComposeOfLanes(rows[k].playerBytes);
  }

  /** Item `j` of character `k` in the packet, behind the count byte. */
  lemma EnumItemAt(rows: seq<CharRow>, k: nat, j: nat)
    requires k < |rows| && j < ENUM_ROW_ITEMS
    ensures CharEnum(rows).items[1 + ENUM_ROW_ITEMS * k + j] == EnumRow(rows[k])[j]
  {
    var blocks := seq(|rows|, i requires 0 <= i < |rows| => EnumRow(rows[i]));
    ConcatBlocksAt(blocks, ENUM_ROW_ITEMS, k, j);
  }

  // ----- character creation -----

  /** What `SMSG_CHAR_CREATE` reports. */
  datatype CreateResult =
    | NameNoName
    | NameRejected(check: NameCheck)
    | NameInUse
    | AccountLimit
    | ServerLimit
    | CreateError
    | CreateSuccess

  /**
   * The answers creation depends on: the name codec and checks, whether
   * the name is taken, the account's character total across realms and its
   * count on this realm (absent when the query returns no row), the two
   * configured limits, and whether `Player::Create` returns true (for a
   * class whose start map `CreateMap` does not give, it stops the server
   * instead and never returns).
   */
  datatype CreateEnv = CreateEnv(codec: Codec, decode: string -> Option<nat>, minName: nat,
                                 nameTaken: string -> bool, accountChars: Option<Word>, realmChars: Option<nat>,
                                 perAccount: Word, perRealm: Word, created: bool)

  /**
   * The outcome of a create request: the result, whether a new guid was
   * drawn (it is, whenever `Player::Create` is reached), the character count
   * written back for this realm on success, and the replies sent.
   */
  datatype CreateOutcome = CreateOutcome(result: CreateResult, drewGuid: bool, numChars: Option<Byte>, sent: seq<CreateResult>)

  /** `SendPacket` of a reply: nothing leaves a closed socket. */
  function Reply<T>(s: Session, x: T): (r: seq<T>)
    ensures |r| <= 1
    ensures !s.socketClosed <==> r == [x]
  {
    if s.socketClosed then [] else [x]
  }

  /** The realm count as the code reads it: `GetUInt8`, so modulo 256. */
  function RealmCount(env: CreateEnv): Byte {
    if env.realmChars.Some? then env.realmChars.value % 256 else 0
  }

  /**
   * `HandleCharCreateOpcode`: exactly one result, the first of: the name
   * does not normalise; `CheckPlayerName` refuses it; the name is taken;
   * the account is at its total; the realm count (as a byte) is at the
   * realm limit; `Player::Create` fails; otherwise success, with the count
   * plus one (as a byte) written back.
   */
  function CharCreate(s: Session, name: string, env: CreateEnv): (r: CreateOutcome)
    ensures r.sent == Reply(s, r.result)
    ensures r.numChars.Some? <==> r.result == CreateSuccess
    ensures r.drewGuid <==> r.result in {CreateError, CreateSuccess}
  {
    match NormalizePlayerName(name, env.codec)
    case None => CreateOutcome(NameNoName, false, None, Reply(s, NameNoName))
    case Some(n) =>
      var check := CheckPlayerName(n, env.decode, env.minName);
      if check != NameSuccess then CreateOutcome(NameRejected(check), false, None, Reply(s, NameRejected(check)))
      else if env.nameTaken(n) then CreateOutcome(NameInUse, false, None, Reply(s, NameInUse))
      else if env.accountChars.Some? && env.accountChars.value >= env.perAccount then
        CreateOutcome(AccountLimit, false, None, Reply(s, AccountLimit))
      else if env.realmChars.Some? && RealmCount(env) >= env.perRealm then
        CreateOutcome(ServerLimit, false, None, Reply(s, ServerLimit))
      else if !env.created then CreateOutcome(CreateError, true, None, Reply(s, CreateError))
      else CreateOutcome(CreateSuccess, true, Some((RealmCount(env) + 1) % 256), Reply(s, CreateSuccess))
  }

  /** A check of the create sequence: whether it fails, and the result it then reports. */
  datatype Check = Check(fails: bool, result: CreateResult)

  /** The result of the first failing check, or success when none fails. */
  function FirstFailure(checks: seq<Check>): (r: CreateResult)
    ensures (forall k :: 0 <= k < |checks| ==> !checks[k].fails) ==> r == CreateSuccess
    ensures forall k :: 0 <= k < |checks| && checks[k].fails && (forall j :: 0 <= j < k ==> !checks[j].fails) ==>
      r == checks[k].result
  {
    if checks == [] then CreateSuccess
    else if checks[0].fails then checks[0].result
    else FirstFailure(checks[1..])
  }

  /** The create checks in the order the handler makes them, stated independently of it. */
  function CreateChecks(name: string, env: CreateEnv): (r: seq<Check>)
  {
    var norm := NormalizePlayerName(name, env.codec);
    var n := if norm.Some? then norm.value else [];
    var check := CheckPlayerName(n, env.decode, env.minName);
    [Check(norm.None?, NameNoName),
     Check(check != NameSuccess, NameRejected(check)),
     Check(env.nameTaken(n), NameInUse),
     Check(env.accountChars.Some? && env.accountChars.value >= env.perAccount, AccountLimit),
     Check(env.realmChars.Some? && RealmCount(env) >= env.perRealm, ServerLimit),
     Check(!env.created, CreateError)]
  }

  /**
   * Creation reports exactly the first failing check, in the order name,
   * name rules, name in use, account limit, realm limit, creation; and
   * succeeds only when every check passes.
   */
  lemma CreatePrecedence(s: Session, name: string, env: CreateEnv)
    ensures CharCreate(s, name, env).result == FirstFailure(CreateChecks(name, env))
    ensures CharCreate(s, name, env).result == CreateSuccess <==>
      forall k :: 0 <= k < 6 ==> !CreateChecks(name, env)[k].fails
  {
    var checks := CreateChecks(name, env);
    var r := CharCreate(s, name, env).result;
    assert |checks| == 6;
    var norm := NormalizePlayerName(name, env.codec);
    if norm.None? {
      assert checks[0].fails;
    } else {
      var n := norm.value;
      var check := CheckPlayerName(n, env.decode, env.minName);
      assert !checks[0].fails;
      if check != NameSuccess {
        assert checks[1].fails && r == checks[1].result;
      } else if env.nameTaken(n) {
        assert checks[2].fails && r == checks[2].result;
      } else if env.accountChars.Some? && env.accountChars.value >= env.perAccount {
        assert checks[3].fails && r == checks[3].result;
      } else if env.realmChars.Some? && RealmCount(env) >= env.perRealm {
        assert checks[4].fails && r == checks[4].result;
      } else if !env.created {
        assert checks[5].fails && r == checks[5].result;
      } else {
        assert r == CreateSuccess;
      }
    }
  }

  /**
   * The realm count wraps: an account holding 256 characters on this realm
   * reads as holding none and passes the realm limit check.
   */
  lemma RealmCountWraps(env: CreateEnv)
    requires env.realmChars == Some(256) && env.perRealm > 0
    ensures !(RealmCount(env) >= env.perRealm)
  {
  }

  // ----- player login -----

  /** The queries `LoginQueryHolder::Initialize` registers: the character row, its skills and its stats. */
  const LOGIN_QUERIES: nat := 3

  /** `Initialize`: the conjunction (`res &=`) of every registration's success. */
  function InitializeHolder(registered: seq<bool>): (r: bool)
    ensures r <==> false !in registered
  {
    if registered == [] then true else registered[0] && InitializeHolder(registered[1..])
  }

  /** What a login request did. */
  datatype LoginStart = AlreadyLoading | HolderFailed | LoadRequested

  /**
   * `HandlePlayerLoginOpcode`: ignored while a player is loading or
   * attached; otherwise the session starts loading, unless the holder could
   * not register its queries, in which case loading is reset.
   */
  function PlayerLoginRequest(s: Session, registered: seq<bool>): (r: (Session, LoginStart))
    ensures s.loading || s.player.Attached? ==> r == (s, AlreadyLoading)
    ensures !(s.loading || s.player.Attached?) ==>
      (r.1 == LoadRequested <==> InitializeHolder(registered))
      && r.0 == s.(loading := r.1 == LoadRequested)
  {
    if s.loading || s.player.Attached? then (s, AlreadyLoading)
    else if !InitializeHolder(registered) then (s.(loading := false), HolderFailed)
    else (s.(loading := true), LoadRequested)
  }

  /** The character the holder's answers loaded: its id, map and position (the floats' bit patterns). */
  datatype LoadedChar = LoadedChar(id: nat, mapId: Word, x: Word, y: Word, z: Word, o: Word)

  /**
   * The map `LoadFromDB` hands the player (`SetMap(sMapMgr.CreateMap(..))`):
   * the key `CreateMap` answers for the saved map id, which is nothing for
   * an id the store lacks or one of an instanced map.
   */
  function LoadedMap(mgr: MapManager.Manager, store: map<Word, MapEntries.MapEntry>, c: LoadedChar): Option<MapManager.MapID>
  {
    MapManager.CreateMap(mgr, store, c.mapId).0
  }

  /** A player saved on a map the store lacks, or on an instanced one, is handed no map. */
  lemma LoadedMapNull(mgr: MapManager.Manager, store: map<Word, MapEntries.MapEntry>, c: LoadedChar)
    ensures LoadedMap(mgr, store, c).None? <==> c.mapId !in store || MapEntries.Instanceable(store[c.mapId])
  {
  }

  /**
   * How `HandlePlayerLogin` ends: the server stopped by the assertion in
   * `SetMap` during the load, or the session after it, the player
   * registered with the object accessor (if any) and the packets sent.
   */
  datatype LoginDone = ServerStopped | LoginDone(session: Session, registered: Option<nat>, sent: seq<WorldPacket>)

  /** The failed-load path: the client is kicked, loading reset, no player attached and nothing sent. */
  function LoginKicked(s: Session): (r: LoginDone)
    ensures r.LoginDone? && r.session.socketClosed && !r.session.loading && r.session.player == s.player
  {
    LoginDone(KickPlayer(s).(loading := false), None, [])
  }

  /**
   * The completed-load path: the player is attached (not yet in the
   * world), told where it is, registered, and told that login finished.
   */
  function LoginAttached(s: Session, c: LoadedChar): (r: LoginDone)
    ensures r.LoginDone? && r.session.player == Attached(c.id, false) && r.registered == Some(c.id)
  {
    var s1 := s.(player := Attached(c.id, false));
    var verify := WorldPacket(SMSG_LOGIN_VERIFY_WORLD, [U32(c.mapId), Float(c.x), Float(c.y), Float(c.z), Float(c.o)]);
    var finished := WorldPacket(SMSG_LOGIN_FINISHED, [U32(c.mapId)]);
    LoginDone(s1, Some(c.id), SendPacket(s1, verify) + SendPacket(s1, finished))
  }

  /**
   * `HandlePlayerLogin` as written: when `LoadFromDB` is refused the
   * client is kicked, loading reset and no player attached; when the
   * character's saved map is one `CreateMap` does not give (an id the store
   * lacks, or an instanced map) the load stops the server in `SetMap`;
   * otherwise the player is attached (not yet in the world), told where it
   * is, registered, and told that login finished.  Loading stays set until
   * the client reports that it entered the world.
   */
  function HandlePlayerLogin(s: Session, loaded: Option<LoadedChar>,
                             mgr: MapManager.Manager, store: map<Word, MapEntries.MapEntry>): (r: LoginDone)
    ensures loaded.None? ==>
      r == LoginDone(s.(socketClosed := true, loading := false), None, [])
    ensures loaded.Some? ==> (r.ServerStopped? <==> !MapManager.GivesMap(store, loaded.value.mapId))
    ensures loaded.Some? && r.LoginDone? ==>
      r.session == s.(player := Attached(loaded.value.id, false))
      && r.registered == Some(loaded.value.id)
      && |r.sent| == (if s.socketClosed then 0 else 2)
  {
    match loaded
    case None => LoginKicked(s)
    case Some(c) =>
      if LoadedMap(mgr, store, c).None? then ServerStopped else LoginAttached(s, c)
  }

  /**
   * `HandlePlayerLogin` with the check it evidently needs: a load whose
   * map `CreateMap` did not give fails like a refused one, into the kick.
   */
  function HandlePlayerLoginChecked(s: Session, loaded: Option<LoadedChar>,
                                    mgr: MapManager.Manager, store: map<Word, MapEntries.MapEntry>): (r: LoginDone)
    ensures r.LoginDone?
    ensures loaded.None? || !MapManager.GivesMap(store, loaded.value.mapId) ==>
      r.session == s.(socketClosed := true, loading := false) && r.registered.None? && r.sent == []
    ensures loaded.Some? && MapManager.GivesMap(store, loaded.value.mapId) ==>
      r.session == s.(player := Attached(loaded.value.id, false)) && r.registered == Some(loaded.value.id)
  {
    match loaded
    case None => LoginKicked(s)
    case Some(c) =>
      if LoadedMap(mgr, store, c).None? then LoginKicked(s) else LoginAttached(s, c)
  }

  /**
   * Wherever the handler as written does not stop the server, the checked
   * one does the same; where it stops, the checked one kicks the client
   * and leaves the session without a player and not loading.
   */
  lemma LoginCheckedAgrees(s: Session, loaded: Option<LoadedChar>,
                           mgr: MapManager.Manager, store: map<Word, MapEntries.MapEntry>)
    ensures HandlePlayerLogin(s, loaded, mgr, store).LoginDone? ==>
      HandlePlayerLoginChecked(s, loaded, mgr, store) == HandlePlayerLogin(s, loaded, mgr, store)
    ensures HandlePlayerLogin(s, loaded, mgr, store).ServerStopped? <==>
      loaded.Some? && HandlePlayerLoginChecked(s, loaded, mgr, store).registered.None?
    ensures HandlePlayerLogin(s, loaded, mgr, store).ServerStopped? ==>
      var r := HandlePlayerLoginChecked(s, loaded, mgr, store);
      r.session.socketClosed && !r.session.loading && r.session.player == s.player
  {
  }

  /**
   * A character saved on an instanced map, or on one the store lacks,
   * stops the server while it loads; with the check it is kicked instead.
   */
  lemma DungeonPlayerStopsLogin(s: Session, mgr: MapManager.Manager, store: map<Word, MapEntries.MapEntry>, c: LoadedChar)
    requires c.mapId !in store || MapEntries.Instanceable(store[c.mapId])
    ensures HandlePlayerLogin(s, Some(c), mgr, store) == ServerStopped
    ensures HandlePlayerLoginChecked(s, Some(c), mgr, store) == LoginDone(s.(socketClosed := true, loading := false), None, [])
  {
  }

  /**
   * What `HandlePlayerEnterWorldfinished` as written does: enter the world,
   * dereference a null player, or dereference the null map of a player
   * that holds none.
   */
  datatype EnterOutcome = Entered(session: Session) | NullPlayer | NullMap

  /**
   * `HandlePlayerEnterWorldfinished` as written, given the map the
   * attached player holds: the player is added to its map, which puts it
   * in the world, and loading ends.  Neither the player nor its map is
   * checked, so a session without a player (`NullPlayer`) or a player
   * without a map (`NullMap`, the assertion in `GetMap`) stops the server.
   * A completed login never reaches `NullMap`: a player whose map
   * `CreateMap` did not give already stopped the server in `SetMap` while
   * it loaded (see `LoginSequence`).
   */
  function EnterWorldFinishedAsWritten(s: Session, playerMap: Option<MapManager.MapID>): (r: EnterOutcome)
    ensures r.NullPlayer? <==> s.player.NoPlayer?
    ensures r.NullMap? <==> s.player.Attached? && playerMap.None?
    ensures r.Entered? ==> r.session.player.Attached? && r.session.player.inWorld && !r.session.loading
  {
    match s.player
    case NoPlayer => NullPlayer
    case Attached(p, _) =>
      if playerMap.None? then NullMap
      else Entered(s.(player := Attached(p, true), loading := false))
  }

  /**
   * The opcode only asks for an authenticated session, so a session that
   * is out of the queue and has no player yet (a fresh one, say) gets the
   * packet dispatched, and the handler dereferences the null player.
   */
  lemma EnterWorldWithoutPlayer(s: Session, playerMap: Option<MapManager.MapID>)
    requires !s.inQueue && s.player.NoPlayer?
    ensures var status := Handle(BuildOpcodeList(), CMSG_ENTER_WORLD_FINISHED).status;
      Admit(s, status).Some? && EnterWorldFinishedAsWritten(Admit(s, status).value, playerMap) == NullPlayer
  {
    SessionOpcodeStatuses();
    AdmitByStatus(s);
  }

  /** A freshly created session is such a session. */
  lemma FreshSessionCrashesOnEnterWorld(accountId: Word, security: nat)
    ensures var s := NewSession(accountId, security);
      Admit(s, Handle(BuildOpcodeList(), CMSG_ENTER_WORLD_FINISHED).status).Some?
      && EnterWorldFinishedAsWritten(s, None) == NullPlayer
  {
    EnterWorldWithoutPlayer(NewSession(accountId, security), None);
  }

  /**
   * `HandlePlayerEnterWorldfinished` with the checks it evidently needs:
   * without a player, or for a player without a map, the packet is
   * ignored; otherwise the player is put in the world and loading ends.
   */
  function EnterWorldFinished(s: Session, playerMap: Option<MapManager.MapID>): (r: Session)
    ensures s.player.NoPlayer? || playerMap.None? ==> r == s
    ensures s.player.Attached? && playerMap.Some? ==>
      r.player.Attached? && r.player.player == s.player.player && r.player.inWorld
      && !r.loading && r == s.(player := r.player, loading := false)
  {
    match s.player
    case NoPlayer => s
    case Attached(p, _) =>
      if playerMap.None? then s else s.(player := Attached(p, true), loading := false)
  }

  /** Wherever the handler as written does not crash, the guarded one does the same. */
  lemma EnterWorldFinishedAgrees(s: Session, playerMap: Option<MapManager.MapID>)
    ensures EnterWorldFinishedAsWritten(s, playerMap).Entered? <==> s.player.Attached? && playerMap.Some?
    ensures EnterWorldFinishedAsWritten(s, playerMap).Entered? ==>
      EnterWorldFinishedAsWritten(s, playerMap).session == EnterWorldFinished(s, playerMap)
  {
  }

  /**
   * A whole login.  A refused load leaves the session kicked, without a
   * player and not loading.  A character whose saved map `CreateMap` gives
   * is attached, and entering the world (as written or checked) leaves it
   * in the world with loading over; the as-written handler never meets a
   * null map there.  A character whose map it does not give stops the
   * server during the load, and with the check is kicked like a refused
   * load instead.
   */
  lemma LoginSequence(s: Session, registered: seq<bool>, loaded: Option<LoadedChar>,
                      mgr: MapManager.Manager, store: map<Word, MapEntries.MapEntry>)
    requires !s.loading && s.player.NoPlayer? && InitializeHolder(registered)
    ensures var s1 := PlayerLoginRequest(s, registered).0;
      var done := HandlePlayerLogin(s1, loaded, mgr, store);
      var checked := HandlePlayerLoginChecked(s1, loaded, mgr, store);
      s1.loading
      && (loaded.None? ==>
            done.LoginDone? && done.session.socketClosed && !done.session.loading && done.session.player.NoPlayer?)
      && (loaded.Some? ==>
            var m := LoadedMap(mgr, store, loaded.value);
            (done.ServerStopped? <==> m.None?)
            && (m.Some? <==> loaded.value.mapId in store && !MapEntries.Instanceable(store[loaded.value.mapId]))
            && (m.Some? ==>
                  done.session.loading
                  && EnterWorldFinishedAsWritten(done.session, m) == Entered(EnterWorldFinished(done.session, m))
                  && EnterWorldFinished(done.session, m).player == Attached(loaded.value.id, true)
                  && !EnterWorldFinished(done.session, m).loading)
            && (m.None? ==>
                  checked.session.socketClosed && !checked.session.loading && checked.session.player.NoPlayer?))
      && PlayerLoginRequest(s1, registered) == (s1, AlreadyLoading)
  {
    if loaded.Some? {
      LoadedMapNull(mgr, store, loaded.value);
    }
  }

  // ----- character deletion -----

  /** What `SMSG_CHAR_DELETE` reports. */
  datatype DeleteReply = DeleteSuccess(guid: Word)

  /** The outcome of a delete request: whether the character was deleted, and the replies sent. */
  datatype DeleteOutcome = DeleteOutcome(deleted: bool, sent: seq<DeleteReply>)

  /**
   * `HandleCharDeleteOpcode`: the owner is the account on the character's
   * row, or 0 when there is no row.  If it is not the session's account
   * nothing is deleted and nothing is sent (the failure reply is built but
   * never sent); otherwise the character is deleted and success reported.
   */
  function CharDelete(s: Session, guid: Word, owner: Option<Word>): (r: DeleteOutcome)
    ensures var acc := if owner.Some? then owner.value else 0;
      (r.deleted <==> acc == s.accountId)
      && (r.deleted ==> r.sent == Reply(s, DeleteSuccess(guid)))
      && (!r.deleted ==> r.sent == [])
  {
    var acc := if owner.Some? then owner.value else 0;
    if acc != s.accountId then DeleteOutcome(false, [])
    else DeleteOutcome(true, Reply(s, DeleteSuccess(guid)))
  }

  /**
   * Only the owner deletes: another account's request deletes nothing and
   * gets no answer at all, while an account with id 0 "owns" every guid
   * that has no row.
   */
  lemma DeleteOnlyOwn(s: Session, guid: Word, owner: Option<Word>)
    ensures owner.Some? && owner.value != s.accountId ==> CharDelete(s, guid, owner) == DeleteOutcome(false, [])
    ensures owner.Some? && owner.value == s.accountId && !s.socketClosed ==>
      CharDelete(s, guid, owner) == DeleteOutcome(true, [DeleteSuccess(guid)])
    ensures owner.None? ==> (CharDelete(s, guid, owner).deleted <==> s.accountId == 0)
  {
  }
}

=== FILE: config.dfy ===
/**
 * The configuration file: `Reload` parses `key = value` lines into a map
 * with lower-cased keys, and the getters look names up case-insensitively
 * with a default.  The file is an input: `None` when it cannot be opened,
 * otherwise the lines `getline` returns.
 */
module Config {
  import opened Wrappers
  import opened Text

  datatype Config = Config(filename: string, entries: map<string, string>)

  /** What one line contributes. */
  datatype LineResult = Skip | Bad | Entry(key: string, value: string)

  /**
   * One line, left-trimmed: empty lines, comments (`#`) and section
   * headers (`[`) are skipped; a line without `=` is malformed; otherwise
   * the key is the lower-cased, trimmed text before the first `=`, and the
   * value the trimmed text after it with surrounding quotes removed.
   */
  function ParseLine(line: string): (r: LineResult)
    ensures r.Entry? ==> NoUpper(r.key)
    ensures r.Skip? <==> TrimLeft(line) == [] || TrimLeft(line)[0] == '#' || TrimLeft(line)[0] == '['
    ensures r.Bad? <==> !r.Skip? && '=' !in TrimLeft(line)
  {
    var s := TrimLeft(line);
    if s == [] || s[0] == '#' || s[0] == '[' then Skip
    else match Find(s, '=')
      case None => Bad
      case Some(eq) =>
        var key := Trim(ToLower(s[..eq]));
        TrimOfLowerIsLower(s[..eq]);
        Entry(key, TrimChar(Trim(s[eq + 1..]), '"'))
  }

  /** A parsed key neither starts nor ends with whitespace. */
  lemma ParsedKeyTrimmed(line: string)
    ensures var r := ParseLine(line);
      r.Entry? ==> r.key == [] || (!IsSpace(r.key[0]) && !IsSpace(r.key[|r.key| - 1]))
  {
    var s := TrimLeft(line);
    if ParseLine(line).Entry? {
      var eq := Find(s, '=').value;
      TrimEnds(ToLower(s[..eq]));
    }
  }

  /**
   * A line `k=v` whose text before the `=` is neither blank, a comment nor
   * a section header is the entry under the trimmed, lower-cased `k`, with
   * the trimmed `v` stripped of its surrounding quotes as the value.
   */
  lemma ParseLineEntry(k: string, v: string)
    requires '=' !in k
    requires TrimLeft(k) != [] && TrimLeft(k)[0] != '#' && TrimLeft(k)[0] != '['
    ensures ParseLine(k + "=" + v) == Entry(Trim(ToLower(k)), TrimChar(Trim(v), '"'))
  {
    var tk := TrimLeft(k);
    EntryLineShape(k, v);
    ParseLineSplit(k + "=" + v, tk + "=" + v, |tk|);
    KeyIgnoresLeadingBlanks(k);
  }

  /** How `k=v` looks once left-trimmed, when `k` is not blank and has no `=`. */
  lemma EntryLineShape(k: string, v: string)
    requires '=' !in k && TrimLeft(k) != []
    ensures var tk := TrimLeft(k); var s := tk + "=" + v;
      && TrimLeft(k + "=" + v) == s && s[0] == tk[0]
      && Find(s, '=') == Some(|tk|) && s[..|tk|] == tk && s[|tk| + 1..] == v
  {
    var tk := TrimLeft(k);
    var s := tk + "=" + v;
    assert k + "=" + v == k + ("=" + v) && s == tk + ("=" + v);
    TrimLeftAppend(k, "=" + v);
    TrimLeftIsSuffix(k);
    assert forall i :: 0 <= i < |tk| ==> tk[i] == k[|k| - |tk| + i];
    FindAfter(tk, v);
    assert s[..|tk|] == tk && s[|tk| + 1..] == v;
  }

  /** An entry line cut at its first `=`. */
  lemma ParseLineSplit(line: string, s: string, eq: nat)
    requires TrimLeft(line) == s && s != [] && s[0] != '#' && s[0] != '['
    requires Find(s, '=') == Some(eq)
    ensures ParseLine(line) == Entry(Trim(ToLower(s[..eq])), TrimChar(Trim(s[eq + 1..]), '"'))
  {
  }

  /** The key read after left-trimming the line is the key of the untrimmed text. */
  lemma KeyIgnoresLeadingBlanks(k: string)
    ensures Trim(ToLower(TrimLeft(k))) == Trim(ToLower(k))
  {
    TrimLeftLower(k);
    TrimLeftLower(TrimLeft(k));
    TrimLeftIdempotent(k);
  }

  /** The first `=` of `t=v`, when `t` has none, is the one after `t`. */
  lemma FindAfter(t: string, v: string)
    requires '=' !in t
    ensures Find(t + "=" + v, '=') == Some(|t|)
  {
    var s := t + "=" + v;
    assert s[|t|] == '=';
    assert forall i :: 0 <= i < |t| ==> s[i] == t[i];
  }

  /** No upper-case letter anywhere in `s`. */
  predicate NoUpper(s: string) {
    forall i :: 0 <= i < |s| ==> !IsUpper(s[i])
  }

  /** Lower-casing fixes exactly the strings without upper-case letters. */
  lemma {:induction false} NoUpperFixed(s: string)
    ensures NoUpper(s) <==> ToLower(s) == s
  {
    if NoUpper(s) {
      assert forall i :: 0 <= i < |s| ==> ToLower(s)[i] == s[i];
    }
  }

  /** Trimming a lower-cased string keeps it lower-case. */
  lemma TrimOfLowerIsLower(s: string)
    ensures NoUpper(Trim(ToLower(s)))
  {
    var t := ToLower(s);
    var l := TrimLeft(t);
    TrimLeftIsSuffix(t);
    TrimRightIsPrefix(l);
    assert NoUpper(t);
    assert NoUpper(l);
  }

  /**
   * The reload loop over the lines, in order: entries accumulate in a new
   * map (a later key overwrites an earlier one), and the first malformed
   * line aborts.
   */
  function ParseLines(lines: seq<string>, acc: map<string, string>): (r: Option<map<string, string>>)
    decreases |lines|
  {
    if lines == [] then Some(acc)
    else match ParseLine(lines[0])
      case Skip => ParseLines(lines[1..], acc)
      case Bad => None
      case Entry(k, v) => ParseLines(lines[1..], acc[k := v])
  }

  /**
   * `Reload`: an unopenable file or a malformed line returns false and
   * keeps the old entries (the new map is committed only at the end);
   * otherwise the entries are exactly what the lines define.
   */
  function Reload(c: Config, file: Option<seq<string>>): (r: (bool, Config))
    ensures r.1.filename == c.filename
    ensures file.None? ==> r == (false, c)
    ensures file.Some? ==> (r.0 <==> forall i :: 0 <= i < |file.value| ==> !ParseLine(file.value[i]).Bad?)
    ensures !r.0 ==> r.1 == c
    ensures r.0 ==> Some(r.1.entries) == ParseLines(file.value, map[])
  {
    match file
    case None => (false, c)
    case Some(lines) =>
      ParseFailsIffBadLine(lines, map[]);
      match ParseLines(lines, map[])
      case None => (false, c)
      case Some(m) => (true, c.(entries := m))
  }

  /** The parse fails exactly when some line is malformed. */
  lemma {:induction false} ParseFailsIffBadLine(lines: seq<string>, acc: map<string, string>)
    ensures ParseLines(lines, acc).None? <==> exists i :: 0 <= i < |lines| && ParseLine(lines[i]).Bad?
    decreases |lines|
  {
    if lines != [] {
      match ParseLine(lines[0])
      case Skip => ParseFailsIffBadLine(lines[1..], acc); ShiftExists(lines);
      case Bad =>
      case Entry(k, v) => ParseFailsIffBadLine(lines[1..], acc[k := v]); ShiftExists(lines);
    }
  }

  lemma ShiftExists(lines: seq<string>)
    requires lines != [] && !ParseLine(lines[0]).Bad?
    ensures (exists i :: 0 <= i < |lines| && ParseLine(lines[i]).Bad?)
        <==> (exists i :: 0 <= i < |lines| - 1 && ParseLine(lines[1..][i]).Bad?)
  {
    if i :| 0 <= i < |lines| && ParseLine(lines[i]).Bad? {
      assert i != 0;
      assert ParseLine(lines[1..][i - 1]).Bad?;
    }
  }

  /** What each line contributes, in order. */
  function Results(lines: seq<string>): (r: seq<LineResult>)
    ensures |r| == |lines| && forall i :: 0 <= i < |lines| ==> r[i] == ParseLine(lines[i])
  {
    seq(|lines|, i requires 0 <= i < |lines| => ParseLine(lines[i]))
  }

  /** The value the last entry for `key` gives it, if any entry does. */
  function LastValue(results: seq<LineResult>, key: string): (r: Option<string>)
    decreases |results|
  {
    if results == [] then None
    else
      var l := results[|results| - 1];
      if l.Entry? && l.key == key then Some(l.value) else LastValue(results[..|results| - 1], key)
  }

  lemma {:induction false} LastValueCons(l: LineResult, rest: seq<LineResult>, key: string)
    ensures LastValue([l] + rest, key)
      == if LastValue(rest, key).Some? then LastValue(rest, key)
         else if l.Entry? && l.key == key then Some(l.value)
         else None
    decreases |rest|
  {
    if rest != [] {
      assert ([l] + rest)[..|rest|] == [l] + rest[..|rest| - 1];
      LastValueCons(l, rest[..|rest| - 1], key);
    }
  }

  /** The reload loop replayed over already-parsed line results. */
  function Apply(results: seq<LineResult>, acc: map<string, string>): Option<map<string, string>>
    decreases |results|
  {
    if results == [] then Some(acc)
    else match results[0]
      case Skip => Apply(results[1..], acc)
      case Bad => None
      case Entry(k, v) => Apply(results[1..], acc[k := v])
  }

  /** Parsing the lines is replaying what each line contributes. */
  lemma {:induction false} ParseLinesApply(lines: seq<string>, acc: map<string, string>)
    ensures ParseLines(lines, acc) == Apply(Results(lines), acc)
    decreases |lines|
  {
    if lines != [] {
      var l := ParseLine(lines[0]);
      assert Results(lines)[0] == l && Results(lines)[1..] == Results(lines[1..]);
      match l
      case Skip => ParseLinesApply(lines[1..], acc);
      case Bad =>
      case Entry(k, v) => ParseLinesApply(lines[1..], acc[k := v]);
    }
  }

  /** A successful replay stores, for each key, the last entry's value, or keeps the old one. */
  lemma {:induction false} ApplyLookup(results: seq<LineResult>, acc: map<string, string>, key: string)
    requires Apply(results, acc).Some?
    ensures var m := Apply(results, acc).value;
      var last := LastValue(results, key);
      (last.Some? ==> key in m && m[key] == last.value)
      && (last.None? ==> (key in m <==> key in acc) && (key in acc ==> m[key] == acc[key]))
    decreases |results|
  {
    if results != [] {
      var l := results[0];
      var rest := results[1..];
      assert results == [l] + rest;
      LastValueCons(l, rest, key);
      match l
      case Skip => ApplyLookup(rest, acc, key);
      case Entry(k, v) => ApplyLookup(rest, acc[k := v], key);
    }
  }

  /**
   * A successful parse defines a key exactly when some line defines it or
   * it was already there, with the value of the last line that defines it.
   */
  lemma ParseLinesLookup(lines: seq<string>, acc: map<string, string>, key: string)
    ensures ParseLines(lines, acc).Some? ==>
      var m := ParseLines(lines, acc).value;
      var last := LastValue(Results(lines), key);
      (last.Some? ==> key in m && m[key] == last.value)
      && (last.None? ==> (key in m <==> key in acc) && (key in acc ==> m[key] == acc[key]))
  {
    ParseLinesApply(lines, acc);
    if ParseLines(lines, acc).Some? {
      ApplyLookup(Results(lines), acc, key);
    }
  }

  /** Every key a parse stores is lower-case, so a lookup by the lower-cased name can find it. */
  lemma {:induction false} ParsedKeysLowerCase(lines: seq<string>, acc: map<string, string>)
    requires forall k :: k in acc ==> NoUpper(k)
    ensures ParseLines(lines, acc).Some? ==> forall k :: k in ParseLines(lines, acc).value ==> NoUpper(k)
    decreases |lines|
  {
    if lines != [] {
      var l := ParseLine(lines[0]);
      if l.Skip? {
        ParsedKeysLowerCase(lines[1..], acc);
      } else if l.Entry? {
        ParsedKeysLowerCase(lines[1..], acc[l.key := l.value]);
      }
    }
  }

  /** `IsSet`: the lower-cased name is a key. */
  predicate IsSet(c: Config, name: string) {
    ToLower(name) in c.entries
  }

  /** `GetStringDefault`: the value under the lower-cased name, or the default. */
  function GetStringDefault(c: Config, name: string, def: string): (r: string)
    ensures IsSet(c, name) ==> r == c.entries[ToLower(name)]
    ensures !IsSet(c, name) ==> r == def
  {
    var key := ToLower(name);
    if key in c.entries then c.entries[key] else def
  }

  /** Lookups ignore case: names that lower-case alike read the same value. */
  lemma LookupIgnoresCase(c: Config, a: string, b: string, def: string)
    requires ToLower(a) == ToLower(b)
    ensures GetStringDefault(c, a, def) == GetStringDefault(c, b, def) && (IsSet(c, a) <==> IsSet(c, b))
  {
  }

  /** After a successful reload, a name reads the value of the last line whose key is its lower-cased form. */
  lemma ReloadThenGet(c: Config, lines: seq<string>, name: string, def: string)
    ensures Reload(c, Some(lines)).0 ==>
      var got := GetStringDefault(Reload(c, Some(lines)).1, name, def);
      match LastValue(Results(lines), ToLower(name))
      case Some(v) => got == v
      case None => got == def
  {
    ParseLinesLookup(lines, map[], ToLower(name));
  }

  /** `GetBoolDefault`: true exactly for the values "true", "1" and "yes", in any case. */
  function GetBoolDefault(c: Config, name: string, def: bool): (r: bool)
    ensures !IsSet(c, name) ==> r == def
    ensures IsSet(c, name) ==> (r <==> ToLower(c.entries[ToLower(name)]) in {"true", "1", "yes"})
  {
    var value := ToLower(GetStringDefault(c, name, if def then "true" else "false"));
    value == "true" || value == "1" || value == "yes"
  }
}

=== FILE: field_store.dfy ===
/**
 * The update-field store every game object carries: a fixed number of
 * 32-bit slots, one "changed" bit per slot, the in-world flag and the
 * "already queued for a client update" flag.  The object's map keeps the
 * set of objects waiting for a client update; an object and that set are
 * threaded together as a `Host` so that marking and clearing are visible.
 *
 * Slots are unsigned 32-bit words on an assumed little-endian host: byte
 * lane k of a slot is bits 8k..8k+7 and 16-bit lane k is bits 16k..16k+15.
 */
module FieldStore {
  import opened Wrappers
  import opened Word32
  import Text

  /**
   * One object.  `id` stands for the object's identity (the pointer the map's
   * update list holds); `hasValues` says whether the value array exists.
   */
  datatype Obj = Obj(
    id: nat,
    valuesCount: nat,
    hasValues: bool,
    values: seq<Word>,
    changed: seq<bool>,
    inWorld: bool,
    updated: bool)

  /** An object together with its map's set of objects queued for a client update. */
  datatype Host = Host(obj: Obj, updateList: set<nat>)

  /** The value and changed arrays exist and have `valuesCount` entries. */
  predicate Ready(o: Obj) {
    o.hasValues && |o.values| == o.valuesCount && |o.changed| == o.valuesCount
  }

  /**
   * The bookkeeping the store keeps between an object and its map: the object
   * is in the update list exactly when its updated flag is set, and only an
   * object in the world can be queued.
   */
  predicate Consistent(h: Host) {
    Ready(h.obj)
    && (h.obj.updated <==> h.obj.id in h.updateList)
    && (!h.obj.inWorld ==> !h.obj.updated)
  }

  predicate Clean(o: Obj) {
    forall i :: 0 <= i < |o.changed| ==> !o.changed[i]
  }

  function Falses(n: nat): (r: seq<bool>)
    ensures |r| == n && forall i :: 0 <= i < n ==> !r[i]
  {
    seq(n, _ => false)
  }

  function Zeros(n: nat): (r: seq<Word>)
    ensures |r| == n && forall i :: 0 <= i < n ==> r[i] == 0
  {
    seq(n, _ => 0)
  }

  /** A freshly constructed object: no value array yet, not in the world, not queued (Object.cpp:34-41). */
  function NewObject(id: nat, valuesCount: nat): (o: Obj)
    ensures !o.hasValues && !o.inWorld && !o.updated && o.valuesCount == valuesCount
  {
    Obj(id, valuesCount, false, [], [], false, false)
  }

  /** `_InitValues`: every slot 0, every changed bit false, not queued. */
  function InitValues(o: Obj): (r: Obj)
    ensures Ready(r) && Clean(r) && !r.updated
    ensures forall i :: 0 <= i < r.valuesCount ==> r.values[i] == 0
    ensures r.id == o.id && r.valuesCount == o.valuesCount && r.inWorld == o.inWorld
  {
    o.(hasValues := true, values := Zeros(o.valuesCount), changed := Falses(o.valuesCount), updated := false)
  }

  /** Allocates the arrays on first use, as `_Create` and `LoadValues` do. */
  function EnsureValues(o: Obj): (r: Obj)
    ensures Ready(o) ==> r == o
    ensures !o.hasValues ==> r == InitValues(o)
  {
    if o.hasValues then o else InitValues(o)
  }

  // ----- queueing for a client update -----

  /**
   * `MarkForClientUpdate`: an in-world object that is not yet queued is added
   * to its map's update list and flagged; otherwise nothing happens.
   */
  function MarkForClientUpdate(h: Host): (r: Host)
    ensures r.obj.values == h.obj.values && r.obj.changed == h.obj.changed
    ensures !h.obj.inWorld ==> r == h
    ensures h.obj.updated ==> r == h
    ensures h.obj.inWorld ==> r.obj.updated
    ensures h.obj.inWorld && !h.obj.updated ==> h.obj.id in r.updateList
    ensures r.updateList - {h.obj.id} == h.updateList - {h.obj.id}
    ensures Consistent(h) ==> Consistent(r)
  {
    if h.obj.inWorld && !h.obj.updated then
      Host(h.obj.(updated := true), h.updateList + {h.obj.id})
    else h
  }

  /** Marking twice is marking once: only the first clean-to-dirty transition queues the object. */
  lemma MarkIdempotent(h: Host)
    ensures MarkForClientUpdate(MarkForClientUpdate(h)) == MarkForClientUpdate(h)
  {
  }

  /**
   * `ClearUpdateMask(remove)`: clears every changed bit and the updated flag;
   * the object leaves its map's update list only when `remove` is set and it
   * was queued.
   */
  function ClearUpdateMask(h: Host, remove: bool): (r: Host)
    requires Ready(h.obj)
    ensures Ready(r.obj) && Clean(r.obj) && !r.obj.updated
    ensures r.obj.values == h.obj.values && r.obj.inWorld == h.obj.inWorld
    ensures remove && h.obj.updated ==> r.updateList == h.updateList - {h.obj.id}
    ensures !(remove && h.obj.updated) ==> r.updateList == h.updateList
    ensures remove && Consistent(h) ==> Consistent(r)
  {
    var o := h.obj.(changed := Falses(h.obj.valuesCount));
    if h.obj.updated then
      Host(o.(updated := false), if remove then h.updateList - {h.obj.id} else h.updateList)
    else Host(o, h.updateList)
  }

  /** `AddToWorld`: on an object already in the world nothing changes. */
  function AddToWorld(h: Host): (r: Host)
    requires Ready(h.obj)
    ensures h.obj.inWorld ==> r == h
    ensures !h.obj.inWorld ==> r.obj.inWorld && Clean(r.obj) && !r.obj.updated && r.obj.values == h.obj.values
    ensures Ready(r.obj) && r.obj.inWorld
    ensures Consistent(h) ==> Consistent(r)
  {
    if h.obj.inWorld then h
    else ClearUpdateMask(Host(h.obj.(inWorld := true), h.updateList), false)
  }

  /** `RemoveFromWorld`: no pending changes, out of the update list, out of the world. */
  function RemoveFromWorld(h: Host): (r: Host)
    requires Ready(h.obj)
    ensures Ready(r.obj) && !r.obj.inWorld && Clean(r.obj) && !r.obj.updated
    ensures r.obj.values == h.obj.values
    ensures h.obj.updated ==> r.updateList == h.updateList - {h.obj.id}
    ensures !h.obj.updated ==> r.updateList == h.updateList
    ensures Consistent(h) ==> Consistent(r) && h.obj.id !in r.updateList
  {
    var c := ClearUpdateMask(h, true);
    Host(c.obj.(inWorld := false), c.updateList)
  }

  lemma AddToWorldIdempotent(h: Host)
    requires Ready(h.obj)
    ensures AddToWorld(AddToWorld(h)) == AddToWorld(h)
  {
  }

  lemma RemoveFromWorldIdempotent(h: Host)
    requires Ready(h.obj)
    ensures RemoveFromWorld(RemoveFromWorld(h)) == RemoveFromWorld(h)
  {
  }

  // ----- 32-bit slots -----

  /** Writes slot `index`, sets its changed bit and marks the object. */
  function Store(h: Host, index: nat, value: Word): (r: Host)
    requires Ready(h.obj) && index < h.obj.valuesCount
    ensures Ready(r.obj) && r.obj.valuesCount == h.obj.valuesCount
    ensures r.obj.values == h.obj.values[index := value]
    ensures r.obj.changed == h.obj.changed[index := true]
    ensures r.obj.inWorld == h.obj.inWorld && r.obj.id == h.obj.id
    ensures MarkForClientUpdate(r) == r
    ensures Consistent(h) ==> Consistent(r)
  {
    MarkForClientUpdate(Host(h.obj.(values := h.obj.values[index := value], changed := h.obj.changed[index := true]), h.updateList))
  }

  /** Slot `index` must exist (asserted by every getter of the source). */
  function GetUInt32Value(o: Obj, index: nat): Word
    requires Ready(o) && index < o.valuesCount
  {
    o.values[index]
  }

  /** The signed reading of a slot (`GetInt32Value`). */
  function GetInt32Value(o: Obj, index: nat): (r: int)
    requires Ready(o) && index < o.valuesCount
    ensures -TwoTo31 <= r < TwoTo31
  {
    ToInt32(o.values[index])
  }

  /**
   * `SetUInt32Value`: writing the value already there changes nothing;
   * otherwise only slot `index` and its changed bit change and the object is
   * marked for a client update.
   */
  function SetUInt32Value(h: Host, index: nat, value: Word): (r: Host)
    requires Ready(h.obj) && index < h.obj.valuesCount
    ensures Ready(r.obj) && r.obj.valuesCount == h.obj.valuesCount
    ensures r.obj.id == h.obj.id && r.obj.inWorld == h.obj.inWorld
    ensures GetUInt32Value(r.obj, index) == value
    ensures forall j :: 0 <= j < h.obj.valuesCount && j != index ==> r.obj.values[j] == h.obj.values[j] && r.obj.changed[j] == h.obj.changed[j]
    ensures h.obj.values[index] == value ==> r == h
    ensures h.obj.values[index] != value ==> r.obj.changed[index] && MarkForClientUpdate(r) == r
    ensures Consistent(h) ==> Consistent(r)
  {
    if h.obj.values[index] == value then h else Store(h, index, value)
  }

  /** Setting the same value twice is setting it once. */
  lemma SetUInt32Idempotent(h: Host, index: nat, value: Word)
    requires Ready(h.obj) && index < h.obj.valuesCount
    ensures SetUInt32Value(SetUInt32Value(h, index, value), index, value) == SetUInt32Value(h, index, value)
  {
  }

  /** `SetInt32Value`: the unsigned setter applied to the two's-complement pattern. */
  function SetInt32Value(h: Host, index: nat, value: int): (r: Host)
    requires Ready(h.obj) && index < h.obj.valuesCount
    requires -TwoTo31 <= value < TwoTo31
    ensures Ready(r.obj) && r.obj.valuesCount == h.obj.valuesCount
    ensures r.obj.id == h.obj.id && r.obj.inWorld == h.obj.inWorld
    ensures GetInt32Value(r.obj, index) == value
    ensures GetInt32Value(h.obj, index) == value ==> r == h
    ensures GetInt32Value(h.obj, index) != value ==> r.obj.changed[index] && MarkForClientUpdate(r) == r
    ensures forall j :: 0 <= j < h.obj.valuesCount && j != index ==> r.obj.values[j] == h.obj.values[j] && r.obj.changed[j] == h.obj.changed[j]
    ensures Consistent(h) ==> Consistent(r)
  {
    var v := FromInt32(value);
    if h.obj.values[index] == v then h else Store(h, index, v)
  }

  /** `SetStatInt32Value`: a negative value is stored as 0. */
  function SetStatInt32Value(h: Host, index: nat, value: int): (r: Host)
    requires Ready(h.obj) && index < h.obj.valuesCount
    requires -TwoTo31 <= value < TwoTo31
    ensures Ready(r.obj) && r.obj.valuesCount == h.obj.valuesCount
    ensures r.obj.id == h.obj.id && r.obj.inWorld == h.obj.inWorld
    ensures GetUInt32Value(r.obj, index) == if value < 0 then 0 else value
    ensures h.obj.values[index] == (if value < 0 then 0 else value) ==> r == h
    ensures h.obj.values[index] != (if value < 0 then 0 else value) ==> r.obj.changed[index] && MarkForClientUpdate(r) == r
    ensures forall j :: 0 <= j < h.obj.valuesCount && j != index ==> r.obj.values[j] == h.obj.values[j] && r.obj.changed[j] == h.obj.changed[j]
    ensures Consistent(h) ==> Consistent(r)
  {
    SetUInt32Value(h, index, if value < 0 then 0 else value)
  }

  // ----- 64-bit slot pairs -----

  /** The 64-bit value of slots `index` (low half) and `index + 1` (high half). */
  function GetUInt64Value(o: Obj, index: nat): (r: nat)
    requires Ready(o) && index + 1 < o.valuesCount
    ensures r < TwoTo32 * TwoTo32
  {
    o.values[index] + o.values[index + 1] * TwoTo32
  }

  /**
   * `SetUInt64Value`: when the 64-bit value differs, writes the low half to
   * `index` and the high half to `index + 1` and sets BOTH changed bits, even
   * when one half was already equal.
   */
  function SetUInt64Value(h: Host, index: nat, value: nat): (r: Host)
    requires Ready(h.obj) && index + 1 < h.obj.valuesCount
    requires value < TwoTo32 * TwoTo32
    ensures Ready(r.obj) && r.obj.valuesCount == h.obj.valuesCount
    ensures r.obj.id == h.obj.id && r.obj.inWorld == h.obj.inWorld
    ensures GetUInt64Value(r.obj, index) == value
    ensures GetUInt64Value(h.obj, index) == value ==> r == h
    ensures GetUInt64Value(h.obj, index) != value ==> r.obj.changed[index] && r.obj.changed[index + 1] && MarkForClientUpdate(r) == r
    ensures forall j :: 0 <= j < h.obj.valuesCount && j != index && j != index + 1 ==> r.obj.values[j] == h.obj.values[j] && r.obj.changed[j] == h.obj.changed[j]
    ensures Consistent(h) ==> Consistent(r)
  {
    if GetUInt64Value(h.obj, index) == value then h
    else
      var lo: Word := value % TwoTo32;
      var hi: Word := value / TwoTo32;
      var o := h.obj.(
        values := h.obj.values[index := lo][index + 1 := hi],
        changed := h.obj.changed[index := true][index + 1 := true]);
      MarkForClientUpdate(Host(o, h.updateList))
  }

  // ----- byte and 16-bit lanes -----

  /** `GetByteValue`: the offset must name one of the four lanes. */
  function GetByteValue(o: Obj, index: nat, offset: nat): Byte
    requires Ready(o) && index < o.valuesCount && offset < 4
  {
    ByteLane(o.values[index], offset)
  }

  /** `GetUInt16Value`: the offset must name one of the two halves. */
  function GetUInt16Value(o: Obj, index: nat, offset: nat): Half
    requires Ready(o) && index < o.valuesCount && offset < 2
  {
    HalfLane(o.values[index], offset)
  }

  /**
   * The offset guard of `SetByteValue` as written: only offsets above 4 are
   * turned away, so offset 4 passes although a slot has four lanes (0..3)
   * and the shift by 32 it then performs is undefined for a 32-bit operand.
   */
  predicate ByteOffsetPassesGuardAsWritten(offset: nat) {
    !(offset > 4)
  }

  /** The same guard of `SetUInt16Value`: offset 2 passes although only halves 0 and 1 exist. */
  predicate HalfOffsetPassesGuardAsWritten(offset: nat) {
    !(offset > 2)
  }

  /**
   * The written guards let through an offset just past the last lane: byte
   * offset 4 and half offset 2 both shift the value by 32 bits, which is
   * undefined behaviour for a 32-bit operand.
   */
  lemma GuardsAdmitOffsetPastLastLane()
    ensures ByteOffsetPassesGuardAsWritten(4) && !(4 < 4)
    ensures HalfOffsetPassesGuardAsWritten(2) && !(2 < 2)
  {
  }

  /**
   * `SetByteValue` with the guard corrected to turn away every offset of 4
   * or more (the source logs and returns for the offsets it rejects).  Only
   * the named byte lane changes, and only when it held another byte.
   */
  function SetByteValue(h: Host, index: nat, offset: nat, value: Byte): (r: Host)
    requires Ready(h.obj) && index < h.obj.valuesCount
    ensures Ready(r.obj) && r.obj.valuesCount == h.obj.valuesCount
    ensures r.obj.id == h.obj.id && r.obj.inWorld == h.obj.inWorld
    ensures offset >= 4 ==> r == h
    ensures offset < 4 ==> GetByteValue(r.obj, index, offset) == value
    ensures offset < 4 ==> forall k :: 0 <= k < 4 && k != offset ==> GetByteValue(r.obj, index, k) == GetByteValue(h.obj, index, k)
    ensures offset < 4 && GetByteValue(h.obj, index, offset) == value ==> r == h
    ensures offset < 4 && GetByteValue(h.obj, index, offset) != value ==> r.obj.changed[index] && MarkForClientUpdate(r) == r
    ensures forall j :: 0 <= j < h.obj.valuesCount && j != index ==> r.obj.values[j] == h.obj.values[j] && r.obj.changed[j] == h.obj.changed[j]
    ensures Consistent(h) ==> Consistent(r)
  {
    if offset >= 4 then h
    else
      ByteLaneReplace(h.obj.values[index], offset, value);
      if ByteLane(h.obj.values[index], offset) != value then
        Store(h, index, WithByteLane(h.obj.values[index], offset, value))
      else h
  }

  /** `SetUInt16Value` with the guard corrected to turn away every offset of 2 or more. */
  function SetUInt16Value(h: Host, index: nat, offset: nat, value: Half): (r: Host)
    requires Ready(h.obj) && index < h.obj.valuesCount
    ensures Ready(r.obj) && r.obj.valuesCount == h.obj.valuesCount
    ensures r.obj.id == h.obj.id && r.obj.inWorld == h.obj.inWorld
    ensures offset >= 2 ==> r == h
    ensures offset < 2 ==> GetUInt16Value(r.obj, index, offset) == value
    ensures offset < 2 ==> GetUInt16Value(r.obj, index, 1 - offset) == GetUInt16Value(h.obj, index, 1 - offset)
    ensures offset < 2 && GetUInt16Value(h.obj, index, offset) == value ==> r == h
    ensures offset < 2 && GetUInt16Value(h.obj, index, offset) != value ==> r.obj.changed[index] && MarkForClientUpdate(r) == r
    ensures forall j :: 0 <= j < h.obj.valuesCount && j != index ==> r.obj.values[j] == h.obj.values[j] && r.obj.changed[j] == h.obj.changed[j]
    ensures Consistent(h) ==> Consistent(r)
  {
    if offset >= 2 then h
    else
      HalfLaneReplace(h.obj.values[index], offset, value);
      if HalfLane(h.obj.values[index], offset) != value then
        Store(h, index, WithHalfLane(h.obj.values[index], offset, value))
      else h
  }

  // ----- flag masks -----

  /** `HasFlag`: some bit of `flag` is set in the slot. */
  predicate HasFlag(o: Obj, index: nat, flag: Word)
    requires Ready(o) && index < o.valuesCount
  {
    And(o.values[index], flag) != 0
  }

  /** `HasFlag` holds exactly when the slot and the mask share a set bit. */
  lemma HasFlagMeansSharedBit(o: Obj, index: nat, flag: Word)
    requires Ready(o) && index < o.valuesCount
    ensures HasFlag(o, index, flag) <==> exists i :: 0 <= i < 32 && WordBits(o.values[index])[i] && WordBits(flag)[i]
  {
    ZeroIffNoBits(And(o.values[index], flag));
  }

  /** `SetFlag`: ORs `flag` into the slot; the slot is dirtied only when that changes it. */
  function SetFlag(h: Host, index: nat, flag: Word): (r: Host)
    requires Ready(h.obj) && index < h.obj.valuesCount
    ensures Ready(r.obj) && r.obj.valuesCount == h.obj.valuesCount
    ensures r.obj.id == h.obj.id && r.obj.inWorld == h.obj.inWorld
    ensures forall i :: 0 <= i < 32 ==> WordBits(r.obj.values[index])[i] == (WordBits(h.obj.values[index])[i] || WordBits(flag)[i])
    ensures r.obj.values[index] == h.obj.values[index] ==> r == h
    ensures r.obj.values[index] != h.obj.values[index] ==> r.obj.changed[index] && MarkForClientUpdate(r) == r
    ensures forall j :: 0 <= j < h.obj.valuesCount && j != index ==> r.obj.values[j] == h.obj.values[j] && r.obj.changed[j] == h.obj.changed[j]
    ensures Consistent(h) ==> Consistent(r)
  {
    var newval := Or(h.obj.values[index], flag);
    if h.obj.values[index] != newval then Store(h, index, newval) else h
  }

  /** `RemoveFlag`: clears the bits of `flag`; the slot is dirtied only when that changes it. */
  function RemoveFlag(h: Host, index: nat, flag: Word): (r: Host)
    requires Ready(h.obj) && index < h.obj.valuesCount
    ensures Ready(r.obj) && r.obj.valuesCount == h.obj.valuesCount
    ensures r.obj.id == h.obj.id && r.obj.inWorld == h.obj.inWorld
    ensures forall i :: 0 <= i < 32 ==> WordBits(r.obj.values[index])[i] == (WordBits(h.obj.values[index])[i] && !WordBits(flag)[i])
    ensures r.obj.values[index] == h.obj.values[index] ==> r == h
    ensures r.obj.values[index] != h.obj.values[index] ==> r.obj.changed[index] && MarkForClientUpdate(r) == r
    ensures forall j :: 0 <= j < h.obj.valuesCount && j != index ==> r.obj.values[j] == h.obj.values[j] && r.obj.changed[j] == h.obj.changed[j]
    ensures Consistent(h) ==> Consistent(r)
  {
    var newval := AndNot(h.obj.values[index], flag);
    if h.obj.values[index] != newval then Store(h, index, newval) else h
  }

  /** A second write to the same slot overwrites the first. */
  lemma UpdateTwice(s: seq<Word>, i: nat, x: Word, y: Word)
    requires i < |s|
    ensures s[i := x][i := y] == s[i := y]
  {
  }

  /** What `SetFlag` and `RemoveFlag` leave in the slot, as whole words: `v | flag` and `v & ~flag`. */
  lemma FlagSlotValues(h: Host, index: nat, flag: Word)
    requires Ready(h.obj) && index < h.obj.valuesCount
    ensures SetFlag(h, index, flag).obj.values == h.obj.values[index := Or(h.obj.values[index], flag)]
    ensures RemoveFlag(h, index, flag).obj.values == h.obj.values[index := AndNot(h.obj.values[index], flag)]
  {
  }

  /** `ToggleFlag`: removes the whole mask when any of its bits is set, sets it otherwise. */
  function ToggleFlag(h: Host, index: nat, flag: Word): (r: Host)
    requires Ready(h.obj) && index < h.obj.valuesCount
    ensures Ready(r.obj) && r.obj.valuesCount == h.obj.valuesCount
    ensures Consistent(h) ==> Consistent(r)
  {
    if HasFlag(h.obj, index, flag) then RemoveFlag(h, index, flag) else SetFlag(h, index, flag)
  }

  /** For a one-bit mask, `HasFlag` reads exactly bit `k` of the slot. */
  lemma HasOneBitFlag(o: Obj, index: nat, k: nat)
    requires Ready(o) && index < o.valuesCount && k < 32
    ensures HasFlag(o, index, Bit(k)) <==> WordBits(o.values[index])[k]
  {
    HasFlagMeansSharedBit(o, index, Bit(k));
    if WordBits(o.values[index])[k] {
      assert WordBits(o.values[index])[k] && WordBits(Bit(k))[k];
    }
  }

  /** Toggling the one-bit flag `1 << k` flips bit `k` of the slot and keeps its other bits and the other slots. */
  lemma ToggleOneBit(h: Host, index: nat, k: nat)
    requires Ready(h.obj) && index < h.obj.valuesCount && k < 32
    ensures var t := ToggleFlag(h, index, Bit(k));
      (forall i :: 0 <= i < 32 ==> WordBits(t.obj.values[index])[i] == (if i == k then !WordBits(h.obj.values[index])[k] else WordBits(h.obj.values[index])[i]))
      && (forall j :: 0 <= j < h.obj.valuesCount && j != index ==> t.obj.values[j] == h.obj.values[j])
  {
    HasOneBitFlag(h.obj, index, k);
  }

  /** A word whose bit `k` is flipped twice is the word it started from. */
  lemma FlipTwice(v: Word, t: Word, tt: Word, k: nat)
    requires k < 32
    requires forall i :: 0 <= i < 32 ==> WordBits(t)[i] == (if i == k then !WordBits(v)[k] else WordBits(v)[i])
    requires forall i :: 0 <= i < 32 ==> WordBits(tt)[i] == (if i == k then !WordBits(t)[k] else WordBits(t)[i])
    ensures tt == v
  {
    assert WordBits(tt) == WordBits(v);
    WordBitsInjective(tt, v);
  }

  /** Toggling the one-bit flag `1 << k` flips `HasFlag`, and toggling it twice restores the slot. */
  lemma ToggleTwiceRestores(h: Host, index: nat, k: nat)
    requires Ready(h.obj) && index < h.obj.valuesCount && k < 32
    ensures HasFlag(ToggleFlag(h, index, Bit(k)).obj, index, Bit(k)) == !HasFlag(h.obj, index, Bit(k))
    ensures ToggleFlag(ToggleFlag(h, index, Bit(k)), index, Bit(k)).obj.values == h.obj.values
  {
    var t := ToggleFlag(h, index, Bit(k));
    ToggleOneBit(h, index, k);
    HasOneBitFlag(h.obj, index, k);
    HasOneBitFlag(t.obj, index, k);
    var tt := ToggleFlag(t, index, Bit(k));
    ToggleOneBit(t, index, k);
    FlipTwice(h.obj.values[index], t.obj.values[index], tt.obj.values[index], k);
    assert forall j :: 0 <= j < |h.obj.values| ==> tt.obj.values[j] == h.obj.values[j];
  }

  // ----- loading saved values -----

  datatype LoadResult = Loaded(obj: Obj) | CountMismatch(obj: Obj) | BadNumber(obj: Obj)

  /** One saved token read by `std::stoul` and stored into a 32-bit slot (truncated); `None` is a throw. */
  function ParseSlot(token: string): (r: Option<Word>)
    ensures r.None? <==> Text.Stoul(token).None?
    ensures r.Some? ==> r.value == Text.Stoul(token).value % TwoTo32
  {
    match Text.Stoul(token)
    case Some(n) => Some(n % TwoTo32)
    case None => None
  }

  /** The decimal text of a word reads back as that word. */
  lemma ParseSlotDecimal(v: Word)
    ensures ParseSlot(Text.ToDecimal(v)) == Some(v)
  {
    ParseSlotOfDecimal(v, Text.ToDecimal(v));
  }

  lemma ParseSlotOfDecimal(v: Word, d: string)
    requires d == Text.ToDecimal(v)
    ensures ParseSlot(d) == Some(v)
  {
    Text.StoulDecimal(v);
    assert Text.Stoul(d) == Some(v as nat);
    ParseSlotOf(d, v);
  }

  /** A token `stoul` reads as `n` fills the slot with `n` truncated to 32 bits. */
  lemma ParseSlotOf(token: string, n: nat)
    requires Text.Stoul(token) == Some(n)
    ensures ParseSlot(token) == Some(n % TwoTo32)
  {
  }

  /** A token without digits, or a number past the 64-bit range, throws. */
  lemma ParseSlotThrows(n: nat)
    requires n >= Text.ULONG_LIMIT
    ensures ParseSlot("abc") == None
    ensures ParseSlot(Text.ToDecimal(n)) == None
  {
    Text.StoulNoDigits("abc");
    Text.StoulDecimal(n);
  }

  /** Every token up to and including token `i` is read without a throw. */
  predicate ReadsUpTo(tokens: seq<string>, i: nat)
    requires i < |tokens|
  {
    forall k :: 0 <= k <= i ==> ParseSlot(tokens[k]).Some?
  }

  /**
   * The loop of `LoadValues` over slots and tokens in step: slot `i` takes
   * token `i`'s value, and the first token `std::stoul` throws on stops the
   * loop with the slots before it already written.  The flag says whether
   * every token was read.
   */
  function StoreTokens(vs: seq<Word>, tokens: seq<string>): (r: (seq<Word>, bool))
    requires |tokens| == |vs|
    ensures |r.0| == |vs|
    ensures r.1 <==> forall k :: 0 <= k < |tokens| ==> ParseSlot(tokens[k]).Some?
  {
    if tokens == [] then (vs, true)
    else match ParseSlot(tokens[0])
      case None => (vs, false)
      case Some(v) =>
        var rest := StoreTokens(vs[1..], tokens[1..]);
        assert forall k :: 1 <= k < |tokens| ==> tokens[k] == tokens[1..][k - 1];
        ([v] + rest.0, rest.1)
  }

  /** Slot `i` after the loop: its token's value when every token up to it was read, its old value otherwise. */
  lemma {:induction false} StoreTokensAt(vs: seq<Word>, tokens: seq<string>, i: nat)
    requires |tokens| == |vs| && i < |vs|
    ensures StoreTokens(vs, tokens).0[i] == if ReadsUpTo(tokens, i) then ParseSlot(tokens[i]).value else vs[i]
    decreases i
  {
    if ParseSlot(tokens[0]).Some? && i > 0 {
      StoreTokensAt(vs[1..], tokens[1..], i - 1);
      assert forall k :: 1 <= k <= i ==> tokens[k] == tokens[1..][k - 1];
      assert ReadsUpTo(tokens, i) <==> ReadsUpTo(tokens[1..], i - 1);
    }
  }

  /**
   * `LoadValues`: the saved text is split on spaces; a token count other
   * than `valuesCount` refuses the data and leaves the (possibly freshly
   * allocated) values as they were.  Otherwise the slots take their
   * tokens' values in order; a token `std::stoul` throws on ends the load
   * as `BadNumber`, with the slots before it written and the rest kept.
   * Changed bits and the queue flag are not touched.
   */
  function LoadValues(o: Obj, data: string): (r: LoadResult)
    requires !o.hasValues || Ready(o)
    ensures Ready(r.obj) && r.obj == EnsureValues(o).(values := r.obj.values)
    ensures |Text.Split(data, ' ')| != o.valuesCount <==> r.CountMismatch?
    ensures r.CountMismatch? ==> r.obj == EnsureValues(o)
    ensures !r.CountMismatch? ==>
      (r.Loaded? <==> forall k :: 0 <= k < o.valuesCount ==> ParseSlot(Text.Split(data, ' ')[k]).Some?)
  {
    var base := EnsureValues(o);
    var tokens := Text.Split(data, ' ');
    if |tokens| != o.valuesCount then CountMismatch(base)
    else
      var stored := StoreTokens(base.values, tokens);
      if stored.1 then Loaded(base.(values := stored.0)) else BadNumber(base.(values := stored.0))
  }

  /**
   * What each slot holds after a load with the right token count: its
   * token's value when it and every token before it were read, and
   * otherwise what it held before (a throw leaves the earlier slots written).
   */
  lemma LoadValuesSlot(o: Obj, data: string, i: nat)
    requires !o.hasValues || Ready(o)
    requires |Text.Split(data, ' ')| == o.valuesCount && i < o.valuesCount
    ensures var tokens := Text.Split(data, ' ');
      LoadValues(o, data).obj.values[i] ==
        if ReadsUpTo(tokens, i) then ParseSlot(tokens[i]).value else EnsureValues(o).values[i]
  {
    StoreTokensAt(EnsureValues(o).values, Text.Split(data, ' '), i);
  }

  /** The decimal texts of the words, one per slot. */
  function Decimals(vs: seq<Word>): (r: seq<string>)
    ensures |r| == |vs| && forall i :: 0 <= i < |vs| ==> r[i] == Text.ToDecimal(vs[i])
  {
    seq(|vs|, i requires 0 <= i < |vs| => Text.ToDecimal(vs[i]))
  }

  /** Values written out in decimal, separated by spaces, load back as exactly those values. */
  lemma LoadValuesRoundTrip(o: Obj, vs: seq<Word>)
    requires !o.hasValues || Ready(o)
    requires |vs| == o.valuesCount
    ensures LoadValues(o, Text.Join(Decimals(vs), ' ')) == Loaded(EnsureValues(o).(values := vs))
  {
    var tokens := Decimals(vs);
    forall k | 0 <= k < |tokens|
      ensures tokens[k] != [] && ' ' !in tokens[k]
    {
      assert forall i :: 0 <= i < |tokens[k]| ==> Text.IsDigit(tokens[k][i]);
    }
    Text.SplitJoin(tokens, ' ');
    forall k | 0 <= k < |tokens|
      ensures ParseSlot(tokens[k]) == Some(vs[k])
    {
      ParseSlotDecimal(vs[k]);
    }
    var r := LoadValues(o, Text.Join(tokens, ' '));
    forall i | 0 <= i < |vs|
      ensures r.obj.values[i] == vs[i]
    {
      LoadValuesSlot(o, Text.Join(tokens, ' '), i);
    }
    assert r.obj.values == vs;
  }
}

=== FILE: map.dfy ===
/**
 * Walking a set in ascending order, as a `std::set` or a `std::map` is
 * iterated: every element once, smallest first.
 */
module SetOrder {
  predicate Ascending(s: seq<nat>) {
    forall i, j :: 0 <= i < j < |s| ==> s[i] < s[j]
  }

  /** A non-empty set of naturals has a least element: walk down from any element. */
  lemma LeastExists(s: set<nat>)
    requires s != {}
    ensures exists x :: x in s && forall y :: y in s ==> x <= y
  {
    var a :| a in s;
    LeastBelow(s, a);
  }

  lemma LeastBelow(s: set<nat>, a: nat)
    requires a in s
    ensures exists x :: x in s && forall y :: y in s ==> x <= y
    decreases a
  {
    if !forall y :: y in s ==> a <= y {
      var b :| b in s && b < a;
      LeastBelow(s, b);
    }
  }

  /** Part way through the walk: `r` holds, in ascending order, the elements of `s` already taken, all below those left in `rest`. */
  ghost predicate Walked(s: set<nat>, rest: set<nat>, r: seq<nat>) {
    rest <= s
    && (forall x :: x in r <==> x in s && x !in rest)
    && Ascending(r)
    && (forall i, y :: 0 <= i < |r| && y in rest ==> r[i] < y)
  }

  /** Taking the least element left keeps the walk in order. */
  lemma WalkStep(s: set<nat>, rest: set<nat>, r: seq<nat>, x: nat)
    requires Walked(s, rest, r)
    requires x in rest && forall y :: y in rest ==> x <= y
    ensures Walked(s, rest - {x}, r + [x])
  {
    var next := r + [x];
    assert forall i :: 0 <= i < |r| ==> next[i] == r[i];
    assert next[|r|] == x;
  }

  /** The least element of a non-empty set. */
  method PickLeast(s: set<nat>) returns (x: nat)
    requires s != {}
    ensures x in s && forall y :: y in s ==> x <= y
  {
    LeastExists(s);
    x :| x in s && forall y :: y in s ==> x <= y;
  }

  /** The elements of `s`, smallest first. */
  method InOrder(s: set<nat>) returns (r: seq<nat>)
    ensures Ascending(r)
    ensures forall x :: x in r <==> x in s
  {
    var rest := s;
    r := [];
    while rest != {}
      invariant Walked(s, rest, r)
      decreases rest
    {
      var x := PickLeast(rest);
      WalkStep(s, rest, r, x);
      rest := rest - {x};
      r := r + [x];
    }
  }
}

/**
 * The map-store entry and its classification of maps by type.  The values
 * of the `MAP_*` type constants are not part of this model; a map type is
 * one of the four kinds the predicates name, or any other value.
 */
module MapEntries {
  import opened Word32

  datatype MapKind = Common | Instance | Raid | Battleground | OtherKind(code: nat)

  datatype MapEntry = MapEntry(mapId: Word, mapType: MapKind)

  predicate IsDungeon(e: MapEntry) { e.mapType == Instance || e.mapType == Raid }
  predicate IsNonRaidDungeon(e: MapEntry) { e.mapType == Instance }
  predicate Instanceable(e: MapEntry) { e.mapType == Instance || e.mapType == Raid || e.mapType == Battleground }
  predicate IsRaid(e: MapEntry) { e.mapType == Raid }
  predicate IsBattleGround(e: MapEntry) { e.mapType == Battleground }

  /** Mounts are allowed everywhere except in dungeons, and in four dungeons all the same. */
  predicate IsMountAllowed(e: MapEntry) {
    !IsDungeon(e) || e.mapId == 309 || e.mapId == 209 || e.mapId == 509 || e.mapId == 269
  }

  predicate IsContinent(e: MapEntry) { e.mapId == 0 || e.mapId == 1 }

  /** How the classifications nest: raids and five-player dungeons are the dungeons, and dungeons and battlegrounds are instanced. */
  lemma KindsNest(e: MapEntry)
    ensures IsDungeon(e) <==> IsRaid(e) || IsNonRaidDungeon(e)
    ensures IsRaid(e) ==> !IsNonRaidDungeon(e)
    ensures Instanceable(e) <==> IsDungeon(e) || IsBattleGround(e)
    ensures IsBattleGround(e) ==> !IsDungeon(e)
  {
  }

  /** Within dungeons, exactly the four listed maps allow mounts. */
  lemma MountsInDungeons(e: MapEntry)
    ensures !IsDungeon(e) ==> IsMountAllowed(e)
    ensures IsDungeon(e) ==> (IsMountAllowed(e) <==> e.mapId in {209, 269, 309, 509})
  {
  }
}

/**
 * One map: its players (the reference list, in link order), the shared
 * cursor its walks over that list use, the unload countdown, and the sets
 * of objects waiting for a client update or for removal.  Players are
 * handles; `peers` says what a walk needs to know of each.
 */
module Maps {
  import opened Wrappers
  import opened Word32
  import opened Packet
  import opened FieldStore
  import opened UpdateCodec
  import opened PlayerModel
  import opened MapEntries
  import opened SetOrder
  import ObjectAccessor

  const DEFAULT_VISIBILITY_DISTANCE: real := 90.0

  /**
   * `m_mapRefIter`: before the first player (the list's head padding, where
   * a rewind from the first player lands), at the player with that index,
   * or at the end.
   */
  datatype Cursor = BeforeFirst | At(index: nat) | End

  datatype Map = Map(
    id: Word,
    instanceId: Word,
    entry: Option<MapEntry>,
    members: seq<nat>,
    cursor: Cursor,
    unloadTimer: Word,
    visibleDistance: real,
    toUpdate: set<nat>,
    toRemove: set<nat>)

  /** The constructor: the store's entry for the id, no players, no countdown, the default visibility. */
  function NewMap(id: Word, instanceId: Word, store: map<Word, MapEntry>): (m: Map)
    ensures m.id == id && m.instanceId == instanceId && m.members == [] && m.unloadTimer == 0
    ensures m.entry == (if id in store then Some(store[id]) else None)
    ensures m.visibleDistance == DEFAULT_VISIBILITY_DISTANCE && m.toUpdate == {} && m.toRemove == {}
  {
    Map(id, instanceId, if id in store then Some(store[id]) else None, [], End, 0, DEFAULT_VISIBILITY_DISTANCE, {}, {})
  }

  /** `InitVisibilityDistance`: the world's visibility on continents. */
  function InitVisibilityDistance(m: Map, continents: real): (r: Map)
    ensures r.visibleDistance == continents && r == m.(visibleDistance := continents)
  {
    m.(visibleDistance := continents)
  }

  // ----- unloading -----

  /**
   * `CanUnload(diff)`: a countdown of 0 means the map never unloads; a
   * countdown that `diff` reaches says yes; otherwise the countdown runs
   * down by `diff`.
   */
  function CanUnload(m: Map, diff: Word): (r: (bool, Map))
    ensures r.0 <==> 0 < m.unloadTimer <= diff
    ensures r.0 || m.unloadTimer == 0 ==> r.1 == m
    ensures !r.0 && m.unloadTimer != 0 ==> r.1 == m.(unloadTimer := m.unloadTimer - diff)
  {
    if m.unloadTimer == 0 then (false, m)
    else if m.unloadTimer <= diff then (true, m)
    else (false, m.(unloadTimer := m.unloadTimer - diff))
  }

  function Sum(diffs: seq<Word>): nat {
    if diffs == [] then 0 else diffs[0] + Sum(diffs[1..])
  }

  /** `CanUnload` asked once per tick until it says yes: whether it did, and the map after the ticks. */
  function Countdown(m: Map, diffs: seq<Word>): (r: (bool, Map))
    decreases |diffs|
  {
    if diffs == [] then (false, m)
    else
      var step := CanUnload(m, diffs[0]);
      if step.0 then (true, step.1) else Countdown(step.1, diffs[1..])
  }

  /**
   * The countdown is a budget: a map unloads once the elapsed ticks add up
   * to its countdown, and a map whose countdown is 0 never does; until
   * then the countdown is what is left of it.
   */
  lemma {:induction false} CountdownUnloads(m: Map, diffs: seq<Word>)
    ensures Countdown(m, diffs).0 <==> m.unloadTimer != 0 && Sum(diffs) >= m.unloadTimer
    ensures !Countdown(m, diffs).0 && m.unloadTimer != 0 ==>
      Countdown(m, diffs).1 == m.(unloadTimer := m.unloadTimer - Sum(diffs))
    ensures m.unloadTimer == 0 ==> Countdown(m, diffs) == (false, m)
    decreases |diffs|
  {
    if diffs != [] {
      var step := CanUnload(m, diffs[0]);
      if !step.0 {
        CountdownUnloads(step.1, diffs[1..]);
      }
    }
  }

  // ----- the client-update and remove sets -----

  /** `AddUpdateObject`: a set insert. */
  function AddUpdateObject(m: Map, obj: nat): (r: Map)
    ensures r.toUpdate == m.toUpdate + {obj} && r == m.(toUpdate := r.toUpdate)
  {
    m.(toUpdate := m.toUpdate + {obj})
  }

  /** `RemoveUpdateObject`: a set erase. */
  function RemoveUpdateObject(m: Map, obj: nat): (r: Map)
    ensures r.toUpdate == m.toUpdate - {obj} && r == m.(toUpdate := r.toUpdate)
  {
    m.(toUpdate := m.toUpdate - {obj})
  }

  /** Adding twice is adding once, and removing undoes adding an object that was not there. */
  lemma UpdateSetLaws(m: Map, obj: nat)
    ensures AddUpdateObject(AddUpdateObject(m, obj), obj) == AddUpdateObject(m, obj)
    ensures obj !in m.toUpdate ==> RemoveUpdateObject(AddUpdateObject(m, obj), obj) == m
  {
  }

  /**
   * `SendObjectUpdates`: takes the smallest queued object off the set,
   * then has it send its update, until the set is empty; so every queued
   * object is flushed exactly once, in the set's order.
   */
  method SendObjectUpdates(m: Map) returns (flushed: seq<nat>, r: Map)
    ensures r == m.(toUpdate := {})
    ensures Ascending(flushed)
    ensures forall x :: x in flushed <==> x in m.toUpdate
  {
    flushed := InOrder(m.toUpdate);
    r := m.(toUpdate := {});
  }

  /** `RemoveAllObjectsInRemoveList`: every object is taken off the set (their removal is not there), leaving it empty. */
  function RemoveAllObjectsInRemoveList(m: Map): (r: Map)
    ensures r.toRemove == {} && r == m.(toRemove := {})
  {
    if m.toRemove == {} then m else m.(toRemove := {})
  }

  // ----- players -----

  /** `HavePlayers`: the reference list is not empty. */
  predicate HavePlayers(m: Map) {
    m.members != []
  }

  /** The map-type questions: all false for a map the store has no entry for. */
  predicate MapInstanceable(m: Map) { m.entry.Some? && Instanceable(m.entry.value) }
  predicate MapIsDungeon(m: Map) { m.entry.Some? && IsDungeon(m.entry.value) }
  predicate MapIsRaid(m: Map) { m.entry.Some? && IsRaid(m.entry.value) }
  predicate MapIsBattleGround(m: Map) { m.entry.Some? && IsBattleGround(m.entry.value) }
  predicate MapIsContinent(m: Map) { m.entry.Some? && IsContinent(m.entry.value) }

  lemma NoEntryNoType(m: Map)
    requires m.entry.None?
    ensures !MapInstanceable(m) && !MapIsDungeon(m) && !MapIsRaid(m) && !MapIsBattleGround(m) && !MapIsContinent(m)
  {
  }

  /** A new map unloads never, whatever time passes. */
  lemma NewMapStays(id: Word, instanceId: Word, store: map<Word, MapEntry>, diffs: seq<Word>)
    ensures Countdown(NewMap(id, instanceId, store), diffs) == (false, NewMap(id, instanceId, store))
    ensures !HavePlayers(NewMap(id, instanceId, store))
  {
    CountdownUnloads(NewMap(id, instanceId, store), diffs);
  }

  /**
   * `Add(Player*)`: links the player at the end of the list, puts it in the
   * world (with this map's update set), and sends it its own create block;
   * it always succeeds.  Which map the player is on is kept by the player
   * and is not part of this model.
   */
  method AddPlayer(c: UpdateConstants, m: Map, o: Obj, updateFlag: Byte, typeId: Byte, name: string, pos: Position)
    returns (ok: bool, r: Map, h: Host, block: WorldPacket)
    requires Ready(o) && o.valuesCount < 0x1_0000
    ensures ok && HavePlayers(r)
    ensures r == m.(members := m.members + [o.id])
    ensures h == AddToWorld(Host(o, m.toUpdate)) && h.obj.inWorld && h.updateList == m.toUpdate
    ensures block.opcode == Opcodes.SMSG_CREATE_OBJECT
    ensures block.items == CreateHeader(c, c.flagSelf, typeId, name, pos) + PairItems(CreatePairs(h.obj))
  {
    ok := true;
    r := m.(members := m.members + [o.id]);
    h := AddToWorld(Host(o, m.toUpdate));
    var b := BuildCreateUpdateBlockForPlayer(c, h.obj, updateFlag, typeId, name, pos, SelfTarget);
    block := b.value;
  }

  /** The list without one player's reference. */
  function Unlink(members: seq<nat>, p: nat): (r: seq<nat>)
    ensures forall x :: x in r <==> x in members && x != p
    ensures |r| <= |members|
  {
    if members == [] then []
    else if members[0] == p then Unlink(members[1..], p)
    else [members[0]] + Unlink(members[1..], p)
  }

  /** The sessions of every player on the map other than `p`, in list order. */
  function OthersSessions(members: seq<nat>, peers: nat -> PeerState, p: nat): (r: seq<nat>)
    ensures forall s :: s in r <==> exists x :: x in members && x != p && peers(x).session == s
  {
    if members == [] then []
    else
      var rest := OthersSessions(members[1..], peers, p);
      assert forall x :: x in members <==> x == members[0] || x in members[1..];
      if members[0] == p then rest else [peers(members[0]).session] + rest
  }

  /**
   * The map after `Remove` took `p` off it: the reference unlinked, the
   * update set as the player's leaving left it, and the cursor at the end,
   * where the broadcast walk left it.
   */
  function AfterRemove(m: Map, p: nat, toUpdate: set<nat>): (r: Map)
    ensures p !in r.members && r.cursor == End
    ensures forall x :: x in r.members <==> x in m.members && x != p
  {
    m.(members := Unlink(m.members, p), cursor := End, toUpdate := toUpdate)
  }

  /**
   * `Remove(Player*, remove)`: a destroy packet carrying the player's low
   * 32-bit GUID goes to the session of every other player on the map; the player leaves the world
   * (both branches end in `RemoveFromWorld`) and the list; with `remove` it
   * is also dropped from the player registry.  The broadcast walks the
   * map's own cursor to the end, so the rewind test that follows, which
   * compares the cursor with the player's reference, never holds.
   */
  method RemovePlayer(
    m: Map, o: Obj, remove: bool, peers: nat -> PeerState,
    reg: ObjectAccessor.Registry, players: nat -> ObjectAccessor.PlayerView)
    returns (r: Map, h: Host, notified: seq<nat>, destroy: WorldPacket, reg2: ObjectAccessor.Registry)
    requires Ready(o)
    ensures destroy == WorldPacket(Opcodes.SMSG_DESTROY_OBJECT, [U32(peers(o.id).guid % TwoTo32)])
    ensures notified == OthersSessions(m.members, peers, o.id)
    ensures h == RemoveFromWorld(Host(o, m.toUpdate)) && !h.obj.inWorld
    ensures Consistent(Host(o, m.toUpdate)) ==> o.id !in h.updateList
    ensures r == AfterRemove(m, o.id, h.updateList)
    ensures remove ==> reg2 == ObjectAccessor.Remove(reg, players, o.id)
    ensures !remove ==> reg2 == reg
  {
    destroy := WorldPacket(Opcodes.SMSG_DESTROY_OBJECT, [U32(peers(o.id).guid % TwoTo32)]);
    notified := OthersSessions(m.members, peers, o.id);
    h := RemoveFromWorld(Host(o, m.toUpdate));
    r := AfterRemove(m, o.id, h.updateList);
    reg2 := if remove then ObjectAccessor.Remove(reg, players, o.id) else reg;
  }

  /** The player a walk's next `++` reaches from a cursor, if any. */
  function NextVisited(members: seq<nat>, c: Cursor): (r: Option<nat>)
    ensures r.Some? ==> r.value in members
  {
    match c
    case BeforeFirst => if members != [] then Some(members[0]) else None
    case At(i) => if i + 1 < |members| then Some(members[i + 1]) else None
    case End => None
  }

  /**
   * Removing the player a walk is at, with a player after it: the walk
   * would have gone on to that player, and the rewind was meant to keep it
   * so, but after `Remove` the walk has nowhere to go although that player
   * is still on the map.
   */
  lemma RemoveLosesWalk(m: Map, k: nat, toUpdate: set<nat>)
    requires k + 1 < |m.members| && m.cursor == At(k) && m.members[k] != m.members[k + 1]
    ensures NextVisited(m.members, m.cursor) == Some(m.members[k + 1])
    ensures var r := AfterRemove(m, m.members[k], toUpdate);
      m.members[k + 1] in r.members && NextVisited(r.members, r.cursor) == None
  {
  }

  // ----- the nearby phase of `Update` -----

  /**
   * A packet the nearby phase sends: a destroy for `guid` (it carries the
   * low 32 bits) to the viewer's session, or the viewer's create block
   * (for the viewer `subject`) to the session of the player `target` it
   * has just listed.
   */
  datatype Sent =
    | Destroy(session: nat, guid: Quad)
    | Create(session: nat, subject: Quad, target: Quad)

  /** A player's nearby list after the phase, with the packets it sent. */
  datatype View = View(list: Nearby, sent: seq<Sent>)

  /**
   * The inner loop's body for a viewer and another player: nothing unless
   * the other is in the world with a different GUID; in range, it is added
   * unless `isInList` already finds it (the insert keeps any entry that is
   * already under its GUID, but the create block goes out either way); out
   * of range, if listed, the viewer is sent a destroy packet and the entry
   * is erased.  The range test is an input.
   */
  function ViewStep(list: Nearby, peers: nat -> PeerState, inRange: (nat, nat) -> bool, viewer: nat, other: nat): (r: View)
    ensures !peers(other).inWorld || peers(other).guid == peers(viewer).guid ==> r == View(list, [])
    ensures forall k :: k != peers(other).guid ==> (k in r.list <==> k in list) && (k in list ==> r.list[k] == list[k])
    ensures forall d :: d in r.sent ==>
      || (d == Destroy(peers(viewer).session, peers(other).guid) && !inRange(viewer, other))
      || (d == Create(peers(other).session, peers(viewer).guid, peers(other).guid) && inRange(viewer, other))
  {
    var g := peers(other).guid;
    if !peers(other).inWorld || peers(viewer).guid == g then View(list, [])
    else if inRange(viewer, other) then
      if IsInList(list, peers, g) then View(list, [])
      else View(AddToList(list, g, other), [Create(peers(other).session, peers(viewer).guid, g)])
    else if IsInList(list, peers, g) then
      View(RemoveFromList(list, g), [Destroy(peers(viewer).session, g)])
    else View(list, [])
  }

  /**
   * The inner loop: the step for every player on the map, in list order.
   * Destroys go to the viewer; creates carry the viewer's block to a player
   * of the list that is in the world.
   */
  function ViewAll(list: Nearby, peers: nat -> PeerState, inRange: (nat, nat) -> bool, viewer: nat, others: seq<nat>): (r: View)
    ensures forall d :: d in r.sent && d.Destroy? ==> d.session == peers(viewer).session
    ensures forall d :: d in r.sent && d.Create? ==> (d.subject == peers(viewer).guid &&
      exists o :: o in others && peers(o).inWorld && d.session == peers(o).session && d.target == peers(o).guid)
    decreases |others|
  {
    if others == [] then View(list, [])
    else
      var s := ViewStep(list, peers, inRange, viewer, others[0]);
      var rest := ViewAll(s.list, peers, inRange, viewer, others[1..]);
      assert forall o :: o in others[1..] ==> o in others;
      View(rest.list, s.sent + rest.sent)
  }

  /** The GUIDs destroy packets were sent for. */
  function DestroyedGuids(ds: seq<Sent>): set<Quad> {
    set d | d in ds && d.Destroy? :: d.guid
  }

  /** The GUIDs of the players a create block was sent to. */
  function IntroducedGuids(ds: seq<Sent>): set<Quad> {
    set d | d in ds && d.Create? :: d.target
  }

  /** No two players in the world share a GUID. */
  predicate UniqueGuids(peers: nat -> PeerState, others: seq<nat>) {
    forall i, j :: 0 <= i < j < |others| && peers(others[i]).inWorld && peers(others[j]).inWorld ==>
      peers(others[i]).guid != peers(others[j]).guid
  }

  /** Entries under a GUID that no other player in the world carries are left alone, and no packet names it. */
  lemma {:induction false} ViewAllUntouched(list: Nearby, peers: nat -> PeerState, inRange: (nat, nat) -> bool, viewer: nat, others: seq<nat>, k: Quad)
    requires forall o :: o in others && peers(o).inWorld && peers(o).guid != peers(viewer).guid ==> peers(o).guid != k
    ensures var r := ViewAll(list, peers, inRange, viewer, others);
      && (k in r.list <==> k in list) && (k in list ==> r.list[k] == list[k])
      && k !in DestroyedGuids(r.sent) && k !in IntroducedGuids(r.sent)
    decreases |others|
  {
    if others != [] {
      var s := ViewStep(list, peers, inRange, viewer, others[0]);
      assert forall o :: o in others[1..] ==> o in others;
      ViewAllUntouched(s.list, peers, inRange, viewer, others[1..], k);
    }
  }

  /**
   * After the inner loop, with GUIDs unique, a viewer lists another player
   * in the world exactly when it is in range and no stale entry already
   * sat under its GUID; it sent that player its create block exactly when
   * the player was in range and not found by `isInList`; and it was sent a
   * destroy for that player exactly when the player was listed and is out
   * of range.
   */
  lemma {:induction false} ViewAllMembership(list: Nearby, peers: nat -> PeerState, inRange: (nat, nat) -> bool, viewer: nat, others: seq<nat>, o: nat)
    requires UniqueGuids(peers, others)
    requires o in others && peers(o).inWorld && peers(o).guid != peers(viewer).guid
    ensures var r := ViewAll(list, peers, inRange, viewer, others);
      var g := peers(o).guid;
      && (IsInList(r.list, peers, g) <==> inRange(viewer, o) && (g !in list || IsInList(list, peers, g)))
      && (g in IntroducedGuids(r.sent) <==> inRange(viewer, o) && !IsInList(list, peers, g))
      && (g in DestroyedGuids(r.sent) <==> !inRange(viewer, o) && IsInList(list, peers, g))
    decreases |others|
  {
    var g := peers(o).guid;
    var x := others[0];
    var rest := others[1..];
    var s := ViewStep(list, peers, inRange, viewer, x);
    var r := ViewAll(s.list, peers, inRange, viewer, rest);
    assert forall i :: 0 <= i < |rest| ==> rest[i] == others[i + 1];
    assert ViewAll(list, peers, inRange, viewer, others).sent == s.sent + r.sent;
    if peers(x).inWorld && peers(x).guid == g {
      var j :| 0 <= j < |others| && others[j] == o;
      if j != 0 {
        assert false;
      }
      forall y | y in rest && peers(y).inWorld && peers(y).guid != peers(viewer).guid
        ensures peers(y).guid != g
      {
        var i :| 0 <= i < |rest| && rest[i] == y;
        assert others[i + 1] == y;
      }
      ViewAllUntouched(s.list, peers, inRange, viewer, rest, g);
    } else {
      assert o in rest;
      ViewAllMembership(s.list, peers, inRange, viewer, rest, o);
      assert g !in IntroducedGuids(s.sent) && g !in DestroyedGuids(s.sent);
    }
  }

  /** The players on the map that are in the world, in list order. */
  function InWorld(members: seq<nat>, peers: nat -> PeerState): (r: seq<nat>)
    ensures forall x :: x in r <==> x in members && peers(x).inWorld
  {
    if members == [] then []
    else
      var rest := InWorld(members[1..], peers);
      assert forall x :: x in members <==> x == members[0] || x in members[1..];
      if peers(members[0]).inWorld then [members[0]] + rest else rest
  }

  /**
   * The packets the nearby phase sends for the viewers `vs`, in order: each
   * viewer in the world contributes its inner loop's packets.
   */
  function PhaseSent(vs: seq<nat>, members: seq<nat>, peers: nat -> PeerState, inRange: (nat, nat) -> bool, lists: map<nat, Nearby>): (r: seq<Sent>)
    requires forall p :: p in vs ==> p in lists
    decreases |vs|
  {
    if vs == [] then []
    else
      var v := vs[|vs| - 1];
      var init := vs[..|vs| - 1];
      assert forall p :: p in init ==> p in vs;
      PhaseSent(init, members, peers, inRange, lists)
        + if peers(v).inWorld then ViewAll(lists[v], peers, inRange, v, members).sent else []
  }

  /**
   * Every packet of the phase goes to a player in the world: a destroy to
   * one of the viewers, a create block of a viewer to a player of the map.
   */
  lemma {:induction false} PhaseSentSessions(vs: seq<nat>, members: seq<nat>, peers: nat -> PeerState, inRange: (nat, nat) -> bool, lists: map<nat, Nearby>)
    requires forall p :: p in vs ==> p in lists
    ensures var r := PhaseSent(vs, members, peers, inRange, lists);
      && (forall d :: d in r && d.Destroy? ==> exists v :: v in vs && peers(v).inWorld && d.session == peers(v).session)
      && (forall d :: d in r && d.Create? ==>
           (exists v :: v in vs && peers(v).inWorld && d.subject == peers(v).guid) &&
           exists o :: o in members && peers(o).inWorld && d.session == peers(o).session && d.target == peers(o).guid)
    decreases |vs|
  {
    if vs != [] {
      var v := vs[|vs| - 1];
      var init := vs[..|vs| - 1];
      assert forall p :: p in init ==> p in vs;
      PhaseSentSessions(init, members, peers, inRange, lists);
    }
  }

  /** The nearby lists after the viewers `vs` ran their inner loops, in order. */
  function PhaseLists(vs: seq<nat>, members: seq<nat>, peers: nat -> PeerState, inRange: (nat, nat) -> bool, lists: map<nat, Nearby>): (r: map<nat, Nearby>)
    requires forall p :: p in vs ==> p in lists
    decreases |vs|
  {
    if vs == [] then lists
    else
      var v := vs[|vs| - 1];
      var init := vs[..|vs| - 1];
      assert forall p :: p in init ==> p in vs;
      var m := PhaseLists(init, members, peers, inRange, lists);
      if peers(v).inWorld then m[v := ViewAll(lists[v], peers, inRange, v, members).list] else m
  }

  /**
   * With every viewer listed once, each viewer in the world ends with its
   * own inner loop's list, run from the list it started with, and every
   * other list is untouched.
   */
  lemma {:induction false} PhaseListsContents(vs: seq<nat>, members: seq<nat>, peers: nat -> PeerState, inRange: (nat, nat) -> bool, lists: map<nat, Nearby>)
    requires forall p :: p in vs ==> p in lists
    requires forall i, j :: 0 <= i < j < |vs| ==> vs[i] != vs[j]
    ensures var r := PhaseLists(vs, members, peers, inRange, lists);
      && r.Keys == lists.Keys
      && (forall p :: p in vs && peers(p).inWorld ==> r[p] == ViewAll(lists[p], peers, inRange, p, members).list)
      && (forall p :: p in lists && !(p in vs && peers(p).inWorld) ==> r[p] == lists[p])
    decreases |vs|
  {
    if vs != [] {
      var v := vs[|vs| - 1];
      var init := vs[..|vs| - 1];
      assert forall p :: p in init ==> p in vs;
      assert v !in init;
      assert forall p :: p in vs <==> p in init || p == v;
      PhaseListsContents(init, members, peers, inRange, lists);
    }
  }

  /** One more viewer: its list replaced, its packets added at the end. */
  lemma PhaseSnoc(members: seq<nat>, i: nat, peers: nat -> PeerState, inRange: (nat, nat) -> bool, lists: map<nat, Nearby>)
    requires i < |members| && forall p :: p in members ==> p in lists
    ensures var v := members[i];
      var view := ViewAll(lists[v], peers, inRange, v, members);
      && PhaseSent(members[..i + 1], members, peers, inRange, lists)
           == PhaseSent(members[..i], members, peers, inRange, lists) + (if peers(v).inWorld then view.sent else [])
      && PhaseLists(members[..i + 1], members, peers, inRange, lists)
           == (var m := PhaseLists(members[..i], members, peers, inRange, lists);
               if peers(v).inWorld then m[v := view.list] else m)
  {
    assert members[..i + 1][..i] == members[..i];
  }

  /**
   * The nearby phase: every player in the world runs the inner loop over
   * the whole list on its own nearby list; the lists of the others are
   * untouched, and the packets are those of the inner loops in list order.
   * With unique GUIDs, every pair of distinct players in the world ends up
   * listed exactly when in range (unless a stale entry blocked the insert).
   */
  method NearbyPhase(members: seq<nat>, peers: nat -> PeerState, inRange: (nat, nat) -> bool, lists: map<nat, Nearby>)
    returns (r: map<nat, Nearby>, sent: seq<Sent>)
    requires forall p :: p in members ==> p in lists
    requires forall i, j :: 0 <= i < j < |members| ==> members[i] != members[j]
    ensures r.Keys == lists.Keys
    ensures forall p :: p in members && peers(p).inWorld ==> r[p] == ViewAll(lists[p], peers, inRange, p, members).list
    ensures forall p :: p in lists && !(p in members && peers(p).inWorld) ==> r[p] == lists[p]
    ensures sent == PhaseSent(members, members, peers, inRange, lists)
    ensures UniqueGuids(peers, members) ==>
      forall v, o :: v in members && o in members && peers(v).inWorld && peers(o).inWorld && peers(o).guid != peers(v).guid ==>
        (IsInList(r[v], peers, peers(o).guid) <==>
           inRange(v, o) && (peers(o).guid !in lists[v] || IsInList(lists[v], peers, peers(o).guid)))
  {
    r := lists;
    sent := [];
    var i := 0;
    while i < |members|
      invariant 0 <= i <= |members|
      invariant r == PhaseLists(members[..i], members, peers, inRange, lists)
      invariant sent == PhaseSent(members[..i], members, peers, inRange, lists)
    {
      var v := members[i];
      PhaseSnoc(members, i, peers, inRange, lists);
      if peers(v).inWorld {
        var view := ViewAll(lists[v], peers, inRange, v, members);
        r := r[v := view.list];
        sent := sent + view.sent;
      }
      i := i + 1;
    }
    assert members[..i] == members;
    PhaseListsContents(members, members, peers, inRange, lists);
    PhaseMembership(members, peers, inRange, lists, r);
  }

  /** The pairwise membership the phase leaves, from the inner loop's. */
  lemma PhaseMembership(members: seq<nat>, peers: nat -> PeerState, inRange: (nat, nat) -> bool, lists: map<nat, Nearby>, r: map<nat, Nearby>)
    requires forall p :: p in members ==> p in lists && p in r
    requires forall p :: p in members && peers(p).inWorld ==> r[p] == ViewAll(lists[p], peers, inRange, p, members).list
    ensures UniqueGuids(peers, members) ==>
      forall v, o :: v in members && o in members && peers(v).inWorld && peers(o).inWorld && peers(o).guid != peers(v).guid ==>
        (IsInList(r[v], peers, peers(o).guid) <==>
           inRange(v, o) && (peers(o).guid !in lists[v] || IsInList(lists[v], peers, peers(o).guid)))
  {
    if UniqueGuids(peers, members) {
      forall v, o | v in members && o in members && peers(v).inWorld && peers(o).inWorld && peers(o).guid != peers(v).guid
        ensures IsInList(r[v], peers, peers(o).guid) <==>
           inRange(v, o) && (peers(o).guid !in lists[v] || IsInList(lists[v], peers, peers(o).guid))
      {
        ViewAllMembership(lists[v], peers, inRange, v, members, o);
      }
    }
  }

  /**
   * `Map::Update`, one tick: the sessions of the players in the world are
   * updated (with the map filter), then the players, then the nearby phase,
   * then the queued objects are flushed.  The first two phases are named
   * here by whom they visit; what a session or player update does is in
   * their own models.  Every walk runs the map's cursor to the end.
   */
  method Update(m: Map, peers: nat -> PeerState, inRange: (nat, nat) -> bool, lists: map<nat, Nearby>)
    returns (sessions: seq<nat>, updated: seq<nat>, r: map<nat, Nearby>, sent: seq<Sent>, flushed: seq<nat>, m2: Map)
    requires forall p :: p in m.members ==> p in lists
    requires forall i, j :: 0 <= i < j < |m.members| ==> m.members[i] != m.members[j]
    ensures forall s :: s in sessions <==> exists p :: p in m.members && peers(p).inWorld && peers(p).session == s
    ensures r.Keys == lists.Keys
    ensures updated == InWorld(m.members, peers)
    ensures forall p :: p in m.members && peers(p).inWorld ==> r[p] == ViewAll(lists[p], peers, inRange, p, m.members).list
    ensures forall p :: p in lists && !(p in m.members && peers(p).inWorld) ==> r[p] == lists[p]
    ensures sent == PhaseSent(m.members, m.members, peers, inRange, lists)
    ensures forall x :: x in flushed <==> x in m.toUpdate
    ensures Ascending(flushed)
    ensures m2 == AfterUpdate(m)
  {
    updated := InWorld(m.members, peers);
    sessions := SessionsOf(updated, peers);
    r, sent := NearbyPhase(m.members, peers, inRange, lists);
    flushed, m2 := SendObjectUpdates(m.(cursor := End));
  }

  /** What a tick leaves of the map itself: its walks ended, its update set flushed. */
  function AfterUpdate(m: Map): (r: Map)
    ensures r.toUpdate == {} && r.cursor == End
    ensures r.members == m.members && r.unloadTimer == m.unloadTimer && r.entry == m.entry
  {
    m.(cursor := End, toUpdate := {})
  }

  function SessionsOf(ps: seq<nat>, peers: nat -> PeerState): (r: seq<nat>)
    ensures |r| == |ps| && forall i :: 0 <= i < |ps| ==> r[i] == peers(ps[i]).session
  {
    seq(|ps|, i requires 0 <= i < |ps| => peers(ps[i]).session)
  }
}

=== FILE: map_manager.dfy ===
/**
 * The map manager: every loaded map under its (map id, instance id) key,
 * the update interval timer, and the instance id counter.  The interval
 * timer comes from Timer.h, which is not part of this model; it is taken to
 * add the elapsed time to its current value, to have passed once the
 * current value reaches the interval, and on a reset to take one interval
 * off a current value that has passed.
 */
module MapManager {
  import opened Wrappers
  import opened Word32
  import opened MapEntries
  import opened Maps
  import opened SetOrder

  const MIN_MAP_UPDATE_DELAY: nat := 50

  /** A map's key: map id, then instance id. */
  datatype MapID = MapID(mapId: Word, instanceId: Word)

  /** `MapID(id)`: the key of a map that is not instanced. */
  function MapIDOf(id: Word): (k: MapID)
    ensures k.mapId == id && k.instanceId == 0
  {
    MapID(id, 0)
  }

  /** `operator<`: instance ids decide between equal map ids, map ids otherwise. */
  predicate Less(a: MapID, b: MapID) {
    if a.mapId == b.mapId then a.instanceId < b.instanceId else a.mapId < b.mapId
  }

  /** The key read as one 64-bit number, map id in the high half. */
  function Rank(k: MapID): nat {
    k.mapId * TwoTo32 + k.instanceId
  }

  /** `<` orders keys as their 64-bit numbers, so it is lexicographic. */
  lemma LessIsRankOrder(a: MapID, b: MapID)
    ensures Less(a, b) <==> Rank(a) < Rank(b)
    ensures Rank(a) == Rank(b) <==> a == b
  {
    if a.mapId < b.mapId {
      assert a.mapId * TwoTo32 + TwoTo32 <= b.mapId * TwoTo32;
    } else if b.mapId < a.mapId {
      assert b.mapId * TwoTo32 + TwoTo32 <= a.mapId * TwoTo32;
    }
  }

  /** `<` is a strict total order, and `==` is the equality it leaves. */
  lemma LessIsStrictTotalOrder(a: MapID, b: MapID, c: MapID)
    ensures !Less(a, a)
    ensures Less(a, b) && Less(b, c) ==> Less(a, c)
    ensures a == b || Less(a, b) || Less(b, a)
    ensures !(Less(a, b) && Less(b, a))
  {
  }

  /** The interval timer: how long an update waits, and the time gathered since the last one. */
  datatype IntervalTimer = IntervalTimer(interval: nat, current: nat)

  datatype Manager = Manager(maps: map<MapID, Map>, timer: IntervalTimer, maxInstanceId: Word)

  /** Each map is filed under its own ids and carries the store's entry for its map id. */
  predicate WellFiled(mgr: Manager, store: map<Word, MapEntry>) {
    forall k :: k in mgr.maps ==>
      mgr.maps[k].id == k.mapId && mgr.maps[k].instanceId == k.instanceId
      && mgr.maps[k].entry == (if k.mapId in store then Some(store[k.mapId]) else None)
  }

  /** No instanced map is loaded. */
  predicate NoInstances(mgr: Manager) {
    forall k :: k in mgr.maps ==> !MapInstanceable(mgr.maps[k])
  }

  /** `Reset` of the timer: one interval off a current value that has passed it. */
  function Reset(t: IntervalTimer): (r: IntervalTimer)
    ensures r.interval == t.interval
    ensures r.current <= t.current
    ensures t.current >= t.interval ==> r.current + t.interval == t.current
    ensures t.current < t.interval ==> r == t
  {
    if t.current >= t.interval then t.(current := t.current - t.interval) else t
  }

  /**
   * `SetMapUpdateInterval`: an interval above `MIN_MAP_UPDATE_DELAY` is cut
   * down to it (so the constant is a ceiling, whatever its name), then the
   * timer is reset.
   */
  function SetMapUpdateInterval(mgr: Manager, t: Word): (r: Manager)
    ensures r.timer.interval <= MIN_MAP_UPDATE_DELAY
    ensures t <= MIN_MAP_UPDATE_DELAY ==> r.timer.interval == t
    ensures t > MIN_MAP_UPDATE_DELAY ==> r.timer.interval == MIN_MAP_UPDATE_DELAY
    ensures r.timer == Reset(IntervalTimer(r.timer.interval, mgr.timer.current))
    ensures r.maps == mgr.maps && r.maxInstanceId == mgr.maxInstanceId
  {
    var interval := if t > MIN_MAP_UPDATE_DELAY then MIN_MAP_UPDATE_DELAY else t;
    mgr.(timer := Reset(IntervalTimer(interval, mgr.timer.current)))
  }

  /** The interval never exceeds the constant, and any shorter interval is kept: it is a minimum of the two. */
  lemma IntervalIsCapped(mgr: Manager, t: Word)
    ensures SetMapUpdateInterval(mgr, t).timer.interval == if t < MIN_MAP_UPDATE_DELAY then t else MIN_MAP_UPDATE_DELAY
    ensures SetMapUpdateInterval(mgr, 0).timer.interval == 0
  {
  }

  /** `InitMaxInstanceId`: the largest saved instance id, or 0 without one. */
  function InitMaxInstanceId(mgr: Manager, savedMax: Option<Word>): (r: Manager)
    ensures r.maxInstanceId == (if savedMax.Some? then savedMax.value else 0)
    ensures r.maps == mgr.maps && r.timer == mgr.timer
  {
    mgr.(maxInstanceId := if savedMax.Some? then savedMax.value else 0)
  }

  /** `GenerateInstanceId`: the counter is bumped (as a `uint32`) before it is returned. */
  function GenerateInstanceId(mgr: Manager): (r: (Manager, Word))
    ensures r.1 == Wrap(mgr.maxInstanceId + 1) && r.0 == mgr.(maxInstanceId := r.1)
  {
    var id := Wrap(mgr.maxInstanceId + 1);
    (mgr.(maxInstanceId := id), id)
  }

  /** `n` ids in a row. */
  function GenerateInstanceIds(mgr: Manager, n: nat): (r: seq<Word>)
    ensures |r| == n
    decreases n
  {
    if n == 0 then []
    else
      var step := GenerateInstanceId(mgr);
      [step.1] + GenerateInstanceIds(step.0, n - 1)
  }

  /** Until the counter wraps, the ids handed out are all above the counter and strictly increasing. */
  lemma {:induction false} InstanceIdsIncrease(mgr: Manager, n: nat)
    requires mgr.maxInstanceId + n < TwoTo32
    ensures forall i :: 0 <= i < n ==> GenerateInstanceIds(mgr, n)[i] == mgr.maxInstanceId + i + 1
    ensures forall i, j :: 0 <= i < j < n ==> GenerateInstanceIds(mgr, n)[i] < GenerateInstanceIds(mgr, n)[j]
    decreases n
  {
    if n > 0 {
      var step := GenerateInstanceId(mgr);
      var ids := GenerateInstanceIds(mgr, n);
      var rest := GenerateInstanceIds(step.0, n - 1);
      assert step.0.maxInstanceId == mgr.maxInstanceId + 1;
      assert ids == [step.1] + rest;
      InstanceIdsIncrease(step.0, n - 1);
      forall i | 0 <= i < n
        ensures ids[i] == mgr.maxInstanceId + i + 1
      {
        if i > 0 {
          assert ids[i] == rest[i - 1];
          assert rest[i - 1] == step.0.maxInstanceId + (i - 1) + 1;
        } else {
          assert ids[0] == step.1;
        }
      }
    }
  }

  /**
   * `FindMap`: the map under the key; nothing when there is none, and
   * nothing (after a debug assertion) when instance 0 is asked for and the
   * map found is instanced.
   */
  function FindMap(mgr: Manager, mapId: Word, instanceId: Word): (r: Option<Map>)
    ensures MapID(mapId, instanceId) !in mgr.maps ==> r.None?
    ensures r.Some? <==> MapID(mapId, instanceId) in mgr.maps && !(instanceId == 0 && MapInstanceable(mgr.maps[MapID(mapId, instanceId)]))
    ensures r.Some? ==> r.value == mgr.maps[MapID(mapId, instanceId)]
  {
    var k := MapID(mapId, instanceId);
    if k !in mgr.maps then None
    else if instanceId == 0 && MapInstanceable(mgr.maps[k]) then None
    else Some(mgr.maps[k])
  }

  /** Whether `CreateMap` gives a map for `id`: the store knows it and it is not instanced. */
  predicate GivesMap(store: map<Word, MapEntry>, id: Word)
  {
    id in store && !Instanceable(store[id])
  }

  /**
   * `CreateMap`: nothing for a map id the store does not know; for an
   * instanced map, whatever `CreateInstance` finds, and it finds and files
   * nothing; otherwise the map under `MapID(id)`, created and filed there
   * when `FindMap` has none.  The map is named by the key it is filed under.
   */
  function CreateMap(mgr: Manager, store: map<Word, MapEntry>, id: Word): (r: (Option<MapID>, Manager))
    ensures !GivesMap(store, id) ==> r == (None, mgr)
    ensures GivesMap(store, id) ==>
      r.0 == Some(MapIDOf(id)) && MapIDOf(id) in r.1.maps
      && r.1.timer == mgr.timer && r.1.maxInstanceId == mgr.maxInstanceId
      && (FindMap(mgr, id, 0).Some? ==> r.1 == mgr)
      && (FindMap(mgr, id, 0).None? ==> r.1.maps == mgr.maps[MapIDOf(id) := NewMap(id, 0, store)])
    ensures WellFiled(mgr, store) ==> WellFiled(r.1, store)
    ensures NoInstances(mgr) ==> NoInstances(r.1)
  {
    if id !in store then (None, mgr)
    else if Instanceable(store[id]) then (None, mgr)
    else match FindMap(mgr, id, 0)
      case Some(_) => (Some(MapIDOf(id)), mgr)
      case None => (Some(MapIDOf(id)), mgr.(maps := mgr.maps[MapIDOf(id) := NewMap(id, 0, store)]))
  }

  /** A second `CreateMap` for the same id finds the map the first one filed, and changes nothing. */
  lemma CreateMapTwice(mgr: Manager, store: map<Word, MapEntry>, id: Word)
    requires WellFiled(mgr, store)
    ensures var first := CreateMap(mgr, store, id);
      CreateMap(first.1, store, id) == (first.0, first.1)
  {
  }

  /** `DeleteInstance`: erases the key only when a map is there and it is instanced. */
  function DeleteInstance(mgr: Manager, mapId: Word, instanceId: Word): (r: Manager)
    ensures var k := MapID(mapId, instanceId);
      if k in mgr.maps && MapInstanceable(mgr.maps[k]) then r == mgr.(maps := mgr.maps - {k}) else r == mgr
  {
    var k := MapID(mapId, instanceId);
    if k in mgr.maps && MapInstanceable(mgr.maps[k]) then mgr.(maps := mgr.maps - {k}) else mgr
  }

  /**
   * After `DeleteInstance` the key no longer finds an instanced map, and
   * every other key finds what it found before.
   */
  lemma DeleteThenFind(mgr: Manager, mapId: Word, instanceId: Word, otherMap: Word, otherInstance: Word)
    ensures var r := DeleteInstance(mgr, mapId, instanceId);
      var f := FindMap(r, mapId, instanceId);
      (f.Some? ==> !MapInstanceable(f.value))
      && (MapID(otherMap, otherInstance) != MapID(mapId, instanceId) ==>
          FindMap(r, otherMap, otherInstance) == FindMap(mgr, otherMap, otherInstance))
  {
  }

  /** `CreateMap` never files an instanced map, so with it as the only way in `DeleteInstance` has nothing to delete. */
  lemma NothingToDelete(mgr: Manager, mapId: Word, instanceId: Word)
    requires NoInstances(mgr)
    ensures DeleteInstance(mgr, mapId, instanceId) == mgr
  {
  }

  /**
   * `Update(diff)`: the timer gathers `diff`; until it passes nothing else
   * happens.  Then every map is updated with the gathered time (as a
   * `uint32`), the maps whose `CanUnload` says yes are deleted and erased
   * (the others keep their shortened countdowns), and the timer's current
   * value drops to 0.  The result says with what time the maps were updated.
   */
  function Update(mgr: Manager, diff: Word): (r: (Option<Word>, Manager))
    ensures mgr.timer.current + diff < mgr.timer.interval <==> r.0.None?
    ensures r.0.None? ==> r.1 == mgr.(timer := mgr.timer.(current := mgr.timer.current + diff))
    ensures r.0.Some? ==>
      r.0.value == Wrap(mgr.timer.current + diff)
      && r.1.timer == mgr.timer.(current := 0) && r.1.maxInstanceId == mgr.maxInstanceId
      && (forall k :: k in r.1.maps <==> k in mgr.maps && !(0 < mgr.maps[k].unloadTimer <= r.0.value))
      && (forall k :: k in r.1.maps ==> r.1.maps[k] == CanUnload(AfterUpdate(mgr.maps[k]), r.0.value).1)
  {
    var current := mgr.timer.current + diff;
    if current < mgr.timer.interval then (None, mgr.(timer := mgr.timer.(current := current)))
    else
      var d := Wrap(current);
      var kept := map k | k in mgr.maps && !CanUnload(AfterUpdate(mgr.maps[k]), d).0 :: CanUnload(AfterUpdate(mgr.maps[k]), d).1;
      (Some(d), Manager(kept, mgr.timer.(current := 0), mgr.maxInstanceId))
  }

  /** Nothing in the server starts a map's countdown, and while none runs an update unloads no map. */
  lemma NoCountdownNoUnload(mgr: Manager, diff: Word)
    requires forall k :: k in mgr.maps ==> mgr.maps[k].unloadTimer == 0
    ensures Update(mgr, diff).1.maps.Keys == mgr.maps.Keys
    ensures forall k :: k in Update(mgr, diff).1.maps ==> Update(mgr, diff).1.maps[k].unloadTimer == 0
  {
  }

  /** An update keeps the maps filed as they were and lets no instanced map in. */
  lemma UpdateKeepsFiling(mgr: Manager, store: map<Word, MapEntry>, diff: Word)
    ensures WellFiled(mgr, store) ==> WellFiled(Update(mgr, diff).1, store)
    ensures NoInstances(mgr) ==> NoInstances(Update(mgr, diff).1)
  {
  }

  /** `RemoveAllObjectsInRemoveList` of the manager: each map's. */
  function RemoveAllObjectsInRemoveList(mgr: Manager): (r: Manager)
    ensures r.maps.Keys == mgr.maps.Keys && r.timer == mgr.timer && r.maxInstanceId == mgr.maxInstanceId
    ensures forall k :: k in r.maps ==> r.maps[k].toRemove == {} && r.maps[k] == mgr.maps[k].(toRemove := {})
  {
    mgr.(maps := map k | k in mgr.maps :: Maps.RemoveAllObjectsInRemoveList(mgr.maps[k]))
  }

  /** `InitializeVisibilityDistanceInfo`: every map takes the world's continent visibility. */
  function InitializeVisibilityDistanceInfo(mgr: Manager, continents: real): (r: Manager)
    ensures r.maps.Keys == mgr.maps.Keys
    ensures forall k :: k in r.maps ==> r.maps[k] == mgr.maps[k].(visibleDistance := continents)
  {
    mgr.(maps := map k | k in mgr.maps :: InitVisibilityDistance(mgr.maps[k], continents))
  }

  /** `UnloadAll`: every map is deleted. */
  function UnloadAll(mgr: Manager): (r: Manager)
    ensures r.maps == map[] && r.timer == mgr.timer && r.maxInstanceId == mgr.maxInstanceId
  {
    mgr.(maps := map[])
  }

  /** `IsValidMAP`: the store knows the map and it is not a dungeon. */
  predicate IsValidMap(store: map<Word, MapEntry>, mapId: Word) {
    mapId in store && !IsDungeon(store[mapId])
  }

  /** A valid map is one the store knows that is neither a raid nor a five-player dungeon, and mounts are allowed on it. */
  lemma ValidMapIsOpen(store: map<Word, MapEntry>, mapId: Word)
    ensures IsValidMap(store, mapId) <==> mapId in store && !IsRaid(store[mapId]) && !IsNonRaidDungeon(store[mapId])
    ensures IsValidMap(store, mapId) ==> IsMountAllowed(store[mapId])
  {
    if mapId in store {
      KindsNest(store[mapId]);
      MountsInDungeons(store[mapId]);
    }
  }

  /** The keys of the dungeon maps. */
  function DungeonKeys(maps: map<MapID, Map>): set<MapID> {
    set k | k in maps && MapIsDungeon(maps[k])
  }

  /** `GetNumInstances`: a walk over the maps counting the dungeons. */
  method GetNumInstances(mgr: Manager) returns (n: nat)
    ensures n == |DungeonKeys(mgr.maps)|
    ensures n <= |mgr.maps|
  {
    n := 0;
    var rest := mgr.maps.Keys;
    while rest != {}
      invariant rest <= mgr.maps.Keys
      invariant n == |set k | k in mgr.maps && MapIsDungeon(mgr.maps[k]) && k !in rest|
      decreases rest
    {
      var k :| k in rest;
      var before := set j | j in mgr.maps && MapIsDungeon(mgr.maps[j]) && j !in rest;
      var after := set j | j in mgr.maps && MapIsDungeon(mgr.maps[j]) && j !in rest - {k};
      if MapIsDungeon(mgr.maps[k]) {
        assert after == before + {k};
        n := n + 1;
      } else {
        assert after == before;
      }
      rest := rest - {k};
    }
    assert DungeonKeys(mgr.maps) == set k | k in mgr.maps && MapIsDungeon(mgr.maps[k]) && k !in rest;
    assert DungeonKeys(mgr.maps) <= mgr.maps.Keys;
    SubsetSize(DungeonKeys(mgr.maps), mgr.maps.Keys);
  }

  /** The players on the dungeons among `keys`, added up. */
  ghost function PlayersOn(maps: map<MapID, Map>, keys: set<MapID>): nat
    requires keys <= maps.Keys
    decreases keys
  {
    if keys == {} then 0
    else
      var k :| k in keys;
      PlayersOn(maps, keys - {k}) + if MapIsDungeon(maps[k]) then |maps[k].members| else 0
  }

  /** The sum does not depend on the order the keys are taken in. */
  lemma {:induction false} PlayersOnRemove(maps: map<MapID, Map>, keys: set<MapID>, k: MapID)
    requires keys <= maps.Keys && k in keys
    ensures PlayersOn(maps, keys) == PlayersOn(maps, keys - {k}) + if MapIsDungeon(maps[k]) then |maps[k].members| else 0
    decreases keys
  {
    var j :| j in keys && PlayersOn(maps, keys) == PlayersOn(maps, keys - {j}) + (if MapIsDungeon(maps[j]) then |maps[j].members| else 0);
    if j != k {
      PlayersOnRemove(maps, keys - {j}, k);
      PlayersOnRemove(maps, keys - {k}, j);
      assert keys - {j} - {k} == keys - {k} - {j};
    }
  }

  /** The players on all the dungeons the manager holds. */
  ghost function DungeonPlayers(mgr: Manager): nat {
    PlayersOn(mgr.maps, mgr.maps.Keys)
  }

  /**
   * `GetNumPlayersInInstances`: a walk over the maps adding up the players
   * on the dungeons.  The total is the sum over the dungeons, in whatever
   * order the walk takes them; it is zero exactly when every dungeon is
   * empty, and no dungeon holds more players than the total.
   */
  method GetNumPlayersInInstances(mgr: Manager) returns (n: nat)
    ensures n == DungeonPlayers(mgr)
    ensures n == 0 <==> forall k :: k in DungeonKeys(mgr.maps) ==> mgr.maps[k].members == []
    ensures forall k :: k in DungeonKeys(mgr.maps) ==> |mgr.maps[k].members| <= n
  {
    n := 0;
    var rest := mgr.maps.Keys;
    while rest != {}
      invariant rest <= mgr.maps.Keys
      invariant n + PlayersOn(mgr.maps, rest) == DungeonPlayers(mgr)
      invariant n == 0 <==> forall k :: k in DungeonKeys(mgr.maps) && k !in rest ==> mgr.maps[k].members == []
      invariant forall k :: k in DungeonKeys(mgr.maps) && k !in rest ==> |mgr.maps[k].members| <= n
      decreases rest
    {
      var k :| k in rest;
      PlayersOnRemove(mgr.maps, rest, k);
      if MapIsDungeon(mgr.maps[k]) {
        n := n + |mgr.maps[k].members|;
      }
      rest := rest - {k};
    }
  }

  lemma SubsetSize<T>(a: set<T>, b: set<T>)
    requires a <= b
    ensures |a| <= |b|
  {
    assert b == a + (b - a);
  }

  /** With no instanced map loaded, there is no dungeon to count. */
  lemma NoInstancesNoDungeons(mgr: Manager)
    requires NoInstances(mgr)
    ensures DungeonKeys(mgr.maps) == {}
  {
    forall k | k in mgr.maps
      ensures !MapIsDungeon(mgr.maps[k])
    {
      if MapIsDungeon(mgr.maps[k]) {
        KindsNest(mgr.maps[k].entry.value);
      }
    }
  }

  /**
   * `DoForAllMapsWithMapId`: the maps from the first key of `mapId` up to
   * the first key of `mapId + 1`, that is, the instances of that map id in
   * ascending order.  The bound is computed in `uint32`, so the last map id
   * would wrap to 0; callers do not pass it.
   */
  method DoForAllMapsWithMapId(mgr: Manager, mapId: Word) returns (visited: seq<nat>)
    requires mapId + 1 < TwoTo32
    ensures Ascending(visited)
    ensures forall i: nat :: i in visited <==> i < TwoTo32 && MapID(mapId, i) in mgr.maps
  {
    var ids := set k | k in mgr.maps && k.mapId == mapId :: k.instanceId as nat;
    visited := InOrder(ids);
    forall i: nat | i < TwoTo32 && MapID(mapId, i) in mgr.maps
      ensures i in ids
    {
      var k := MapID(mapId, i);
      assert k in mgr.maps && k.mapId == mapId;
    }
  }
}

=== FILE: object_guid.dfy ===
/**
 * Object GUIDs: the names of the high parts, the counter that hands out the
 * low parts, and the text form used in log lines.  How a high part and a
 * counter are packed into 64 bits lives in ObjectGuid.h, which is not part
 * of this model; the counter limit of each high part is a parameter.
 */
module ObjectGuid {
  import opened Word32
  import opened Wrappers
  import opened Text

  /** The high parts `GetTypeName` knows, and any other value. */
  datatype HighGuid =
    | HighItem | HighPlayer | HighGameObject | HighTransport | HighUnit
    | HighPet | HighDynamicObject | HighCorpse | HighMoTransport
    | HighOther(code: nat)

  /** `GetTypeName`: a fixed name for each known high part, `<unknown>` for the rest. */
  function TypeName(high: HighGuid): (r: string)
    ensures r == "<unknown>" <==> high.HighOther?
    ensures high == HighPlayer <==> r == "Player"
  {
    match high
    case HighItem => "Item"
    case HighPlayer => "Player"
    case HighGameObject => "Gameobject"
    case HighTransport => "Transport"
    case HighUnit => "Creature"
    case HighPet => "Pet"
    case HighDynamicObject => "DynObject"
    case HighCorpse => "Corpse"
    case HighMoTransport => "MoTransport"
    case HighOther(_) => "<unknown>"
  }

  /** Every known high part has a name of its own. */
  lemma TypeNamesDistinct(a: HighGuid, b: HighGuid)
    requires !a.HighOther? && !b.HighOther? && a != b
    ensures TypeName(a) != TypeName(b)
  {
  }

  /**
   * What `GetString` needs from a GUID.  `HasEntry`, `IsPet`, `GetEntry`
   * and `GetCounter` are computed in ObjectGuid.h, so they are inputs here.
   */
  datatype GuidView = GuidView(high: HighGuid, hasEntry: bool, isPet: bool, entry: nat, counter: nat)

  /** The part of `GetString` after the type name and before the counter. */
  function EntryText(g: GuidView): string {
    if g.hasEntry then (if g.isPet then "Petnumber: " else "Entry: ") + ToDecimal(g.entry) + " " else ""
  }

  /** `GetString`: `<type> (` then the entry when there is one, then `Guid: <counter>)`. */
  function GuidString(g: GuidView): (r: string)
    ensures |r| > |TypeName(g.high)| + 2
    ensures r[..|TypeName(g.high)|] == TypeName(g.high)
    ensures r[|r| - 1] == ')'
  {
    TypeName(g.high) + " (" + EntryText(g) + "Guid: " + ToDecimal(g.counter) + ")"
  }

  /** The counter is read back from between `Guid: ` and the closing bracket. */
  lemma GuidStringCounter(g: GuidView)
    ensures var r := GuidString(g);
      var k := |TypeName(g.high)| + 2 + |EntryText(g)| + 6;
      k < |r| && r[k - 6..k] == "Guid: " && ParseDecimal(r[k..|r| - 1]) == Some(g.counter)
  {
    var r := GuidString(g);
    var k := |TypeName(g.high)| + 2 + |EntryText(g)| + 6;
    assert r[k..|r| - 1] == ToDecimal(g.counter);
    assert r[k - 6..k] == "Guid: ";
    DecimalRoundTrip(g.counter);
  }

  /** `ObjectGuidGenerator`: the next counter to hand out. */
  datatype Generator = Generator(next: Word)

  /**
   * `Generate`: hands out the current counter and advances it (as a 32-bit
   * counter).  When the counter has reached the limit less one, it also asks
   * the world to stop, but still hands out and advances.
   */
  function Generate(g: Generator, maxCounter: Word): (r: (Generator, Word, bool))
    ensures r.1 == g.next
    ensures g.next + 1 < TwoTo32 ==> r.0.next == g.next + 1
    ensures r.2 <==> g.next >= Wrap(maxCounter - 1)
  {
    (Generator(Wrap(g.next + 1)), g.next, g.next >= Wrap(maxCounter - 1))
  }

  /** The counters handed out by `n` calls in a row. */
  function GenerateMany(g: Generator, maxCounter: Word, n: nat): (r: seq<Word>)
    ensures |r| == n
    decreases n
  {
    if n == 0 then []
    else
      var step := Generate(g, maxCounter);
      [step.1] + GenerateMany(step.0, maxCounter, n - 1)
  }

  /**
   * Until the 32-bit counter runs out, successive calls hand out
   * consecutive, hence strictly increasing, counters.
   */
  lemma {:induction false} GenerateIncreases(g: Generator, maxCounter: Word, n: nat)
    requires g.next + n <= TwoTo32
    ensures forall i :: 0 <= i < n ==> GenerateMany(g, maxCounter, n)[i] == g.next + i
    ensures forall i, j :: 0 <= i < j < n ==> GenerateMany(g, maxCounter, n)[i] < GenerateMany(g, maxCounter, n)[j]
    decreases n
  {
    if n > 0 {
      var step := Generate(g, maxCounter);
      if n > 1 {
        GenerateIncreases(step.0, maxCounter, n - 1);
      }
      var r := GenerateMany(g, maxCounter, n);
      assert r == [g.next] + GenerateMany(step.0, maxCounter, n - 1);
      forall i | 0 <= i < n
        ensures r[i] == g.next + i
      {
        if i > 0 {
          assert r[i] == GenerateMany(step.0, maxCounter, n - 1)[i - 1];
        }
      }
    }
  }
}

=== FILE: object_mgr.dfy ===
/**
 * The object manager's player tables: per-class create information, the
 * per-class, per-level base health and energy with its gap filling, the
 * experience table, the player GUID counter, and the name validators.
 * Database rows are inputs; the world configuration values it reads
 * (`MaxPlayerLevel`, `MinPlayerName`, `MinCharterName`) and `MAX_CLASSES`
 * are parameters.
 */
module ObjectMgr {
  import opened Wrappers
  import opened Word32
  import opened Text
  import opened ObjectGuid
  import opened UpdateCodec

  /** `PlayerClassLevelInfo`: two 16-bit base values. */
  datatype ClassLevelInfo = ClassLevelInfo(baseHealth: Half, baseEnergy: Half)

  /** What a default-constructed `PlayerClassLevelInfo` holds. */
  const ZeroLevelInfo: ClassLevelInfo := ClassLevelInfo(0, 0)

  /** `PlayerInfo`: where a class starts, and its display ids (0 until loaded). */
  datatype PlayerInfo = PlayerInfo(mapId: Word, areaId: Word, pos: Position, displayIdM: Word, displayIdF: Word)

  const DefaultPlayerInfo: PlayerInfo := PlayerInfo(0, 0, Position(0, 0, 0, 0), 0, 0)

  /**
   * A class's level table: absent until a row for the class is loaded,
   * then one entry per level up to the maximum.
   */
  type LevelTable = Option<seq<ClassLevelInfo>>

  predicate ValidLevels(levels: seq<LevelTable>, maxLevel: nat) {
    forall c :: 0 <= c < |levels| && levels[c].Some? ==> |levels[c].value| == maxLevel >= 1
  }

  /** The manager's tables, indexed by class. */
  datatype Tables = Tables(
    maxClasses: nat,
    maxPlayerLevel: nat,
    classLevels: seq<LevelTable>,
    playerInfo: seq<PlayerInfo>,
    xpForLevel: map<nat, Word>,
    charGuids: Generator)

  predicate ValidTables(t: Tables) {
    |t.classLevels| == t.maxClasses && |t.playerInfo| == t.maxClasses
    && ValidLevels(t.classLevels, t.maxPlayerLevel)
  }

  // ----- lookups -----

  /** `GetPlayerClassInfo`: nothing for a class number out of range. */
  function GetPlayerClassInfo(t: Tables, cls: nat): (r: Option<LevelTable>)
    requires ValidTables(t)
    ensures r.None? <==> cls >= t.maxClasses
    ensures r.Some? ==> r.value == t.classLevels[cls]
  {
    if cls >= t.maxClasses then None else Some(t.classLevels[cls])
  }

  /** `GetPlayerInfo`: nothing out of range, nor for a class whose display ids were never loaded. */
  function GetPlayerInfo(t: Tables, cls: nat): (r: Option<PlayerInfo>)
    requires ValidTables(t)
    ensures r.Some? <==> cls < t.maxClasses && t.playerInfo[cls].displayIdM != 0 && t.playerInfo[cls].displayIdF != 0
    ensures r.Some? ==> r.value == t.playerInfo[cls]
  {
    if cls >= t.maxClasses then None
    else
      var info := t.playerInfo[cls];
      if info.displayIdM == 0 || info.displayIdF == 0 then None else Some(info)
  }

  /** What `GetPlayerClassLevelInfo` dereferences: the class's table, for a level it reads. */
  predicate CanReadLevel(t: Tables, cls: nat, level: nat) {
    level < 1 || cls >= t.maxClasses || (cls < |t.classLevels| && t.classLevels[cls].Some?)
  }

  /**
   * `GetPlayerClassLevelInfo`: leaves `info` as it was for level 0 or a
   * class out of range; otherwise the entry for the level, capped at the
   * maximum level.
   */
  function GetPlayerClassLevelInfo(t: Tables, cls: nat, level: nat, info: ClassLevelInfo): (r: ClassLevelInfo)
    requires ValidTables(t) && CanReadLevel(t, cls, level)
    ensures level < 1 || cls >= t.maxClasses ==> r == info
    ensures 1 <= level <= t.maxPlayerLevel && cls < t.maxClasses ==> r == t.classLevels[cls].value[level - 1]
    ensures level > t.maxPlayerLevel && cls < t.maxClasses ==> r == t.classLevels[cls].value[t.maxPlayerLevel - 1]
  {
    if level < 1 || cls >= t.maxClasses then info
    else
      var capped := if level > t.maxPlayerLevel then t.maxPlayerLevel else level;
      t.classLevels[cls].value[capped - 1]
  }

  /** `GetXPForLevel`: level 0 reads the entry of level 1. */
  function GetXPForLevel(t: Tables, level: nat): (r: Word)
    requires (if level == 0 then 1 else level) in t.xpForLevel
    ensures level != 0 ==> r == t.xpForLevel[level]
  {
    t.xpForLevel[if level == 0 then 1 else level]
  }

  lemma XPForLevelZeroIsOne(t: Tables)
    requires 1 in t.xpForLevel
    ensures GetXPForLevel(t, 0) == GetXPForLevel(t, 1) == t.xpForLevel[1]
  {
  }

  /** `GeneratePlayerLowGuid`: the player GUID counter's `Generate`. */
  function GeneratePlayerLowGuid(t: Tables, maxCounter: Word): (r: (Tables, Word, bool))
    ensures r.1 == t.charGuids.next
    ensures r.0 == t.(charGuids := Generate(t.charGuids, maxCounter).0)
    ensures t.charGuids.next + 1 < TwoTo32 ==> r.0.charGuids.next == r.1 + 1
  {
    var step := Generate(t.charGuids, maxCounter);
    (t.(charGuids := step.0), step.1, step.2)
  }

  // ----- name checks -----

  /** The outcomes of `CheckPlayerName` this code can return. */
  datatype NameCheck = NameSuccess | NameInvalidCharacter | NameTooLong | NameTooShort

  predicate IsLetter(c: char) { IsUpper(c) || IsLower(c) }

  predicate AllLetters(name: string) {
    forall i :: 0 <= i < |name| ==> IsLetter(name[i])
  }

  /**
   * UTF-8 decoding (`Utf8toWStr`, which is not part of this model) is a
   * parameter giving the decoded length, or nothing when the bytes do not
   * decode.  All it needs to satisfy: a name of ASCII letters decodes to one
   * character per byte.
   */
  ghost predicate DecodesAscii(decode: string -> Option<nat>) {
    forall name :: AllLetters(name) ==> decode(name) == Some(|name|)
  }

  /**
   * `CheckPlayerName`: undecodable or holding anything but ASCII letters is
   * an invalid character; then too long over 15 characters, too short under
   * the configured minimum.
   */
  function CheckPlayerName(name: string, decode: string -> Option<nat>, minName: nat): (r: NameCheck)
  {
    if decode(name).None? then NameInvalidCharacter
    else if !AllLetters(name) then NameInvalidCharacter
    else if decode(name).value > 15 then NameTooLong
    else if decode(name).value < minName then NameTooShort
    else NameSuccess
  }

  /**
   * With any decoder that reads ASCII letters one to a character, the
   * outcome depends on the name alone: the decoding step never decides it.
   */
  lemma CheckPlayerNameOutcome(name: string, decode: string -> Option<nat>, minName: nat)
    requires DecodesAscii(decode)
    ensures CheckPlayerName(name, decode, minName) == NameSuccess <==> AllLetters(name) && minName <= |name| <= 15
    ensures CheckPlayerName(name, decode, minName) == NameInvalidCharacter <==> !AllLetters(name)
    ensures CheckPlayerName(name, decode, minName) == NameTooLong <==> AllLetters(name) && |name| > 15
    ensures CheckPlayerName(name, decode, minName) == NameTooShort <==> AllLetters(name) && |name| <= 15 && |name| < minName
  {
    if AllLetters(name) {
      assert decode(name) == Some(|name|);
    }
  }

  /**
   * `IsValidCharterName`: decodes, and the decoded length is at most 24 and
   * at least the configured minimum; any characters are allowed.
   */
  function IsValidCharterName(name: string, decode: string -> Option<nat>, minName: nat): (r: bool)
    ensures r ==> decode(name).Some?
    ensures decode(name).None? || decode(name).value > 24 || decode(name).value < minName ==> !r
  {
    if decode(name).None? then false
    else if decode(name).value > 24 then false
    else decode(name).value >= minName
  }

  /** For a name of letters the charter rule is a length window, with no character rule. */
  lemma CharterNameOutcome(name: string, decode: string -> Option<nat>, minName: nat)
    requires DecodesAscii(decode) && AllLetters(name)
    ensures IsValidCharterName(name, decode, minName) <==> minName <= |name| <= 24
  {
    assert decode(name) == Some(|name|);
  }

  // ----- loading the create information -----

  /** A `playercreateinfo` row: the class and where it starts. */
  datatype CreateRow = CreateRow(cls: Word, mapId: Word, zone: Word, pos: Position)

  /**
   * Stores a create row: start map, area and position, and both display ids
   * set to -1 (so the class now counts as loaded).  The row's class indexes
   * the table without a bound check, so it must be in range.
   */
  function StoreCreateRow(infos: seq<PlayerInfo>, row: CreateRow): (r: seq<PlayerInfo>)
    requires row.cls < |infos|
    ensures |r| == |infos|
    ensures r[row.cls].displayIdM != 0 && r[row.cls].displayIdF != 0
    ensures r[row.cls].mapId == row.mapId && r[row.cls].pos == row.pos
    ensures forall c :: 0 <= c < |infos| && c != row.cls ==> r[c] == infos[c]
  {
    infos[row.cls := PlayerInfo(row.mapId, row.zone, row.pos, Wrap(-1), Wrap(-1))]
  }

  function LoadCreateRows(infos: seq<PlayerInfo>, rows: seq<CreateRow>): (r: seq<PlayerInfo>)
    requires forall i :: 0 <= i < |rows| ==> rows[i].cls < |infos|
    ensures |r| == |infos|
    decreases |rows|
  {
    if rows == [] then infos
    else StoreCreateRow(LoadCreateRows(infos, rows[..|rows| - 1]), rows[|rows| - 1])
  }

  /**
   * After loading, `GetPlayerInfo` finds exactly the classes that had a
   * create row; a class without one keeps the default, unloaded entry.
   */
  lemma {:induction false} CreateRowsLoaded(infos: seq<PlayerInfo>, rows: seq<CreateRow>, c: nat)
    requires forall i :: 0 <= i < |rows| ==> rows[i].cls < |infos|
    requires c < |infos|
    ensures (exists i :: 0 <= i < |rows| && rows[i].cls == c) ==>
      LoadCreateRows(infos, rows)[c].displayIdM != 0 && LoadCreateRows(infos, rows)[c].displayIdF != 0
    ensures (forall i :: 0 <= i < |rows| ==> rows[i].cls != c) ==> LoadCreateRows(infos, rows)[c] == infos[c]
    decreases |rows|
  {
    if rows != [] {
      var front := rows[..|rows| - 1];
      CreateRowsLoaded(infos, front, c);
      if exists i :: 0 <= i < |rows| && rows[i].cls == c {
        var i :| 0 <= i < |rows| && rows[i].cls == c;
        if i < |rows| - 1 {
          assert front[i].cls == c;
        }
      }
      if forall i :: 0 <= i < |rows| ==> rows[i].cls != c {
        assert forall i :: 0 <= i < |front| ==> front[i] == rows[i];
      }
    }
  }

  // ----- loading the class-level table -----

  /** A `player_classlevelstats` row; its values are 32-bit in the table. */
  datatype ClassLevelRow = ClassLevelRow(cls: Word, level: Word, baseHp: Word, baseEnergy: Word)

  /** Rows for a class out of range, level 0, or a level above the maximum are skipped. */
  predicate AcceptedRow(row: ClassLevelRow, maxClasses: nat, maxLevel: nat) {
    row.cls < maxClasses && row.level != 0 && row.level <= maxLevel
  }

  /** The entry a row stores: both values truncated to 16 bits. */
  function RowInfo(row: ClassLevelRow): ClassLevelInfo {
    ClassLevelInfo(row.baseHp % 0x1_0000, row.baseEnergy % 0x1_0000)
  }

  /** The entry at a class and level index, an absent table reading as zero. */
  function LevelAt(levels: seq<LevelTable>, maxLevel: nat, c: nat, k: nat): ClassLevelInfo
    requires ValidLevels(levels, maxLevel) && c < |levels| && k < maxLevel
  {
    if levels[c].Some? then levels[c].value[k] else ZeroLevelInfo
  }

  /**
   * Stores an accepted row at its class and level, first allocating the
   * class's table (all zero) if it has none.
   */
  function StoreClassLevelRow(levels: seq<LevelTable>, maxLevel: nat, row: ClassLevelRow): (r: seq<LevelTable>)
    requires ValidLevels(levels, maxLevel)
    ensures ValidLevels(r, maxLevel) && |r| == |levels|
    ensures !AcceptedRow(row, |levels|, maxLevel) ==> r == levels
    ensures AcceptedRow(row, |levels|, maxLevel) ==>
      r[row.cls].Some? && LevelAt(r, maxLevel, row.cls, row.level - 1) == RowInfo(row)
    ensures forall c :: 0 <= c < |levels| ==>
      (r[c].Some? <==> levels[c].Some? || (AcceptedRow(row, |levels|, maxLevel) && c == row.cls))
    ensures forall c, k :: 0 <= c < |levels| && 0 <= k < maxLevel && !(AcceptedRow(row, |levels|, maxLevel) && c == row.cls && k == row.level - 1) ==>
      LevelAt(r, maxLevel, c, k) == LevelAt(levels, maxLevel, c, k)
  {
    if !AcceptedRow(row, |levels|, maxLevel) then levels
    else
      var table := if levels[row.cls].Some? then levels[row.cls].value else seq(maxLevel, _ => ZeroLevelInfo);
      levels[row.cls := Some(table[row.level - 1 := RowInfo(row)])]
  }

  /** The level-table rows in order, starting from no tables at all. */
  function LoadClassLevelRows(levels: seq<LevelTable>, maxLevel: nat, rows: seq<ClassLevelRow>): (r: seq<LevelTable>)
    requires ValidLevels(levels, maxLevel)
    ensures ValidLevels(r, maxLevel) && |r| == |levels|
    decreases |rows|
  {
    if rows == [] then levels
    else StoreClassLevelRow(LoadClassLevelRows(levels, maxLevel, rows[..|rows| - 1]), maxLevel, rows[|rows| - 1])
  }

  /** The last accepted row for a class and level, if any. */
  function LastRowFor(rows: seq<ClassLevelRow>, maxClasses: nat, maxLevel: nat, c: nat, level: nat): (r: Option<ClassLevelRow>)
    ensures r.Some? ==> r.value in rows && AcceptedRow(r.value, maxClasses, maxLevel) && r.value.cls == c && r.value.level == level
    decreases |rows|
  {
    if rows == [] then None
    else
      var row := rows[|rows| - 1];
      if AcceptedRow(row, maxClasses, maxLevel) && row.cls == c && row.level == level then Some(row)
      else LastRowFor(rows[..|rows| - 1], maxClasses, maxLevel, c, level)
  }

  /**
   * Loading leaves at every class and level the truncated values of the
   * last accepted row for it (later rows overwrite earlier ones), and the
   * starting entry where there is none.
   */
  lemma {:induction false} ClassLevelRowsLoaded(levels: seq<LevelTable>, maxLevel: nat, rows: seq<ClassLevelRow>, c: nat, k: nat)
    requires ValidLevels(levels, maxLevel) && c < |levels| && k < maxLevel
    ensures var last := LastRowFor(rows, |levels|, maxLevel, c, k + 1);
      LevelAt(LoadClassLevelRows(levels, maxLevel, rows), maxLevel, c, k)
        == if last.Some? then RowInfo(last.value) else LevelAt(levels, maxLevel, c, k)
    decreases |rows|
  {
    if rows != [] {
      ClassLevelRowsLoaded(levels, maxLevel, rows[..|rows| - 1], c, k);
    }
  }

  // ----- gap filling -----

  /** The nearest level at or below `k` that has base health. */
  function NearestFilled(levels: seq<ClassLevelInfo>, k: nat): (r: nat)
    requires k < |levels| && levels[0].baseHealth != 0
    ensures r <= k && levels[r].baseHealth != 0
    ensures forall j :: r < j <= k ==> levels[j].baseHealth == 0
    decreases k
  {
    if levels[k].baseHealth != 0 then k else NearestFilled(levels, k - 1)
  }

  /**
   * The level-gap loop of `LoadPlayerInfo` for one class: a level without
   * base health takes the entry of the level below it, as already filled.
   */
  method FillLevelGaps(levels: seq<ClassLevelInfo>) returns (r: seq<ClassLevelInfo>)
    requires |levels| >= 1 && levels[0].baseHealth != 0
    ensures |r| == |levels|
    ensures forall k :: 0 <= k < |r| ==> r[k] == levels[NearestFilled(levels, k)]
    ensures forall k :: 0 <= k < |r| ==> r[k].baseHealth != 0
  {
    r := levels;
    var level := 1;
    while level < |levels|
      invariant 1 <= level <= |levels| && |r| == |levels|
      invariant forall k :: 0 <= k < level ==> r[k] == levels[NearestFilled(levels, k)]
      invariant forall k :: level <= k < |levels| ==> r[k] == levels[k]
    {
      if r[level].baseHealth == 0 {
        assert NearestFilled(levels, level) == NearestFilled(levels, level - 1);
        r := r[level := r[level - 1]];
      }
      level := level + 1;
    }
  }

  /** Where `LoadPlayerInfo` gives up: a class 1.. without a level-1 entry with base health. */
  predicate MissingLevelOne(levels: seq<LevelTable>, c: nat)
    requires c < |levels|
  {
    levels[c].None? || |levels[c].value| == 0 || levels[c].value[0].baseHealth == 0
  }

  /** Class `c`'s table after filling: present, with health everywhere, each level from its nearest filled one. */
  predicate FilledFrom(out: seq<LevelTable>, levels: seq<LevelTable>, maxLevel: nat, c: nat)
    requires ValidLevels(levels, maxLevel) && c < |levels| && |out| == |levels|
  {
    out[c].Some? && levels[c].Some? && !MissingLevelOne(levels, c) && |out[c].value| == maxLevel
    && forall k :: 0 <= k < maxLevel ==>
      out[c].value[k].baseHealth != 0 && out[c].value[k] == levels[c].value[NearestFilled(levels[c].value, k)]
  }

  /**
   * The integrity pass over classes 1 to `MAX_CLASSES - 1`: a class without
   * level-1 data is fatal (the server exits, here `None`); otherwise every
   * class's gaps are filled.  Class 0 is left as it is.
   */
  method FillClassLevelGaps(levels: seq<LevelTable>, maxLevel: nat) returns (r: Option<seq<LevelTable>>)
    requires ValidLevels(levels, maxLevel)
    ensures r.None? <==> exists c :: 1 <= c < |levels| && MissingLevelOne(levels, c)
    ensures r.Some? ==> |r.value| == |levels| && ValidLevels(r.value, maxLevel)
    ensures r.Some? && |levels| > 0 ==> r.value[0] == levels[0]
    ensures r.Some? ==> forall c :: 1 <= c < |levels| ==> FilledFrom(r.value, levels, maxLevel, c)
  {
    var out := levels;
    var c := 1;
    while c < |levels|
      invariant 1 <= c && (|levels| > 0 ==> c <= |levels|)
      invariant |out| == |levels| && ValidLevels(out, maxLevel)
      invariant |levels| > 0 ==> out[0] == levels[0]
      invariant forall d :: c <= d < |levels| ==> out[d] == levels[d]
      invariant forall d :: 1 <= d < c && d < |levels| ==> FilledFrom(out, levels, maxLevel, d)
    {
      if MissingLevelOne(levels, c) {
        return None;
      }
      var filled := FillLevelGaps(levels[c].value);
      var next := out[c := Some(filled)];
      assert FilledFrom(next, levels, maxLevel, c);
      forall d | 1 <= d < c && d < |levels|
        ensures FilledFrom(next, levels, maxLevel, d)
      {
        assert next[d] == out[d];
        assert FilledFrom(out, levels, maxLevel, d);
      }
      out := next;
      c := c + 1;
    }
    forall d | 1 <= d < |levels|
      ensures !MissingLevelOne(levels, d)
    {
      assert FilledFrom(out, levels, maxLevel, d);
    }
    return Some(out);
  }

  /**
   * Once the gaps are filled, every class 1.. yields an entry with base
   * health for every level at least 1, however far above the maximum.
   */
  lemma FilledLevelsHaveHealth(t: Tables, cls: nat, level: nat, info: ClassLevelInfo)
    requires ValidTables(t) && 1 <= cls < t.maxClasses && level >= 1 && t.maxPlayerLevel >= 1
    requires forall c, k :: 1 <= c < t.maxClasses && 0 <= k < t.maxPlayerLevel ==>
      t.classLevels[c].Some? && t.classLevels[c].value[k].baseHealth != 0
    ensures CanReadLevel(t, cls, level)
    ensures GetPlayerClassLevelInfo(t, cls, level, info).baseHealth != 0
  {
    assert t.classLevels[cls].None? || t.classLevels[cls].value[0].baseHealth != 0;
  }
}

=== FILE: opcodes.dfy ===
/**
 * The world protocol's opcode numbers and the opcode table: for each opcode
 * the handler name, the session status it needs, where it is processed and
 * which handler runs it.  Lookups of opcodes that were never stored fall back
 * to a fixed empty handler.
 */
module Opcodes {
  import opened Wrappers

  const MSG_NULL_ACTION: nat := 0x000
  const SMSG_AUTH_CHALLENGE: nat := 0x001
  const CMSG_AUTH_SESSION: nat := 0x002
  const SMSG_AUTH_RESPONSE: nat := 0x003
  const CMSG_CHAR_CREATE: nat := 0x004
  const SMSG_CHAR_CREATE: nat := 0x005
  const CMSG_CHAR_ENUM: nat := 0x006
  const SMSG_CHAR_ENUM: nat := 0x007
  const CMSG_CHAR_DELETE: nat := 0x008
  const SMSG_CHAR_DELETE: nat := 0x009
  const CMSG_PLAYER_LOGIN: nat := 0x00a
  const CMSG_PLAYER_LOGOUT: nat := 0x00b
  const SMSG_LOGOUT_COMPLETE: nat := 0x00c
  const CMSG_LOGOUT_REQUEST: nat := 0x00d
  const CMSG_LOGOUT_CANCEL: nat := 0x00e
  const CMSG_PING: nat := 0x00f
  const SMSG_PONG: nat := 0x010
  const CMSG_KEEP_ALIVE: nat := 0x011
  const SMSG_LOGIN_VERIFY_WORLD: nat := 0x012
  const SMSG_LOGIN_FINISHED: nat := 0x013
  const CMSG_ENTER_WORLD_FINISHED: nat := 0x014
  const SMSG_CREATE_OBJECT: nat := 0x015
  const SMSG_UPDATE_OBJECT: nat := 0x016
  const SMSG_DESTROY_OBJECT: nat := 0x017
  const MSG_MOVEMENT: nat := 0x018
  const MSG_RECLOCATE: nat := 0x019
  const MSG_MOVE_JUMP: nat := 0x01A
  const SMG_END: nat := 0x01B

  /** One past the largest opcode; inbound opcodes at or above it are refused. */
  const NUM_MSG_TYPES: nat := SMG_END

  /** Every opcode of the protocol, in numeric order. */
  function AllOpcodes(): (r: seq<nat>)
    ensures |r| == NUM_MSG_TYPES
    ensures forall k :: 0 <= k < |r| ==> r[k] == k
  {
    [MSG_NULL_ACTION, SMSG_AUTH_CHALLENGE, CMSG_AUTH_SESSION, SMSG_AUTH_RESPONSE,
     CMSG_CHAR_CREATE, SMSG_CHAR_CREATE, CMSG_CHAR_ENUM, SMSG_CHAR_ENUM,
     CMSG_CHAR_DELETE, SMSG_CHAR_DELETE, CMSG_PLAYER_LOGIN, CMSG_PLAYER_LOGOUT,
     SMSG_LOGOUT_COMPLETE, CMSG_LOGOUT_REQUEST, CMSG_LOGOUT_CANCEL, CMSG_PING,
     SMSG_PONG, CMSG_KEEP_ALIVE, SMSG_LOGIN_VERIFY_WORLD, SMSG_LOGIN_FINISHED,
     CMSG_ENTER_WORLD_FINISHED, SMSG_CREATE_OBJECT, SMSG_UPDATE_OBJECT, SMSG_DESTROY_OBJECT,
     MSG_MOVEMENT, MSG_RECLOCATE, MSG_MOVE_JUMP]
  }

  /** The session state an opcode needs before its handler may run. */
  datatype SessionStatus =
    | StatusAuthed
    | StatusLoggedIn
    | StatusTransfer
    | StatusLoggedInOrRecentlyLoggedOut
    | StatusNever
    | StatusUnhandled

  /** Where a packet is handled: on receipt, in the world update, or in the map update. */
  datatype PacketProcessing = ProcessInPlace | ProcessThreadUnsafe | ProcessThreadSafe

  /** The session member functions the table points at. */
  datatype Handler =
    | HandleNull
    | HandleServerSide
    | HandleEarlyProcess
    | HandleCharCreate
    | HandleCharEnum
    | HandleCharDelete
    | HandlePlayerLogin
    | HandlePlayerLogout
    | HandleLogoutRequest
    | HandleLogoutCancel
    | HandleEnterWorldFinished
    | HandleMovement

  datatype OpcodeHandler = OpcodeHandler(name: string, status: SessionStatus, processing: PacketProcessing, handler: Handler)

  type OpcodeMap = map<nat, OpcodeHandler>

  /** What `operator[]` answers for an opcode that is not in the table. */
  const EmptyHandler: OpcodeHandler := OpcodeHandler("<none>", StatusUnhandled, ProcessInPlace, HandleNull)

  const UnknownOpcodeName: string := "Received unknown opcode, it's more than max!"

  /** `StoreOpcode`: sets (or overwrites) every field of the entry for `id`. */
  function StoreOpcode(m: OpcodeMap, id: nat, name: string, status: SessionStatus, process: PacketProcessing, handler: Handler): (r: OpcodeMap)
    ensures r.Keys == m.Keys + {id}
    ensures r[id].name == name && r[id].status == status && r[id].processing == process && r[id].handler == handler
    ensures forall k :: k in m && k != id ==> r[k] == m[k]
  {
    m[id := OpcodeHandler(name, status, process, handler)]
  }

  /** `LookupOpcode`: the stored entry, or nothing for an opcode never stored. */
  function LookupOpcode(m: OpcodeMap, id: nat): (r: Option<OpcodeHandler>)
    ensures r.None? <==> id !in m
    ensures r.Some? ==> r.value == m[id]
  {
    if id in m then Some(m[id]) else None
  }

  /** `operator[]`: total; an opcode never stored gets the empty handler. */
  function Handle(m: OpcodeMap, id: nat): (r: OpcodeHandler)
    ensures LookupOpcode(m, id).Some? ==> r == LookupOpcode(m, id).value
    ensures LookupOpcode(m, id).None? ==> r == EmptyHandler
  {
    if id in m then m[id] else EmptyHandler
  }

  /** `LookupOpcodeName`: the stored name, or the fixed unknown-opcode text. */
  function LookupOpcodeName(m: OpcodeMap, id: nat): (r: string)
    ensures id in m ==> r == m[id].name
    ensures id !in m ==> r == UnknownOpcodeName
  {
    match LookupOpcode(m, id)
    case Some(h) => h.name
    case None => UnknownOpcodeName
  }

  /** Storing and then looking up gives back what was stored; other opcodes answer as before. */
  lemma StoreThenLookup(m: OpcodeMap, id: nat, other: nat, name: string, status: SessionStatus, process: PacketProcessing, handler: Handler)
    ensures LookupOpcode(StoreOpcode(m, id, name, status, process, handler), id) == Some(OpcodeHandler(name, status, process, handler))
    ensures other != id ==> Handle(StoreOpcode(m, id, name, status, process, handler), other) == Handle(m, other)
  {
  }

  /** The opcodes `BuildOpcodeList` registers. */
  const RegisteredOpcodes: set<nat> := {
    MSG_NULL_ACTION, SMSG_AUTH_CHALLENGE, CMSG_AUTH_SESSION, CMSG_CHAR_CREATE,
    CMSG_CHAR_ENUM, CMSG_CHAR_DELETE, CMSG_PLAYER_LOGIN, CMSG_PLAYER_LOGOUT,
    CMSG_LOGOUT_REQUEST, CMSG_LOGOUT_CANCEL, CMSG_PING, CMSG_KEEP_ALIVE,
    CMSG_ENTER_WORLD_FINISHED, MSG_MOVEMENT, MSG_RECLOCATE, MSG_MOVE_JUMP }

  /** `BuildOpcodeList`: the table the world server runs with; it stores exactly the registered opcodes. */
  function BuildOpcodeList(): (r: OpcodeMap)
    ensures r.Keys == RegisteredOpcodes
  {
    map[
      MSG_NULL_ACTION := OpcodeHandler("MSG_NULL_ACTION", StatusNever, ProcessInPlace, HandleNull),
      SMSG_AUTH_CHALLENGE := OpcodeHandler("SMSG_AUTH_CHALLENGE", StatusNever, ProcessInPlace, HandleServerSide),
      CMSG_AUTH_SESSION := OpcodeHandler("CMSG_AUTH_SESSION", StatusNever, ProcessThreadSafe, HandleEarlyProcess),
      CMSG_CHAR_CREATE := OpcodeHandler("CMSG_CHAR_CREATE", StatusAuthed, ProcessThreadUnsafe, HandleCharCreate),
      CMSG_CHAR_ENUM := OpcodeHandler("CMSG_CHAR_ENUM", StatusAuthed, ProcessThreadUnsafe, HandleCharEnum),
      CMSG_CHAR_DELETE := OpcodeHandler("CMSG_CHAR_DELETE", StatusAuthed, ProcessThreadUnsafe, HandleCharDelete),
      CMSG_PLAYER_LOGIN := OpcodeHandler("CMSG_PLAYER_LOGIN", StatusAuthed, ProcessInPlace, HandlePlayerLogin),
      CMSG_PLAYER_LOGOUT := OpcodeHandler("CMSG_PLAYER_LOGOUT", StatusLoggedIn, ProcessThreadUnsafe, HandlePlayerLogout),
      CMSG_LOGOUT_REQUEST := OpcodeHandler("CMSG_LOGOUT_REQUEST", StatusLoggedIn, ProcessThreadUnsafe, HandleLogoutRequest),
      CMSG_LOGOUT_CANCEL := OpcodeHandler("CMSG_LOGOUT_CANCEL", StatusLoggedIn, ProcessThreadUnsafe, HandleLogoutCancel),
      CMSG_PING := OpcodeHandler("CMSG_PING", StatusNever, ProcessInPlace, HandleEarlyProcess),
      CMSG_KEEP_ALIVE := OpcodeHandler("CMSG_KEEP_ALIVE", StatusNever, ProcessInPlace, HandleEarlyProcess),
      CMSG_ENTER_WORLD_FINISHED := OpcodeHandler("CMSG_ENTER_WORLD_FINISHED", StatusAuthed, ProcessThreadSafe, HandleEnterWorldFinished),
      MSG_MOVEMENT := OpcodeHandler("MSG_MOVEMENT", StatusLoggedIn, ProcessThreadSafe, HandleMovement),
      MSG_RECLOCATE := OpcodeHandler("MSG_RECLOCATE", StatusLoggedIn, ProcessThreadSafe, HandleMovement),
      MSG_MOVE_JUMP := OpcodeHandler("MSG_MOVE_JUMP", StatusLoggedIn, ProcessThreadSafe, HandleMovement)]
  }

  /**
   * Character create/enum/delete need an authenticated session and run in
   * the world update; logout, logout request and logout cancel need a player
   * in the world; login runs on receipt; entering the world runs in the map
   * update.
   */
  lemma SessionOpcodeStatuses()
    ensures Handle(BuildOpcodeList(), CMSG_CHAR_CREATE).status == StatusAuthed
    ensures Handle(BuildOpcodeList(), CMSG_CHAR_CREATE).processing == ProcessThreadUnsafe
    ensures Handle(BuildOpcodeList(), CMSG_CHAR_ENUM).status == StatusAuthed
    ensures Handle(BuildOpcodeList(), CMSG_CHAR_ENUM).processing == ProcessThreadUnsafe
    ensures Handle(BuildOpcodeList(), CMSG_CHAR_DELETE).status == StatusAuthed
    ensures Handle(BuildOpcodeList(), CMSG_CHAR_DELETE).processing == ProcessThreadUnsafe
    ensures Handle(BuildOpcodeList(), CMSG_PLAYER_LOGOUT).status == StatusLoggedIn
    ensures Handle(BuildOpcodeList(), CMSG_PLAYER_LOGOUT).processing == ProcessThreadUnsafe
    ensures Handle(BuildOpcodeList(), CMSG_LOGOUT_REQUEST).status == StatusLoggedIn
    ensures Handle(BuildOpcodeList(), CMSG_LOGOUT_REQUEST).processing == ProcessThreadUnsafe
    ensures Handle(BuildOpcodeList(), CMSG_LOGOUT_CANCEL).status == StatusLoggedIn
    ensures Handle(BuildOpcodeList(), CMSG_LOGOUT_CANCEL).processing == ProcessThreadUnsafe
    ensures Handle(BuildOpcodeList(), CMSG_PLAYER_LOGIN).status == StatusAuthed
    ensures Handle(BuildOpcodeList(), CMSG_PLAYER_LOGIN).processing == ProcessInPlace
    ensures Handle(BuildOpcodeList(), CMSG_ENTER_WORLD_FINISHED).status == StatusAuthed
    ensures Handle(BuildOpcodeList(), CMSG_ENTER_WORLD_FINISHED).processing == ProcessThreadSafe
  {
  }

  /** Movement opcodes need a player in the world and run in the map update. */
  lemma MovementOpcodeStatuses()
    ensures Handle(BuildOpcodeList(), MSG_MOVEMENT).status == StatusLoggedIn
    ensures Handle(BuildOpcodeList(), MSG_MOVEMENT).processing == ProcessThreadSafe
    ensures Handle(BuildOpcodeList(), MSG_RECLOCATE).status == StatusLoggedIn
    ensures Handle(BuildOpcodeList(), MSG_RECLOCATE).processing == ProcessThreadSafe
    ensures Handle(BuildOpcodeList(), MSG_MOVE_JUMP).status == StatusLoggedIn
    ensures Handle(BuildOpcodeList(), MSG_MOVE_JUMP).processing == ProcessThreadSafe
  {
  }

  /**
   * The opcodes the socket handles itself are never dispatched to a session,
   * and the server-to-client opcodes (other than the auth challenge) resolve
   * to the empty handler.
   */
  lemma SocketAndServerOpcodes()
    ensures Handle(BuildOpcodeList(), CMSG_AUTH_SESSION).status == StatusNever
    ensures Handle(BuildOpcodeList(), CMSG_PING).status == StatusNever
    ensures Handle(BuildOpcodeList(), CMSG_KEEP_ALIVE).status == StatusNever
    ensures forall id: nat :: id < NUM_MSG_TYPES && id !in RegisteredOpcodes ==> Handle(BuildOpcodeList(), id) == EmptyHandler
  {
  }
}

=== FILE: ordering.dfy ===
/**
 * An ordered set of 64-bit GUIDs held as a strictly ascending sequence, as
 * a `std::set` holds and iterates its elements.
 */
module Ordering {
  import opened Packet

  predicate StrictlyAscending(s: seq<Quad>) {
    forall j, k :: 0 <= j < k < |s| ==> s[j] < s[k]
  }

  lemma HeadBelowTail(s: seq<Quad>)
    requires StrictlyAscending(s) && s != []
    ensures forall y :: y in s[1..] ==> s[0] < y
    ensures forall y :: y in s <==> y == s[0] || y in s[1..]
  {
    forall y | y in s[1..]
      ensures s[0] < y
    {
      var i :| 0 <= i < |s[1..]| && s[1..][i] == y;
      assert s[i + 1] == y;
    }
    assert s == [s[0]] + s[1..];
  }

  /** `insert`: adds `x` in its place; nothing happens when it is already there. */
  function Insert(s: seq<Quad>, x: Quad): (r: seq<Quad>)
    requires StrictlyAscending(s)
    ensures StrictlyAscending(r)
    ensures forall y :: y in r <==> y in s || y == x
    ensures |r| == if x in s then |s| else |s| + 1
  {
    if s == [] then [x]
    else if x < s[0] then [x] + s
    else if x == s[0] then s
    else
      var rest := Insert(s[1..], x);
      HeadBelowTail(s);
      assert forall k :: 0 <= k < |rest| ==> rest[k] in rest;
      [s[0]] + rest
  }

  /** Inserting an element that is already present changes nothing. */
  lemma {:induction false} InsertPresent(s: seq<Quad>, x: Quad)
    requires StrictlyAscending(s) && x in s
    ensures Insert(s, x) == s
  {
    if x != s[0] {
      assert x in s[1..];
      InsertPresent(s[1..], x);
      assert s == [s[0]] + s[1..];
    }
  }

  /** Inserts every element of another ordered set. */
  function InsertAll(s: seq<Quad>, xs: seq<Quad>): (r: seq<Quad>)
    requires StrictlyAscending(s)
    ensures StrictlyAscending(r)
    ensures forall y :: y in r <==> y in s || y in xs
  {
    if xs == [] then s
    else
      var r := Insert(InsertAll(s, xs[..|xs| - 1]), xs[|xs| - 1]);
      assert forall y :: y in xs <==> y in xs[..|xs| - 1] || y == xs[|xs| - 1];
      r
  }
}

=== FILE: packet.dfy ===
/**
 * World packets as the server builds them: an opcode and a sequence of
 * typed items appended with `<<`.  Every item has a little-endian byte form,
 * so packet sizes and byte-level round trips can be stated.  Floats are kept
 * as their 32-bit patterns; their arithmetic is not modelled.
 */
module Packet {
  import opened Wrappers
  import opened Word32

  /** Unsigned 64-bit values (GUIDs are carried as these). */
  type Quad = x: int | 0 <= x < 0x1_0000_0000_0000_0000

  function Pow256(n: nat): (r: nat)
    ensures r >= 1
  {
    if n == 0 then 1 else 256 * Pow256(n - 1)
  }

  /** The `n` low-order bytes of `v`, least significant first. */
  function LittleEndian(v: nat, n: nat): (r: seq<Byte>)
    requires v < Pow256(n)
    ensures |r| == n
  {
    if n == 0 then [] else [v % 256] + LittleEndian(v / 256, n - 1)
  }

  /** The number whose little-endian bytes are `bs`. */
  function FromLittleEndian(bs: seq<Byte>): (r: nat)
    ensures r < Pow256(|bs|)
  {
    if bs == [] then 0 else bs[0] + 256 * FromLittleEndian(bs[1..])
  }

  lemma {:induction false} LittleEndianRoundTrip(v: nat, n: nat)
    requires v < Pow256(n)
    ensures FromLittleEndian(LittleEndian(v, n)) == v
  {
    if n > 0 {
      LittleEndianRoundTrip(v / 256, n - 1);
      assert LittleEndian(v, n)[1..] == LittleEndian(v / 256, n - 1);
    }
  }

  lemma {:induction false} FromLittleEndianRoundTrip(bs: seq<Byte>)
    ensures LittleEndian(FromLittleEndian(bs), |bs|) == bs
  {
    if bs != [] {
      FromLittleEndianRoundTrip(bs[1..]);
      var v := FromLittleEndian(bs);
      assert v % 256 == bs[0] && v / 256 == FromLittleEndian(bs[1..]);
    }
  }

  /** One value appended to a packet with `<<`, or a whole buffer appended with `append`. */
  datatype Item =
    | U8(b: Byte)
    | U16(h: Half)
    | U32(w: Word)
    | U64(q: Quad)
    | Float(bits: Word)
    | Str(s: string)
    | PackedGuid(raw: Quad)
    | Raw(bytes: seq<Byte>)

  function CharByte(c: char): Byte {
    (c as int) % 256
  }

  /** The characters of a string, one byte each. */
  function StrBytes(s: string): (r: seq<Byte>)
    ensures |r| == |s|
  {
    if s == [] then [] else [CharByte(s[0])] + StrBytes(s[1..])
  }

  /**
   * The packed form of a 64-bit GUID: a mask byte whose bit k says that byte
   * k is non-zero, followed by the non-zero bytes in order.
   */
  function PackLanes(lanes: seq<Byte>): (r: (seq<bool>, seq<Byte>))
    ensures |r.0| == |lanes| && |r.1| <= |lanes|
    ensures forall k :: 0 <= k < |lanes| ==> r.0[k] == (lanes[k] != 0)
  {
    if lanes == [] then ([], [])
    else
      var rest := PackLanes(lanes[1..]);
      ([lanes[0] != 0] + rest.0, if lanes[0] != 0 then [lanes[0]] + rest.1 else rest.1)
  }

  function PackGuid(raw: Quad): (r: seq<Byte>)
    ensures 1 <= |r| <= 9
  {
    var p := PackLanes(LittleEndian(raw, 8));
    FromBitsBound(p.0);
    Pow2Of8();
    [FromBits(p.0)] + p.1
  }

  lemma Pow2Of8()
    ensures Pow2(8) == 256
  {
    assert Pow2(4) == 16;
  }

  /** The bytes `<<` appends for one item. */
  function ItemBytes(it: Item): (r: seq<Byte>)
    ensures it.U8? ==> |r| == 1
    ensures it.U16? ==> |r| == 2
    ensures it.U32? || it.Float? ==> |r| == 4
    ensures it.U64? ==> |r| == 8
    ensures it.Str? ==> |r| == |it.s| + 1
    ensures it.PackedGuid? ==> 1 <= |r| <= 9
    ensures it.Raw? ==> r == it.bytes
  {
    match it
    case U8(b) => [b]
    case U16(h) => LittleEndian(h, 2)
    case U32(w) => LittleEndian(w, 4)
    case U64(q) => LittleEndian(q, 8)
    case Float(bits) => LittleEndian(bits, 4)
    case Str(s) => StrBytes(s) + [0]
    case PackedGuid(raw) => PackGuid(raw)
    case Raw(bytes) => bytes
  }

  /** Byte strings laid end to end. */
  function Flatten(chunks: seq<seq<Byte>>): (r: seq<Byte>)
  {
    if chunks == [] then [] else Flatten(chunks[..|chunks| - 1]) + chunks[|chunks| - 1]
  }

  lemma FlattenSnoc(a: seq<seq<Byte>>, x: seq<Byte>)
    ensures Flatten(a + [x]) == Flatten(a) + x
  {
    assert (a + [x])[..|a|] == a;
  }

  lemma {:induction false} FlattenAppend(a: seq<seq<Byte>>, b: seq<seq<Byte>>)
    ensures Flatten(a + b) == Flatten(a) + Flatten(b)
  {
    if b == [] {
      assert a + b == a;
    } else {
      var c := b[..|b| - 1];
      var x := b[|b| - 1];
      assert b == c + [x];
      assert a + b == (a + c) + [x];
      FlattenAppend(a, c);
      FlattenSnoc(a + c, x);
      FlattenSnoc(c, x);
    }
  }

  /** The byte form of each item. */
  function Encodings(items: seq<Item>): (r: seq<seq<Byte>>)
    ensures |r| == |items| && forall k :: 0 <= k < |items| ==> r[k] == ItemBytes(items[k])
  {
    seq(|items|, k requires 0 <= k < |items| => ItemBytes(items[k]))
  }

  /** The bytes of a sequence of items, appended one after the other. */
  function Bytes(items: seq<Item>): (r: seq<Byte>)
  {
    Flatten(Encodings(items))
  }

  /** Appending items appends their bytes. */
  lemma BytesAppend(a: seq<Item>, b: seq<Item>)
    ensures Bytes(a + b) == Bytes(a) + Bytes(b)
  {
    var ea, eb, e := Encodings(a), Encodings(b), Encodings(a + b);
    forall k | 0 <= k < |e|
      ensures e[k] == (ea + eb)[k]
    {
      if k < |a| {
        assert (a + b)[k] == a[k];
      } else {
        assert (a + b)[k] == b[k - |a|];
      }
    }
    assert e == ea + eb;
    FlattenAppend(ea, eb);
  }

  lemma BytesOne(x: Item)
    ensures Bytes([x]) == ItemBytes(x)
  {
    assert Encodings([x]) == [] + [ItemBytes(x)];
    FlattenSnoc([], ItemBytes(x));
  }

  /** A packet under construction: its opcode and what has been appended so far. */
  datatype WorldPacket = WorldPacket(opcode: nat, items: seq<Item>)

  function Size(p: WorldPacket): nat {
    |Bytes(p.items)|
  }

  /** Appends items with `<<`. */
  function Append(p: WorldPacket, more: seq<Item>): (r: WorldPacket)
    ensures r.opcode == p.opcode
    ensures Bytes(r.items) == Bytes(p.items) + Bytes(more)
    ensures Size(r) == Size(p) + |Bytes(more)|
  {
    BytesAppend(p.items, more);
    WorldPacket(p.opcode, p.items + more)
  }

  /** `read<T>` of an n-byte little-endian value at position `pos`. */
  function ReadUInt(bs: seq<Byte>, pos: nat, n: nat): (r: Option<nat>)
    ensures r.Some? <==> pos + n <= |bs|
    ensures r.Some? ==> r.value < Pow256(n)
  {
    if pos + n <= |bs| then Some(FromLittleEndian(bs[pos..pos + n])) else None
  }

  /** A GUID written as one raw 64-bit value is read back unchanged, whatever follows it. */
  lemma GuidStreamRoundTrip(raw: Quad, rest: seq<Item>)
    ensures ReadUInt(Bytes([U64(raw)] + rest), 0, 8) == Some(raw as nat)
  {
    var bs := Bytes([U64(raw)] + rest);
    assert [U64(raw)] + rest == [U64(raw)] + rest;
    BytesAppend([U64(raw)], rest);
    BytesOne(U64(raw));
    assert bs[0..8] == LittleEndian(raw, 8);
    LittleEndianRoundTrip(raw, 8);
  }

  /** Any fixed-width value is read back from where it was written. */
  lemma ReadAfter(prefix: seq<Item>, it: Item, rest: seq<Item>, n: nat)
    requires (it.U16? && n == 2) || (it.U32? && n == 4) || (it.U64? && n == 8)
    ensures ReadUInt(Bytes(prefix + [it] + rest), |Bytes(prefix)|, n)
      == Some(if it.U16? then it.h else if it.U32? then it.w else it.q)
  {
    BytesAppend(prefix + [it], rest);
    BytesAppend(prefix, [it]);
    BytesOne(it);
    var bs := Bytes(prefix + [it] + rest);
    var p := |Bytes(prefix)|;
    assert bs[p..p + n] == ItemBytes(it);
    match it
    case U16(h) => LittleEndianRoundTrip(h, 2);
    case U32(w) => LittleEndianRoundTrip(w, 4);
    case U64(q) => LittleEndianRoundTrip(q, 8);
  }
}

=== FILE: player.dfy ===
/**
 * Players: a unit with a money balance and experience, a list of the nearby
 * players it exchanges updates with, the per-tick regeneration timer, and
 * the value-update packet it sends each tick.
 */
module PlayerModel {
  import opened Wrappers
  import opened Word32
  import opened Packet
  import opened FieldStore
  import opened Sparse
  import opened UnitFields
  import opened UnitModel
  import opened UpdateCodec
  import Opcodes

  /** The largest balance a player may hold. */
  const MAX_MONEY_AMOUNT: Word := 0x7FFF_FFFF - 1

  // ----- money -----

  /**
   * The new balance `ModifyMoney` computes as written.  The delta is
   * unsigned, so its negative branch never runs, and `MAX_MONEY_AMOUNT - d`
   * is computed modulo 2^32.
   */
  function MoneyAfterAsWritten(money: Word, d: Word): (r: Word) {
    var room := Wrap(MAX_MONEY_AMOUNT - d);
    if money < room then Wrap(money + d) else MAX_MONEY_AMOUNT
  }

  /** Up to the cap, the written code adds and caps as intended. */
  lemma MoneyAfterAsWrittenBelowCap(money: Word, d: Word)
    requires money <= MAX_MONEY_AMOUNT && d <= MAX_MONEY_AMOUNT
    ensures MoneyAfterAsWritten(money, d) == Clamp(money + d, 0, MAX_MONEY_AMOUNT)
  {
  }

  /**
   * A delta above the cap makes `MAX_MONEY_AMOUNT - d` wrap around to a
   * large bound, so an empty purse given 0xFFFFFFFF ends above the cap.
   */
  lemma MoneyAfterAsWrittenExceedsCap()
    ensures MoneyAfterAsWritten(0, 0xFFFF_FFFF) == 0xFFFF_FFFF > MAX_MONEY_AMOUNT
  {
  }

  /**
   * The balance `ModifyMoney` evidently means to compute for a signed 32-bit
   * delta: a debit floors at 0, a credit caps at `MAX_MONEY_AMOUNT`.
   */
  function MoneyAfter(money: Word, d: int): (r: Word)
    requires -TwoTo31 <= d < TwoTo31
    ensures money <= MAX_MONEY_AMOUNT ==> r == Clamp(money + d, 0, MAX_MONEY_AMOUNT)
    ensures d >= 0 ==> r <= MAX_MONEY_AMOUNT
  {
    if d < 0 then (if money > -d then money + d else 0)
    else if money < MAX_MONEY_AMOUNT - d then money + d else MAX_MONEY_AMOUNT
  }

  /** For deltas up to the cap the written and the corrected balances agree. */
  lemma MoneyAfterAgreesBelowCap(money: Word, d: Word)
    requires d <= MAX_MONEY_AMOUNT
    ensures MoneyAfterAsWritten(money, d) == MoneyAfter(money, d)
  {
  }

  /** `ModifyMoney` with the corrected balance; a zero delta keeps any balance within the cap. */
  function ModifyMoney(l: Layout, h: Host, d: int): (r: Host)
    requires Fits(l, h) && -TwoTo31 <= d < TwoTo31
    ensures Fits(l, r) && Keeps(h, r, {l.slot(Coinage)})
    ensures Get(l, h.obj, Coinage) <= MAX_MONEY_AMOUNT ==>
      Get(l, r.obj, Coinage) == Clamp(Get(l, h.obj, Coinage) + d, 0, MAX_MONEY_AMOUNT)
    ensures d == 0 && Get(l, h.obj, Coinage) <= MAX_MONEY_AMOUNT ==> r == h
  {
    SetField(l, h, Coinage, MoneyAfter(Get(l, h.obj, Coinage), d))
  }

  // ----- the nearby list -----

  /** What the list needs to know of another player when it is consulted. */
  datatype PeerState = PeerState(guid: Quad, inWorld: bool, session: nat)

  /** The nearby list: GUID to player handle, ordered by GUID. */
  type Nearby = map<Quad, nat>

  /**
   * `addToList`: `insert` does not overwrite, so a GUID already listed keeps
   * its handle.
   */
  function AddToList(list: Nearby, guid: Quad, other: nat): (r: Nearby)
    ensures r.Keys == list.Keys + {guid}
    ensures guid in list ==> r == list
    ensures guid !in list ==> r[guid] == other
    ensures forall g :: g in list ==> r[g] == list[g]
  {
    if guid in list then list else list[guid := other]
  }

  /**
   * `isInList`: the GUID is listed and the player it maps to is in the
   * world and still carries that GUID.
   */
  predicate IsInList(list: Nearby, peers: nat -> PeerState, guid: Quad) {
    guid in list && peers(list[guid]).inWorld && peers(list[guid]).guid == guid
  }

  /** `removeFromList`: erases the entry keyed by the GUID and nothing else. */
  function RemoveFromList(list: Nearby, guid: Quad): (r: Nearby)
    ensures guid !in r
    ensures forall g :: g != guid ==> (g in r <==> g in list)
    ensures forall g :: g in r ==> r[g] == list[g]
  {
    list - {guid}
  }

  /** `LogoutList`: empties the list. */
  function LogoutList(list: Nearby): (r: Nearby)
    ensures forall g :: !IsInListKey(r, g)
  {
    map[]
  }

  predicate IsInListKey(list: Nearby, g: Quad) {
    g in list
  }

  /** A player added while in the world under its own GUID is found; a removed one is not. */
  lemma ListMembership(list: Nearby, peers: nat -> PeerState, guid: Quad, other: nat, g: Quad)
    requires guid !in list && peers(other).inWorld && peers(other).guid == guid
    ensures IsInList(AddToList(list, guid, other), peers, guid)
    ensures !IsInList(RemoveFromList(list, g), peers, g)
    ensures g != guid ==> (IsInList(AddToList(list, guid, other), peers, g) <==> IsInList(list, peers, g))
  {
  }

  /** `SendToOther`: the sessions of the listed players that are in the world. */
  function OtherRecipients(list: Nearby, peers: nat -> PeerState): (r: set<nat>)
    ensures forall g :: g in list && peers(list[g]).inWorld ==> peers(list[g]).session in r
    ensures forall s :: s in r ==> exists g :: g in list && peers(list[g]).inWorld && peers(list[g]).session == s
  {
    set g | g in list && peers(list[g]).inWorld :: peers(list[g]).session
  }

  /**
   * `addToList` also sends this player's create block to the added player;
   * the block is built as for any object, for a target that is not this
   * player.
   */
  method AddToListAndIntroduce(
    c: UpdateConstants, o: Obj, updateFlag: Byte, typeId: Byte, name: string, pos: Position,
    list: Nearby, guid: Quad, other: nat)
    returns (r: Nearby, block: WorldPacket)
    requires Ready(o) && o.valuesCount < 0x1_0000
    ensures r == AddToList(list, guid, other)
    ensures block.opcode == Opcodes.SMSG_CREATE_OBJECT
    ensures block.items == CreateHeader(c, updateFlag, typeId, name, pos) + PairItems(CreatePairs(o))
  {
    r := AddToList(list, guid, other);
    var b := BuildCreateUpdateBlockForPlayer(c, o, updateFlag, typeId, name, pos, OtherTarget);
    block := b.value;
  }

  // ----- the value update -----

  /**
   * `Player::UpdateObject`: a values block for every dirty slot, in
   * ascending slot order, behind the update type, the type id and the low
   * GUID; it goes to every nearby player in the world and to the player's
   * own session, and then the dirty bits are cleared.
   */
  method UpdateObject(c: UpdateConstants, l: Layout, h: Host, typeId: Byte, list: Nearby, peers: nat -> PeerState)
    returns (r: Host, packet: WorldPacket, others: set<nat>)
    requires Fits(l, h) && h.obj.valuesCount < 0x1_0000
    ensures packet.opcode == Opcodes.SMSG_UPDATE_OBJECT
    ensures packet.items == [U8(c.typeValues), U8(typeId), U32(Get(l, h.obj, GuidLow))] + PairItems(ChangedPairs(h.obj))
    ensures others == OtherRecipients(list, peers)
    ensures Ready(r.obj) && Clean(r.obj) && !r.obj.updated
    ensures r.obj.values == h.obj.values && r.updateList == h.updateList
  {
    var header := WorldPacket(Opcodes.SMSG_UPDATE_OBJECT, [U8(c.typeValues), U8(typeId), U32(Get(l, h.obj, GuidLow))]);
    var newSize;
    packet, newSize := AppendPairs(header, h.obj.values, h.obj.changed);
    others := OtherRecipients(list, peers);
    r := ClearUpdateMask(h, false);
  }

  /**
   * The receiver reads the low GUID at byte 2 and the dirty slots from byte
   * 6 on, and applying them to its copy, which agrees with the object on
   * every clean slot, yields the object's values.
   */
  lemma UpdateObjectReadsBack(c: UpdateConstants, typeId: Byte, guidLow: Word, o: Obj, client: seq<Word>)
    requires Ready(o) && o.valuesCount < 0x1_0000
    requires |client| == o.valuesCount
    requires forall i :: 0 <= i < o.valuesCount && !o.changed[i] ==> client[i] == o.values[i]
    ensures var bs := Bytes([U8(c.typeValues), U8(typeId), U32(guidLow)] + PairItems(ChangedPairs(o)));
      ReadUInt(bs, 2, 4) == Some(guidLow) && |bs| >= 6 && ReadPairs(bs[6..]) == ChangedPairs(o)
    ensures Apply(client, ChangedPairs(o)) == o.values
  {
    var front := [U8(c.typeValues), U8(typeId)];
    var prefix := front + [U32(guidLow)];
    var pairs := ChangedPairs(o);
    HeaderBytes(c.typeValues, typeId, guidLow);
    assert prefix == [U8(c.typeValues), U8(typeId), U32(guidLow)];
    PairsReadBack(prefix, pairs);
    ReadAfter(front, U32(guidLow), PairItems(pairs), 4);
    ChangedRoundTrip(client, o);
  }

  /** The update header is two single bytes and a four-byte GUID: six bytes, the GUID from byte 2. */
  lemma HeaderBytes(a: Byte, b: Byte, guidLow: Word)
    ensures |Bytes([U8(a), U8(b)])| == 2
    ensures |Bytes([U8(a), U8(b)] + [U32(guidLow)])| == 6
  {
    BytesAppend([U8(a)], [U8(b)]);
    BytesOne(U8(a));
    BytesOne(U8(b));
    assert [U8(a)] + [U8(b)] == [U8(a), U8(b)];
    BytesAppend([U8(a), U8(b)], [U32(guidLow)]);
    BytesOne(U32(guidLow));
  }

  // ----- regeneration -----

  /**
   * `RegenerateHealth`: nothing at or above the maximum; otherwise
   * `ModifyHealth` by the rate-derived amount (computed in floating point,
   * so a parameter here).
   */
  function RegenerateHealth(l: Layout, h: Host, add: int): (r: Host)
    requires Fits(l, h) && 0 <= add < TwoTo31
    ensures Fits(l, r) && Keeps(h, r, {l.slot(Health)})
    ensures Get(l, h.obj, Health) >= Get(l, h.obj, MaxHealth) ==> r == h
    ensures Get(l, h.obj, Health) < Get(l, h.obj, MaxHealth) ==> Get(l, r.obj, Health) <= Get(l, r.obj, MaxHealth)
    ensures Get(l, r.obj, MaxHealth) == Get(l, h.obj, MaxHealth)
  {
    if Get(l, h.obj, Health) >= Get(l, h.obj, MaxHealth) then h
    else if add == 0 then h
    else ModifyHealth(l, h, add).0
  }

  /**
   * `Regenerate(POWER_ENERGY)`: the energy plus the rate-derived amount
   * (`uint32` addition), capped at the maximum, stored with `SetPower`.
   */
  function RegenerateEnergy(l: Layout, h: Host, add: Word): (r: Host)
    requires Fits(l, h)
    ensures Fits(l, r) && Keeps(h, r, {l.slot(PowerOf(PowerEnergy))})
    ensures Get(l, r.obj, MaxPowerOf(PowerEnergy)) == Get(l, h.obj, MaxPowerOf(PowerEnergy))
    ensures Get(l, h.obj, PowerOf(PowerEnergy)) <= Get(l, h.obj, MaxPowerOf(PowerEnergy)) < TwoTo31 ==>
      Get(l, r.obj, PowerOf(PowerEnergy)) <= Get(l, r.obj, MaxPowerOf(PowerEnergy))
  {
    var maxValue := Get(l, h.obj, MaxPowerOf(PowerEnergy));
    var cur := Wrap(Get(l, h.obj, PowerOf(PowerEnergy)) + add);
    var v := if cur > maxValue then maxValue else cur;
    if Get(l, h.obj, PowerOf(PowerEnergy)) <= maxValue < TwoTo31 then
      SetPowerCaps(l, h, PowerEnergy, v);
      SetPower(l, h, PowerEnergy, v)
    else SetPower(l, h, PowerEnergy, v)
  }

  /**
   * `RegenerateAll`: acts only when the timer has run out; then regenerates
   * health and energy and restarts the timer at `REGEN_TIME_FULL`.
   */
  function RegenerateAll(l: Layout, u: Unit, healthAdd: int, energyAdd: Word): (r: Unit)
    requires Fits(l, u.host) && 0 <= healthAdd < TwoTo31
    ensures Fits(l, r.host) && r.stats == u.stats && r.deathState == u.deathState
    ensures u.regenTimer != 0 ==> r == u
    ensures u.regenTimer == 0 ==> r.regenTimer == REGEN_TIME_FULL
    ensures u.regenTimer == 0 ==> Keeps(u.host, r.host, {l.slot(Health), l.slot(PowerOf(PowerEnergy))})
  {
    if u.regenTimer != 0 then u
    else
      var h1 := RegenerateHealth(l, u.host, healthAdd);
      var h2 := RegenerateEnergy(l, h1, energyAdd);
      KeepsTrans(u.host, h1, h2, {l.slot(Health)}, {l.slot(PowerOf(PowerEnergy))});
      u.(host := h2, regenTimer := REGEN_TIME_FULL)
  }

  /** The regeneration timer counts down by the elapsed time and stops at 0. */
  function TickTimer(timer: Word, diff: Word): (r: Word)
    ensures r <= timer
    ensures r == 0 <==> timer <= diff
    ensures r != 0 ==> r == timer - diff
  {
    if timer != 0 then (if diff >= timer then 0 else timer - diff) else 0
  }

  /**
   * `Player::Update`: nothing out of the world; otherwise the timer ticks
   * and a living player regenerates when it has run out.  The rate-derived
   * amounts are parameters.
   */
  function Update(l: Layout, u: Unit, diff: Word, healthAdd: int, energyAdd: Word): (r: Unit)
    requires Fits(l, u.host) && 0 <= healthAdd < TwoTo31
    ensures Fits(l, r.host)
    ensures !u.host.obj.inWorld ==> r == u
  {
    if !u.host.obj.inWorld then u
    else
      var u1 := u.(regenTimer := TickTimer(u.regenTimer, diff));
      if IsAlive(u1.deathState) then RegenerateAll(l, u1, healthAdd, energyAdd) else u1
  }

  /**
   * Over a tick in the world: a living player whose timer runs out
   * regenerates and restarts the timer; otherwise only the timer moves.
   * Either way health and energy stay within their maxima.
   */
  lemma UpdateRegenerates(l: Layout, u: Unit, diff: Word, healthAdd: int, energyAdd: Word)
    requires Fits(l, u.host) && 0 <= healthAdd < TwoTo31 && u.host.obj.inWorld
    requires Get(l, u.host.obj, Health) <= Get(l, u.host.obj, MaxHealth)
    requires Get(l, u.host.obj, PowerOf(PowerEnergy)) <= Get(l, u.host.obj, MaxPowerOf(PowerEnergy)) < TwoTo31
    ensures var r := Update(l, u, diff, healthAdd, energyAdd);
      (IsAlive(u.deathState) && u.regenTimer <= diff ==> r.regenTimer == REGEN_TIME_FULL)
      && (!IsAlive(u.deathState) || u.regenTimer > diff ==> r.regenTimer == TickTimer(u.regenTimer, diff) && r.host == u.host)
      && Get(l, r.host.obj, Health) <= Get(l, r.host.obj, MaxHealth)
      && Get(l, r.host.obj, PowerOf(PowerEnergy)) <= Get(l, r.host.obj, MaxPowerOf(PowerEnergy))
  {
    var u1 := u.(regenTimer := TickTimer(u.regenTimer, diff));
    if IsAlive(u1.deathState) && u1.regenTimer == 0 {
      var h1 := RegenerateHealth(l, u1.host, healthAdd);
      Apart(l, u.host.obj.valuesCount, Health, PowerOf(PowerEnergy));
      Apart(l, u.host.obj.valuesCount, Health, MaxPowerOf(PowerEnergy));
      Apart(l, u.host.obj.valuesCount, MaxHealth, PowerOf(PowerEnergy));
      assert Get(l, h1.obj, PowerOf(PowerEnergy)) == Get(l, u.host.obj, PowerOf(PowerEnergy));
      assert Get(l, h1.obj, MaxPowerOf(PowerEnergy)) == Get(l, u.host.obj, MaxPowerOf(PowerEnergy));
      var h2 := RegenerateEnergy(l, h1, energyAdd);
      assert Get(l, h2.obj, Health) == Get(l, h1.obj, Health);
      assert Get(l, h2.obj, MaxHealth) == Get(l, h1.obj, MaxHealth);
    }
  }
}

=== FILE: player_life.dfy ===
/**
 * A player's life cycle: the constructor, creating a new character, loading
 * a saved one, and the per-level stat reset both of them run.  Positions,
 * maps, skills and the float-valued fields are not modelled; the 64-bit GUID
 * built from a counter and `HIGHGUID_PLAYER` and the player type mask are
 * inputs, since ObjectGuid.h is not part of this model.
 */
module PlayerLifecycle {
  import opened Wrappers
  import opened Word32
  import opened FieldStore
  import opened UnitFields
  import opened UnitModel
  import opened ObjectMgr
  import opened PlayerModel
  import MapEntries
  import MapManager

  // ----- the player -----

  /** A player: its unit, its name, the players it has introduced itself to, its session. */
  datatype Player = Player(unit: Unit, name: string, nearby: Nearby, session: nat)

  /**
   * How `Create` and `LoadFromDB` end: refused (they return false, and the
   * player is as it was left), stopped by the assertion in `SetMap` when
   * `CreateMap` gave no map (`ORIGIN_ASSERT` fires in release builds too,
   * so the server stops), or done, with the key of the map the player was
   * handed.
   */
  datatype Outcome = Refused(player: Player) | NullMap | Placed(player: Player, mapKey: MapManager.MapID)

  /**
   * The constructor: a unit with room for `valuesCount` slots but none
   * allocated yet, alive, no name, nobody on the nearby list.
   */
  function NewPlayer(id: nat, valuesCount: nat, updateList: set<nat>, session: nat, stats: seq<Word>): (p: Player)
    requires |stats| == 4
    ensures !p.unit.host.obj.hasValues && p.unit.host.obj.valuesCount == valuesCount && p.unit.host.obj.id == id
    ensures IsAlive(p.unit.deathState) && p.unit.regenTimer == 0
    ensures p.nearby == map[] && p.session == session && p.name == ""
  {
    Player(NewUnit(Host(NewObject(id, valuesCount), updateList), stats), "", map[], session)
  }

  // ----- frames -----

  /**
   * What every field write keeps: the object, its size and in-world flag,
   * and the consistency of its updated flag with the map's update list.
   */
  ghost predicate Bookkept(l: Layout, h: Host, r: Host) {
    Fits(l, h) && Fits(l, r) && r.obj.valuesCount == h.obj.valuesCount
    && r.obj.id == h.obj.id && r.obj.inWorld == h.obj.inWorld
    && (Consistent(h) ==> Consistent(r))
  }

  lemma BookkeptTrans(l: Layout, a: Host, b: Host, c: Host)
    requires Bookkept(l, a, b) && Bookkept(l, b, c)
    ensures Bookkept(l, a, c)
  {
  }

  /** A write confined to one field's slot, as a sequence update of the slot values. */
  lemma OneSlot(l: Layout, h: Host, r: Host, f: Field)
    requires Fits(l, h) && Keeps(h, r, {l.slot(f)})
    ensures Bookkept(l, h, r)
    ensures r.obj.values == h.obj.values[l.slot(f) := Get(l, r.obj, f)]
  {
  }

  /** A write confined to two fields' slots. */
  lemma TwoSlots(l: Layout, h: Host, r: Host, f1: Field, f2: Field)
    requires Fits(l, h) && Keeps(h, r, {l.slot(f1), l.slot(f2)})
    ensures Bookkept(l, h, r)
    ensures r.obj.values == h.obj.values[l.slot(f1) := Get(l, r.obj, f1)][l.slot(f2) := Get(l, r.obj, f2)]
  {
  }

  /**
   * `v` with slot `i` set to `x`; a write past the end changes nothing.
   * The slots a layout names are always inside an object that fits it.
   */
  function Put(v: seq<Word>, i: nat, x: Word): (r: seq<Word>)
    ensures |r| == |v|
    ensures i < |v| ==> r == v[i := x]
  {
    if i < |v| then v[i := x] else v
  }

  // ----- flags -----

  const UNIT_FLAG_NON_ATTACKABLE: Word := 0x1
  const UNIT_FLAG_DISABLE_MOVE: Word := 0x2
  const UNIT_FLAG_PVP_ATTACKABLE: Word := 0x4
  const UNIT_FLAG_OOC_NOT_ATTACKABLE: Word := 0x20
  const UNIT_FLAG_PASSIVE: Word := 0x40
  const UNIT_FLAG_SILENCED: Word := 0x200
  const UNIT_FLAG_PACIFIED: Word := 0x1000
  const UNIT_FLAG_IN_COMBAT: Word := 0x4_0000
  const UNIT_FLAG_NOT_SELECTABLE: Word := 0x8_0000
  const UNIT_FLAG_SKINNABLE: Word := 0x200_0000

  const PLAYER_FLAGS_AFK: Word := 0x2
  const PLAYER_FLAGS_DND: Word := 0x4
  const PLAYER_FLAGS_GM: Word := 0x8
  const PLAYER_FLAGS_GHOST: Word := 0x10
  const PLAYER_FLAGS_FFA_PVP: Word := 0x40

  /** The unit flags the level reset clears. */
  const UNIT_FLAGS_RESET: Word :=
    Or(Or(Or(Or(Or(Or(Or(Or(UNIT_FLAG_NON_ATTACKABLE, UNIT_FLAG_DISABLE_MOVE),
      UNIT_FLAG_OOC_NOT_ATTACKABLE), UNIT_FLAG_PASSIVE), UNIT_FLAG_SILENCED), UNIT_FLAG_PACIFIED),
      UNIT_FLAG_IN_COMBAT), UNIT_FLAG_NOT_SELECTABLE), UNIT_FLAG_SKINNABLE)

  /** The player flags the level reset clears. */
  const PLAYER_FLAGS_RESET: Word :=
    Or(Or(Or(Or(PLAYER_FLAGS_AFK, PLAYER_FLAGS_DND), PLAYER_FLAGS_GM), PLAYER_FLAGS_GHOST), PLAYER_FLAGS_FFA_PVP)

  /** Each flag is a single bit. */
  lemma FlagBits()
    ensures UNIT_FLAG_NON_ATTACKABLE == Bit(0) && UNIT_FLAG_DISABLE_MOVE == Bit(1)
    ensures UNIT_FLAG_PVP_ATTACKABLE == Bit(2) && UNIT_FLAG_OOC_NOT_ATTACKABLE == Bit(5)
    ensures UNIT_FLAG_PASSIVE == Bit(6) && UNIT_FLAG_SILENCED == Bit(9) && UNIT_FLAG_PACIFIED == Bit(12)
    ensures UNIT_FLAG_IN_COMBAT == Bit(18) && UNIT_FLAG_NOT_SELECTABLE == Bit(19) && UNIT_FLAG_SKINNABLE == Bit(25)
    ensures PLAYER_FLAGS_AFK == Bit(1) && PLAYER_FLAGS_DND == Bit(2) && PLAYER_FLAGS_GM == Bit(3)
    ensures PLAYER_FLAGS_GHOST == Bit(4) && PLAYER_FLAGS_FFA_PVP == Bit(6)
  {
    assert Pow2(2) == 4 && Pow2(6) == 64;
    assert Pow2(12) == 0x1000 && Pow2(19) == 0x8_0000 && Pow2(25) == 0x200_0000;
  }

  /** The masks of a flag reset. */
  datatype FlagMasks = FlagMasks(unitClear: Word, unitSet: Word, playerClear: Word)

  /** The masks `InitStatsForLevel` uses. */
  const LevelResetMasks := FlagMasks(UNIT_FLAGS_RESET, UNIT_FLAG_PVP_ATTACKABLE, PLAYER_FLAGS_RESET)

  /** The player-attackable flag is bit 2, which is not among those the reset clears. */
  lemma PvpNotReset()
    ensures forall i :: 0 <= i < 32 ==> WordBits(UNIT_FLAG_PVP_ATTACKABLE)[i] == (i == 2)
    ensures !WordBits(UNIT_FLAGS_RESET)[2]
  {
    FlagBits();
  }

  /** The unit flags after the level reset: the reset flags cleared, the player-attackable flag set. */
  function UnitFlagsAfterReset(v: Word): Word {
    Or(AndNot(v, UNIT_FLAGS_RESET), UNIT_FLAG_PVP_ATTACKABLE)
  }

  /** The player flags after the level reset: the reset flags cleared. */
  function PlayerFlagsAfterReset(v: Word): Word {
    AndNot(v, PLAYER_FLAGS_RESET)
  }

  /** A word has none of a mask's bits when each of the mask's bits is clear in it. */
  lemma NoneOf(v: Word, mask: Word)
    requires forall i :: 0 <= i < 32 && WordBits(mask)[i] ==> !WordBits(v)[i]
    ensures And(v, mask) == 0
  {
    ZeroIffNoBits(And(v, mask));
  }

  /** A word shares a mask's bit `k` when both have it. */
  lemma SharesBit(v: Word, mask: Word, k: nat)
    requires k < 32 && WordBits(v)[k] && WordBits(mask)[k]
    ensures And(v, mask) != 0
  {
    ZeroIffNoBits(And(v, mask));
    assert WordBits(And(v, mask))[k];
  }

  /**
   * After the reset a unit has the player-attackable flag and none of the
   * reset flags, and every other bit is as it was; the player flags have
   * none of their reset flags and every other bit as it was.
   */
  lemma FlagsAfterReset(unitFlags: Word, playerFlags: Word)
    ensures And(UnitFlagsAfterReset(unitFlags), UNIT_FLAG_PVP_ATTACKABLE) != 0
    ensures And(UnitFlagsAfterReset(unitFlags), UNIT_FLAGS_RESET) == 0
    ensures forall i :: 0 <= i < 32 && i != 2 && !WordBits(UNIT_FLAGS_RESET)[i] ==>
      WordBits(UnitFlagsAfterReset(unitFlags))[i] == WordBits(unitFlags)[i]
    ensures And(PlayerFlagsAfterReset(playerFlags), PLAYER_FLAGS_RESET) == 0
    ensures forall i :: 0 <= i < 32 && !WordBits(PLAYER_FLAGS_RESET)[i] ==>
      WordBits(PlayerFlagsAfterReset(playerFlags))[i] == WordBits(playerFlags)[i]
  {
    var after := UnitFlagsAfterReset(unitFlags);
    PvpNotReset();
    NoneOf(after, UNIT_FLAGS_RESET);
    SharesBit(after, UNIT_FLAG_PVP_ATTACKABLE, 2);
    NoneOf(PlayerFlagsAfterReset(playerFlags), PLAYER_FLAGS_RESET);
  }


  /**
   * The flag part of `InitStatsForLevel`, for any masks: clears `unitClear`
   * and then sets `unitSet` in the unit flags, and clears `playerClear` in
   * the player flags; no other slot changes.
   */
  method ResetFlags(l: Layout, h: Host, masks: FlagMasks) returns (r: Host)
    requires Fits(l, h)
    ensures Bookkept(l, h, r)
    ensures r.obj.values == h.obj.values
      [l.slot(UnitFlags) := Or(AndNot(Get(l, h.obj, UnitFlags), masks.unitClear), masks.unitSet)]
      [l.slot(PlayerFlags) := AndNot(Get(l, h.obj, PlayerFlags), masks.playerClear)]
  {
    Apart(l, h.obj.valuesCount, UnitFlags, PlayerFlags);
    var uf, pf := l.slot(UnitFlags), l.slot(PlayerFlags);
    var v := h.obj.values;
    var a := AndNot(v[uf], masks.unitClear);
    var b := Or(a, masks.unitSet);
    var c := AndNot(v[pf], masks.playerClear);
    var h1 := RemoveFlag(h, uf, masks.unitClear);
    FlagSlotValues(h, uf, masks.unitClear);
    assert h1.obj.values == v[uf := a];
    var h2 := SetFlag(h1, uf, masks.unitSet);
    FlagSlotValues(h1, uf, masks.unitSet);
    assert h2.obj.values == v[uf := a][uf := b];
    UpdateTwice(v, uf, a, b);
    r := RemoveFlag(h2, pf, masks.playerClear);
    FlagSlotValues(h2, pf, masks.playerClear);
    assert h2.obj.values[pf] == v[pf];
  }

  // ----- InitStatsForLevel -----

  /** The next-level experience and the two create values. */
  method SetBaseValues(l: Layout, h: Host, nextXp: Word, info: ClassLevelInfo) returns (r: Host)
    requires Fits(l, h)
    ensures Bookkept(l, h, r)
    ensures r.obj.values == h.obj.values
      [l.slot(NextLevelXp) := nextXp][l.slot(BaseHealth) := info.baseHealth][l.slot(BaseEnergy) := info.baseEnergy]
  {
    var h1 := SetField(l, h, NextLevelXp, nextXp);
    OneSlot(l, h, h1, NextLevelXp);
    var h2 := SetField(l, h1, BaseHealth, info.baseHealth);
    OneSlot(l, h1, h2, BaseHealth);
    r := SetField(l, h2, BaseEnergy, info.baseEnergy);
    OneSlot(l, h2, r, BaseEnergy);
    BookkeptTrans(l, h, h1, h2);
    BookkeptTrans(l, h, h2, r);
  }

  /**
   * One turn of the maxima loop of `InitStatsForLevel`: the power's maximum
   * becomes its create value, and the current value is lowered to it when
   * above it.
   */
  method ResetMaxPower(l: Layout, h: Host, p: Power) returns (r: Host)
    requires Fits(l, h) && p != PowerHealth
    ensures Bookkept(l, h, r)
    ensures r.obj.values == h.obj.values
      [l.slot(MaxPowerOf(p)) := StoredAsStat(GetCreatePowers(l, h.obj, p))]
      [l.slot(PowerOf(p)) := Get(l, r.obj, PowerOf(p))]
    ensures GetCreatePowers(l, h.obj, p) < TwoTo31 ==>
      Get(l, r.obj, PowerOf(p)) == Min(Get(l, h.obj, PowerOf(p)), GetCreatePowers(l, h.obj, p))
  {
    r := SetMaxPower(l, h, p, GetCreatePowers(l, h.obj, p));
    TwoSlots(l, h, r, MaxPowerOf(p), PowerOf(p));
  }

  /**
   * The maxima part of `InitStatsForLevel`: each power's maximum becomes its
   * create value, the create energy for energy and 0 for mana (which empties
   * mana); the current energy is lowered to its new maximum when above it.
   */
  method ResetMaxPowers(l: Layout, h: Host) returns (r: Host)
    requires Fits(l, h)
    ensures Bookkept(l, h, r)
    ensures r.obj.values == h.obj.values
      [l.slot(MaxPowerOf(PowerEnergy)) := StoredAsStat(Get(l, h.obj, BaseEnergy))]
      [l.slot(PowerOf(PowerEnergy)) := Get(l, r.obj, PowerOf(PowerEnergy))]
      [l.slot(MaxPowerOf(PowerMana)) := 0][l.slot(PowerOf(PowerMana)) := 0]
    ensures Get(l, h.obj, BaseEnergy) < TwoTo31 ==>
      Get(l, r.obj, PowerOf(PowerEnergy)) == Min(Get(l, h.obj, PowerOf(PowerEnergy)), Get(l, h.obj, BaseEnergy))
  {
    var n := h.obj.valuesCount;
    var maxE, e, maxM, m := MaxPowerOf(PowerEnergy), PowerOf(PowerEnergy), MaxPowerOf(PowerMana), PowerOf(PowerMana);
    Apart(l, n, e, maxM);
    Apart(l, n, e, m);
    var v := h.obj.values;
    var h1 := ResetMaxPower(l, h, PowerEnergy);
    var x := Get(l, h1.obj, e);
    assert h1.obj.values == v[l.slot(maxE) := StoredAsStat(Get(l, h.obj, BaseEnergy))][l.slot(e) := x];
    r := ResetMaxPower(l, h1, PowerMana);
    assert r.obj.values == h1.obj.values[l.slot(maxM) := 0][l.slot(m) := 0];
    assert Get(l, r.obj, e) == x;
    BookkeptTrans(l, h, h1, r);
  }

  /** `SetMaxHealth` and then `SetHealth(GetMaxHealth())`: both become `maxHealth`. */
  method FillHealth(l: Layout, h: Host, maxHealth: Word) returns (r: Host)
    requires Fits(l, h)
    ensures Bookkept(l, h, r)
    ensures r.obj.values == h.obj.values[l.slot(MaxHealth) := maxHealth][l.slot(Health) := maxHealth]
  {
    var h1 := SetMaxHealth(l, h, maxHealth);
    TwoSlots(l, h, h1, MaxHealth, Health);
    r := SetHealth(l, h1, Get(l, h1.obj, MaxHealth));
    OneSlot(l, h1, r, Health);
    BookkeptTrans(l, h, h1, r);
    UpdateTwice(h.obj.values[l.slot(MaxHealth) := maxHealth], l.slot(Health), Get(l, h1.obj, Health), maxHealth);
  }

  /** `SetPower(POWER_ENERGY, GetMaxPower(POWER_ENERGY))`: energy filled to its maximum. */
  method FillEnergy(l: Layout, h: Host) returns (r: Host)
    requires Fits(l, h)
    ensures Bookkept(l, h, r)
    ensures r.obj.values == h.obj.values[l.slot(PowerOf(PowerEnergy)) := Get(l, r.obj, PowerOf(PowerEnergy))]
    ensures Get(l, h.obj, MaxPowerOf(PowerEnergy)) < TwoTo31 ==>
      Get(l, r.obj, PowerOf(PowerEnergy)) == Get(l, h.obj, MaxPowerOf(PowerEnergy))
  {
    r := SetPower(l, h, PowerEnergy, Get(l, h.obj, MaxPowerOf(PowerEnergy)));
    OneSlot(l, h, r, PowerOf(PowerEnergy));
  }

  /**
   * The closing part of `InitStatsForLevel`: the maximum health becomes
   * `maxHealth`, and health and energy are filled to their maxima.
   */
  method FillHealthAndEnergy(l: Layout, h: Host, maxHealth: Word) returns (r: Host)
    requires Fits(l, h) && Get(l, h.obj, MaxPowerOf(PowerEnergy)) < TwoTo31
    ensures Bookkept(l, h, r)
    ensures r.obj.values == h.obj.values
      [l.slot(MaxHealth) := maxHealth][l.slot(Health) := maxHealth]
      [l.slot(PowerOf(PowerEnergy)) := Get(l, h.obj, MaxPowerOf(PowerEnergy))]
  {
    var n := h.obj.valuesCount;
    Apart(l, n, MaxPowerOf(PowerEnergy), MaxHealth);
    Apart(l, n, MaxPowerOf(PowerEnergy), Health);
    var h1 := FillHealth(l, h, maxHealth);
    r := FillEnergy(l, h1);
    BookkeptTrans(l, h, h1, r);
  }

  /** The pool part of `InitStatsForLevel`: the maxima, then health and energy filled. */
  method SetLevelPools(l: Layout, h: Host, info: ClassLevelInfo) returns (r: Host)
    requires Fits(l, h) && Get(l, h.obj, BaseEnergy) == info.baseEnergy
    ensures Bookkept(l, h, r)
    ensures r.obj.values == h.obj.values
      [l.slot(MaxPowerOf(PowerEnergy)) := info.baseEnergy][l.slot(PowerOf(PowerEnergy)) := info.baseEnergy]
      [l.slot(MaxPowerOf(PowerMana)) := 0][l.slot(PowerOf(PowerMana)) := 0]
      [l.slot(MaxHealth) := info.baseHealth][l.slot(Health) := info.baseHealth]
  {
    var n := h.obj.valuesCount;
    var maxE, e, maxM, m := MaxPowerOf(PowerEnergy), PowerOf(PowerEnergy), MaxPowerOf(PowerMana), PowerOf(PowerMana);
    Apart(l, n, maxE, maxM);
    Apart(l, n, maxE, m);
    Apart(l, n, maxE, MaxHealth);
    Apart(l, n, maxE, Health);
    Apart(l, n, e, maxM);
    Apart(l, n, e, m);
    Apart(l, n, e, MaxHealth);
    Apart(l, n, e, Health);
    var h1 := ResetMaxPowers(l, h);
    r := FillHealthAndEnergy(l, h1, info.baseHealth);
    BookkeptTrans(l, h, h1, r);
  }

  /** What `InitStatsForLevel` looks up exists for a class and level. */
  predicate CanInitStats(t: Tables, cls: nat, level: nat) {
    ValidTables(t) && CanReadLevel(t, cls, level) && (if level == 0 then 1 else level) in t.xpForLevel
  }

  /** The table entry `InitStatsForLevel` reads for a class and level (zeros when there is none). */
  function LevelInfo(t: Tables, cls: nat, level: nat): ClassLevelInfo
    requires CanInitStats(t, cls, level)
  {
    GetPlayerClassLevelInfo(t, cls, level, ZeroLevelInfo)
  }

  /**
   * The slot values `InitStatsForLevel` leaves, given the values before, the
   * next-level experience and the table entry: the experience and create
   * values stored, the flags reset, energy and health full at the entry's
   * values, and mana empty with maximum 0.
   */
  ghost function LevelValues(l: Layout, v: seq<Word>, nextXp: Word, info: ClassLevelInfo): (r: seq<Word>)
    requires ValidLayout(l, |v|)
    ensures |r| == |v|
  {
    var s := Put(v, l.slot(NextLevelXp), nextXp);
    var s := Put(s, l.slot(BaseHealth), info.baseHealth);
    var s := Put(s, l.slot(BaseEnergy), info.baseEnergy);
    var s := Put(s, l.slot(UnitFlags), UnitFlagsAfterReset(v[l.slot(UnitFlags)]));
    var s := Put(s, l.slot(PlayerFlags), PlayerFlagsAfterReset(v[l.slot(PlayerFlags)]));
    var s := Put(s, l.slot(MaxPowerOf(PowerEnergy)), info.baseEnergy);
    var s := Put(s, l.slot(PowerOf(PowerEnergy)), info.baseEnergy);
    var s := Put(s, l.slot(MaxPowerOf(PowerMana)), 0);
    var s := Put(s, l.slot(PowerOf(PowerMana)), 0);
    var s := Put(s, l.slot(MaxHealth), info.baseHealth);
    Put(s, l.slot(Health), info.baseHealth)
  }

  /** `LevelValues` as plain sequence updates, for an object the layout fits. */
  lemma LevelValuesUpdates(l: Layout, v: seq<Word>, nextXp: Word, info: ClassLevelInfo)
    requires ValidLayout(l, |v|)
    ensures LevelValues(l, v, nextXp, info) == v
      [l.slot(NextLevelXp) := nextXp]
      [l.slot(BaseHealth) := info.baseHealth][l.slot(BaseEnergy) := info.baseEnergy]
      [l.slot(UnitFlags) := UnitFlagsAfterReset(v[l.slot(UnitFlags)])]
      [l.slot(PlayerFlags) := PlayerFlagsAfterReset(v[l.slot(PlayerFlags)])]
      [l.slot(MaxPowerOf(PowerEnergy)) := info.baseEnergy][l.slot(PowerOf(PowerEnergy)) := info.baseEnergy]
      [l.slot(MaxPowerOf(PowerMana)) := 0][l.slot(PowerOf(PowerMana)) := 0]
      [l.slot(MaxHealth) := info.baseHealth][l.slot(Health) := info.baseHealth]
  {
  }

  /** The fields `InitStatsForLevel` writes. */
  predicate LevelField(f: Field) {
    match f
    case NextLevelXp | BaseHealth | BaseEnergy | UnitFlags | PlayerFlags | MaxHealth | Health => true
    case MaxPowerOf(p) => p != PowerHealth
    case PowerOf(p) => p != PowerHealth
    case _ => false
  }

  /** After `InitStatsForLevel` the pools are full at the entry's values and mana is empty. */
  lemma LevelValuesPools(l: Layout, v: seq<Word>, nextXp: Word, info: ClassLevelInfo)
    requires ValidLayout(l, |v|)
    ensures var w := LevelValues(l, v, nextXp, info);
      w[l.slot(BaseHealth)] == w[l.slot(MaxHealth)] == w[l.slot(Health)] == info.baseHealth
      && w[l.slot(BaseEnergy)] == w[l.slot(MaxPowerOf(PowerEnergy))] == w[l.slot(PowerOf(PowerEnergy))] == info.baseEnergy
      && w[l.slot(MaxPowerOf(PowerMana))] == w[l.slot(PowerOf(PowerMana))] == 0
  {
    var n := |v|;
    var e, maxE, m, maxM := PowerOf(PowerEnergy), MaxPowerOf(PowerEnergy), PowerOf(PowerMana), MaxPowerOf(PowerMana);
    LevelValuesUpdates(l, v, nextXp, info);
    Apart(l, n, BaseHealth, BaseEnergy);
    Apart(l, n, BaseHealth, UnitFlags);
    Apart(l, n, BaseHealth, PlayerFlags);
    Apart(l, n, BaseHealth, maxE);
    Apart(l, n, BaseHealth, e);
    Apart(l, n, BaseHealth, maxM);
    Apart(l, n, BaseHealth, m);
    Apart(l, n, BaseHealth, MaxHealth);
    Apart(l, n, BaseHealth, Health);
    Apart(l, n, BaseEnergy, UnitFlags);
    Apart(l, n, BaseEnergy, PlayerFlags);
    Apart(l, n, BaseEnergy, maxE);
    Apart(l, n, BaseEnergy, e);
    Apart(l, n, BaseEnergy, maxM);
    Apart(l, n, BaseEnergy, m);
    Apart(l, n, BaseEnergy, MaxHealth);
    Apart(l, n, BaseEnergy, Health);
    Apart(l, n, maxE, e);
    Apart(l, n, maxE, maxM);
    Apart(l, n, maxE, m);
    Apart(l, n, maxE, MaxHealth);
    Apart(l, n, maxE, Health);
    Apart(l, n, e, maxM);
    Apart(l, n, e, m);
    Apart(l, n, e, MaxHealth);
    Apart(l, n, e, Health);
    Apart(l, n, maxM, m);
    Apart(l, n, maxM, MaxHealth);
    Apart(l, n, maxM, Health);
    Apart(l, n, m, MaxHealth);
    Apart(l, n, m, Health);
    Apart(l, n, MaxHealth, Health);
  }

  /** `InitStatsForLevel` leaves every other field alone. */
  lemma LevelValuesKeep(l: Layout, v: seq<Word>, nextXp: Word, info: ClassLevelInfo, f: Field)
    requires ValidLayout(l, |v|) && Written(f) && !LevelField(f)
    ensures LevelValues(l, v, nextXp, info)[l.slot(f)] == v[l.slot(f)]
  {
    var n := |v|;
    Apart(l, n, f, NextLevelXp);
    Apart(l, n, f, BaseHealth);
    Apart(l, n, f, BaseEnergy);
    Apart(l, n, f, UnitFlags);
    Apart(l, n, f, PlayerFlags);
    Apart(l, n, f, MaxPowerOf(PowerEnergy));
    Apart(l, n, f, PowerOf(PowerEnergy));
    Apart(l, n, f, MaxPowerOf(PowerMana));
    Apart(l, n, f, PowerOf(PowerMana));
    Apart(l, n, f, MaxHealth);
    Apart(l, n, f, Health);
    LevelValuesKeepSlot(l, v, nextXp, info, l.slot(f));
  }

  /** A slot none of the level fields occupies keeps its value. */
  lemma LevelValuesKeepSlot(l: Layout, v: seq<Word>, nextXp: Word, info: ClassLevelInfo, j: nat)
    requires ValidLayout(l, |v|) && j < |v|
    requires j != l.slot(NextLevelXp) && j != l.slot(BaseHealth) && j != l.slot(BaseEnergy)
    requires j != l.slot(UnitFlags) && j != l.slot(PlayerFlags)
    requires j != l.slot(MaxPowerOf(PowerEnergy)) && j != l.slot(PowerOf(PowerEnergy))
    requires j != l.slot(MaxPowerOf(PowerMana)) && j != l.slot(PowerOf(PowerMana))
    requires j != l.slot(MaxHealth) && j != l.slot(Health)
    ensures LevelValues(l, v, nextXp, info)[j] == v[j]
  {
    LevelValuesUpdates(l, v, nextXp, info);
  }

  /** `InitStatsForLevel` leaves the fields `Create` wrote before it alone. */
  lemma LevelValuesKeepCreated(l: Layout, v: seq<Word>, nextXp: Word, info: ClassLevelInfo)
    requires ValidLayout(l, |v|)
    ensures var w := LevelValues(l, v, nextXp, info);
      w[l.slot(Bytes0)] == v[l.slot(Bytes0)] && w[l.slot(PlayerBytes3)] == v[l.slot(PlayerBytes3)]
      && w[l.slot(PlayerBytes)] == v[l.slot(PlayerBytes)] && w[l.slot(PlayerBytes2)] == v[l.slot(PlayerBytes2)]
  {
    LevelValuesKeep(l, v, nextXp, info, Bytes0);
    LevelValuesKeep(l, v, nextXp, info, PlayerBytes3);
    LevelValuesKeep(l, v, nextXp, info, PlayerBytes);
    LevelValuesKeep(l, v, nextXp, info, PlayerBytes2);
  }

  /**
   * Everything `InitStatsForLevel` writes once the table entry and the
   * next-level experience are known.
   */
  method ApplyLevel(l: Layout, h: Host, nextXp: Word, info: ClassLevelInfo) returns (r: Host)
    requires Fits(l, h)
    ensures Bookkept(l, h, r)
    ensures r.obj.values == LevelValues(l, h.obj.values, nextXp, info)
  {
    var n := h.obj.valuesCount;
    var v := h.obj.values;
    Apart(l, n, UnitFlags, NextLevelXp);
    Apart(l, n, UnitFlags, BaseHealth);
    Apart(l, n, UnitFlags, BaseEnergy);
    Apart(l, n, PlayerFlags, NextLevelXp);
    Apart(l, n, PlayerFlags, BaseHealth);
    Apart(l, n, PlayerFlags, BaseEnergy);
    Apart(l, n, BaseEnergy, UnitFlags);
    Apart(l, n, BaseEnergy, PlayerFlags);
    var h1 := SetBaseValues(l, h, nextXp, info);
    assert Get(l, h1.obj, UnitFlags) == v[l.slot(UnitFlags)];
    assert Get(l, h1.obj, PlayerFlags) == v[l.slot(PlayerFlags)];
    var h2 := ResetFlags(l, h1, LevelResetMasks);
    assert h2.obj.values == h1.obj.values
      [l.slot(UnitFlags) := UnitFlagsAfterReset(v[l.slot(UnitFlags)])]
      [l.slot(PlayerFlags) := PlayerFlagsAfterReset(v[l.slot(PlayerFlags)])];
    assert h2.obj.values == v
      [l.slot(NextLevelXp) := nextXp]
      [l.slot(BaseHealth) := info.baseHealth][l.slot(BaseEnergy) := info.baseEnergy]
      [l.slot(UnitFlags) := UnitFlagsAfterReset(v[l.slot(UnitFlags)])]
      [l.slot(PlayerFlags) := PlayerFlagsAfterReset(v[l.slot(PlayerFlags)])];
    assert Get(l, h2.obj, BaseEnergy) == info.baseEnergy;
    r := SetLevelPools(l, h2, info);
    LevelValuesUpdates(l, v, nextXp, info);
    BookkeptTrans(l, h, h1, h2);
    BookkeptTrans(l, h, h2, r);
  }

  /**
   * `InitStatsForLevel`: looks up the class's entry for the level, stores
   * the next-level experience and the create values, zeroes the stats,
   * resets the flags, and fills health and energy to maxima taken from the
   * entry; mana ends empty with maximum 0.  No other slot changes, apart
   * from the float and attack-power slots this model leaves out.
   */
  method InitStatsForLevel(l: Layout, u: Unit, t: Tables) returns (r: Unit)
    requires Fits(l, u.host) && CanInitStats(t, GetClass(l, u.host.obj), Get(l, u.host.obj, Level))
    ensures Bookkept(l, u.host, r.host)
    ensures r.stats == [0, 0, 0, 0] && r.regenTimer == u.regenTimer && r.deathState == u.deathState
    ensures var o := u.host.obj;
      r.host.obj.values == LevelValues(l, o.values, GetXPForLevel(t, Get(l, o, Level)), LevelInfo(t, GetClass(l, o), Get(l, o, Level)))
  {
    var o := u.host.obj;
    var level := Get(l, o, Level);
    var h := ApplyLevel(l, u.host, GetXPForLevel(t, level), LevelInfo(t, GetClass(l, o), level));
    r := Unit(h, [0, 0, 0, 0], u.regenTimer, u.deathState);
  }

  // ----- byte lanes, class and gender -----

  /** `SetByteValue` on a field's slot: lane `k` becomes `b` and the other lanes stay. */
  method SetLane(l: Layout, h: Host, f: Field, k: nat, b: Byte) returns (r: Host)
    requires Fits(l, h) && k < 4
    ensures Bookkept(l, h, r)
    ensures r.obj.values == h.obj.values[l.slot(f) := Get(l, r.obj, f)]
    ensures Lanes(Get(l, r.obj, f)) == Lanes(Get(l, h.obj, f))[k := b]
  {
    r := SetByteValue(h, l.slot(f), k, b);
    assert r.obj.values == h.obj.values[l.slot(f) := r.obj.values[l.slot(f)]];
    assert forall j :: 0 <= j < 4 ==> Lanes(Get(l, r.obj, f))[j] == GetByteValue(r.obj, l.slot(f), j);
  }

  /** Two lanes of one field set in turn. */
  method SetTwoLanes(l: Layout, h: Host, f: Field, k1: nat, b1: Byte, k2: nat, b2: Byte) returns (r: Host)
    requires Fits(l, h) && k1 < 4 && k2 < 4
    ensures Bookkept(l, h, r)
    ensures r.obj.values == h.obj.values[l.slot(f) := Get(l, r.obj, f)]
    ensures Lanes(Get(l, r.obj, f)) == Lanes(Get(l, h.obj, f))[k1 := b1][k2 := b2]
  {
    var h1 := SetLane(l, h, f, k1, b1);
    r := SetLane(l, h1, f, k2, b2);
    UpdateTwice(h.obj.values, l.slot(f), Get(l, h1.obj, f), Get(l, r.obj, f));
    BookkeptTrans(l, h, h1, r);
  }

  /** The face a new character is given. */
  datatype Appearance = Appearance(skin: Byte, hair: Byte, hairColor: Byte, jaw: Byte, nose: Byte, eyes: Byte)

  /** Player-bytes lanes 0..3 become skin, hair, hair colour and jaw. */
  method SetPlayerBytes(l: Layout, h: Host, a: Appearance) returns (r: Host)
    requires Fits(l, h)
    ensures Bookkept(l, h, r)
    ensures r.obj.values == h.obj.values[l.slot(PlayerBytes) := Get(l, r.obj, PlayerBytes)]
    ensures Lanes(Get(l, r.obj, PlayerBytes)) == [a.skin, a.hair, a.hairColor, a.jaw]
  {
    var h1 := SetTwoLanes(l, h, PlayerBytes, 0, a.skin, 1, a.hair);
    r := SetTwoLanes(l, h1, PlayerBytes, 2, a.hairColor, 3, a.jaw);
    UpdateTwice(h.obj.values, l.slot(PlayerBytes), Get(l, h1.obj, PlayerBytes), Get(l, r.obj, PlayerBytes));
    BookkeptTrans(l, h, h1, r);
    var v := Lanes(Get(l, h.obj, PlayerBytes));
    var w: seq<Byte> := v[0 := a.skin][1 := a.hair][2 := a.hairColor][3 := a.jaw];
    assert w == [a.skin, a.hair, a.hairColor, a.jaw];
  }

  /** Player-bytes-2 lanes 0..2 become skin, nose and eyes; lane 3 stays. */
  method SetPlayerBytes2(l: Layout, h: Host, a: Appearance) returns (r: Host)
    requires Fits(l, h)
    ensures Bookkept(l, h, r)
    ensures r.obj.values == h.obj.values[l.slot(PlayerBytes2) := Get(l, r.obj, PlayerBytes2)]
    ensures Lanes(Get(l, r.obj, PlayerBytes2)) == [a.skin, a.nose, a.eyes, Lanes(Get(l, h.obj, PlayerBytes2))[3]]
  {
    var h1 := SetTwoLanes(l, h, PlayerBytes2, 0, a.skin, 1, a.nose);
    r := SetLane(l, h1, PlayerBytes2, 2, a.eyes);
    UpdateTwice(h.obj.values, l.slot(PlayerBytes2), Get(l, h1.obj, PlayerBytes2), Get(l, r.obj, PlayerBytes2));
    BookkeptTrans(l, h, h1, r);
    var v := Lanes(Get(l, h.obj, PlayerBytes2));
    var w: seq<Byte> := v[0 := a.skin][1 := a.nose][2 := a.eyes];
    assert w == [a.skin, a.nose, a.eyes, v[3]];
  }

  /** The appearance part of `Create`. */
  method SetAppearance(l: Layout, h: Host, a: Appearance) returns (r: Host)
    requires Fits(l, h)
    ensures Bookkept(l, h, r)
    ensures r.obj.values == h.obj.values
      [l.slot(PlayerBytes) := Get(l, r.obj, PlayerBytes)][l.slot(PlayerBytes2) := Get(l, r.obj, PlayerBytes2)]
    ensures Lanes(Get(l, r.obj, PlayerBytes)) == [a.skin, a.hair, a.hairColor, a.jaw]
    ensures Lanes(Get(l, r.obj, PlayerBytes2)) == [a.skin, a.nose, a.eyes, Lanes(Get(l, h.obj, PlayerBytes2))[3]]
  {
    Apart(l, h.obj.valuesCount, PlayerBytes, PlayerBytes2);
    var h1 := SetPlayerBytes(l, h, a);
    r := SetPlayerBytes2(l, h1, a);
    BookkeptTrans(l, h, h1, r);
  }

  /** `setClass`, as one step. */
  method WriteClass(l: Layout, h: Host, cls: Byte) returns (r: Host)
    requires Fits(l, h)
    ensures Bookkept(l, h, r)
    ensures r.obj.values == h.obj.values[l.slot(Bytes0) := Get(l, r.obj, Bytes0)]
    ensures GetClass(l, r.obj) == cls
    ensures forall k :: 1 <= k < 4 ==> GetByteValue(r.obj, l.slot(Bytes0), k) == GetByteValue(h.obj, l.slot(Bytes0), k)
  {
    r := SetClass(l, h, cls);
    OneSlot(l, h, r, Bytes0);
  }

  /** `setGender`, as one step. */
  method WriteGender(l: Layout, h: Host, gender: Byte) returns (r: Host)
    requires Fits(l, h)
    ensures Bookkept(l, h, r)
    ensures r.obj.values == h.obj.values[l.slot(PlayerBytes3) := Get(l, r.obj, PlayerBytes3)]
    ensures GetGender(l, r.obj) == gender
  {
    r := SetGender(l, h, gender);
    OneSlot(l, h, r, PlayerBytes3);
  }

  /** `SetPowerType(POWER_ENERGY)` on a player, as one step: the code goes to lane 3 of bytes-0. */
  method WriteEnergyType(l: Layout, h: Host, energyCode: Byte) returns (r: Host)
    requires Fits(l, h)
    ensures Bookkept(l, h, r)
    ensures r.obj.values == h.obj.values[l.slot(Bytes0) := Get(l, r.obj, Bytes0)]
    ensures GetByteValue(r.obj, l.slot(Bytes0), 3) == energyCode
    ensures forall k :: 0 <= k < 3 ==> GetByteValue(r.obj, l.slot(Bytes0), k) == GetByteValue(h.obj, l.slot(Bytes0), k)
  {
    r := SetPowerType(l, h, true, PowerEnergy, energyCode);
    OneSlot(l, h, r, Bytes0);
  }

  /**
   * The class, gender and power-type part of `Create`: class in lane 0 of
   * bytes-0, gender in player-bytes-3, and the energy power's code in lane 3
   * of bytes-0; lanes 1 and 2 of bytes-0 stay.
   */
  method SetIdentity(l: Layout, h: Host, cls: Byte, gender: Byte, energyCode: Byte) returns (r: Host)
    requires Fits(l, h)
    ensures Bookkept(l, h, r)
    ensures r.obj.values == h.obj.values
      [l.slot(Bytes0) := Get(l, r.obj, Bytes0)][l.slot(PlayerBytes3) := Get(l, r.obj, PlayerBytes3)]
    ensures GetClass(l, r.obj) == cls && GetGender(l, r.obj) == gender
    ensures GetByteValue(r.obj, l.slot(Bytes0), 3) == energyCode
    ensures forall k :: 1 <= k < 3 ==> GetByteValue(r.obj, l.slot(Bytes0), k) == GetByteValue(h.obj, l.slot(Bytes0), k)
  {
    var b0, b3 := l.slot(Bytes0), l.slot(PlayerBytes3);
    Apart(l, h.obj.valuesCount, Bytes0, PlayerBytes3);
    var h1 := WriteClass(l, h, cls);
    var h2 := WriteGender(l, h1, gender);
    assert GetByteValue(h2.obj, b0, 0) == cls;
    r := WriteEnergyType(l, h2, energyCode);
    assert h2.obj.values == h.obj.values[b0 := Get(l, h1.obj, Bytes0)][b3 := Get(l, h2.obj, PlayerBytes3)];
    assert GetGender(l, r.obj) == GetGender(l, h2.obj);
    BookkeptTrans(l, h, h1, h2);
    BookkeptTrans(l, h, h2, r);
  }

  // ----- restoring saved pools -----

  /** `SetHealth` with the saved health capped at the maximum. */
  method RestoreHealth(l: Layout, h: Host, saved: Word) returns (r: Host)
    requires Fits(l, h)
    ensures Bookkept(l, h, r)
    ensures r.obj.values == h.obj.values[l.slot(Health) := Min(saved, Get(l, h.obj, MaxHealth))]
  {
    r := SetHealth(l, h, if saved > Get(l, h.obj, MaxHealth) then Get(l, h.obj, MaxHealth) else saved);
    OneSlot(l, h, r, Health);
  }

  /**
   * One turn of the restore loop of `LoadFromDB`: `SetPower` with the saved
   * value capped at the power's maximum.
   */
  method RestorePower(l: Layout, h: Host, p: Power, saved: Word) returns (r: Host)
    requires Fits(l, h)
    ensures Bookkept(l, h, r)
    ensures r.obj.values == h.obj.values[l.slot(PowerOf(p)) := Get(l, r.obj, PowerOf(p))]
    ensures p != PowerHealth && Get(l, h.obj, MaxPowerOf(p)) < TwoTo31 ==>
      Get(l, r.obj, PowerOf(p)) == Min(saved, Get(l, h.obj, MaxPowerOf(p)))
  {
    var maxPower := Get(l, h.obj, MaxPowerOf(p));
    r := SetPower(l, h, p, if saved > maxPower then maxPower else saved);
    OneSlot(l, h, r, PowerOf(p));
  }

  /**
   * The restore at the end of `LoadFromDB`: saved health, energy (power 0)
   * and mana (power 1), each capped at its maximum.
   */
  method RestorePools(l: Layout, h: Host, health: Word, energy: Word, mana: Word) returns (r: Host)
    requires Fits(l, h)
    ensures Bookkept(l, h, r)
    ensures r.obj.values == h.obj.values
      [l.slot(Health) := Min(health, Get(l, h.obj, MaxHealth))]
      [l.slot(PowerOf(PowerEnergy)) := Get(l, r.obj, PowerOf(PowerEnergy))]
      [l.slot(PowerOf(PowerMana)) := Get(l, r.obj, PowerOf(PowerMana))]
    ensures Get(l, h.obj, MaxPowerOf(PowerEnergy)) < TwoTo31 ==>
      Get(l, r.obj, PowerOf(PowerEnergy)) == Min(energy, Get(l, h.obj, MaxPowerOf(PowerEnergy)))
    ensures Get(l, h.obj, MaxPowerOf(PowerMana)) < TwoTo31 ==>
      Get(l, r.obj, PowerOf(PowerMana)) == Min(mana, Get(l, h.obj, MaxPowerOf(PowerMana)))
  {
    var n := h.obj.valuesCount;
    var e, m, maxE, maxM := PowerOf(PowerEnergy), PowerOf(PowerMana), MaxPowerOf(PowerEnergy), MaxPowerOf(PowerMana);
    Apart(l, n, Health, maxE);
    Apart(l, n, Health, maxM);
    Apart(l, n, Health, e);
    Apart(l, n, Health, m);
    Apart(l, n, e, maxM);
    Apart(l, n, e, m);
    var h1 := RestoreHealth(l, h, health);
    var h2 := RestorePower(l, h1, PowerEnergy, energy);
    r := RestorePower(l, h2, PowerMana, mana);
    assert Get(l, r.obj, e) == Get(l, h2.obj, e);
    BookkeptTrans(l, h, h1, h2);
    BookkeptTrans(l, h, h2, r);
  }

  // ----- Create -----

  /** A plain 32-bit field setter (`SetMoney`, `SetLevel`, `SetPlayerXp`, `SetUInt32Value`) as one step. */
  method WriteField(l: Layout, h: Host, f: Field, value: Word) returns (r: Host)
    requires Fits(l, h)
    ensures Bookkept(l, h, r)
    ensures r.obj.values == h.obj.values[l.slot(f) := value]
  {
    r := SetField(l, h, f, value);
    OneSlot(l, h, r, f);
  }

  /** What a client sends to create a character (the outfit is not used). */
  datatype NewCharacter = NewCharacter(name: string, cls: Byte, gender: Byte, look: Appearance)

  /**
   * The slot values `Create` writes before `InitStatsForLevel`: bytes-0 and
   * player-bytes-3 (class, power type, gender), the two appearance fields,
   * no money and level 1.
   */
  ghost function CreatedFields(l: Layout, v: seq<Word>, bytes0: Word, bytes3: Word, looks: Word, looks2: Word): (r: seq<Word>)
    requires ValidLayout(l, |v|)
    ensures |r| == |v|
  {
    var s := Put(v, l.slot(Bytes0), bytes0);
    var s := Put(s, l.slot(PlayerBytes3), bytes3);
    var s := Put(s, l.slot(PlayerBytes), looks);
    var s := Put(s, l.slot(PlayerBytes2), looks2);
    var s := Put(s, l.slot(Coinage), 0);
    Put(s, l.slot(Level), 1)
  }

  /**
   * The writes `Create` makes after `InitStatsForLevel`: the maximum health
   * set to the create health and health filled, then the energy maximum set
   * to the create energy and energy filled.
   */
  method RefillToCreateValues(l: Layout, h: Host) returns (r: Host)
    requires Fits(l, h)
    ensures Bookkept(l, h, r)
    ensures var be := StoredAsStat(Get(l, h.obj, BaseEnergy));
      r.obj.values == h.obj.values
        [l.slot(MaxHealth) := Get(l, h.obj, BaseHealth)][l.slot(Health) := Get(l, h.obj, BaseHealth)]
        [l.slot(MaxPowerOf(PowerEnergy)) := be][l.slot(PowerOf(PowerEnergy)) := be]
    ensures Get(l, h.obj, MaxHealth) == Get(l, h.obj, Health) == Get(l, h.obj, BaseHealth)
      && Get(l, h.obj, MaxPowerOf(PowerEnergy)) == Get(l, h.obj, PowerOf(PowerEnergy)) == Get(l, h.obj, BaseEnergy) < TwoTo31
      ==> r.obj.values == h.obj.values
  {
    var n := h.obj.valuesCount;
    var e, maxE := PowerOf(PowerEnergy), MaxPowerOf(PowerEnergy);
    Apart(l, n, BaseHealth, MaxHealth);
    Apart(l, n, BaseHealth, Health);
    Apart(l, n, BaseEnergy, MaxHealth);
    Apart(l, n, BaseEnergy, Health);
    Apart(l, n, maxE, e);
    var h1 := FillHealth(l, h, Get(l, h.obj, BaseHealth));
    var h2 := ResetMaxPower(l, h1, PowerEnergy);
    r := FillEnergy(l, h2);
    UpdateTwice(h2.obj.values, l.slot(e), Get(l, h2.obj, e), Get(l, r.obj, e));
    BookkeptTrans(l, h, h1, h2);
    BookkeptTrans(l, h, h2, r);
    var v := h.obj.values;
    if Get(l, h.obj, MaxHealth) == Get(l, h.obj, Health) == Get(l, h.obj, BaseHealth)
      && Get(l, h.obj, MaxPowerOf(PowerEnergy)) == Get(l, h.obj, PowerOf(PowerEnergy)) == Get(l, h.obj, BaseEnergy) < TwoTo31
    {
      var a, b, c, d := l.slot(MaxHealth), l.slot(Health), l.slot(maxE), l.slot(e);
      assert v[a := v[a]][b := v[b]][c := v[c]][d := v[d]] == v;
    }
  }

  /**
   * `Player::Create`: `_Create` and the name first; then a class with no
   * create information, or a gender other than 0 or 1, is refused.  Next
   * the player is handed `CreateMap` of the class's start map, and a start
   * map the store lacks or an instanced one stops the server in `SetMap`.
   * Otherwise class, gender, power type and appearance are stored, money 0
   * and level 1, and `InitStatsForLevel` runs; the closing refill with the
   * create values changes nothing more.
   */
  method Create(l: Layout, t: Tables, p: Player, guid: nat, typeMask: Word, c: NewCharacter, energyCode: Byte,
                mgr: MapManager.Manager, store: map<Word, MapEntries.MapEntry>)
    returns (r: Outcome, mgr2: MapManager.Manager)
    requires (!p.unit.host.obj.hasValues || Ready(p.unit.host.obj)) && ValidLayout(l, p.unit.host.obj.valuesCount)
    requires guid < TwoTo32 * TwoTo32 && ValidTables(t)
    requires GetPlayerInfo(t, c.cls).Some? && c.gender <= 1 && MapManager.GivesMap(store, GetPlayerInfo(t, c.cls).value.mapId) ==>
      CanInitStats(t, c.cls, 1)
    ensures r.Refused? <==> !(GetPlayerInfo(t, c.cls).Some? && c.gender <= 1)
    ensures r.NullMap? <==> GetPlayerInfo(t, c.cls).Some? && c.gender <= 1 && !MapManager.GivesMap(store, GetPlayerInfo(t, c.cls).value.mapId)
    ensures !r.Placed? ==> mgr2 == mgr
    ensures !r.NullMap? ==> r.player.name == c.name && r.player.nearby == p.nearby && r.player.session == p.session
    ensures r.Refused? ==> r.player.unit == p.unit.(host := CreateObject(l, p.unit.host, guid, typeMask))
    ensures r.Placed? ==>
      var info := GetPlayerInfo(t, c.cls).value;
      r.mapKey == MapManager.MapIDOf(info.mapId) && r.mapKey in mgr2.maps
      && (info.mapId in store && MapManager.FindMap(mgr, info.mapId, 0).Some? ==> mgr2 == mgr)
    ensures r.Placed? ==>
      var h0 := CreateObject(l, p.unit.host, guid, typeMask);
      Bookkept(l, h0, r.player.unit.host)
      && var o := r.player.unit.host.obj;
      o.values == LevelValues(l,
        CreatedFields(l, h0.obj.values, Get(l, o, Bytes0), Get(l, o, PlayerBytes3), Get(l, o, PlayerBytes), Get(l, o, PlayerBytes2)),
        GetXPForLevel(t, 1), LevelInfo(t, c.cls, 1))
      && GetClass(l, o) == c.cls && GetGender(l, o) == c.gender
      && GetByteValue(o, l.slot(Bytes0), 3) == energyCode
      && (forall k :: 1 <= k < 3 ==> GetByteValue(o, l.slot(Bytes0), k) == GetByteValue(h0.obj, l.slot(Bytes0), k))
      && Lanes(Get(l, o, PlayerBytes)) == [c.look.skin, c.look.hair, c.look.hairColor, c.look.jaw]
      && Lanes(Get(l, o, PlayerBytes2)) == [c.look.skin, c.look.nose, c.look.eyes, Lanes(Get(l, h0.obj, PlayerBytes2))[3]]
    ensures r.Placed? ==> r.player.unit.stats == [0, 0, 0, 0] && r.player.unit.regenTimer == p.unit.regenTimer && r.player.unit.deathState == p.unit.deathState
  {
    var h0 := CreateObject(l, p.unit.host, guid, typeMask);
    var named := p.(unit := p.unit.(host := h0), name := c.name);
    if GetPlayerInfo(t, c.cls).None? || (c.gender != 0 && c.gender != 1) {
      return Refused(named), mgr;
    }
    var mapId := GetPlayerInfo(t, c.cls).value.mapId;
    var (given, mgr1) := MapManager.CreateMap(mgr, store, mapId);
    if given.None? {
      return NullMap, mgr;
    }
    var h := CreateFieldsStep(l, h0, c, energyCode);
    var u := InitStatsForLevel(l, p.unit.(host := h), t);
    var info := LevelInfo(t, c.cls, 1);
    LevelValuesPools(l, h.obj.values, GetXPForLevel(t, 1), info);
    var h5 := RefillToCreateValues(l, u.host);
    LevelValuesKeepCreated(l, h.obj.values, GetXPForLevel(t, 1), info);
    BookkeptTrans(l, h0, h, u.host);
    BookkeptTrans(l, h0, u.host, h5);
    r := Placed(named.(unit := u.(host := h5)), given.value);
    mgr2 := mgr1;
  }

  /**
   * The part of `Create` between the checks and `InitStatsForLevel`:
   * identity, appearance, money 0 and level 1.
   */
  method CreateFieldsStep(l: Layout, h: Host, c: NewCharacter, energyCode: Byte) returns (r: Host)
    requires Fits(l, h)
    ensures Bookkept(l, h, r)
    ensures var o := r.obj;
      o.values == CreatedFields(l, h.obj.values, Get(l, o, Bytes0), Get(l, o, PlayerBytes3), Get(l, o, PlayerBytes), Get(l, o, PlayerBytes2))
    ensures GetClass(l, r.obj) == c.cls && GetGender(l, r.obj) == c.gender && Get(l, r.obj, Level) == 1
    ensures GetByteValue(r.obj, l.slot(Bytes0), 3) == energyCode
    ensures forall k :: 1 <= k < 3 ==> GetByteValue(r.obj, l.slot(Bytes0), k) == GetByteValue(h.obj, l.slot(Bytes0), k)
    ensures Lanes(Get(l, r.obj, PlayerBytes)) == [c.look.skin, c.look.hair, c.look.hairColor, c.look.jaw]
    ensures Lanes(Get(l, r.obj, PlayerBytes2)) == [c.look.skin, c.look.nose, c.look.eyes, Lanes(Get(l, h.obj, PlayerBytes2))[3]]
  {
    var n := h.obj.valuesCount;
    var h1 := SetIdentity(l, h, c.cls, c.gender, energyCode);
    var h2 := SetAppearance(l, h1, c.look);
    var h3 := WriteField(l, h2, Coinage, 0);
    r := WriteField(l, h3, Level, 1);
    Apart(l, n, Bytes0, PlayerBytes);
    Apart(l, n, Bytes0, PlayerBytes2);
    Apart(l, n, Bytes0, Coinage);
    Apart(l, n, Bytes0, Level);
    Apart(l, n, PlayerBytes3, PlayerBytes);
    Apart(l, n, PlayerBytes3, PlayerBytes2);
    Apart(l, n, PlayerBytes3, Coinage);
    Apart(l, n, PlayerBytes3, Level);
    Apart(l, n, PlayerBytes, Coinage);
    Apart(l, n, PlayerBytes, Level);
    Apart(l, n, PlayerBytes2, Coinage);
    Apart(l, n, PlayerBytes2, Level);
    Apart(l, n, PlayerBytes2, Bytes0);
    BookkeptTrans(l, h, h1, h2);
    BookkeptTrans(l, h, h2, h3);
    BookkeptTrans(l, h, h3, r);
  }

  // ----- LoadFromDB -----

  /** The `characters` row `LoadFromDB` reads, with the saved map id (positions, zone and the rest are not modelled). */
  datatype CharacterRow = CharacterRow(
    account: Word, name: string, cls: Word, gender: Word, level: Word, xp: Word, money: Word,
    playerBytes: Word, playerBytes2: Word, playerFlags: Word, health: Word, energy: Word, power1: Word,
    mapId: Word)

  /**
   * A `character_stats` row, its eleven columns in the order the login
   * query selects them (the float and attack-power columns are carried as
   * the words `GetUInt32` reads, and only the four stats are applied).
   */
  datatype StatsRow = StatsRow(
    strength: Word, stamina: Word, intellect: Word, health: Word,
    blockPct: Word, dodgePct: Word, parryPct: Word, critPct: Word, rangedCritPct: Word,
    attackPower: Word, rangedAttackPower: Word)

  /** The number of columns the stats query selects. */
  const STATS_COLUMNS: nat := 11

  /** `fields[i]` of a stats row: a column exactly for the indices below `STATS_COLUMNS`. */
  function Column(row: StatsRow, i: nat): (r: Option<Word>)
    ensures r.Some? <==> i < STATS_COLUMNS
  {
    match i
    case 0 => Some(row.strength)
    case 1 => Some(row.stamina)
    case 2 => Some(row.intellect)
    case 3 => Some(row.health)
    case 4 => Some(row.blockPct)
    case 5 => Some(row.dodgePct)
    case 6 => Some(row.parryPct)
    case 7 => Some(row.critPct)
    case 8 => Some(row.rangedCritPct)
    case 9 => Some(row.attackPower)
    case 10 => Some(row.rangedAttackPower)
    case _ => None
  }

  /** The four stats read from the columns `first` to `first + 3`, STR first. */
  function StatsFrom(row: StatsRow, first: nat): (r: seq<Word>)
    requires first + 4 <= STATS_COLUMNS
    ensures |r| == 4 && forall k :: 0 <= k < 4 ==> Column(row, first + k) == Some(r[k])
  {
    [Column(row, first).value, Column(row, first + 1).value, Column(row, first + 2).value, Column(row, first + 3).value]
  }

  /** The intended stats of a row: each stat from the column that bears its name. */
  function StatsOf(row: StatsRow): (r: seq<Word>)
    ensures |r| == 4
  {
    [row.strength, row.stamina, row.intellect, row.health]
  }

  /** The intended stats are the four columns from the first on, as the query orders them. */
  lemma StatsOfColumns(row: StatsRow)
    ensures StatsOf(row) == StatsFrom(row, 0)
  {
  }

  /**
   * The column indices `_LoadStats` uses are one too high: read from
   * `fields[1]` on, STR gets the stamina column, STA intellect, INT health
   * and HEA the block percentage; a row whose first two columns differ
   * ends with other stats than its own; and the last read, `fields[11]`,
   * names no column of the eleven.
   */
  lemma StatsShiftedAsWritten(row: StatsRow)
    ensures StatsFrom(row, 1) == [row.stamina, row.intellect, row.health, row.blockPct]
    ensures row.strength != row.stamina ==> StatsFrom(row, 1) != StatsOf(row)
    ensures Column(row, 11).None?
  {
    assert StatsFrom(row, 1)[0] == row.stamina;
  }

  /** A signed stat written from an unsigned column reads back as the column. */
  lemma StatRoundTrip(u: Unit, s: Stat, column: Word)
    requires |u.stats| == 4
    ensures SetStat(u, s, ToInt32(column)).stats == u.stats[StatIndex(s) := column]
  {
    var r := SetStat(u, s, ToInt32(column));
    var x := r.stats[StatIndex(s)];
    assert Wrap(ToInt32(x)) == x && Wrap(ToInt32(column)) == column;
    assert forall t :: r.stats[StatIndex(t)] == u.stats[StatIndex(s) := column][StatIndex(t)];
    assert forall k :: 0 <= k < 4 ==> k == StatIndex([StatStr, StatSta, StatInt, StatHea][k]);
  }

  /**
   * The stats loop of `_LoadStats`, reading the four stats from the
   * columns `first` to `first + 3`: every row overwrites the four stats,
   * so the last row wins; with no rows the stats stay.
   */
  method ReadStats(u: Unit, rows: seq<StatsRow>, first: nat) returns (r: Unit)
    requires |u.stats| == 4 && first + 4 <= STATS_COLUMNS
    ensures r.host == u.host && r.regenTimer == u.regenTimer && r.deathState == u.deathState
    ensures r.stats == if rows == [] then u.stats else StatsFrom(rows[|rows| - 1], first)
  {
    r := u;
    var i := 0;
    while i < |rows|
      invariant 0 <= i <= |rows|
      invariant r.host == u.host && r.regenTimer == u.regenTimer && r.deathState == u.deathState
      invariant r.stats == if i == 0 then u.stats else StatsFrom(rows[i - 1], first)
    {
      var cols := StatsFrom(rows[i], first);
      StatRoundTrip(r, StatStr, cols[0]);
      r := SetStat(r, StatStr, ToInt32(cols[0]));
      StatRoundTrip(r, StatSta, cols[1]);
      r := SetStat(r, StatSta, ToInt32(cols[1]));
      StatRoundTrip(r, StatInt, cols[2]);
      r := SetStat(r, StatInt, ToInt32(cols[2]));
      StatRoundTrip(r, StatHea, cols[3]);
      r := SetStat(r, StatHea, ToInt32(cols[3]));
      i := i + 1;
    }
  }

  /**
   * `_LoadStats` as written: the stats come from `fields[1]` to
   * `fields[4]`, so each stat takes the column after its own.
   */
  method LoadStatsAsWritten(u: Unit, rows: seq<StatsRow>) returns (r: Unit)
    requires |u.stats| == 4
    ensures r.host == u.host && r.regenTimer == u.regenTimer && r.deathState == u.deathState
    ensures rows == [] ==> r.stats == u.stats
    ensures rows != [] ==>
      var last := rows[|rows| - 1];
      r.stats == [last.stamina, last.intellect, last.health, last.blockPct]
  {
    r := ReadStats(u, rows, 1);
    if rows != [] {
      StatsShiftedAsWritten(rows[|rows| - 1]);
    }
  }

  /**
   * `_LoadStats` with the column indices corrected to `fields[0]` to
   * `fields[3]`: every stat takes its own column of the last row.
   */
  method LoadStats(u: Unit, rows: seq<StatsRow>) returns (r: Unit)
    requires |u.stats| == 4
    ensures r.host == u.host && r.regenTimer == u.regenTimer && r.deathState == u.deathState
    ensures r.stats == if rows == [] then u.stats else StatsOf(rows[|rows| - 1])
  {
    r := ReadStats(u, rows, 0);
    if rows != [] {
      StatsOfColumns(rows[|rows| - 1]);
    }
  }

  /** The gold a loaded character may hold: the saved amount capped at `MAX_MONEY_AMOUNT`. */
  function LoadedMoney(money: Word): (r: Word)
    ensures r <= MAX_MONEY_AMOUNT && r <= money
    ensures money <= MAX_MONEY_AMOUNT ==> r == money
  {
    if money > MAX_MONEY_AMOUNT then MAX_MONEY_AMOUNT else money
  }

  /**
   * The slot values `LoadFromDB` writes before `InitStatsForLevel`: bytes-0
   * and player-bytes-3 (class and gender), the level as a byte, experience,
   * the capped money, and the saved appearance and player flags.
   */
  ghost function LoadedFields(l: Layout, v: seq<Word>, bytes0: Word, bytes3: Word, row: CharacterRow): (r: seq<Word>)
    requires ValidLayout(l, |v|)
    ensures |r| == |v|
  {
    var s := Put(v, l.slot(Bytes0), bytes0);
    var s := Put(s, l.slot(PlayerBytes3), bytes3);
    var s := Put(s, l.slot(Level), row.level % 256);
    var s := Put(s, l.slot(Xp), row.xp);
    var s := Put(s, l.slot(Coinage), LoadedMoney(row.money));
    var s := Put(s, l.slot(PlayerBytes), row.playerBytes);
    var s := Put(s, l.slot(PlayerBytes2), row.playerBytes2);
    Put(s, l.slot(PlayerFlags), row.playerFlags)
  }

  /** The six plain 32-bit writes of `LoadFromDB`, in its order; bytes-0 and player-bytes-3 stay. */
  method LoadSavedWords(l: Layout, h: Host, row: CharacterRow) returns (r: Host)
    requires Fits(l, h)
    ensures Bookkept(l, h, r)
    ensures r.obj.values == h.obj.values
      [l.slot(Level) := row.level % 256][l.slot(Xp) := row.xp][l.slot(Coinage) := LoadedMoney(row.money)]
      [l.slot(PlayerBytes) := row.playerBytes][l.slot(PlayerBytes2) := row.playerBytes2][l.slot(PlayerFlags) := row.playerFlags]
    ensures Get(l, r.obj, Bytes0) == Get(l, h.obj, Bytes0) && Get(l, r.obj, PlayerBytes3) == Get(l, h.obj, PlayerBytes3)
    ensures Get(l, r.obj, Level) == row.level % 256
  {
    var n := h.obj.valuesCount;
    Apart(l, n, Bytes0, Level);
    Apart(l, n, Bytes0, Xp);
    Apart(l, n, Bytes0, Coinage);
    Apart(l, n, Bytes0, PlayerBytes);
    Apart(l, n, Bytes0, PlayerBytes2);
    Apart(l, n, Bytes0, PlayerFlags);
    Apart(l, n, PlayerBytes3, Level);
    Apart(l, n, PlayerBytes3, Xp);
    Apart(l, n, PlayerBytes3, Coinage);
    Apart(l, n, PlayerBytes3, PlayerBytes);
    Apart(l, n, PlayerBytes3, PlayerBytes2);
    Apart(l, n, PlayerBytes3, PlayerFlags);
    Apart(l, n, Level, Xp);
    Apart(l, n, Level, Coinage);
    Apart(l, n, Level, PlayerBytes);
    Apart(l, n, Level, PlayerBytes2);
    Apart(l, n, Level, PlayerFlags);
    var h1 := WriteField(l, h, Level, row.level % 256);
    var h2 := WriteField(l, h1, Xp, row.xp);
    var h3 := WriteField(l, h2, Coinage, LoadedMoney(row.money));
    var h4 := WriteField(l, h3, PlayerBytes, row.playerBytes);
    var h5 := WriteField(l, h4, PlayerBytes2, row.playerBytes2);
    r := WriteField(l, h5, PlayerFlags, row.playerFlags);
    BookkeptTrans(l, h, h1, h2);
    BookkeptTrans(l, h, h2, h3);
    BookkeptTrans(l, h, h3, h4);
    BookkeptTrans(l, h, h4, h5);
    BookkeptTrans(l, h, h5, r);
  }

  /** `setClass` then `setGender`, as one step. */
  method WriteClassAndGender(l: Layout, h: Host, cls: Byte, gender: Byte) returns (r: Host)
    requires Fits(l, h)
    ensures Bookkept(l, h, r)
    ensures r.obj.values == h.obj.values
      [l.slot(Bytes0) := Get(l, r.obj, Bytes0)][l.slot(PlayerBytes3) := Get(l, r.obj, PlayerBytes3)]
    ensures GetClass(l, r.obj) == cls && GetGender(l, r.obj) == gender
  {
    Apart(l, h.obj.valuesCount, Bytes0, PlayerBytes3);
    var h1 := WriteClass(l, h, cls);
    r := WriteGender(l, h1, gender);
    BookkeptTrans(l, h, h1, r);
  }

  /** `LoadedFields` as a chain of sequence updates. */
  lemma LoadedFieldsUpdates(l: Layout, v: seq<Word>, bytes0: Word, bytes3: Word, row: CharacterRow)
    requires ValidLayout(l, |v|)
    ensures LoadedFields(l, v, bytes0, bytes3, row) == v[l.slot(Bytes0) := bytes0][l.slot(PlayerBytes3) := bytes3]
      [l.slot(Level) := row.level % 256][l.slot(Xp) := row.xp][l.slot(Coinage) := LoadedMoney(row.money)]
      [l.slot(PlayerBytes) := row.playerBytes][l.slot(PlayerBytes2) := row.playerBytes2][l.slot(PlayerFlags) := row.playerFlags]
  {
  }

  /**
   * The part of `LoadFromDB` between `_Create` and `InitStatsForLevel`:
   * class and gender from the row (read as bytes; gender keeps its low bit),
   * then the six plain writes.
   */
  method LoadFieldsStep(l: Layout, h: Host, row: CharacterRow) returns (r: Host)
    requires Fits(l, h)
    ensures Bookkept(l, h, r)
    ensures r.obj.values == LoadedFields(l, h.obj.values, Get(l, r.obj, Bytes0), Get(l, r.obj, PlayerBytes3), row)
    ensures GetClass(l, r.obj) == row.cls % 256 && GetGender(l, r.obj) == row.gender % 2
    ensures Get(l, r.obj, Level) == row.level % 256
  {
    var h1 := WriteClassAndGender(l, h, row.cls % 256, row.gender % 2);
    r := LoadSavedWords(l, h1, row);
    LoadedFieldsUpdates(l, h.obj.values, Get(l, r.obj, Bytes0), Get(l, r.obj, PlayerBytes3), row);
    BookkeptTrans(l, h, h1, r);
  }

  /**
   * What `LoadFromDB` leaves in the slots once the row is applied: the
   * level reset over the loaded fields, then the saved health and energy
   * capped at the new maxima and mana empty (its maximum is 0).
   */
  ghost function LoadedValues(l: Layout, t: Tables, v: seq<Word>, bytes0: Word, bytes3: Word, c: CharacterRow): (r: seq<Word>)
    requires ValidLayout(l, |v|) && CanInitStats(t, c.cls % 256, c.level % 256)
    ensures |r| == |v|
  {
    var info := LevelInfo(t, c.cls % 256, c.level % 256);
    var w := LevelValues(l, LoadedFields(l, v, bytes0, bytes3, c), GetXPForLevel(t, c.level % 256), info);
    var w := Put(w, l.slot(Health), Min(c.health, info.baseHealth));
    var w := Put(w, l.slot(PowerOf(PowerEnergy)), Min(c.energy, info.baseEnergy));
    Put(w, l.slot(PowerOf(PowerMana)), 0)
  }

  /** The row's fields and the level reset: the first half of `LoadFromDB` after the name. */
  method LoadAndReset(l: Layout, t: Tables, u: Unit, c: CharacterRow) returns (r: Unit)
    requires Fits(l, u.host) && CanInitStats(t, c.cls % 256, c.level % 256)
    ensures Bookkept(l, u.host, r.host)
    ensures var o := r.host.obj;
      var info := LevelInfo(t, c.cls % 256, c.level % 256);
      o.values == LevelValues(l, LoadedFields(l, u.host.obj.values, Get(l, o, Bytes0), Get(l, o, PlayerBytes3), c),
        GetXPForLevel(t, c.level % 256), info)
      && Get(l, o, MaxHealth) == info.baseHealth && Get(l, o, MaxPowerOf(PowerEnergy)) == info.baseEnergy
      && Get(l, o, MaxPowerOf(PowerMana)) == 0
    ensures GetClass(l, r.host.obj) == c.cls % 256 && GetGender(l, r.host.obj) == c.gender % 2
    ensures r.stats == [0, 0, 0, 0] && r.regenTimer == u.regenTimer && r.deathState == u.deathState
  {
    var lvl := c.level % 256;
    var h := LoadFieldsStep(l, u.host, c);
    r := InitStatsForLevel(l, u.(host := h), t);
    var info := LevelInfo(t, c.cls % 256, lvl);
    LevelValuesPools(l, h.obj.values, GetXPForLevel(t, lvl), info);
    LevelValuesKeepCreated(l, h.obj.values, GetXPForLevel(t, lvl), info);
    BookkeptTrans(l, u.host, h, r.host);
  }

  /**
   * The restore at the end of `LoadFromDB` right after the level reset:
   * health and energy capped at their create values, mana capped at 0.
   * Class and gender stay.
   */
  method RestoreAfterReset(l: Layout, h: Host, c: CharacterRow, info: ClassLevelInfo) returns (r: Host)
    requires Fits(l, h) && Get(l, h.obj, MaxHealth) == info.baseHealth
    requires Get(l, h.obj, MaxPowerOf(PowerEnergy)) == info.baseEnergy && Get(l, h.obj, MaxPowerOf(PowerMana)) == 0
    ensures Bookkept(l, h, r)
    ensures r.obj.values == h.obj.values[l.slot(Health) := Min(c.health, info.baseHealth)]
      [l.slot(PowerOf(PowerEnergy)) := Min(c.energy, info.baseEnergy)][l.slot(PowerOf(PowerMana)) := 0]
    ensures Get(l, r.obj, Bytes0) == Get(l, h.obj, Bytes0) && Get(l, r.obj, PlayerBytes3) == Get(l, h.obj, PlayerBytes3)
    ensures GetClass(l, r.obj) == GetClass(l, h.obj) && GetGender(l, r.obj) == GetGender(l, h.obj)
  {
    var n := h.obj.valuesCount;
    Apart(l, n, Bytes0, Health);
    Apart(l, n, Bytes0, PowerOf(PowerEnergy));
    Apart(l, n, Bytes0, PowerOf(PowerMana));
    Apart(l, n, PlayerBytes3, Health);
    Apart(l, n, PlayerBytes3, PowerOf(PowerEnergy));
    Apart(l, n, PlayerBytes3, PowerOf(PowerMana));
    r := RestorePools(l, h, c.health, c.energy, c.power1);
  }

  /** `LoadedValues` written as the level reset followed by three updates. */
  lemma LoadedValuesUpdates(l: Layout, t: Tables, v: seq<Word>, bytes0: Word, bytes3: Word, c: CharacterRow)
    requires ValidLayout(l, |v|) && CanInitStats(t, c.cls % 256, c.level % 256)
    ensures var info := LevelInfo(t, c.cls % 256, c.level % 256);
      LoadedValues(l, t, v, bytes0, bytes3, c)
      == LevelValues(l, LoadedFields(l, v, bytes0, bytes3, c), GetXPForLevel(t, c.level % 256), info)
        [l.slot(Health) := Min(c.health, info.baseHealth)]
        [l.slot(PowerOf(PowerEnergy)) := Min(c.energy, info.baseEnergy)][l.slot(PowerOf(PowerMana)) := 0]
  {
  }

  /**
   * `LoadFromDB` after `_Create` and the name: the row's fields and the
   * level reset; then `SetMap` with the map `CreateMap` gave, which stops
   * the server (`None` here) when it gave none; otherwise the saved stats
   * and the saved pools.
   */
  method LoadSteps(l: Layout, t: Tables, u: Unit, c: CharacterRow, statRows: seq<StatsRow>,
                   playerMap: Option<MapManager.MapID>)
    returns (r: Option<Unit>)
    requires Fits(l, u.host) && CanInitStats(t, c.cls % 256, c.level % 256)
    ensures r.None? <==> playerMap.None?
    ensures r.Some? ==>
      Bookkept(l, u.host, r.value.host)
      && r.value.host.obj.values == LoadedValues(l, t, u.host.obj.values, Get(l, r.value.host.obj, Bytes0), Get(l, r.value.host.obj, PlayerBytes3), c)
      && GetClass(l, r.value.host.obj) == c.cls % 256 && GetGender(l, r.value.host.obj) == c.gender % 2
    ensures r.Some? ==>
      r.value.stats == (if statRows == [] then [0, 0, 0, 0] else StatsOf(statRows[|statRows| - 1]))
      && r.value.regenTimer == u.regenTimer && r.value.deathState == u.deathState
  {
    var u1 := LoadAndReset(l, t, u, c);
    if playerMap.None? {
      return None;
    }
    var u2 := LoadStats(u1, statRows);
    var h := RestoreAfterReset(l, u2.host, c, LevelInfo(t, c.cls % 256, c.level % 256));
    LoadedValuesUpdates(l, t, u.host.obj.values, Get(l, h.obj, Bytes0), Get(l, h.obj, PlayerBytes3), c);
    BookkeptTrans(l, u.host, u1.host, h);
    r := Some(u2.(host := h));
  }

  /**
   * `LoadFromDB`: refused, leaving the player untouched, when there is no
   * row or the row belongs to another account; otherwise it re-creates the
   * object, takes the name and applies the row, and `CreateMap` of the
   * saved map id decides the rest: a map the store lacks, or an instanced
   * one, stops the server in `SetMap`; any other map is filed with the
   * manager and handed to the player, and the load completes.
   */
  method LoadFromDB(l: Layout, t: Tables, p: Player, guid: nat, typeMask: Word,
                    row: Option<CharacterRow>, sessionAccount: Word, statRows: seq<StatsRow>,
                    mgr: MapManager.Manager, store: map<Word, MapEntries.MapEntry>)
    returns (r: Outcome, mgr2: MapManager.Manager)
    requires (!p.unit.host.obj.hasValues || Ready(p.unit.host.obj)) && ValidLayout(l, p.unit.host.obj.valuesCount)
    requires guid < TwoTo32 * TwoTo32
    requires row.Some? && row.value.account == sessionAccount ==>
      CanInitStats(t, row.value.cls % 256, row.value.level % 256)
    ensures r.Refused? <==> !(row.Some? && row.value.account == sessionAccount)
    ensures r.Refused? ==> r.player == p
    ensures r.NullMap? <==> row.Some? && row.value.account == sessionAccount && !MapManager.GivesMap(store, row.value.mapId)
    ensures !r.Placed? ==> mgr2 == mgr
    ensures r.Placed? ==>
      r.mapKey == MapManager.MapIDOf(row.value.mapId) && r.mapKey in mgr2.maps
      && (MapManager.FindMap(mgr, row.value.mapId, 0).Some? ==> mgr2 == mgr)
    ensures r.Placed? ==> r.player.name == row.value.name && r.player.nearby == p.nearby && r.player.session == p.session
    ensures r.Placed? ==>
      var h0 := CreateObject(l, p.unit.host, guid, typeMask);
      var o := r.player.unit.host.obj;
      Bookkept(l, h0, r.player.unit.host)
      && o.values == LoadedValues(l, t, h0.obj.values, Get(l, o, Bytes0), Get(l, o, PlayerBytes3), row.value)
      && GetClass(l, o) == row.value.cls % 256 && GetGender(l, o) == row.value.gender % 2
    ensures r.Placed? ==>
      r.player.unit.stats == (if statRows == [] then [0, 0, 0, 0] else StatsOf(statRows[|statRows| - 1]))
      && r.player.unit.regenTimer == p.unit.regenTimer && r.player.unit.deathState == p.unit.deathState
  {
    if row.None? || row.value.account != sessionAccount {
      return Refused(p), mgr;
    }
    var h0 := CreateObject(l, p.unit.host, guid, typeMask);
    var (given, mgr1) := MapManager.CreateMap(mgr, store, row.value.mapId);
    var u := LoadSteps(l, t, p.unit.(host := h0), row.value, statRows, given);
    if u.None? {
      return NullMap, mgr;
    }
    r := Placed(p.(unit := u.value, name := row.value.name), given.value);
    mgr2 := mgr1;
  }

  /** The fields `LoadedFields` writes read back as the row's values. */
  lemma LoadedFieldsReadBack(l: Layout, v: seq<Word>, bytes0: Word, bytes3: Word, c: CharacterRow)
    requires ValidLayout(l, |v|)
    ensures var w := LoadedFields(l, v, bytes0, bytes3, c);
      w[l.slot(Level)] == c.level % 256 && w[l.slot(Xp)] == c.xp && w[l.slot(Coinage)] == LoadedMoney(c.money)
      && w[l.slot(PlayerBytes)] == c.playerBytes && w[l.slot(PlayerBytes2)] == c.playerBytes2
      && w[l.slot(PlayerFlags)] == c.playerFlags
  {
    var n := |v|;
    LoadedFieldsUpdates(l, v, bytes0, bytes3, c);
    Apart(l, n, Level, Xp);
    Apart(l, n, Level, Coinage);
    Apart(l, n, Level, PlayerBytes);
    Apart(l, n, Level, PlayerBytes2);
    Apart(l, n, Level, PlayerFlags);
    Apart(l, n, Xp, Coinage);
    Apart(l, n, Xp, PlayerBytes);
    Apart(l, n, Xp, PlayerBytes2);
    Apart(l, n, Xp, PlayerFlags);
    Apart(l, n, Coinage, PlayerBytes);
    Apart(l, n, Coinage, PlayerBytes2);
    Apart(l, n, Coinage, PlayerFlags);
    Apart(l, n, PlayerBytes, PlayerBytes2);
    Apart(l, n, PlayerBytes, PlayerFlags);
    Apart(l, n, PlayerBytes2, PlayerFlags);
  }

  /** The level reset leaves the two flag words reset, as `FlagsAfterReset` describes. */
  lemma LevelValuesFlags(l: Layout, v: seq<Word>, nextXp: Word, info: ClassLevelInfo)
    requires ValidLayout(l, |v|)
    ensures var w := LevelValues(l, v, nextXp, info);
      w[l.slot(UnitFlags)] == UnitFlagsAfterReset(v[l.slot(UnitFlags)])
      && w[l.slot(PlayerFlags)] == PlayerFlagsAfterReset(v[l.slot(PlayerFlags)])
  {
    var n := |v|;
    LevelValuesUpdates(l, v, nextXp, info);
    Apart(l, n, UnitFlags, PlayerFlags);
    Apart(l, n, UnitFlags, MaxPowerOf(PowerEnergy));
    Apart(l, n, UnitFlags, PowerOf(PowerEnergy));
    Apart(l, n, UnitFlags, MaxPowerOf(PowerMana));
    Apart(l, n, UnitFlags, PowerOf(PowerMana));
    Apart(l, n, UnitFlags, MaxHealth);
    Apart(l, n, UnitFlags, Health);
    Apart(l, n, PlayerFlags, MaxPowerOf(PowerEnergy));
    Apart(l, n, PlayerFlags, PowerOf(PowerEnergy));
    Apart(l, n, PlayerFlags, MaxPowerOf(PowerMana));
    Apart(l, n, PlayerFlags, PowerOf(PowerMana));
    Apart(l, n, PlayerFlags, MaxHealth);
    Apart(l, n, PlayerFlags, Health);
  }

  /** The level reset keeps the level, experience, money and appearance. */
  lemma LevelValuesKeepLoaded(l: Layout, v: seq<Word>, nextXp: Word, info: ClassLevelInfo)
    requires ValidLayout(l, |v|)
    ensures var w := LevelValues(l, v, nextXp, info);
      w[l.slot(Level)] == v[l.slot(Level)] && w[l.slot(Xp)] == v[l.slot(Xp)] && w[l.slot(Coinage)] == v[l.slot(Coinage)]
      && w[l.slot(PlayerBytes)] == v[l.slot(PlayerBytes)] && w[l.slot(PlayerBytes2)] == v[l.slot(PlayerBytes2)]
  {
    LevelValuesKeep(l, v, nextXp, info, Level);
    LevelValuesKeep(l, v, nextXp, info, Xp);
    LevelValuesKeep(l, v, nextXp, info, Coinage);
    LevelValuesKeep(l, v, nextXp, info, PlayerBytes);
    LevelValuesKeep(l, v, nextXp, info, PlayerBytes2);
  }

  /** A written field other than health, energy and mana shares no slot with them. */
  lemma ApartFromPools(l: Layout, n: nat, f: Field)
    requires ValidLayout(l, n) && Written(f) && f != Health && f != PowerOf(PowerEnergy) && f != PowerOf(PowerMana)
    ensures l.slot(f) != l.slot(Health) && l.slot(f) != l.slot(PowerOf(PowerEnergy)) && l.slot(f) != l.slot(PowerOf(PowerMana))
  {
    Apart(l, n, f, Health);
    Apart(l, n, f, PowerOf(PowerEnergy));
    Apart(l, n, f, PowerOf(PowerMana));
  }

  /** The three pool writes at the end of `LoadFromDB` leave every other field alone. */
  lemma RestoreKeeps(l: Layout, w: seq<Word>, health: Word, energy: Word, f: Field)
    requires ValidLayout(l, |w|) && Written(f) && f != Health && f != PowerOf(PowerEnergy) && f != PowerOf(PowerMana)
    ensures w[l.slot(Health) := health][l.slot(PowerOf(PowerEnergy)) := energy][l.slot(PowerOf(PowerMana)) := 0][l.slot(f)]
      == w[l.slot(f)]
  {
    ApartFromPools(l, |w|, f);
  }

  /** `RestoreKeeps` for the fields `LoadedFields` writes. */
  lemma RestoreKeepsSaved(l: Layout, w: seq<Word>, health: Word, energy: Word)
    requires ValidLayout(l, |w|)
    ensures var r := w[l.slot(Health) := health][l.slot(PowerOf(PowerEnergy)) := energy][l.slot(PowerOf(PowerMana)) := 0];
      r[l.slot(Level)] == w[l.slot(Level)] && r[l.slot(Xp)] == w[l.slot(Xp)] && r[l.slot(Coinage)] == w[l.slot(Coinage)]
      && r[l.slot(PlayerBytes)] == w[l.slot(PlayerBytes)] && r[l.slot(PlayerBytes2)] == w[l.slot(PlayerBytes2)]
      && r[l.slot(PlayerFlags)] == w[l.slot(PlayerFlags)]
  {
    RestoreKeeps(l, w, health, energy, Level);
    RestoreKeeps(l, w, health, energy, Xp);
    RestoreKeeps(l, w, health, energy, Coinage);
    RestoreKeeps(l, w, health, energy, PlayerBytes);
    RestoreKeeps(l, w, health, energy, PlayerBytes2);
    RestoreKeeps(l, w, health, energy, PlayerFlags);
  }

  /** The three pool writes at the end of `LoadFromDB` keep the maxima and read back. */
  lemma RestoreReadsPools(l: Layout, w: seq<Word>, health: Word, energy: Word)
    requires ValidLayout(l, |w|)
    ensures var r := w[l.slot(Health) := health][l.slot(PowerOf(PowerEnergy)) := energy][l.slot(PowerOf(PowerMana)) := 0];
      r[l.slot(MaxHealth)] == w[l.slot(MaxHealth)] && r[l.slot(MaxPowerOf(PowerEnergy))] == w[l.slot(MaxPowerOf(PowerEnergy))]
      && r[l.slot(MaxPowerOf(PowerMana))] == w[l.slot(MaxPowerOf(PowerMana))]
      && r[l.slot(Health)] == health && r[l.slot(PowerOf(PowerEnergy))] == energy && r[l.slot(PowerOf(PowerMana))] == 0
  {
    var n := |w|;
    ApartFromPools(l, n, MaxHealth);
    ApartFromPools(l, n, MaxPowerOf(PowerEnergy));
    ApartFromPools(l, n, MaxPowerOf(PowerMana));
    Apart(l, n, Health, PowerOf(PowerEnergy));
    Apart(l, n, Health, PowerOf(PowerMana));
    Apart(l, n, PowerOf(PowerEnergy), PowerOf(PowerMana));
  }

  /**
   * A loaded character holds the row's level (as a byte), experience,
   * capped money and appearance; its player flags are the saved ones with
   * the level reset applied.
   */
  lemma LoadedValuesSaved(l: Layout, t: Tables, v: seq<Word>, bytes0: Word, bytes3: Word, c: CharacterRow)
    requires ValidLayout(l, |v|) && CanInitStats(t, c.cls % 256, c.level % 256)
    ensures var w := LoadedValues(l, t, v, bytes0, bytes3, c);
      w[l.slot(Level)] == c.level % 256 && w[l.slot(Xp)] == c.xp && w[l.slot(Coinage)] == LoadedMoney(c.money)
      && w[l.slot(PlayerBytes)] == c.playerBytes && w[l.slot(PlayerBytes2)] == c.playerBytes2
      && w[l.slot(PlayerFlags)] == PlayerFlagsAfterReset(c.playerFlags)
  {
    var u := LoadedFields(l, v, bytes0, bytes3, c);
    var info := LevelInfo(t, c.cls % 256, c.level % 256);
    var w0 := LevelValues(l, u, GetXPForLevel(t, c.level % 256), info);
    LoadedValuesUpdates(l, t, v, bytes0, bytes3, c);
    LoadedFieldsReadBack(l, v, bytes0, bytes3, c);
    LevelValuesKeepLoaded(l, u, GetXPForLevel(t, c.level % 256), info);
    LevelValuesFlags(l, u, GetXPForLevel(t, c.level % 256), info);
    RestoreKeepsSaved(l, w0, Min(c.health, info.baseHealth), Min(c.energy, info.baseEnergy));
  }

  /**
   * A loaded character's maxima are the class's values for its level (mana
   * 0), and its health and energy are the saved ones capped at them; mana
   * is empty.
   */
  lemma LoadedValuesPools(l: Layout, t: Tables, v: seq<Word>, bytes0: Word, bytes3: Word, c: CharacterRow)
    requires ValidLayout(l, |v|) && CanInitStats(t, c.cls % 256, c.level % 256)
    ensures var w := LoadedValues(l, t, v, bytes0, bytes3, c);
      var info := LevelInfo(t, c.cls % 256, c.level % 256);
      w[l.slot(MaxHealth)] == info.baseHealth && w[l.slot(Health)] == Min(c.health, info.baseHealth)
      && w[l.slot(MaxPowerOf(PowerEnergy))] == info.baseEnergy && w[l.slot(PowerOf(PowerEnergy))] == Min(c.energy, info.baseEnergy)
      && w[l.slot(MaxPowerOf(PowerMana))] == 0 && w[l.slot(PowerOf(PowerMana))] == 0
      && w[l.slot(Health)] <= w[l.slot(MaxHealth)] && w[l.slot(PowerOf(PowerEnergy))] <= w[l.slot(MaxPowerOf(PowerEnergy))]
  {
    var u := LoadedFields(l, v, bytes0, bytes3, c);
    var info := LevelInfo(t, c.cls % 256, c.level % 256);
    var w0 := LevelValues(l, u, GetXPForLevel(t, c.level % 256), info);
    LoadedValuesUpdates(l, t, v, bytes0, bytes3, c);
    LevelValuesPools(l, u, GetXPForLevel(t, c.level % 256), info);
    RestoreReadsPools(l, w0, Min(c.health, info.baseHealth), Min(c.energy, info.baseEnergy));
  }

  /** `CreatedFields` as a chain of sequence updates. */
  lemma CreatedFieldsUpdates(l: Layout, v: seq<Word>, bytes0: Word, bytes3: Word, looks: Word, looks2: Word)
    requires ValidLayout(l, |v|)
    ensures CreatedFields(l, v, bytes0, bytes3, looks, looks2) == v[l.slot(Bytes0) := bytes0][l.slot(PlayerBytes3) := bytes3]
      [l.slot(PlayerBytes) := looks][l.slot(PlayerBytes2) := looks2][l.slot(Coinage) := 0][l.slot(Level) := 1]
  {
  }

  /** A field `CreatedFields` does not write keeps its value. */
  lemma CreatedFieldsKeep(l: Layout, v: seq<Word>, bytes0: Word, bytes3: Word, looks: Word, looks2: Word, f: Field)
    requires ValidLayout(l, |v|) && Written(f)
    requires f != Bytes0 && f != PlayerBytes3 && f != PlayerBytes && f != PlayerBytes2 && f != Coinage && f != Level
    ensures CreatedFields(l, v, bytes0, bytes3, looks, looks2)[l.slot(f)] == v[l.slot(f)]
  {
    var n := |v|;
    CreatedFieldsUpdates(l, v, bytes0, bytes3, looks, looks2);
    Apart(l, n, f, Bytes0);
    Apart(l, n, f, PlayerBytes3);
    Apart(l, n, f, PlayerBytes);
    Apart(l, n, f, PlayerBytes2);
    Apart(l, n, f, Coinage);
    Apart(l, n, f, Level);
  }

  /** The fields `CreatedFields` writes last read back: money 0, level 1; the flags stay. */
  lemma CreatedFieldsReadBack(l: Layout, v: seq<Word>, bytes0: Word, bytes3: Word, looks: Word, looks2: Word)
    requires ValidLayout(l, |v|)
    ensures var w := CreatedFields(l, v, bytes0, bytes3, looks, looks2);
      w[l.slot(Level)] == 1 && w[l.slot(Coinage)] == 0
      && w[l.slot(UnitFlags)] == v[l.slot(UnitFlags)] && w[l.slot(PlayerFlags)] == v[l.slot(PlayerFlags)]
  {
    CreatedFieldsUpdates(l, v, bytes0, bytes3, looks, looks2);
    Apart(l, |v|, Level, Coinage);
    CreatedFieldsKeep(l, v, bytes0, bytes3, looks, looks2, UnitFlags);
    CreatedFieldsKeep(l, v, bytes0, bytes3, looks, looks2, PlayerFlags);
  }

  /**
   * A created character is level 1 with no money, full health and energy
   * at the class's level-1 values, no mana, and both flag words reset.
   */
  lemma CreatedValuesReadBack(l: Layout, t: Tables, v: seq<Word>, bytes0: Word, bytes3: Word, looks: Word, looks2: Word, cls: nat)
    requires ValidLayout(l, |v|) && CanInitStats(t, cls, 1)
    ensures var info := LevelInfo(t, cls, 1);
      var w := LevelValues(l, CreatedFields(l, v, bytes0, bytes3, looks, looks2), GetXPForLevel(t, 1), info);
      w[l.slot(Level)] == 1 && w[l.slot(Coinage)] == 0 && w[l.slot(NextLevelXp)] == GetXPForLevel(t, 1)
      && w[l.slot(Health)] == w[l.slot(MaxHealth)] == info.baseHealth
      && w[l.slot(PowerOf(PowerEnergy))] == w[l.slot(MaxPowerOf(PowerEnergy))] == info.baseEnergy
      && w[l.slot(PowerOf(PowerMana))] == w[l.slot(MaxPowerOf(PowerMana))] == 0
      && w[l.slot(UnitFlags)] == UnitFlagsAfterReset(v[l.slot(UnitFlags)])
      && w[l.slot(PlayerFlags)] == PlayerFlagsAfterReset(v[l.slot(PlayerFlags)])
  {
    var u := CreatedFields(l, v, bytes0, bytes3, looks, looks2);
    var info := LevelInfo(t, cls, 1);
    CreatedFieldsReadBack(l, v, bytes0, bytes3, looks, looks2);
    LevelValuesPools(l, u, GetXPForLevel(t, 1), info);
    LevelValuesFlags(l, u, GetXPForLevel(t, 1), info);
    LevelValuesKeepLoaded(l, u, GetXPForLevel(t, 1), info);
    LevelValuesNextXp(l, u, GetXPForLevel(t, 1), info);
  }

  /** The level reset stores the next level's experience. */
  lemma LevelValuesNextXp(l: Layout, v: seq<Word>, nextXp: Word, info: ClassLevelInfo)
    requires ValidLayout(l, |v|)
    ensures LevelValues(l, v, nextXp, info)[l.slot(NextLevelXp)] == nextXp
  {
    var n := |v|;
    LevelValuesUpdates(l, v, nextXp, info);
    Apart(l, n, NextLevelXp, BaseHealth);
    Apart(l, n, NextLevelXp, BaseEnergy);
    Apart(l, n, NextLevelXp, UnitFlags);
    Apart(l, n, NextLevelXp, PlayerFlags);
    Apart(l, n, NextLevelXp, MaxPowerOf(PowerEnergy));
    Apart(l, n, NextLevelXp, PowerOf(PowerEnergy));
    Apart(l, n, NextLevelXp, MaxPowerOf(PowerMana));
    Apart(l, n, NextLevelXp, PowerOf(PowerMana));
    Apart(l, n, NextLevelXp, MaxHealth);
    Apart(l, n, NextLevelXp, Health);
  }
}

=== FILE: realm_list.dfy ===
/**
 * The auth server's realm list: the table of accepted client builds, the
 * per-realm record built from a `realmlist` row (flag masking, security
 * clamp, build set, version info, address), and the periodic reload.
 *
 * The list is a `std::map` keyed by realm name and a realm's builds a
 * `std::set`: both are ordered containers, kept here as sequences in
 * ascending order.  The population level is a float and is not modelled;
 * the clock is a parameter.
 */
module RealmList {
  import opened Wrappers
  import opened Word32
  import opened Text
  import opened SharedDefines

  // ----- client builds -----

  /** `RealmBuildInfo`: a build number and the client version it stands for. */
  datatype BuildInfo = BuildInfo(build: nat, major: nat, minor: nat, bugfix: nat, hotfix: char)

  /**
   * `ExpectedRealmdClientBuilds`: the first entry is the low bound of an
   * always-accepted range, the rest are exact builds up to a terminator
   * whose build is 0.
   */
  const EXPECTED_BUILDS: seq<BuildInfo> := [BuildInfo(1499, 0, 1, 0, ' '), BuildInfo(0, 0, 0, 0, ' ')]

  /** A build table as `FindBuildInfo` expects it: non-empty and ending in the terminator. */
  predicate Terminated(table: seq<BuildInfo>) {
    |table| > 0 && table[|table| - 1].build == 0
  }

  /** The exact-match scan from entry `i`, stopping at the first entry whose build is 0. */
  function FindExact(table: seq<BuildInfo>, i: nat, build: nat): (r: Option<BuildInfo>)
    requires Terminated(table) && i < |table|
    ensures r.Some? ==> r.value.build == build && build != 0 && r.value in table[i..]
    ensures r.None? ==> forall k :: i <= k < |table| && table[k].build == build ==>
      exists z :: i <= z <= k && table[z].build == 0
    decreases |table| - i
  {
    if table[i].build == 0 then None
    else if build == table[i].build then Some(table[i])
    else
      var r := FindExact(table, i + 1, build);
      assert r.Some? ==> r.value in table[i..] by {
        if r.Some? {
          assert table[i + 1..] == table[i..][1..];
        }
      }
      r
  }

  /**
   * `FindBuildInfo` over a table: a build at or above the first entry's
   * gets the first entry; any other build gets the first entry with
   * exactly that build that comes before the terminator, if there is one.
   */
  function FindIn(table: seq<BuildInfo>, build: nat): (r: Option<BuildInfo>)
    requires Terminated(table)
    ensures build >= table[0].build ==> r == Some(table[0])
    ensures build < table[0].build && r.Some? ==> r.value.build == build && r.value in table
  {
    if build >= table[0].build then Some(table[0])
    else if |table| == 1 then None
    else FindExact(table, 1, build)
  }

  /** `FindBuildInfo` on the shipped table; the build arrives as a `uint16`. */
  function FindBuildInfo(build: Half): (r: Option<BuildInfo>)
  {
    FindIn(EXPECTED_BUILDS, build)
  }

  /**
   * With the shipped table only builds from 1499 on are known, and all of
   * them map to the 1499 entry (version 0.1.0); no smaller build is found.
   */
  lemma FindBuildInfoShipped(build: Half)
    ensures FindBuildInfo(build).Some? <==> build >= 1499
    ensures build >= 1499 ==> FindBuildInfo(build) == Some(BuildInfo(1499, 0, 1, 0, ' '))
  {
    if build < 1499 {
      assert EXPECTED_BUILDS[1].build == 0;
    }
  }

  // ----- realm flags -----

  const REALM_FLAG_OFFLINE: Byte := 0x02
  const REALM_FLAG_SPECIFYBUILD: Byte := 0x04
  const REALM_FLAG_NEW_PLAYERS: Byte := 0x20
  const REALM_FLAG_RECOMMENDED: Byte := 0x40

  /** The flags a realm may carry. */
  const REALM_FLAGS_ALLOWED: bv8 := 0x02 | 0x04 | 0x20 | 0x40

  function And(a: Byte, b: bv8): Byte {
    ((a as bv8) & b) as Byte
  }

  /** Whether `flags` has the bit(s) of `mask`. */
  predicate HasRealmFlag(flags: Byte, mask: Byte) {
    And(flags, mask as bv8) != 0
  }

  /**
   * The flag check of `UpdateRealms`: a stored value with any bit outside
   * the allowed four is reduced to its allowed bits; otherwise it is kept.
   */
  function MaskRealmFlags(flags: Byte): (r: Byte)
  {
    if And(flags, !REALM_FLAGS_ALLOWED) != 0 then And(flags, REALM_FLAGS_ALLOWED) else flags
  }

  /**
   * Masking always yields exactly the allowed bits of the stored value: it
   * drops every other bit, keeps allowed ones, and a second pass changes
   * nothing.
   */
  lemma MaskRealmFlagsExact(flags: Byte)
    ensures MaskRealmFlags(flags) == And(flags, REALM_FLAGS_ALLOWED)
    ensures And(MaskRealmFlags(flags), !REALM_FLAGS_ALLOWED) == 0
    ensures MaskRealmFlags(MaskRealmFlags(flags)) == MaskRealmFlags(flags)
  {
    var f := flags as bv8;
    assert f & !REALM_FLAGS_ALLOWED == 0 ==> f & REALM_FLAGS_ALLOWED == f;
  }

  // ----- reading numbers -----

  /**
   * `atol`: leading whitespace, an optional sign, then as many decimal
   * digits as follow; no digits read as 0.
   */
  function Atol(s: string): (r: int)
  {
    var t := TrimLeft(s);
    if t != [] && t[0] == '-' then 0 - DigitsValue(LeadingDigits(t[1..]))
    else if t != [] && t[0] == '+' then DigitsValue(LeadingDigits(t[1..]))
    else DigitsValue(LeadingDigits(t))
  }

  /** `atol` reads back any number the server writes. */
  lemma AtolDecimal(n: nat)
    ensures Atol(ToDecimal(n)) == n
  {
    var d := ToDecimal(n);
    assert TrimLeft(d) == d by {
      assert IsDigit(d[0]);
      TrimLeftIsSuffix(d);
    }
    AllDigitsLead(d);
    DecimalValue(n);
  }

  // ----- a realm's builds -----

  /** `RealmBuilds`, a `std::set<uint32>`: strictly ascending. */
  predicate AscendingBuilds(s: seq<Word>) {
    forall i, j :: 0 <= i < j < |s| ==> s[i] < s[j]
  }

  /** `insert` into the set: the builds plus `x`, still ascending. */
  function InsertBuild(s: seq<Word>, x: Word): (r: seq<Word>)
    requires AscendingBuilds(s)
    ensures AscendingBuilds(r)
    ensures forall y :: y in r <==> y in s || y == x
  {
    if s == [] then [x]
    else if x == s[0] then s
    else if x < s[0] then [x] + s
    else
      var rest := InsertBuild(s[1..], x);
      assert forall k :: 0 <= k < |rest| ==> rest[k] in s[1..] || rest[k] == x;
      [s[0]] + rest
  }

  /** The builds with every token of a space-separated list added, each read by `atol` into a `uint32`. */
  function InsertBuilds(s: seq<Word>, tokens: seq<string>): (r: seq<Word>)
    requires AscendingBuilds(s)
    ensures AscendingBuilds(r)
    decreases |tokens|
  {
    if tokens == [] then s else InsertBuilds(InsertBuild(s, Wrap(Atol(tokens[0]))), tokens[1..])
  }

  /** The builds a list of tokens names. */
  function TokenBuilds(tokens: seq<string>): set<Word> {
    set k | 0 <= k < |tokens| :: Wrap(Atol(tokens[k]))
  }

  /** Adding builds keeps every build there was, adds every token's, and nothing else. */
  lemma {:induction false} InsertBuildsContents(s: seq<Word>, tokens: seq<string>)
    requires AscendingBuilds(s)
    ensures forall y :: y in InsertBuilds(s, tokens) <==> y in s || y in TokenBuilds(tokens)
    decreases |tokens|
  {
    if tokens != [] {
      var s1 := InsertBuild(s, Wrap(Atol(tokens[0])));
      InsertBuildsContents(s1, tokens[1..]);
      assert TokenBuilds(tokens) == {Wrap(Atol(tokens[0]))} + TokenBuilds(tokens[1..]) by {
        forall y | y in TokenBuilds(tokens) ensures y in {Wrap(Atol(tokens[0]))} + TokenBuilds(tokens[1..]) {
          var k :| 0 <= k < |tokens| && y == Wrap(Atol(tokens[k]));
          if k > 0 {
            assert tokens[1..][k - 1] == tokens[k];
          }
        }
        forall y | y in TokenBuilds(tokens[1..]) ensures y in TokenBuilds(tokens) {
          var k :| 0 <= k < |tokens[1..]| && y == Wrap(Atol(tokens[1..][k]));
          assert tokens[k + 1] == tokens[1..][k];
        }
      }
    }
  }

  /**
   * The build a realm shows by default: its least build (the set's first)
   * cut to a `uint16`, or 0 when it has none.
   */
  function FirstBuild(builds: seq<Word>): (r: Half)
    requires AscendingBuilds(builds)
    ensures builds != [] ==> r == builds[0] % 0x1_0000 && forall y :: y in builds ==> builds[0] <= y
  {
    if builds == [] then 0 else builds[0] % 0x1_0000
  }

  /** The version info for a realm's first build: the table's entry when it names that very build. */
  function FirstBuildInfo(first: Half): (r: BuildInfo)
    ensures r.build == first
  {
    var found := FindBuildInfo(first);
    if first != 0 && found.Some? && found.value.build == first then found.value
    else BuildInfo(first, 0, 0, 0, ' ')
  }

  // ----- realms -----

  /** `Realm`, less its population level (a float) and its character count (filled per request). */
  datatype Realm = Realm(id: Word, icon: Byte, flags: Byte, timezone: Byte, allowedSecurity: nat,
                         builds: seq<Word>, buildInfo: BuildInfo, address: string)

  /** The record `m_realms[name]` creates for a new name. */
  const FRESH_REALM := Realm(0, 0, 0, 0, SEC_PLAYER, [], BuildInfo(0, 0, 0, 0, ' '), [])

  /** One entry of the realm map. */
  datatype Named = Named(name: string, realm: Realm)

  /** `RealmMap`, a `std::map` by name: strictly ascending names. */
  predicate NamesAscending(m: seq<Named>) {
    forall i, j :: 0 <= i < j < |m| ==> NameLess(m[i].name, m[j].name)
  }

  /** Every realm's builds are a proper set, ascending. */
  predicate BuildSets(m: seq<Named>) {
    forall i :: 0 <= i < |m| ==> AscendingBuilds(m[i].realm.builds)
  }

  predicate Ordered(m: seq<Named>) {
    NamesAscending(m) && BuildSets(m)
  }

  function Names(m: seq<Named>): set<string> {
    set i | 0 <= i < |m| :: m[i].name
  }

  /** The realm stored under `name`, if any. */
  function Find(m: seq<Named>, name: string): (r: Option<Realm>)
    ensures r.Some? ==> Named(name, r.value) in m
  {
    if m == [] then None
    else if m[0].name == name then Some(m[0].realm)
    else Find(m[1..], name)
  }

  lemma NamesCons(e: Named, m: seq<Named>)
    ensures Names([e] + m) == {e.name} + Names(m)
  {
    var c := [e] + m;
    assert c[0].name == e.name;
    forall n | n in Names(c) ensures n in {e.name} + Names(m) {
      var i :| 0 <= i < |c| && c[i].name == n;
      if i > 0 {
        assert m[i - 1].name == n;
      }
    }
    forall n | n in Names(m) ensures n in Names(c) {
      var i :| 0 <= i < |m| && m[i].name == n;
      assert c[i + 1].name == n;
    }
  }

  /** A name is found exactly when it is one of the map's names. */
  lemma {:induction false} FindNames(m: seq<Named>, name: string)
    ensures Find(m, name).Some? <==> name in Names(m)
    decreases |m|
  {
    if m != [] {
      FindNames(m[1..], name);
      NamesCons(m[0], m[1..]);
      assert [m[0]] + m[1..] == m;
    }
  }

  /** In an ordered map the first name comes before all others, and the rest is ordered. */
  lemma OrderedTail(m: seq<Named>)
    requires Ordered(m) && m != []
    ensures Ordered(m[1..])
    ensures forall j :: 0 < j < |m| ==> NameLess(m[0].name, m[j].name)
  {
  }

  /** In an ordered map the realm found under entry `i`'s name is entry `i`'s. */
  lemma {:induction false} FindEntry(m: seq<Named>, i: nat)
    requires NamesAscending(m) && i < |m|
    ensures Find(m, m[i].name) == Some(m[i].realm)
    decreases i
  {
    if i > 0 {
      NameLessIrreflexive(m[0].name);
      assert NameLess(m[0].name, m[i].name);
      assert NamesAscending(m[1..]);
      FindEntry(m[1..], i - 1);
    }
  }

  /** `m_realms[name] = realm`: the map with `name` bound to `realm`, in its place by name. */
  function Put(m: seq<Named>, name: string, realm: Realm): (r: seq<Named>)
    decreases |m|
  {
    if m == [] then [Named(name, realm)]
    else if m[0].name == name then [Named(name, realm)] + m[1..]
    else if NameLess(name, m[0].name) then [Named(name, realm)] + m
    else [m[0]] + Put(m[1..], name, realm)
  }

  /** Storing under a name adds that name to the map's names and no other. */
  lemma {:induction false} PutNames(m: seq<Named>, name: string, realm: Realm)
    ensures Names(Put(m, name, realm)) == Names(m) + {name}
    decreases |m|
  {
    if m != [] {
      NamesCons(m[0], m[1..]);
      assert [m[0]] + m[1..] == m;
      assert Names(m) == {m[0].name} + Names(m[1..]);
      if m[0].name == name {
        NamesCons(Named(name, realm), m[1..]);
        assert Put(m, name, realm) == [Named(name, realm)] + m[1..];
      } else if NameLess(name, m[0].name) {
        NamesCons(Named(name, realm), m);
        assert Put(m, name, realm) == [Named(name, realm)] + m;
      } else {
        PutNames(m[1..], name, realm);
        NamesCons(m[0], Put(m[1..], name, realm));
        assert Put(m, name, realm) == [m[0]] + Put(m[1..], name, realm);
      }
    } else {
      assert Put(m, name, realm)[0].name == name;
    }
  }

  /** Storing under a name keeps the map ordered. */
  lemma {:induction false} PutOrdered(m: seq<Named>, name: string, realm: Realm)
    requires Ordered(m) && AscendingBuilds(realm.builds)
    ensures Ordered(Put(m, name, realm))
    decreases |m|
  {
    if m != [] {
      OrderedTail(m);
      var r := Put(m, name, realm);
      if m[0].name == name {
        assert forall j :: 0 < j < |r| ==> r[j] == m[j];
      } else if NameLess(name, m[0].name) {
        forall j | 1 < j < |r| ensures NameLess(name, r[j].name) {
          NameLessTransitive(name, m[0].name, m[j - 1].name);
        }
        assert forall j :: 0 < j < |r| ==> r[j] == m[j - 1];
      } else {
        NameLessTotal(name, m[0].name);
        var tail := m[1..];
        PutOrdered(tail, name, realm);
        PutNames(tail, name, realm);
        var rest := Put(tail, name, realm);
        assert r == [m[0]] + rest;
        forall j | 0 < j < |r| ensures NameLess(m[0].name, r[j].name) {
          var n := r[j].name;
          assert rest[j - 1].name == n;
          assert n in Names(tail) + {name};
          if n != name {
            var i :| 0 <= i < |tail| && tail[i].name == n;
            assert m[i + 1].name == n;
          }
        }
      }
    }
  }

  /** Storing under a name binds that name to the realm and leaves every other name's realm as it was. */
  lemma {:induction false} PutFind(m: seq<Named>, name: string, realm: Realm)
    ensures Find(Put(m, name, realm), name) == Some(realm)
    ensures forall n :: n != name ==> Find(Put(m, name, realm), n) == Find(m, n)
    decreases |m|
  {
    if m != [] && m[0].name != name && !NameLess(name, m[0].name) {
      PutFind(m[1..], name, realm);
    }
  }

  /** The three facts about `Put` together. */
  lemma PutKeeps(m: seq<Named>, name: string, realm: Realm)
    requires Ordered(m) && AscendingBuilds(realm.builds)
    ensures Ordered(Put(m, name, realm))
    ensures Names(Put(m, name, realm)) == Names(m) + {name}
    ensures Find(Put(m, name, realm), name) == Some(realm)
    ensures forall n :: n != name ==> Find(Put(m, name, realm), n) == Find(m, n)
  {
    PutOrdered(m, name, realm);
    PutNames(m, name, realm);
    PutFind(m, name, realm);
  }

  /**
   * `UpdateRealm`: creates the realm under its name or updates the one
   * there, adding the listed builds to those it already had, deriving the
   * version info from the least build, and appending ":port" to the
   * address.
   */
  function UpdateRealm(m: seq<Named>, id: Word, name: string, address: string, port: Word,
                       icon: Byte, flags: Byte, timezone: Byte, security: nat, buildList: string): (r: seq<Named>)
    requires Ordered(m)
  {
    var found := Find(m, name);
    var prior := if found.Some? then found.value else FRESH_REALM;
    assert AscendingBuilds(prior.builds);
    var builds := InsertBuilds(prior.builds, Split(buildList, ' '));
    Put(m, name, Realm(id, icon, flags, timezone, security, builds,
                       FirstBuildInfo(FirstBuild(builds)), address + ":" + ToDecimal(port)))
  }

  /**
   * What `UpdateRealm` promises: the realm under `name` carries the new
   * values, keeps every build it had and gains every listed one and no
   * other, shows the version of its least build, and answers at
   * "address:port"; every other realm is untouched.
   */
  lemma UpdateRealmSets(m: seq<Named>, id: Word, name: string, address: string, port: Word,
                        icon: Byte, flags: Byte, timezone: Byte, security: nat, buildList: string)
    requires Ordered(m)
    ensures var r := UpdateRealm(m, id, name, address, port, icon, flags, timezone, security, buildList);
      Ordered(r) && Names(r) == Names(m) + {name} && Find(r, name).Some?
      && var realm := Find(r, name).value;
      var listed := Split(buildList, ' ');
      realm.id == id && realm.icon == icon && realm.flags == flags && realm.timezone == timezone
      && realm.allowedSecurity == security
      && (forall y :: y in realm.builds <==>
            (Find(m, name).Some? && y in Find(m, name).value.builds)
            || exists k :: 0 <= k < |listed| && y == Wrap(Atol(listed[k])))
      && realm.buildInfo.build == FirstBuild(realm.builds)
      && (realm.buildInfo.major, realm.buildInfo.minor, realm.buildInfo.bugfix) ==
           (if FirstBuild(realm.builds) == 1499 then (0, 1, 0) else (0, 0, 0))
      && |realm.address| > |address| && realm.address[..|address| + 1] == address + ":"
      && ParseDecimal(realm.address[|address| + 1..]) == Some(port as nat)
      && forall other :: other != name ==> Find(r, other) == Find(m, other)
  {
    var found := Find(m, name);
    var prior := if found.Some? then found.value else FRESH_REALM;
    if found.Some? {
      var i :| 0 <= i < |m| && m[i] == Named(name, found.value);
    }
    var listed := Split(buildList, ' ');
    var builds := InsertBuilds(prior.builds, listed);
    InsertBuildsContents(prior.builds, listed);
    var realm := Realm(id, icon, flags, timezone, security, builds,
                       FirstBuildInfo(FirstBuild(builds)), address + ":" + ToDecimal(port));
    PutKeeps(m, name, realm);
    FindBuildInfoShipped(FirstBuild(builds));
    assert realm.address[|address| + 1..] == ToDecimal(port);
    DecimalRoundTrip(port);
  }

  /** A `realmlist` row, as `UpdateRealms` reads it. */
  datatype RealmRow = RealmRow(id: Word, name: string, address: string, port: Word, icon: Byte,
                               flags: Byte, timezone: Byte, allowedSecurity: Byte, builds: string)

  /** One row applied: its flags masked and its security clamped, then stored. */
  function UpdateRow(m: seq<Named>, row: RealmRow): (r: seq<Named>)
    requires Ordered(m)
    ensures Ordered(r)
  {
    UpdateRealmSets(m, row.id, row.name, row.address, row.port, row.icon,
                    MaskRealmFlags(row.flags), row.timezone, CapSecurity(row.allowedSecurity), row.builds);
    UpdateRealm(m, row.id, row.name, row.address, row.port, row.icon,
                MaskRealmFlags(row.flags), row.timezone, CapSecurity(row.allowedSecurity), row.builds)
  }

  /** `UpdateRealms`: the rows applied in order. */
  function UpdateRealms(m: seq<Named>, rows: seq<RealmRow>): (r: seq<Named>)
    requires Ordered(m)
    ensures Ordered(r)
    decreases |rows|
  {
    if rows == [] then m else UpdateRealms(UpdateRow(m, rows[0]), rows[1..])
  }

  /** A realm carries only allowed flags and a security level no higher than administrator. */
  predicate SaneRealm(realm: Realm) {
    And(realm.flags, !REALM_FLAGS_ALLOWED) == 0 && realm.allowedSecurity <= SEC_ADMINISTRATOR
  }

  predicate Sane(m: seq<Named>) {
    forall e :: e in m ==> SaneRealm(e.realm)
  }

  /** Every entry after storing is the new one or an old one. */
  lemma {:induction false} PutEntries(m: seq<Named>, name: string, realm: Realm)
    ensures forall e :: e in Put(m, name, realm) ==> e == Named(name, realm) || e in m
    decreases |m|
  {
    if m != [] && m[0].name != name && !NameLess(name, m[0].name) {
      PutEntries(m[1..], name, realm);
    }
  }

  /** A row keeps the map sane and adds its name. */
  lemma UpdateRowSane(m: seq<Named>, row: RealmRow)
    requires Ordered(m) && Sane(m)
    ensures Sane(UpdateRow(m, row)) && Names(UpdateRow(m, row)) == Names(m) + {row.name}
  {
    MaskRealmFlagsExact(row.flags);
    var found := Find(m, row.name);
    var prior := if found.Some? then found.value else FRESH_REALM;
    var builds := InsertBuilds(prior.builds, Split(row.builds, ' '));
    var realm := Realm(row.id, row.icon, MaskRealmFlags(row.flags), row.timezone, CapSecurity(row.allowedSecurity), builds,
                       FirstBuildInfo(FirstBuild(builds)), row.address + ":" + ToDecimal(row.port));
    assert UpdateRow(m, row) == Put(m, row.name, realm);
    assert SaneRealm(realm);
    PutEntries(m, row.name, realm);
    PutNames(m, row.name, realm);
  }

  /** The names a run of rows carries. */
  function RowNames(rows: seq<RealmRow>): set<string> {
    set k | 0 <= k < |rows| :: rows[k].name
  }

  lemma RowNamesCons(rows: seq<RealmRow>)
    requires rows != []
    ensures RowNames(rows) == {rows[0].name} + RowNames(rows[1..])
  {
    forall n | n in RowNames(rows) ensures n in {rows[0].name} + RowNames(rows[1..]) {
      var k :| 0 <= k < |rows| && rows[k].name == n;
      if k > 0 {
        assert rows[1..][k - 1].name == n;
      }
    }
    forall n | n in RowNames(rows[1..]) ensures n in RowNames(rows) {
      var k :| 0 <= k < |rows[1..]| && rows[1..][k].name == n;
      assert rows[k + 1].name == n;
    }
  }

  /**
   * Loading rows keeps the list sane whatever the database holds, and the
   * list ends up with the old names plus exactly the names of the rows.
   */
  lemma {:induction false} UpdateRealmsSane(m: seq<Named>, rows: seq<RealmRow>)
    requires Ordered(m) && Sane(m)
    ensures Sane(UpdateRealms(m, rows))
    ensures Names(UpdateRealms(m, rows)) == Names(m) + RowNames(rows)
    decreases |rows|
  {
    if rows != [] {
      UpdateRowSane(m, rows[0]);
      UpdateRealmsSane(UpdateRow(m, rows[0]), rows[1..]);
      RowNamesCons(rows);
    }
  }

  // ----- the list and its reload -----

  /** `RealmList`: the realms by name, the reload interval in seconds, and the next reload time. */
  datatype RealmListState = RealmListState(realms: seq<Named>, updateInterval: Word, nextUpdate: int)

  predicate Valid(list: RealmListState) {
    Ordered(list.realms) && Sane(list.realms)
  }

  /** The constructor: no realms, no interval, next reload due now. */
  function NewRealmList(now: int): (r: RealmListState)
    ensures Valid(r) && r.realms == [] && r.updateInterval == 0 && r.nextUpdate == now
  {
    RealmListState([], 0, now)
  }

  /** `Initialize`: store the interval and load the rows on top of the current realms. */
  function Initialize(list: RealmListState, interval: Word, rows: seq<RealmRow>): (r: RealmListState)
    requires Valid(list)
    ensures Valid(r) && r.updateInterval == interval && r.nextUpdate == list.nextUpdate
    ensures Names(r.realms) == Names(list.realms) + RowNames(rows)
  {
    UpdateRealmsSane(list.realms, rows);
    list.(realms := UpdateRealms(list.realms, rows), updateInterval := interval)
  }

  /**
   * `UpdateIfNeed`: with reloading enabled and the next reload due, the
   * list is cleared and reloaded from the rows and the next reload is set
   * one interval from now; otherwise nothing changes.
   */
  function UpdateIfNeed(list: RealmListState, now: int, rows: seq<RealmRow>): (r: RealmListState)
    requires Valid(list)
    ensures Valid(r)
    ensures list.updateInterval == 0 || list.nextUpdate > now ==> r == list
    ensures list.updateInterval != 0 && list.nextUpdate <= now ==>
      r.nextUpdate == now + list.updateInterval && r.updateInterval == list.updateInterval
      && Names(r.realms) == RowNames(rows)
  {
    if list.updateInterval == 0 || list.nextUpdate > now then list
    else
      UpdateRealmsSane([], rows);
      RealmListState(UpdateRealms([], rows), list.updateInterval, now + list.updateInterval)
  }

  /**
   * Reloads are rate limited: after one happens, asking again before the
   * interval has passed changes nothing.
   */
  lemma UpdateIfNeedSettles(list: RealmListState, now: int, later: int, rows: seq<RealmRow>, rows2: seq<RealmRow>)
    requires Valid(list) && list.nextUpdate <= now <= later < now + list.updateInterval
    ensures var r := UpdateIfNeed(list, now, rows);
      r.realms != list.realms || r.nextUpdate != list.nextUpdate
    ensures var r := UpdateIfNeed(list, now, rows);
      UpdateIfNeed(r, later, rows2) == r
  {
  }

  // ----- names in map order -----

  /** `std::string`'s `<`: character by character, a proper prefix first. */
  predicate NameLess(a: string, b: string) {
    if a == [] then b != []
    else if b == [] then false
    else a[0] < b[0] || (a[0] == b[0] && NameLess(a[1..], b[1..]))
  }

  lemma {:induction false} NameLessIrreflexive(a: string)
    ensures !NameLess(a, a)
  {
    if a != [] {
      NameLessIrreflexive(a[1..]);
    }
  }

  lemma {:induction false} NameLessTotal(a: string, b: string)
    requires a != b
    ensures NameLess(a, b) || NameLess(b, a)
  {
    if a != [] && b != [] && a[0] == b[0] {
      assert a == [a[0]] + a[1..] && b == [b[0]] + b[1..];
      NameLessTotal(a[1..], b[1..]);
    }
  }

  lemma {:induction false} NameLessTransitive(a: string, b: string, c: string)
    requires NameLess(a, b) && NameLess(b, c)
    ensures NameLess(a, c)
  {
    if a != [] && b != [] && c != [] && a[0] == b[0] && b[0] == c[0] {
      NameLessTransitive(a[1..], b[1..], c[1..]);
    }
  }
}

=== FILE: runtime.dfy ===
/**
 * The network listener's choice of worker thread for a new connection:
 * the worker with the fewest sockets, the earliest one on a tie.
 */
module Workers {
  /** The listener's workers, by their current socket counts (`Size()`). */
  type Loads = seq<nat>

  /** The constructor: as many workers as asked for, none holding a socket yet. */
  function NewWorkers(workerThreads: nat): (r: Loads)
    ensures |r| == workerThreads
    ensures forall k :: 0 <= k < |r| ==> r[k] == 0
  {
    seq(workerThreads, _ => 0)
  }

  /** `k` is the worker `SelectWorker` must return: least loaded, and strictly less loaded than every earlier worker. */
  predicate IsChoice(loads: Loads, k: nat) {
    k < |loads|
    && (forall m :: 0 <= m < |loads| ==> loads[k] <= loads[m])
    && (forall m :: 0 <= m < k ==> loads[m] > loads[k])
  }

  /**
   * `SelectWorker`: a scan from the first worker that moves only on a
   * strictly smaller count, so the earliest of the least-loaded workers wins.
   */
  method SelectWorker(loads: Loads) returns (k: nat)
    requires |loads| >= 1
    ensures IsChoice(loads, k)
  {
    k := 0;
    var minSize := loads[0];
    var i := 1;
    while i < |loads|
      invariant 1 <= i <= |loads| && k < i && minSize == loads[k]
      invariant forall m :: 0 <= m < i ==> loads[k] <= loads[m]
      invariant forall m :: 0 <= m < k ==> loads[m] > loads[k]
    {
      if loads[i] < minSize {
        minSize := loads[i];
        k := i;
      }
      i := i + 1;
    }
  }

  /** There is exactly one worker that can be chosen. */
  lemma ChoiceUnique(loads: Loads, a: nat, b: nat)
    requires IsChoice(loads, a) && IsChoice(loads, b)
    ensures a == b
  {
    assert loads[a] == loads[b];
    if a < b {
      assert false;
    } else if b < a {
      assert false;
    }
  }
}

/**
 * The world thread's loop: a counter bumped once per tick, and the sleep
 * that balances each tick plus its sleep towards `WORLD_SLEEP_CONST`
 * milliseconds.  The clock readings are inputs; the sleeps themselves are
 * not modelled.
 */
module WorldLoop {
  import opened Word32

  const WORLD_SLEEP_CONST: nat := 50

  /**
   * The sleep after a tick that took `diff` milliseconds (the previous sleep
   * included): the rest of `WORLD_SLEEP_CONST + prevSleep` when the tick fits
   * in it, otherwise 0.  The sum is `uint32`.
   */
  function NextSleep(diff: Word, prevSleep: Word): (r: Word)
    ensures r <= Wrap(WORLD_SLEEP_CONST + prevSleep)
    ensures diff <= Wrap(WORLD_SLEEP_CONST + prevSleep) ==> r + diff == Wrap(WORLD_SLEEP_CONST + prevSleep)
    ensures diff > Wrap(WORLD_SLEEP_CONST + prevSleep) ==> r == 0
  {
    var budget := Wrap(WORLD_SLEEP_CONST + prevSleep);
    if diff <= budget then budget - diff else 0
  }

  /** Without wrap-around the balance is exact: the new sleep and the tick add up to the constant plus the old sleep. */
  lemma SleepBalances(diff: Word, prevSleep: Word)
    requires prevSleep < TwoTo32 - WORLD_SLEEP_CONST && diff <= WORLD_SLEEP_CONST + prevSleep
    ensures NextSleep(diff, prevSleep) + diff == WORLD_SLEEP_CONST + prevSleep
  {
  }

  datatype LoopState = LoopState(loopCounter: Word, prevSleep: Word)

  /** One pass of the loop body for a tick of `diff` milliseconds. */
  function Tick(s: LoopState, diff: Word): (r: LoopState)
    ensures r.loopCounter == Wrap(s.loopCounter + 1)
    ensures r.prevSleep == NextSleep(diff, s.prevSleep)
  {
    LoopState(Wrap(s.loopCounter + 1), NextSleep(diff, s.prevSleep))
  }

  /** The loop run over a sequence of tick lengths, until the stop request. */
  function RunTicks(s: LoopState, diffs: seq<Word>): (r: LoopState)
    decreases |diffs|
  {
    if diffs == [] then s else RunTicks(Tick(s, diffs[0]), diffs[1..])
  }

  /** The counter counts the ticks, modulo 2^32. */
  lemma {:induction false} RunCountsTicks(s: LoopState, diffs: seq<Word>)
    ensures RunTicks(s, diffs).loopCounter == Wrap(s.loopCounter + |diffs|)
    decreases |diffs|
  {
    if diffs != [] {
      RunCountsTicks(Tick(s, diffs[0]), diffs[1..]);
    }
  }
}

=== FILE: shared_defines.dfy ===
/**
 * The account security levels and the world server's authentication
 * responses.  Both enums live in a header that is not part of this model:
 * the security levels take MaNGOS's usual values (player lowest, console
 * highest), and the response codes are kept symbolic.
 */
module SharedDefines {
  import opened Word32

  /** `AccountTypes`. */
  const SEC_PLAYER: nat := 0
  const SEC_MODERATOR: nat := 1
  const SEC_GAMEMASTER: nat := 2
  const SEC_ADMINISTRATOR: nat := 3
  const SEC_CONSOLE: nat := 4

  /** The two `SMSG_AUTH_RESPONSE` codes the world server sends. */
  datatype ResponseCode = AUTH_OK | AUTH_WAIT_QUEUE

  /** An `SMSG_AUTH_RESPONSE` body: the code byte and the `uint32` values after it. */
  datatype AuthResponse = AuthResponse(code: ResponseCode, words: seq<Word>)

  /** `min(level, SEC_ADMINISTRATOR)`: the clamp the auth server applies to stored levels. */
  function CapSecurity(level: nat): (r: nat)
    ensures r <= SEC_ADMINISTRATOR
    ensures level <= SEC_ADMINISTRATOR ==> r == level
    ensures level > SEC_ADMINISTRATOR ==> r == SEC_ADMINISTRATOR
  {
    if level <= SEC_ADMINISTRATOR then level else SEC_ADMINISTRATOR
  }
}

=== FILE: sparse.dfy ===
/**
 * Sparse slot lists: `(index, value)` entries for a chosen subset of a
 * value array, in ascending index order, and what applying such a list to
 * another array produces.  Update blocks carry slots this way.
 */
module Sparse {
  /** One slot of a sparse list. */
  datatype Entry<T> = Entry(index: nat, value: T)

  /** Entries for the slots below `n` whose `keep` bit is set, in ascending slot order. */
  function Select<T>(values: seq<T>, keep: seq<bool>, n: nat): (r: seq<Entry<T>>)
    requires |keep| == |values| && n <= |values|
    ensures |r| <= n
    ensures forall j :: 0 <= j < |r| ==> r[j].index < n && keep[r[j].index] && r[j].value == values[r[j].index]
  {
    if n == 0 then []
    else
      var prefix := Select(values, keep, n - 1);
      if keep[n - 1] then prefix + [Entry(n - 1, values[n - 1])] else prefix
  }

  /** The selection lists each slot at most once, in ascending order. */
  lemma {:induction false} SelectAscending<T>(values: seq<T>, keep: seq<bool>, n: nat)
    requires |keep| == |values| && n <= |values|
    ensures forall j, k :: 0 <= j < k < |Select(values, keep, n)| ==>
      Select(values, keep, n)[j].index < Select(values, keep, n)[k].index
  {
    if n > 0 {
      SelectAscending(values, keep, n - 1);
      SelectStep(values, keep, n);
    }
  }

  /** Every kept slot below `n` is selected, with its value. */
  lemma {:induction false} SelectComplete<T>(values: seq<T>, keep: seq<bool>, n: nat, i: nat)
    requires |keep| == |values| && i < n <= |values| && keep[i]
    ensures Entry(i, values[i]) in Select(values, keep, n)
  {
    SelectStep(values, keep, n);
    if i < n - 1 {
      SelectComplete(values, keep, n - 1, i);
    }
  }

  predicate IndicesBelow<T>(es: seq<Entry<T>>, n: nat) {
    forall j :: 0 <= j < |es| ==> es[j].index < n
  }

  /** What a holder of `base` has after writing the entries in order. */
  function Apply<T>(base: seq<T>, es: seq<Entry<T>>): (r: seq<T>)
    requires IndicesBelow(es, |base|)
    ensures |r| == |base|
  {
    if es == [] then base
    else
      var last := es[|es| - 1];
      Apply(base, es[..|es| - 1])[last.index := last.value]
  }

  lemma SelectStep<T>(values: seq<T>, keep: seq<bool>, n: nat)
    requires |keep| == |values| && 0 < n <= |values|
    ensures Select(values, keep, n)
      == Select(values, keep, n - 1) + (if keep[n - 1] then [Entry(n - 1, values[n - 1])] else [])
  {
  }

  lemma ApplySnoc<T>(base: seq<T>, es: seq<Entry<T>>, e: Entry<T>)
    requires IndicesBelow(es, |base|) && e.index < |base|
    ensures Apply(base, es + [e]) == Apply(base, es)[e.index := e.value]
  {
    assert (es + [e])[..|es|] == es;
  }

  /** Applying the selected entries overwrites slot `k` exactly when it is selected. */
  lemma {:induction false} ApplySelectAt<T>(base: seq<T>, values: seq<T>, keep: seq<bool>, n: nat, k: nat)
    requires |base| == |values| == |keep| && n <= |values| && k < |base|
    ensures Apply(base, Select(values, keep, n))[k] == (if k < n && keep[k] then values[k] else base[k])
  {
    if n > 0 {
      ApplySelectAt(base, values, keep, n - 1, k);
      SelectStep(values, keep, n);
      if keep[n - 1] {
        ApplySnoc(base, Select(values, keep, n - 1), Entry(n - 1, values[n - 1]));
      }
    }
  }

  /**
   * A holder that agrees with `values` on every slot left out obtains
   * `values` by applying the selection.
   */
  lemma ApplySelectRebuilds<T>(base: seq<T>, values: seq<T>, keep: seq<bool>)
    requires |base| == |values| == |keep|
    requires forall i :: 0 <= i < |values| && !keep[i] ==> base[i] == values[i]
    ensures Apply(base, Select(values, keep, |values|)) == values
  {
    var r := Apply(base, Select(values, keep, |values|));
    forall k | 0 <= k < |base|
      ensures r[k] == values[k]
    {
      ApplySelectAt(base, values, keep, |values|, k);
    }
  }
}

=== FILE: text.dfy ===
/**
 * The small string utilities the server leans on: ASCII case mapping,
 * whitespace trimming, splitting on a separator and decimal numbers.
 * Strings are sequences of characters; no locale or encoding is modelled.
 */
module Text {
  import opened Wrappers

  predicate IsUpper(c: char) { 'A' <= c <= 'Z' }
  predicate IsLower(c: char) { 'a' <= c <= 'z' }
  predicate IsDigit(c: char) { '0' <= c <= '9' }
  predicate IsSpace(c: char) { c == ' ' || c == '\t' || c == '\n' || c == '\r' || c as int == 11 || c as int == 12 }

  /** `tolower` in the "C" locale. */
  function LowerChar(c: char): (r: char)
    ensures !IsUpper(r)
    ensures IsUpper(c) ==> r as int == c as int + 32
    ensures !IsUpper(c) ==> r == c
  {
    if IsUpper(c) then (c as int + 32) as char else c
  }

  /** `toupper` in the "C" locale. */
  function UpperChar(c: char): (r: char)
    ensures !IsLower(r)
    ensures IsLower(c) ==> r as int == c as int - 32
    ensures !IsLower(c) ==> r == c
  {
    if IsLower(c) then (c as int - 32) as char else c
  }

  function ToLower(s: string): (r: string)
    ensures |r| == |s|
    ensures forall i :: 0 <= i < |s| ==> r[i] == LowerChar(s[i])
  {
    if s == [] then [] else [LowerChar(s[0])] + ToLower(s[1..])
  }

  lemma ToLowerIdempotent(s: string)
    ensures ToLower(ToLower(s)) == ToLower(s)
  {
  }

  lemma ToLowerAppend(a: string, b: string)
    ensures ToLower(a + b) == ToLower(a) + ToLower(b)
  {
  }

  /** Drops leading whitespace (`boost::algorithm::trim_left`). */
  function TrimLeft(s: string): (r: string)
    ensures |r| <= |s|
    ensures r == [] || !IsSpace(r[0])
    ensures forall i :: 0 <= i < |s| - |r| ==> IsSpace(s[i])
  {
    if s == [] || !IsSpace(s[0]) then s else TrimLeft(s[1..])
  }

  /** What `TrimLeft` keeps is the input's tail. */
  lemma {:induction false} TrimLeftIsSuffix(s: string)
    ensures TrimLeft(s) == s[|s| - |TrimLeft(s)|..]
  {
    if s != [] && IsSpace(s[0]) {
      TrimLeftIsSuffix(s[1..]);
    }
  }

  /** Text after a left-trimmed part that is not all blank is kept as it is. */
  lemma {:induction false} TrimLeftAppend(k: string, x: string)
    requires TrimLeft(k) != []
    ensures TrimLeft(k + x) == TrimLeft(k) + x
    decreases |k|
  {
    if IsSpace(k[0]) {
      assert (k + x)[1..] == k[1..] + x;
      TrimLeftAppend(k[1..], x);
    }
  }

  /** Lower-casing and left-trimming commute: case mapping neither makes nor removes blanks. */
  lemma {:induction false} TrimLeftLower(s: string)
    ensures TrimLeft(ToLower(s)) == ToLower(TrimLeft(s))
    decreases |s|
  {
    if s != [] {
      assert IsSpace(ToLower(s)[0]) <==> IsSpace(s[0]);
      assert ToLower(s)[1..] == ToLower(s[1..]);
      TrimLeftLower(s[1..]);
    }
  }

  lemma TrimLeftIdempotent(s: string)
    ensures TrimLeft(TrimLeft(s)) == TrimLeft(s)
  {
  }

  /** Drops trailing whitespace. */
  function TrimRight(s: string): (r: string)
    ensures |r| <= |s|
    ensures r == [] || !IsSpace(r[|r| - 1])
    ensures r != [] ==> r[0] == s[0]
    ensures forall i :: |r| <= i < |s| ==> IsSpace(s[i])
  {
    if s == [] || !IsSpace(s[|s| - 1]) then s else TrimRight(s[..|s| - 1])
  }

  /** What `TrimRight` keeps is the input's head. */
  lemma {:induction false} TrimRightIsPrefix(s: string)
    ensures TrimRight(s) == s[..|TrimRight(s)|]
  {
    if s != [] && IsSpace(s[|s| - 1]) {
      TrimRightIsPrefix(s[..|s| - 1]);
    }
  }

  function Trim(s: string): (r: string)
  {
    TrimRight(TrimLeft(s))
  }

  /** What `Trim` keeps neither starts nor ends with whitespace. */
  lemma TrimEnds(s: string)
    ensures Trim(s) == [] || (!IsSpace(Trim(s)[0]) && !IsSpace(Trim(s)[|Trim(s)| - 1]))
  {
  }

  /** Drops every leading and trailing occurrence of `c` (`trim_copy_if` with `is_any_of`). */
  function TrimChar(s: string, c: char): (r: string)
    ensures |r| <= |s|
    ensures r == [] || (r[0] != c && r[|r| - 1] != c)
  {
    DropLastWhileChar(DropWhileChar(s, c), c)
  }

  /** What `TrimChar` keeps is one slice of its input. */
  lemma TrimCharIsSlice(s: string, c: char)
    ensures exists i, j :: 0 <= i <= j <= |s| && TrimChar(s, c) == s[i..j]
  {
    var left := DropWhileChar(s, c);
    var r := DropLastWhileChar(left, c);
    assert r == s[|s| - |left|..][..|r|] == s[|s| - |left|..|s| - |left| + |r|];
  }

  function DropWhileChar(s: string, c: char): (r: string)
    ensures |r| <= |s| && r == s[|s| - |r|..]
    ensures r == [] || r[0] != c
  {
    if s == [] || s[0] != c then s else DropWhileChar(s[1..], c)
  }

  function DropLastWhileChar(s: string, c: char): (r: string)
    ensures |r| <= |s| && r == s[..|r|]
    ensures r == [] || r[|r| - 1] != c
  {
    if s == [] || s[|s| - 1] != c then s else DropLastWhileChar(s[..|s| - 1], c)
  }

  /** Index of the first occurrence of `c`, if any (`std::string::find`). */
  function Find(s: string, c: char): (r: Option<nat>)
    ensures r.None? ==> c !in s
    ensures r.Some? ==> r.value < |s| && s[r.value] == c && c !in s[..r.value]
  {
    if s == [] then None
    else if s[0] == c then Some(0)
    else match Find(s[1..], c)
      case None => None
      case Some(k) =>
        assert s[..k + 1] == [s[0]] + s[1..][..k];
        Some(k + 1)
  }

  /**
   * Splits `s` at every occurrence of `sep` and keeps only the non-empty
   * pieces, the behaviour of the server's `StrSplit` helper.
   */
  function Split(s: string, sep: char): (r: seq<string>)
    ensures forall k :: 0 <= k < |r| ==> r[k] != [] && sep !in r[k]
  {
    SplitFrom(s, sep, [])
  }

  /** Splitting with `cur` as the piece read so far. */
  function SplitFrom(s: string, sep: char, cur: string): (r: seq<string>)
    requires sep !in cur
    ensures forall k :: 0 <= k < |r| ==> r[k] != [] && sep !in r[k]
    decreases |s|
  {
    if s == [] then (if cur == [] then [] else [cur])
    else if s[0] == sep then (if cur == [] then [] else [cur]) + SplitFrom(s[1..], sep, [])
    else SplitFrom(s[1..], sep, cur + [s[0]])
  }

  /** Concatenation of pieces, the partner of `Split`. */
  function Concat(pieces: seq<string>): string
  {
    if pieces == [] then [] else pieces[0] + Concat(pieces[1..])
  }

  /** `s` with every `sep` removed. */
  function Without(s: string, sep: char): (r: string)
    ensures sep !in r
  {
    if s == [] then [] else (if s[0] == sep then [] else [s[0]]) + Without(s[1..], sep)
  }

  lemma {:induction false} ConcatAppend(a: seq<string>, b: seq<string>)
    ensures Concat(a + b) == Concat(a) + Concat(b)
  {
    if a != [] {
      assert (a + b)[1..] == a[1..] + b;
      ConcatAppend(a[1..], b);
      assert Concat(a + b) == a[0] + Concat(a[1..] + b);
    } else {
      assert a + b == b;
    }
  }

  lemma {:induction false} SplitFromKeepsText(s: string, sep: char, cur: string)
    requires sep !in cur
    ensures Concat(SplitFrom(s, sep, cur)) == cur + Without(s, sep)
    decreases |s|
  {
    if s == [] {
    } else if s[0] == sep {
      SplitFromKeepsText(s[1..], sep, []);
      ConcatAppend(if cur == [] then [] else [cur], SplitFrom(s[1..], sep, []));
    } else {
      SplitFromKeepsText(s[1..], sep, cur + [s[0]]);
    }
  }

  /** Splitting loses nothing but the separators. */
  lemma SplitKeepsText(s: string, sep: char)
    ensures Concat(Split(s, sep)) == Without(s, sep)
  {
    SplitFromKeepsText(s, sep, []);
  }

  function DigitChar(d: nat): (r: char)
    requires d < 10
    ensures IsDigit(r)
  {
    ('0' as int + d) as char
  }

  /** Decimal rendering of a natural number (`std::ostream << n`). */
  function ToDecimal(n: nat): (r: string)
    ensures r != []
    ensures forall i :: 0 <= i < |r| ==> IsDigit(r[i])
    decreases n
  {
    if n < 10 then [DigitChar(n)] else ToDecimal(n / 10) + [DigitChar(n % 10)]
  }

  function DigitsValue(s: string): (r: nat)
    requires forall i :: 0 <= i < |s| ==> IsDigit(s[i])
  {
    if s == [] then 0
    else
      assert IsDigit(s[|s| - 1]);
      DigitsValue(s[..|s| - 1]) * 10 + (s[|s| - 1] as int - '0' as int)
  }

  /** Reads a token made only of decimal digits; anything else is refused. */
  function ParseDecimal(s: string): (r: Option<nat>)
    ensures r.Some? <==> s != [] && forall i :: 0 <= i < |s| ==> IsDigit(s[i])
  {
    if s != [] && forall i :: 0 <= i < |s| ==> IsDigit(s[i]) then Some(DigitsValue(s)) else None
  }

  lemma {:induction false} DecimalValue(n: nat)
    ensures DigitsValue(ToDecimal(n)) == n
    decreases n
  {
    if n >= 10 {
      DecimalValue(n / 10);
      var s := ToDecimal(n / 10) + [DigitChar(n % 10)];
      assert s[..|s| - 1] == ToDecimal(n / 10);
    }
  }

  /** Reading back a rendered number gives the number. */
  lemma DecimalRoundTrip(n: nat)
    ensures ParseDecimal(ToDecimal(n)) == Some(n)
  {
    DecimalValue(n);
  }
  /** The longest run of digits `s` starts with. */
  function LeadingDigits(s: string): (r: string)
    ensures |r| <= |s| && r == s[..|r|]
    ensures forall i :: 0 <= i < |r| ==> IsDigit(r[i])
    ensures |r| < |s| ==> !IsDigit(s[|r|])
  {
    if s == [] || !IsDigit(s[0]) then []
    else [s[0]] + LeadingDigits(s[1..])
  }

  lemma {:induction false} AllDigitsLead(s: string)
    requires forall i :: 0 <= i < |s| ==> IsDigit(s[i])
    ensures LeadingDigits(s) == s
  {
    if s != [] {
      AllDigitsLead(s[1..]);
    }
  }

  /** A run of digits followed by anything but a digit: the run is what leads. */
  lemma {:induction false} DigitsThenStop(d: string, rest: string)
    requires forall i :: 0 <= i < |d| ==> IsDigit(d[i])
    requires rest == [] || !IsDigit(rest[0])
    ensures LeadingDigits(d + rest) == d
  {
    if d != [] {
      assert (d + rest)[1..] == d[1..] + rest;
      DigitsThenStop(d[1..], rest);
    }
  }

  /** Blanks in front of a string that does not start with one are all `TrimLeft` drops. */
  lemma {:induction false} TrimLeftBlanks(blank: string, s: string)
    requires forall i :: 0 <= i < |blank| ==> IsSpace(blank[i])
    requires s == [] || !IsSpace(s[0])
    ensures TrimLeft(blank + s) == s
  {
    if blank != [] {
      assert (blank + s)[1..] == blank[1..] + s;
      TrimLeftBlanks(blank[1..], s);
    }
  }

  // ----- std::stoul -----

  /** One past the largest `unsigned long` (64 bits). */
  const ULONG_LIMIT: nat := 0x1_0000_0000_0000_0000

  /** After the blanks: whether a minus sign was read, and the digits after an optional sign. */
  function SignAndDigits(t: string): (r: (bool, string))
    ensures forall i :: 0 <= i < |r.1| ==> IsDigit(r.1[i])
  {
    if t != [] && (t[0] == '-' || t[0] == '+') then (t[0] == '-', LeadingDigits(t[1..]))
    else (false, LeadingDigits(t))
  }

  /**
   * `std::stoul` in base 10 with a 64-bit `unsigned long`: leading blanks
   * are skipped, one sign is allowed, and the longest run of digits after
   * it is read; whatever follows is ignored.  No digit at all, or a value
   * past the `unsigned long` range, throws (`None`).  A minus sign negates
   * the value modulo 2^64, as `strtoul` does.
   */
  function Stoul(s: string): (r: Option<nat>)
    ensures r.Some? ==> r.value < ULONG_LIMIT
  {
    var sd := SignAndDigits(TrimLeft(s));
    StoulValue(sd.0, sd.1)
  }

  /** The value `strtoul` gives for a sign and a run of digits, or `None` when `stoul` throws. */
  function StoulValue(neg: bool, d: string): (r: Option<nat>)
    requires forall i :: 0 <= i < |d| ==> IsDigit(d[i])
    ensures r.Some? ==> r.value < ULONG_LIMIT
  {
    if d == [] then None
    else
      var m := DigitsValue(d);
      if m >= ULONG_LIMIT then None
      else if neg then Some((ULONG_LIMIT - m) % ULONG_LIMIT)
      else Some(m)
  }

  /**
   * What `stoul` makes of blanks, an optional sign, a number in decimal and
   * a tail that does not start with a digit: the number, negated modulo
   * 2^64 after a minus sign, and a throw when the number is out of range.
   */
  lemma StoulReads(blank: string, sign: string, n: nat, rest: string)
    requires forall i :: 0 <= i < |blank| ==> IsSpace(blank[i])
    requires sign == "" || sign == "+" || sign == "-"
    requires rest == [] || !IsDigit(rest[0])
    ensures Stoul(blank + sign + ToDecimal(n) + rest) ==
      if n >= ULONG_LIMIT then None
      else if sign == "-" then Some((ULONG_LIMIT - n) % ULONG_LIMIT)
      else Some(n)
  {
    var d := ToDecimal(n);
    var s := blank + sign + d + rest;
    StoulScan(blank, sign, d, rest);
    assert Stoul(s) == StoulValue(sign == "-", d);
    StoulValueDecimal(sign == "-", n);
  }

  /** Blanks, a sign and a run of digits ending the number: those digits, with that sign, are read. */
  lemma StoulScan(blank: string, sign: string, d: string, rest: string)
    requires forall i :: 0 <= i < |blank| ==> IsSpace(blank[i])
    requires sign == "" || sign == "+" || sign == "-"
    requires d != [] && forall i :: 0 <= i < |d| ==> IsDigit(d[i])
    requires rest == [] || !IsDigit(rest[0])
    ensures SignAndDigits(TrimLeft(blank + sign + d + rest)) == (sign == "-", d)
  {
    var t := sign + d + rest;
    assert blank + sign + d + rest == blank + t;
    assert IsDigit(d[0]);
    TrimLeftBlanks(blank, t);
    SignThenDigits(sign, d, rest);
  }

  lemma StoulValueDecimal(neg: bool, n: nat)
    ensures StoulValue(neg, ToDecimal(n)) ==
      if n >= ULONG_LIMIT then None
      else if neg then Some((ULONG_LIMIT - n) % ULONG_LIMIT)
      else Some(n)
  {
    DecimalValue(n);
  }

  /** `stoul` reads back the decimal text of any number in the `unsigned long` range, and throws past it. */
  lemma StoulDecimal(n: nat)
    ensures Stoul(ToDecimal(n)) == if n >= ULONG_LIMIT then None else Some(n)
  {
    var d := ToDecimal(n);
    assert "" + "" + d + "" == d;
    StoulReads("", "", n, "");
  }

  /** The sign and digits read from a sign, a run of digits and a tail that is no digit. */
  lemma SignThenDigits(sign: string, d: string, rest: string)
    requires sign == "" || sign == "+" || sign == "-"
    requires d != [] && forall i :: 0 <= i < |d| ==> IsDigit(d[i])
    requires rest == [] || !IsDigit(rest[0])
    ensures SignAndDigits(sign + d + rest) == (sign == "-", d)
  {
    var t := sign + d + rest;
    DigitsThenStop(d, rest);
    if sign == "" {
      assert t == d + rest;
      assert IsDigit(t[0]);
    } else {
      assert t[0] == sign[0];
      assert t[1..] == d + rest;
    }
  }

  /** A token without a single digit makes `stoul` throw. */
  lemma StoulNoDigits(s: string)
    requires forall i :: 0 <= i < |s| ==> !IsDigit(s[i])
    ensures Stoul(s) == None
  {
    var t := TrimLeft(s);
    TrimLeftIsSuffix(s);
    assert forall i :: 0 <= i < |t| ==> t[i] == s[|s| - |t| + i];
  }

  // ----- joining -----

  /** The pieces with `sep` between neighbours (the inverse of `Split` on clean pieces). */
  function Join(pieces: seq<string>, sep: char): (r: string)
  {
    if pieces == [] then []
    else if |pieces| == 1 then pieces[0]
    else pieces[0] + [sep] + Join(pieces[1..], sep)
  }

  lemma {:induction false} SplitFromPiece(p: string, s: string, sep: char, cur: string)
    requires sep !in cur && sep !in p
    ensures SplitFrom(p + s, sep, cur) == SplitFrom(s, sep, cur + p)
    decreases |p|
  {
    if p != [] {
      assert (p + s)[0] == p[0] && (p + s)[1..] == p[1..] + s;
      assert cur + p == (cur + [p[0]]) + p[1..];
      SplitFromPiece(p[1..], s, sep, cur + [p[0]]);
    } else {
      assert p + s == s && cur + p == cur;
    }
  }

  lemma {:induction false} SplitJoinFrom(pieces: seq<string>, sep: char)
    requires forall k :: 0 <= k < |pieces| ==> pieces[k] != [] && sep !in pieces[k]
    ensures SplitFrom(Join(pieces, sep), sep, []) == pieces
    decreases |pieces|
  {
    if |pieces| == 1 {
      assert pieces[0] + [] == pieces[0] && [] + pieces[0] == pieces[0];
      SplitFromPiece(pieces[0], [], sep, []);
      assert SplitFrom([], sep, pieces[0]) == [pieces[0]];
    } else if |pieces| > 1 {
      var p := pieces[0];
      var tail := Join(pieces[1..], sep);
      assert Join(pieces, sep) == p + ([sep] + tail);
      SplitFromPiece(p, [sep] + tail, sep, []);
      assert ([] + p) == p;
      assert ([sep] + tail)[1..] == tail;
      SplitJoinFrom(pieces[1..], sep);
      assert pieces == [p] + pieces[1..];
    }
  }

  /** Splitting the joined pieces gives them back, when none is empty or holds the separator. */
  lemma SplitJoin(pieces: seq<string>, sep: char)
    requires forall k :: 0 <= k < |pieces| ==> pieces[k] != [] && sep !in pieces[k]
    ensures Split(Join(pieces, sep), sep) == pieces
  {
    SplitJoinFrom(pieces, sep);
  }
}

=== FILE: unit.dfy ===
/**
 * Units (creatures and players): the level, class, gender, health and power
 * pools kept in update fields, the four base stats kept beside them, the
 * regeneration timer and the death state.  Health and the powers are
 * clamped pools: setters never store more than the current maximum.
 */
module UnitModel {
  import opened Word32
  import opened FieldStore
  import opened UnitFields

  /** The regeneration period, in milliseconds. */
  const REGEN_TIME_FULL: Word := 2000

  datatype DeathState = Alive | JustDied | Corpse | Dead | JustAlived

  predicate IsAlive(s: DeathState) { s == Alive }

  predicate IsDead(s: DeathState) { s == Dead || s == Corpse }

  /** No state is both alive and dead; the two transient states are neither. */
  lemma DeathStateClassification(s: DeathState)
    ensures !(IsAlive(s) && IsDead(s))
    ensures !IsAlive(s) && !IsDead(s) <==> s == JustDied || s == JustAlived
  {
  }

  datatype Stat = StatStr | StatSta | StatInt | StatHea

  function StatIndex(s: Stat): (r: nat)
    ensures r < 4
  {
    match s
    case StatStr => 0
    case StatSta => 1
    case StatInt => 2
    case StatHea => 3
  }

  /**
   * A unit: its update fields (threaded with the map's update list), its four
   * base stats (unsigned 32-bit, as declared), its regeneration timer and its
   * death state.
   */
  datatype Unit = Unit(host: Host, stats: seq<Word>, regenTimer: Word, deathState: DeathState)

  /**
   * The constructor: alive, with the regeneration timer at 0.  It does not
   * initialise the stats, so whatever they held is a parameter.
   */
  function NewUnit(h: Host, stats: seq<Word>): (u: Unit)
    requires |stats| == 4
    ensures IsAlive(u.deathState) && !IsDead(u.deathState) && u.regenTimer == 0
    ensures u.host == h && u.stats == stats
  {
    Unit(h, stats, 0, Alive)
  }

  /** `SetStat`: the signed value is stored in an unsigned slot. */
  function SetStat(u: Unit, s: Stat, value: int): (r: Unit)
    requires |u.stats| == 4 && -TwoTo31 <= value < TwoTo31
    ensures |r.stats| == 4 && r.host == u.host && r.regenTimer == u.regenTimer && r.deathState == u.deathState
    ensures ToInt32(r.stats[StatIndex(s)]) == value
    ensures forall t :: t != s ==> r.stats[StatIndex(t)] == u.stats[StatIndex(t)]
  {
    u.(stats := u.stats[StatIndex(s) := FromInt32(value)])
  }

  /** `GetStat`: the stored unsigned value (the conversion to float is not modelled). */
  function GetStat(u: Unit, s: Stat): Word
    requires |u.stats| == 4
  {
    u.stats[StatIndex(s)]
  }

  /** A stat reads back what was set: the value itself when it is not negative. */
  lemma StatRoundTrip(u: Unit, s: Stat, t: Stat, value: int)
    requires |u.stats| == 4 && -TwoTo31 <= value < TwoTo31
    ensures GetStat(SetStat(u, s, value), s) == Wrap(value)
    ensures 0 <= value ==> GetStat(SetStat(u, s, value), s) == value
    ensures t != s ==> GetStat(SetStat(u, s, value), t) == GetStat(u, t)
  {
  }

  // ----- update fields through a layout -----

  /** The object is ready and the layout fits it. */
  ghost predicate Fits(l: Layout, h: Host) {
    Ready(h.obj) && ValidLayout(l, h.obj.valuesCount)
  }

  function Get(l: Layout, o: Obj, f: Field): Word
    requires Ready(o) && ValidLayout(l, o.valuesCount)
  {
    o.values[l.slot(f)]
  }

  /**
   * `r` is `h` with at most the slots in `touched` changed: same object,
   * same size, same in-world flag, every other slot and changed bit kept,
   * and the object/update-list bookkeeping still consistent.
   */
  predicate Keeps(h: Host, r: Host, touched: set<nat>) {
    Ready(h.obj) && Ready(r.obj)
    && r.obj.valuesCount == h.obj.valuesCount
    && r.obj.id == h.obj.id && r.obj.inWorld == h.obj.inWorld
    && (forall j :: 0 <= j < h.obj.valuesCount && j !in touched ==>
          r.obj.values[j] == h.obj.values[j] && r.obj.changed[j] == h.obj.changed[j])
    && (Consistent(h) ==> Consistent(r))
  }

  lemma KeepsTrans(a: Host, b: Host, c: Host, s1: set<nat>, s2: set<nat>)
    requires Keeps(a, b, s1) && Keeps(b, c, s2)
    ensures Keeps(a, c, s1 + s2)
  {
  }

  /** A plain 32-bit field setter (`SetLevel`, `SetCreateHealth`, `SetCreateEnery`, ...). */
  function SetField(l: Layout, h: Host, f: Field, value: Word): (r: Host)
    requires Fits(l, h)
    ensures Fits(l, r) && Keeps(h, r, {l.slot(f)})
    ensures Get(l, r.obj, f) == value
    ensures Get(l, h.obj, f) == value ==> r == h
  {
    SetUInt32Value(h, l.slot(f), value)
  }

  /** Every field other than the one set keeps its value. */
  lemma SetFieldReadBack(l: Layout, h: Host, f: Field, g: Field, value: Word)
    requires Fits(l, h) && Written(f) && Written(g)
    ensures Get(l, SetField(l, h, f, value).obj, f) == value
    ensures g != f ==> Get(l, SetField(l, h, f, value).obj, g) == Get(l, h.obj, g)
  {
  }

  /**
   * `Object::_Create`: allocates the slots if there are none yet, stores the
   * 64-bit GUID in its slot pair and the type mask in the type slot.
   */
  function CreateObject(l: Layout, h: Host, guid: nat, typeMask: Word): (r: Host)
    requires (!h.obj.hasValues || Ready(h.obj)) && ValidLayout(l, h.obj.valuesCount)
    requires guid < TwoTo32 * TwoTo32
    ensures Fits(l, r) && r.obj.id == h.obj.id && r.obj.inWorld == h.obj.inWorld
    ensures GetUInt64Value(r.obj, l.slot(GuidLow)) == guid
    ensures Get(l, r.obj, ObjectType) == typeMask
    ensures Ready(h.obj) ==> Keeps(h, r, {l.slot(GuidLow), l.slot(GuidHigh), l.slot(ObjectType)})
    ensures !h.obj.hasValues ==>
      forall j :: 0 <= j < r.obj.valuesCount && j !in {l.slot(GuidLow), l.slot(GuidHigh), l.slot(ObjectType)} ==>
        r.obj.values[j] == 0
  {
    assert Written(GuidHigh) && Written(ObjectType);
    var h0 := Host(EnsureValues(h.obj), h.updateList);
    var h1 := SetUInt64Value(h0, l.slot(GuidLow), guid);
    SetUInt32Value(h1, l.slot(ObjectType), typeMask)
  }

  // ----- class and gender -----

  /** `setClass`: byte lane 0 of the bytes-0 field. */
  function SetClass(l: Layout, h: Host, cls: Byte): (r: Host)
    requires Fits(l, h)
    ensures Fits(l, r) && Keeps(h, r, {l.slot(Bytes0)})
    ensures GetClass(l, r.obj) == cls
    ensures forall k :: 1 <= k < 4 ==> GetByteValue(r.obj, l.slot(Bytes0), k) == GetByteValue(h.obj, l.slot(Bytes0), k)
  {
    SetByteValue(h, l.slot(Bytes0), 0, cls)
  }

  function GetClass(l: Layout, o: Obj): Byte
    requires Ready(o) && ValidLayout(l, o.valuesCount)
  {
    GetByteValue(o, l.slot(Bytes0), 0)
  }

  /**
   * `getClassMask`, `1 << (class - 1)`: the one bit numbered class - 1.  The
   * shift is only defined for classes 1..32.
   */
  function ClassMask(l: Layout, o: Obj): (r: Word)
    requires Ready(o) && ValidLayout(l, o.valuesCount)
    requires 1 <= GetClass(l, o) <= 32
    ensures forall i :: 0 <= i < 32 ==> WordBits(r)[i] == (i + 1 == GetClass(l, o))
  {
    Bit(GetClass(l, o) - 1)
  }

  /** `setGender`: the gender byte is stored as 16-bit lane 0 of player-bytes-3. */
  function SetGender(l: Layout, h: Host, gender: Byte): (r: Host)
    requires Fits(l, h)
    ensures Fits(l, r) && Keeps(h, r, {l.slot(PlayerBytes3)})
    ensures GetGender(l, r.obj) == gender
    ensures GetUInt16Value(r.obj, l.slot(PlayerBytes3), 1) == GetUInt16Value(h.obj, l.slot(PlayerBytes3), 1)
  {
    var r := SetUInt16Value(h, l.slot(PlayerBytes3), 0, gender);
    ByteOfSmall(GetUInt16Value(r.obj, l.slot(PlayerBytes3), 0), gender);
    r
  }

  lemma ByteOfSmall(x: int, b: Byte)
    requires x == b
    ensures x % 256 == b
  {
  }

  /** `getGender`: 16-bit lane 0 of player-bytes-3, truncated to a byte. */
  function GetGender(l: Layout, o: Obj): Byte
    requires Ready(o) && ValidLayout(l, o.valuesCount)
  {
    GetUInt16Value(o, l.slot(PlayerBytes3), 0) % 256
  }

  // ----- health -----

  function Min(a: Word, b: Word): Word {
    if a < b then a else b
  }

  /** `SetHealth`: the stored health never exceeds the maximum. */
  function SetHealth(l: Layout, h: Host, value: Word): (r: Host)
    requires Fits(l, h)
    ensures Fits(l, r) && Keeps(h, r, {l.slot(Health)})
    ensures Get(l, r.obj, MaxHealth) == Get(l, h.obj, MaxHealth)
    ensures Get(l, r.obj, Health) <= Get(l, r.obj, MaxHealth)
    ensures value <= Get(l, h.obj, MaxHealth) ==> Get(l, r.obj, Health) == value
    ensures value >= Get(l, h.obj, MaxHealth) ==> Get(l, r.obj, Health) == Get(l, h.obj, MaxHealth)
  {
    var maxHealth := Get(l, h.obj, MaxHealth);
    SetUInt32Value(h, l.slot(Health), if maxHealth < value then maxHealth else value)
  }

  /**
   * `SetMaxHealth`: stores the new maximum and lowers the health to it when
   * the health was above; afterwards health never exceeds the maximum.
   */
  function SetMaxHealth(l: Layout, h: Host, value: Word): (r: Host)
    requires Fits(l, h)
    ensures Fits(l, r) && Keeps(h, r, {l.slot(MaxHealth), l.slot(Health)})
    ensures Get(l, r.obj, MaxHealth) == value
    ensures Get(l, r.obj, Health) == Min(Get(l, h.obj, Health), value)
    ensures Get(l, r.obj, Health) <= Get(l, r.obj, MaxHealth)
  {
    var health := Get(l, h.obj, Health);
    var h1 := SetUInt32Value(h, l.slot(MaxHealth), value);
    if value < health then SetHealth(l, h1, value) else h1
  }

  /** `x` limited to `lo..hi`. */
  function Clamp(x: int, lo: int, hi: int): (r: int)
    requires lo <= hi
    ensures lo <= r <= hi
    ensures lo <= x <= hi ==> r == x
  {
    if x < lo then lo else if x > hi then hi else x
  }

  /**
   * `ModifyHealth`: adds a signed delta to the health in `int32` arithmetic,
   * floors at 0 and caps at the maximum, and returns the change it made.
   * A zero delta changes nothing.
   */
  function ModifyHealth(l: Layout, h: Host, delta: int): (r: (Host, int))
    requires Fits(l, h) && -TwoTo31 <= delta < TwoTo31
    ensures Fits(l, r.0) && Keeps(h, r.0, {l.slot(Health)})
    ensures -TwoTo31 <= r.1 < TwoTo31
    ensures delta == 0 ==> r == (h, 0)
    ensures Get(l, r.0.obj, MaxHealth) == Get(l, h.obj, MaxHealth)
    ensures delta != 0 ==> Get(l, r.0.obj, Health) <= Get(l, r.0.obj, MaxHealth)
  {
    if delta == 0 then (h, 0)
    else
      var cur := ToInt32(Get(l, h.obj, Health));
      var value := Int32Wrap(delta + cur);
      if value <= 0 then (SetHealth(l, h, 0), Int32Wrap(-cur))
      else
        var maxHealth := ToInt32(Get(l, h.obj, MaxHealth));
        if value < maxHealth then (SetHealth(l, h, value), Int32Wrap(value - cur))
        else (SetHealth(l, h, FromInt32(maxHealth)), Int32Wrap(maxHealth - cur))
  }

  /**
   * Without overflow and with health within an int32-sized maximum, the new
   * health is the old one plus the delta clamped to 0..max, and the result is
   * exactly the change made.
   */
  lemma ModifyHealthClamps(l: Layout, h: Host, delta: int)
    requires Fits(l, h) && -TwoTo31 <= delta < TwoTo31
    requires Get(l, h.obj, Health) <= Get(l, h.obj, MaxHealth) < TwoTo31
    requires delta + Get(l, h.obj, Health) < TwoTo31
    ensures Get(l, ModifyHealth(l, h, delta).0.obj, Health)
      == Clamp(Get(l, h.obj, Health) + delta, 0, Get(l, h.obj, MaxHealth))
    ensures ModifyHealth(l, h, delta).1
      == Get(l, ModifyHealth(l, h, delta).0.obj, Health) - Get(l, h.obj, Health)
  {
  }

  // ----- powers -----

  /** `SetStatInt32Value` applied to a `uint32` passed as `int32`: values of 2^31 and above land as 0. */
  function StoredAsStat(v: Word): (r: Word)
    ensures v < TwoTo31 ==> r == v
    ensures v >= TwoTo31 ==> r == 0
  {
    if ToInt32(v) < 0 then 0 else ToInt32(v)
  }

  /**
   * `SetPower`: a no-op when the value is already there and for the health
   * power.  Otherwise energy and mana store the value capped at the maximum,
   * through the writer that turns negative `int32`s into 0.  (Energy falls
   * through to the mana case and stores the same slot twice.)
   */
  function SetPower(l: Layout, h: Host, p: Power, value: Word): (r: Host)
    requires Fits(l, h)
    ensures Fits(l, r) && Keeps(h, r, {l.slot(PowerOf(p))})
    ensures p == PowerHealth || Get(l, h.obj, PowerOf(p)) == value ==> r == h
    ensures p != PowerHealth && Get(l, h.obj, PowerOf(p)) != value ==>
      Get(l, r.obj, PowerOf(p)) == StoredAsStat(Min(value, Get(l, h.obj, MaxPowerOf(p))))
    ensures Get(l, r.obj, MaxPowerOf(p)) == Get(l, h.obj, MaxPowerOf(p))
  {
    if Get(l, h.obj, PowerOf(p)) == value then h
    else
      var maxPower := Get(l, h.obj, MaxPowerOf(p));
      var v := ToInt32(if maxPower < value then maxPower else value);
      var slot := l.slot(PowerOf(p));
      match p
      case PowerEnergy => SetStatInt32Value(SetStatInt32Value(h, slot, v), slot, v)
      case PowerMana => SetStatInt32Value(h, slot, v)
      case PowerHealth => h
  }

  /**
   * For energy and mana below an int32-sized maximum, a set power lands at
   * the value capped at the maximum, whatever was there before.
   */
  lemma SetPowerCaps(l: Layout, h: Host, p: Power, value: Word)
    requires Fits(l, h) && p != PowerHealth
    requires Get(l, h.obj, PowerOf(p)) <= Get(l, h.obj, MaxPowerOf(p)) < TwoTo31
    ensures Get(l, SetPower(l, h, p, value).obj, PowerOf(p)) == Min(value, Get(l, h.obj, MaxPowerOf(p)))
    ensures Get(l, SetPower(l, h, p, value).obj, PowerOf(p)) <= Get(l, h.obj, MaxPowerOf(p))
  {
  }

  /**
   * `SetMaxPower`: energy and mana store the new maximum (through the
   * negative-clamping writer) and their current value is lowered to it when
   * it was above.  The health power changes nothing.
   */
  function SetMaxPower(l: Layout, h: Host, p: Power, value: Word): (r: Host)
    requires Fits(l, h)
    ensures Fits(l, r) && Keeps(h, r, {l.slot(MaxPowerOf(p)), l.slot(PowerOf(p))})
    ensures p == PowerHealth ==> r == h
    ensures p != PowerHealth ==> Get(l, r.obj, MaxPowerOf(p)) == StoredAsStat(value)
    ensures p != PowerHealth && value < TwoTo31 ==>
      Get(l, r.obj, PowerOf(p)) == Min(Get(l, h.obj, PowerOf(p)), value)
  {
    var cur := Get(l, h.obj, PowerOf(p));
    var h1 := if p == PowerHealth then h else SetStatInt32Value(h, l.slot(MaxPowerOf(p)), ToInt32(value));
    if value < cur then SetPower(l, h1, p, value) else h1
  }

  /**
   * `ModifyPower`: `ModifyHealth` on a power pool, writing through
   * `SetPower`.
   */
  function ModifyPower(l: Layout, h: Host, p: Power, delta: int): (r: (Host, int))
    requires Fits(l, h) && -TwoTo31 <= delta < TwoTo31
    ensures Fits(l, r.0) && Keeps(h, r.0, {l.slot(PowerOf(p))})
    ensures -TwoTo31 <= r.1 < TwoTo31
    ensures delta == 0 ==> r == (h, 0)
    ensures p == PowerHealth ==> r.0 == h
  {
    if delta == 0 then (h, 0)
    else
      var cur := ToInt32(Get(l, h.obj, PowerOf(p)));
      var value := Int32Wrap(delta + cur);
      if value <= 0 then (SetPower(l, h, p, 0), Int32Wrap(-cur))
      else
        var maxPower := ToInt32(Get(l, h.obj, MaxPowerOf(p)));
        if value < maxPower then (SetPower(l, h, p, value), Int32Wrap(value - cur))
        else (SetPower(l, h, p, FromInt32(maxPower)), Int32Wrap(maxPower - cur))
  }

  /** The clamping law of `ModifyHealth`, for energy and mana. */
  lemma ModifyPowerClamps(l: Layout, h: Host, p: Power, delta: int)
    requires Fits(l, h) && p != PowerHealth && -TwoTo31 <= delta < TwoTo31
    requires Get(l, h.obj, PowerOf(p)) <= Get(l, h.obj, MaxPowerOf(p)) < TwoTo31
    requires delta + Get(l, h.obj, PowerOf(p)) < TwoTo31
    ensures Get(l, ModifyPower(l, h, p, delta).0.obj, PowerOf(p))
      == Clamp(Get(l, h.obj, PowerOf(p)) + delta, 0, Get(l, h.obj, MaxPowerOf(p)))
    ensures ModifyPower(l, h, p, delta).1
      == Get(l, ModifyPower(l, h, p, delta).0.obj, PowerOf(p)) - Get(l, h.obj, PowerOf(p))
  {
  }

  /** `GetCreatePowers`: the create energy for energy, 0 for health and mana. */
  function GetCreatePowers(l: Layout, o: Obj, p: Power): (r: Word)
    requires Ready(o) && ValidLayout(l, o.valuesCount)
    ensures p == PowerEnergy ==> r == Get(l, o, BaseEnergy)
    ensures p != PowerEnergy ==> r == 0
  {
    match p
    case PowerEnergy => Get(l, o, BaseEnergy)
    case _ => 0
  }

  /**
   * The pool reset `SetPowerType` performs for a player switching to a power
   * other than energy: the maximum becomes the create value and the current
   * value the maximum, except mana, which starts at 0.  Mana's create value is
   * 0 and the health power is never stored, so only a switch to mana changes
   * anything: both mana slots become 0.
   */
  function ResetPool(l: Layout, h: Host, p: Power): (r: Host)
    requires Fits(l, h) && p != PowerEnergy
    ensures Fits(l, r) && Keeps(h, r, {l.slot(MaxPowerOf(p)), l.slot(PowerOf(p))})
    ensures p == PowerHealth ==> r == h
    ensures p == PowerMana ==> Get(l, r.obj, MaxPowerOf(p)) == 0 && Get(l, r.obj, PowerOf(p)) == 0
  {
    var maxValue := GetCreatePowers(l, h.obj, p);
    var curValue := if p == PowerMana then 0 else maxValue;
    SetPower(l, SetMaxPower(l, h, p, maxValue), p, curValue)
  }

  /**
   * `SetPowerType`: records the power kind's numeric `code` in byte lane 3
   * of bytes-0; for a player, a switch to anything but energy also resets
   * that pool.
   */
  function SetPowerType(l: Layout, h: Host, isPlayer: bool, p: Power, code: Byte): (r: Host)
    requires Fits(l, h)
    ensures Fits(l, r)
    ensures GetByteValue(r.obj, l.slot(Bytes0), 3) == code
    ensures forall k :: 0 <= k < 3 ==> GetByteValue(r.obj, l.slot(Bytes0), k) == GetByteValue(h.obj, l.slot(Bytes0), k)
    ensures !(isPlayer && p == PowerMana) ==> Keeps(h, r, {l.slot(Bytes0)})
    ensures isPlayer && p == PowerMana ==>
      Keeps(h, r, {l.slot(Bytes0), l.slot(MaxPowerOf(p)), l.slot(PowerOf(p))})
      && Get(l, r.obj, MaxPowerOf(p)) == 0 && Get(l, r.obj, PowerOf(p)) == 0
  {
    var h1 := SetByteValue(h, l.slot(Bytes0), 3, code);
    if isPlayer && p != PowerEnergy then
      var r := ResetPool(l, h1, p);
      var n := h.obj.valuesCount;
      if p == PowerMana then
        Apart(l, n, Bytes0, MaxPowerOf(p));
        Apart(l, n, Bytes0, PowerOf(p));
        KeepsTrans(h, h1, r, {l.slot(Bytes0)}, {l.slot(MaxPowerOf(p)), l.slot(PowerOf(p))});
        assert r.obj.values[l.slot(Bytes0)] == h1.obj.values[l.slot(Bytes0)];
        r
      else r
    else h1
  }
}

=== FILE: unit_fields.dfy ===
/**
 * Where units and players keep their state among the update fields.  The
 * slot numbers come from the client's field table, which is not part of this
 * model, so a layout is a parameter: it names a slot for every field the
 * unit and player code touches, and is valid for an object when every slot
 * is inside the object and the slots the code writes are pairwise distinct.
 */
module UnitFields {
  /**
   * The power kinds.  Energy and mana are the two pools the code stores;
   * the health "power" only ever selects a slot for reading.
   */
  datatype Power = PowerHealth | PowerEnergy | PowerMana

  datatype Field =
    | GuidLow            // low half of the GUID slot pair
    | GuidHigh           // high half, the next slot
    | ObjectType         // the type mask
    | Level
    | Bytes0             // lane 0 class, lane 3 power type
    | Health
    | MaxHealth
    | PowerOf(p: Power)  // UNIT_FIELD_POWER1 + power
    | MaxPowerOf(p: Power)
    | BaseHealth
    | BaseEnergy
    | PlayerBytes        // lanes: skin, hair, hair colour, jaw
    | PlayerBytes2       // lanes: skin, nose, eyes
    | PlayerBytes3       // 16-bit lane 0 gender
    | UnitFlags
    | PlayerFlags
    | Coinage
    | Xp
    | NextLevelXp

  /** A field the code writes (the slots of the health "power" are only read). */
  predicate Written(f: Field) {
    !(f.PowerOf? && f.p == PowerHealth) && !(f.MaxPowerOf? && f.p == PowerHealth)
  }

  /**
   * A slot for every field, and the inverse direction: which written field a
   * slot holds (arbitrary for the other slots).
   */
  datatype Layout = Layout(slot: Field -> nat, fieldAt: nat -> Field)

  /**
   * Every slot lies inside an object of `valuesCount` slots, the GUID takes
   * two consecutive slots, and written slots do not overlap.
   */
  ghost predicate ValidLayout(l: Layout, valuesCount: nat) {
    (forall f :: l.slot(f) < valuesCount)
    && l.slot(GuidHigh) == l.slot(GuidLow) + 1
    && (forall f :: Written(f) ==> l.fieldAt(l.slot(f)) == f)
  }

  /** Two different written fields never share a slot. */
  lemma Apart(l: Layout, valuesCount: nat, a: Field, b: Field)
    requires ValidLayout(l, valuesCount) && Written(a) && Written(b) && a != b
    ensures l.slot(a) != l.slot(b)
  {
    assert l.fieldAt(l.slot(a)) == a && l.fieldAt(l.slot(b)) == b;
  }
}

=== FILE: update_codec.dfy ===
/**
 * The sparse slot encoding of update blocks and the `UpdateData`
 * accumulator.  A block lists `(uint16 index, uint32 value)` pairs for a
 * chosen subset of an object's slots in ascending slot order: the non-zero
 * slots when the object is created for a client, the changed slots when its
 * values are refreshed.  A client that applies the pairs to what it already
 * holds obtains the server's values.
 */
module UpdateCodec {
  import opened Word32
  import opened Packet
  import opened FieldStore
  import opened Wrappers
  import opened Sparse
  import opened Ordering
  import Opcodes

  /** One `(uint16 index, uint32 value)` pair of an update block. */
  type Pair = Entry<Word>

  function NonZero(values: seq<Word>): (r: seq<bool>)
    ensures |r| == |values| && forall i :: 0 <= i < |values| ==> r[i] == (values[i] != 0)
  {
    seq(|values|, i requires 0 <= i < |values| => values[i] != 0)
  }

  /** The pairs of a create block: every non-zero slot. */
  function CreatePairs(o: Obj): seq<Pair>
    requires Ready(o)
  {
    Select(o.values, NonZero(o.values), o.valuesCount)
  }

  /** The pairs of a values block: every changed slot. */
  function ChangedPairs(o: Obj): seq<Pair>
    requires Ready(o)
  {
    Select(o.values, o.changed, o.valuesCount)
  }

  /** A client starting from all-zero slots rebuilds the object from its create block. */
  lemma CreateRoundTrip(o: Obj)
    requires Ready(o)
    ensures Apply(Zeros(o.valuesCount), CreatePairs(o)) == o.values
  {
    ApplySelectRebuilds(Zeros(o.valuesCount), o.values, NonZero(o.values));
  }

  /**
   * A client that agrees with the object on every unchanged slot is brought
   * up to date by the values block.
   */
  lemma ChangedRoundTrip(client: seq<Word>, o: Obj)
    requires Ready(o) && |client| == o.valuesCount
    requires forall i :: 0 <= i < o.valuesCount && !o.changed[i] ==> client[i] == o.values[i]
    ensures Apply(client, ChangedPairs(o)) == o.values
  {
    ApplySelectRebuilds(client, o.values, o.changed);
  }

  /** The items `<< index << value` appends for each pair. */
  function PairItems(ps: seq<Pair>): seq<Item>
    requires IndicesBelow(ps, 0x1_0000)
  {
    if ps == [] then [] else [U16(ps[0].index), U32(ps[0].value)] + PairItems(ps[1..])
  }

  lemma {:induction false} PairItemsSnoc(ps: seq<Pair>, p: Pair)
    requires IndicesBelow(ps, 0x1_0000) && p.index < 0x1_0000
    ensures PairItems(ps + [p]) == PairItems(ps) + [U16(p.index), U32(p.value)]
  {
    if ps != [] {
      assert (ps + [p])[1..] == ps[1..] + [p];
      PairItemsSnoc(ps[1..], p);
    }
  }

  /** Reads consecutive six-byte pairs; a trailing fragment is ignored. */
  function ReadPairs(bs: seq<Byte>): (r: seq<Pair>)
    decreases |bs|
  {
    if |bs| < 6 then []
    else
      LittleEndianRoundTrip(FromLittleEndian(bs[2..6]), 4);
      [Entry(FromLittleEndian(bs[0..2]), FromLittleEndian(bs[2..6]))] + ReadPairs(bs[6..])
  }

  lemma PairBytes(p: Pair)
    requires p.index < 0x1_0000
    ensures Bytes([U16(p.index), U32(p.value)]) == LittleEndian(p.index, 2) + LittleEndian(p.value, 4)
  {
    BytesAppend([U16(p.index)], [U32(p.value)]);
    assert [U16(p.index)] + [U32(p.value)] == [U16(p.index), U32(p.value)];
    BytesOne(U16(p.index));
    BytesOne(U32(p.value));
  }

  /** The bytes of the pairs: a little-endian index and a little-endian value each. */
  function PairBytesOf(ps: seq<Pair>): (r: seq<Byte>)
    requires IndicesBelow(ps, 0x1_0000)
    ensures |r| == 6 * |ps|
  {
    if ps == [] then [] else LittleEndian(ps[0].index, 2) + LittleEndian(ps[0].value, 4) + PairBytesOf(ps[1..])
  }

  lemma {:induction false} PairItemsBytes(ps: seq<Pair>)
    requires IndicesBelow(ps, 0x1_0000)
    ensures Bytes(PairItems(ps)) == PairBytesOf(ps)
  {
    if ps == [] {
      assert Encodings([]) == [];
    } else {
      var p := ps[0];
      PairItemsBytes(ps[1..]);
      BytesAppend([U16(p.index), U32(p.value)], PairItems(ps[1..]));
      PairBytes(p);
    }
  }

  /** Reading six-byte pairs inverts writing them. */
  lemma {:induction false} ReadPairsInverse(ps: seq<Pair>)
    requires IndicesBelow(ps, 0x1_0000)
    ensures ReadPairs(PairBytesOf(ps)) == ps
  {
    if ps != [] {
      var p := ps[0];
      var le2 := LittleEndian(p.index, 2);
      var le4 := LittleEndian(p.value, 4);
      var rest := PairBytesOf(ps[1..]);
      var bs := PairBytesOf(ps);
      assert bs == le2 + le4 + rest;
      assert bs[0..2] == le2 && bs[2..6] == le4 && bs[6..] == rest;
      LittleEndianRoundTrip(p.index, 2);
      LittleEndianRoundTrip(p.value, 4);
      ReadPairsInverse(ps[1..]);
    }
  }

  /** Six bytes per pair, and the pairs read back from their bytes. */
  lemma PairsRoundTrip(ps: seq<Pair>)
    requires IndicesBelow(ps, 0x1_0000)
    ensures |Bytes(PairItems(ps))| == 6 * |ps|
    ensures ReadPairs(Bytes(PairItems(ps))) == ps
  {
    PairItemsBytes(ps);
    ReadPairsInverse(ps);
  }

  /** Pairs appended after any prefix read back from where the prefix ends. */
  lemma PairsReadBack(prefix: seq<Item>, ps: seq<Pair>)
    requires IndicesBelow(ps, 0x1_0000)
    ensures |Bytes(prefix + PairItems(ps))| == |Bytes(prefix)| + 6 * |ps|
    ensures ReadPairs(Bytes(prefix + PairItems(ps))[|Bytes(prefix)|..]) == ps
  {
    BytesAppend(prefix, PairItems(ps));
    PairsRoundTrip(ps);
    assert Bytes(prefix + PairItems(ps))[|Bytes(prefix)|..] == Bytes(PairItems(ps));
  }

  /**
   * The shared loop of `CreateUpdateCountAndSize` and `Player::UpdateObject`:
   * walks the slots with a 16-bit index, appends a pair for every kept slot
   * and counts six bytes for it; the final resize to the old size plus that
   * count leaves the buffer as it is.
   */
  method AppendPairs(buf: WorldPacket, values: seq<Word>, keep: seq<bool>) returns (r: WorldPacket, newSize: nat)
    requires |keep| == |values| < 0x1_0000
    ensures r.opcode == buf.opcode
    ensures r.items == buf.items + PairItems(Select(values, keep, |values|))
    ensures newSize == 6 * |Select(values, keep, |values|)|
    ensures Size(r) == Size(buf) + newSize
  {
    r := buf;
    newSize := 0;
    var index := 0;
    while index < |values|
      invariant index <= |values|
      invariant r.opcode == buf.opcode
      invariant r.items == buf.items + PairItems(Select(values, keep, index))
      invariant newSize == 6 * |Select(values, keep, index)|
    {
      SelectStep(values, keep, index + 1);
      if keep[index] {
        newSize := newSize + 6;
        PairItemsSnoc(Select(values, keep, index), Entry(index, values[index]));
        r := WorldPacket(r.opcode, r.items + [U16(index), U32(values[index])]);
      }
      index := index + 1;
    }
    var ps := Select(values, keep, |values|);
    PairsRoundTrip(ps);
    BytesAppend(buf.items, PairItems(ps));
  }

  /** `Object::CreateUpdateCountAndSize`: appends a pair for every non-zero slot. */
  method CreateUpdateCountAndSize(buf: WorldPacket, o: Obj) returns (r: WorldPacket)
    requires Ready(o) && o.valuesCount < 0x1_0000
    ensures r.opcode == buf.opcode
    ensures r.items == buf.items + PairItems(CreatePairs(o))
    ensures Size(r) == Size(buf) + 6 * |CreatePairs(o)|
    ensures ReadPairs(Bytes(r.items)[Size(buf)..]) == CreatePairs(o)
  {
    var n;
    r, n := AppendPairs(buf, o.values, NonZero(o.values));
    PairsReadBack(buf.items, CreatePairs(o));
  }

  /** The values of the update-type and update-flag enumerations the blocks use. */
  datatype UpdateConstants = UpdateConstants(
    typeValues: Byte,
    typeCreateObject: Byte,
    typeOutOfRangeObjects: Byte,
    flagSelf: Byte)

  /** The player a create block is built for: none, the object itself, or another player. */
  datatype Target = NoTarget | SelfTarget | OtherTarget

  /** A position as the bit patterns of its four floats. */
  datatype Position = Position(x: Word, y: Word, z: Word, orientation: Word)

  /** The fixed part of a create block, in front of the slot pairs. */
  function CreateHeader(c: UpdateConstants, updateFlags: Byte, typeId: Byte, name: string, pos: Position): (r: seq<Item>)
    ensures |r| == (if updateFlags == c.flagSelf then 4 else 8)
    ensures r[..4] == [U8(c.typeCreateObject), U8(updateFlags), U8(typeId), Str(name)]
  {
    [U8(c.typeCreateObject), U8(updateFlags), U8(typeId), Str(name)]
      + (if updateFlags != c.flagSelf then [Float(pos.x), Float(pos.y), Float(pos.z), Float(pos.orientation)] else [])
  }

  /** The flags a create block carries: the self flag when the target is the object itself. */
  function EffectiveFlags(c: UpdateConstants, updateFlag: Byte, target: Target): Byte {
    if target.SelfTarget? then c.flagSelf else updateFlag
  }

  /**
   * `Object::BuildCreateUpdateBlockForPlayer`: nothing without a target;
   * otherwise the header for the effective flags followed by every non-zero
   * slot.
   */
  method BuildCreateUpdateBlockForPlayer(
    c: UpdateConstants, o: Obj, updateFlag: Byte, typeId: Byte, name: string, pos: Position, target: Target)
    returns (r: Option<WorldPacket>)
    requires Ready(o) && o.valuesCount < 0x1_0000
    ensures r.None? <==> target.NoTarget?
    ensures r.Some? ==> r.value.opcode == Opcodes.SMSG_CREATE_OBJECT
    ensures r.Some? ==>
      r.value.items == CreateHeader(c, EffectiveFlags(c, updateFlag, target), typeId, name, pos) + PairItems(CreatePairs(o))
  {
    if target.NoTarget? {
      return None;
    }
    var header := CreateHeader(c, EffectiveFlags(c, updateFlag, target), typeId, name, pos);
    var p := CreateUpdateCountAndSize(WorldPacket(Opcodes.SMSG_CREATE_OBJECT, header), o);
    r := Some(p);
  }

  /**
   * The layout of a create block: the self flag leaves the position out,
   * any other flag puts it between the name and the slots, and a client
   * reads the slots back from the end of the header.
   */
  lemma CreateBlockLayout(c: UpdateConstants, flags: Byte, typeId: Byte, name: string, pos: Position, o: Obj)
    requires Ready(o) && o.valuesCount < 0x1_0000
    ensures var items := CreateHeader(c, flags, typeId, name, pos) + PairItems(CreatePairs(o));
      && items[..4] == [U8(c.typeCreateObject), U8(flags), U8(typeId), Str(name)]
      && (flags == c.flagSelf ==> items[4..] == PairItems(CreatePairs(o)))
      && (flags != c.flagSelf ==>
            items[4..] == [Float(pos.x), Float(pos.y), Float(pos.z), Float(pos.orientation)] + PairItems(CreatePairs(o)))
  {
    var header := CreateHeader(c, flags, typeId, name, pos);
    var items := header + PairItems(CreatePairs(o));
    assert items[..4] == header[..4];
    assert items[4..] == header[4..] + PairItems(CreatePairs(o));
  }

  /** A client reads the slots of a create block back from where its header ends. */
  lemma CreateBlockReadsBack(c: UpdateConstants, flags: Byte, typeId: Byte, name: string, pos: Position, o: Obj)
    requires Ready(o) && o.valuesCount < 0x1_0000
    ensures var header := CreateHeader(c, flags, typeId, name, pos);
      && |Bytes(header + PairItems(CreatePairs(o)))| >= |Bytes(header)|
      && ReadPairs(Bytes(header + PairItems(CreatePairs(o)))[|Bytes(header)|..]) == CreatePairs(o)
  {
    PairsReadBack(CreateHeader(c, flags, typeId, name, pos), CreatePairs(o));
  }

  /**
   * `UpdateData`: the queued blocks, how many there are, and the GUIDs gone
   * out of range as an ordered set.
   */
  datatype UpdateData = UpdateData(blockCount: Word, outOfRange: seq<Quad>, data: seq<Byte>)

  predicate ValidUpdateData(u: UpdateData) {
    StrictlyAscending(u.outOfRange)
  }

  const EmptyUpdateData: UpdateData := UpdateData(0, [], [])

  /** Adds the GUIDs of another set; each is listed once however often it is added. */
  function AddOutOfRangeGUIDs(u: UpdateData, guids: seq<Quad>): (r: UpdateData)
    requires ValidUpdateData(u)
    ensures ValidUpdateData(r)
    ensures forall g :: g in r.outOfRange <==> g in u.outOfRange || g in guids
    ensures r.blockCount == u.blockCount && r.data == u.data
  {
    u.(outOfRange := InsertAll(u.outOfRange, guids))
  }

  function AddOutOfRangeGUID(u: UpdateData, guid: Quad): (r: UpdateData)
    requires ValidUpdateData(u)
    ensures ValidUpdateData(r)
    ensures forall g :: g in r.outOfRange <==> g in u.outOfRange || g == guid
    ensures guid in u.outOfRange ==> r == u
    ensures r.blockCount == u.blockCount && r.data == u.data
  {
    if guid in u.outOfRange then InsertPresent(u.outOfRange, guid); u
    else u.(outOfRange := Insert(u.outOfRange, guid))
  }

  /** Appends a block; the 32-bit block counter wraps. */
  function AddUpdateBlock(u: UpdateData, block: seq<Byte>): (r: UpdateData)
    ensures r.data == u.data + block && r.outOfRange == u.outOfRange
    ensures r.blockCount == Wrap(u.blockCount + 1)
  {
    u.(data := u.data + block, blockCount := Wrap(u.blockCount + 1))
  }

  function AddUpdateBlocks(u: UpdateData, blocks: seq<seq<Byte>>): UpdateData
  {
    if blocks == [] then u else AddUpdateBlock(AddUpdateBlocks(u, blocks[..|blocks| - 1]), blocks[|blocks| - 1])
  }

  /** Blocks queued one after another are counted and kept in order. */
  lemma {:induction false} AddUpdateBlocksAccumulate(u: UpdateData, blocks: seq<seq<Byte>>)
    ensures AddUpdateBlocks(u, blocks).data == u.data + Flatten(blocks)
    ensures AddUpdateBlocks(u, blocks).blockCount == Wrap(u.blockCount + |blocks|)
    ensures AddUpdateBlocks(u, blocks).outOfRange == u.outOfRange
  {
    if blocks != [] {
      var init := blocks[..|blocks| - 1];
      AddUpdateBlocksAccumulate(u, init);
      FlattenSnoc(init, blocks[|blocks| - 1]);
      assert init + [blocks[|blocks| - 1]] == blocks;
      WrapSucc(u.blockCount + |init|);
    }
  }

  lemma WrapSucc(x: int)
    ensures Wrap(Wrap(x) + 1) == Wrap(x + 1)
  {
  }

  /** `Clear` empties the accumulator, whatever it held. */
  function Clear(u: UpdateData): (r: UpdateData)
    ensures r.blockCount == 0 && r.outOfRange == [] && r.data == []
  {
    EmptyUpdateData
  }

  function PackedGuids(guids: seq<Quad>): (r: seq<Item>)
    ensures |r| == |guids| && forall k :: 0 <= k < |guids| ==> r[k] == PackedGuid(guids[k])
  {
    seq(|guids|, k requires 0 <= k < |guids| => PackedGuid(guids[k]))
  }

  /**
   * What `UpdateData::BuildPacket` appends after `front`: the block count
   * (one more when there is an out-of-range section), the transport flag,
   * the out-of-range GUIDs in ascending order, then the queued blocks
   * verbatim.
   */
  function UpdateItems(c: UpdateConstants, u: UpdateData, front: seq<Item>, hasTransport: bool): (r: seq<Item>)
    ensures |r| >= |front| + 3 && r[..|front|] == front
    ensures r[|front|] == U32(Wrap(u.blockCount + (if u.outOfRange == [] then 0 else 1)))
    ensures r[|front| + 1] == U8(if hasTransport then 1 else 0)
    ensures r[|r| - 1] == Raw(u.data)
    ensures u.outOfRange == [] <==> |r| == |front| + 3
    ensures u.outOfRange != [] ==>
      && r[|front| + 2] == U8(c.typeOutOfRangeObjects)
      && r[|front| + 3] == U32(Wrap(|u.outOfRange|))
      && r[|front| + 4..|r| - 1] == PackedGuids(u.outOfRange)
  {
    var transport := U8(if hasTransport then 1 else 0);
    if u.outOfRange == [] then
      var items := front + [U32(Wrap(u.blockCount)), transport, Raw(u.data)];
      assert items[..|front|] == front;
      items
    else
      var guids := PackedGuids(u.outOfRange);
      var head := front + [U32(Wrap(u.blockCount + 1)), transport, U8(c.typeOutOfRangeObjects), U32(Wrap(|u.outOfRange|))];
      var items := head + guids + [Raw(u.data)];
      assert items[..|front|] == front;
      assert items[|head|..|items| - 1] == guids;
      items
  }

  /** `UpdateData::BuildPacket`: the packet must be empty; it gets the update items and the update opcode. */
  function BuildPacket(c: UpdateConstants, u: UpdateData, packet: WorldPacket, hasTransport: bool): (r: WorldPacket)
    requires Size(packet) == 0
    ensures r.opcode == Opcodes.SMSG_UPDATE_OBJECT
    ensures r.items == UpdateItems(c, u, packet.items, hasTransport)
  {
    WorldPacket(Opcodes.SMSG_UPDATE_OBJECT, UpdateItems(c, u, packet.items, hasTransport))
  }

  lemma BytesEndWithRaw(front: seq<Item>, data: seq<Byte>)
    ensures Bytes(front + [Raw(data)]) == Bytes(front) + data
  {
    BytesAppend(front, [Raw(data)]);
    BytesOne(Raw(data));
  }

  /** Behind whatever `front` holds, the block count comes first and the queued blocks come last. */
  lemma UpdateItemsRead(c: UpdateConstants, u: UpdateData, front: seq<Item>, hasTransport: bool)
    ensures var bs := Bytes(UpdateItems(c, u, front, hasTransport));
      && ReadUInt(bs, |Bytes(front)|, 4) == Some(Wrap(u.blockCount + (if u.outOfRange == [] then 0 else 1)))
      && |bs| >= |u.data|
      && bs[|bs| - |u.data|..] == u.data
  {
    var items := UpdateItems(c, u, front, hasTransport);
    var count := U32(Wrap(u.blockCount + (if u.outOfRange == [] then 0 else 1)));
    var rest := items[|front| + 1..];
    assert items == front + [count] + rest;
    ReadAfter(front, count, rest, 4);
    var init := items[..|items| - 1];
    assert items == init + [Raw(u.data)];
    BytesEndWithRaw(init, u.data);
  }

  /** The block count a client reads first, and the queued blocks the packet ends with. */
  lemma BuildPacketReads(c: UpdateConstants, u: UpdateData, packet: WorldPacket, hasTransport: bool)
    requires Size(packet) == 0
    ensures var bs := Bytes(BuildPacket(c, u, packet, hasTransport).items);
      && ReadUInt(bs, 0, 4) == Some(Wrap(u.blockCount + (if u.outOfRange == [] then 0 else 1)))
      && |bs| >= |u.data|
      && bs[|bs| - |u.data|..] == u.data
  {
    UpdateItemsRead(c, u, packet.items, hasTransport);
  }
}

=== FILE: word32.dfy ===
/**
 * Unsigned 32-bit words as the server's update-field slots hold them, with
 * the two views the field store needs: four byte lanes (two 16-bit lanes)
 * on a little-endian host, and 32 flag bits.  Signed `int32` readings and
 * the `uint32` wrap-around of C++ arithmetic are written out explicitly.
 */
module Word32 {
  const TwoTo32: int := 0x1_0000_0000
  const TwoTo31: int := 0x8000_0000

  type Word = x: int | 0 <= x < 0x1_0000_0000
  type Byte = x: int | 0 <= x < 256
  type Half = x: int | 0 <= x < 0x1_0000
  type Int32 = x: int | -0x8000_0000 <= x < 0x8000_0000

  /** C++ `uint32` arithmetic: the result reduced modulo 2^32. */
  function Wrap(x: int): (r: Word)
    ensures 0 <= x < TwoTo32 ==> r == x
    ensures -TwoTo32 <= x < 0 ==> r == x + TwoTo32
    ensures TwoTo32 <= x < 2 * TwoTo32 ==> r == x - TwoTo32
  {
    x % TwoTo32
  }

  /** The signed reading of a word (`int32(v)`). */
  function ToInt32(v: Word): (r: int)
    ensures -TwoTo31 <= r < TwoTo31
    ensures r >= 0 <==> v < TwoTo31
    ensures Wrap(r) == v
  {
    if v < TwoTo31 then v else v - TwoTo32
  }

  /** The bit pattern of a signed 32-bit integer (`uint32(x)`). */
  function FromInt32(x: int): (r: Word)
    requires -TwoTo31 <= x < TwoTo31
    ensures ToInt32(r) == x
  {
    Wrap(x)
  }

  /**
   * `int32` arithmetic as two's-complement hardware performs it: the exact
   * result when it fits, otherwise the result reduced into the int32 range.
   */
  function Int32Wrap(x: int): (r: int)
    ensures -TwoTo31 <= r < TwoTo31
    ensures -TwoTo31 <= x < TwoTo31 ==> r == x
    ensures Wrap(r) == Wrap(x)
  {
    ToInt32(Wrap(x))
  }

  // ----- byte lanes -----

  /** Division with a known quotient and remainder, for the three lane strides. */
  lemma DivModStride(v: int, q: int, r: int, d: int)
    requires d == 256 || d == 0x1_0000 || d == 0x100_0000
    requires 0 <= r < d && v == q * d + r
    ensures v / d == q && v % d == r
  {
    if d == 256 {
    } else if d == 0x1_0000 {
    } else {
    }
  }

  /** The word whose byte lanes 0..3 are `b0`..`b3`. */
  function Compose(b0: Byte, b1: Byte, b2: Byte, b3: Byte): Word
  {
    b0 + 256 * (b1 + 256 * (b2 + 256 * b3))
  }

  /** The four byte lanes of a word, lane 0 the least significant. */
  function Lanes(v: Word): (r: seq<Byte>)
    ensures |r| == 4
  {
    [v % 256, (v / 256) % 256, (v / 0x1_0000) % 256, v / 0x100_0000]
  }

  lemma LanesOfCompose(b0: Byte, b1: Byte, b2: Byte, b3: Byte)
    ensures Lanes(Compose(b0, b1, b2, b3)) == [b0, b1, b2, b3]
  {
    var v := Compose(b0, b1, b2, b3);
    var x1 := b1 + 256 * (b2 + 256 * b3);
    DivModStride(v, x1, b0, 256);
    var x2 := b2 + 256 * b3;
    assert v == x2 * 0x1_0000 + (b1 * 256 + b0);
    DivModStride(v, x2, b1 * 256 + b0, 0x1_0000);
    DivModStride(x1, x2, b1, 256);
    assert v == b3 * 0x100_0000 + (b2 * 0x1_0000 + b1 * 256 + b0);
    DivModStride(v, b3, b2 * 0x1_0000 + b1 * 256 + b0, 0x100_0000);
    DivModStride(x2, b3, b2, 256);
  }

  lemma ComposeOfLanes(v: Word)
    ensures var l := Lanes(v); Compose(l[0], l[1], l[2], l[3]) == v
  {
    var q1 := v / 256;
    assert v == q1 * 256 + v % 256;
    var q2 := q1 / 256;
    assert q1 == q2 * 256 + q1 % 256;
    assert v / 0x1_0000 == q2 by {
      DivModStride(v, q2, (q1 % 256) * 256 + v % 256, 0x1_0000);
    }
    var q3 := q2 / 256;
    assert q2 == q3 * 256 + q2 % 256;
    assert v / 0x100_0000 == q3 by {
      DivModStride(v, q3, (q2 % 256) * 0x1_0000 + (q1 % 256) * 256 + v % 256, 0x100_0000);
    }
  }

  /** Byte `k` of a word (`uint8(v >> 8k)`). */
  function ByteLane(v: Word, k: nat): Byte
    requires k < 4
  {
    Lanes(v)[k]
  }

  /** `v` with byte lane `k` replaced by `b` and the other lanes kept. */
  function WithByteLane(v: Word, k: nat, b: Byte): Word
    requires k < 4
  {
    var l := Lanes(v)[k := b];
    Compose(l[0], l[1], l[2], l[3])
  }

  /** Replacing a byte lane stores the byte there and keeps the other three lanes. */
  lemma ByteLaneReplace(v: Word, k: nat, b: Byte)
    requires k < 4
    ensures Lanes(WithByteLane(v, k, b)) == Lanes(v)[k := b]
    ensures ByteLane(WithByteLane(v, k, b), k) == b
    ensures forall j :: 0 <= j < 4 && j != k ==> ByteLane(WithByteLane(v, k, b), j) == ByteLane(v, j)
    ensures ByteLane(v, k) == b ==> WithByteLane(v, k, b) == v
  {
    var l := Lanes(v)[k := b];
    LanesOfCompose(l[0], l[1], l[2], l[3]);
    ComposeOfLanes(v);
    if ByteLane(v, k) == b {
      assert l == Lanes(v);
    }
  }

  // ----- 16-bit lanes -----

  /** 16-bit lane `k` of a word: lane 0 is bytes 0..1, lane 1 bytes 2..3. */
  function HalfLane(v: Word, k: nat): Half
    requires k < 2
  {
    var l := Lanes(v);
    l[2 * k] as int + 256 * (l[2 * k + 1] as int)
  }

  function WithHalfLane(v: Word, k: nat, x: Half): Word
    requires k < 2
  {
    var l := Lanes(v)[2 * k := x % 256][2 * k + 1 := x / 256];
    Compose(l[0], l[1], l[2], l[3])
  }

  /** Replacing a 16-bit lane stores the half-word there and keeps the other half. */
  lemma HalfLaneReplace(v: Word, k: nat, x: Half)
    requires k < 2
    ensures HalfLane(WithHalfLane(v, k, x), k) == x
    ensures HalfLane(WithHalfLane(v, k, x), 1 - k) == HalfLane(v, 1 - k)
    ensures HalfLane(v, k) == x ==> WithHalfLane(v, k, x) == v
  {
    var l := Lanes(v)[2 * k := x % 256][2 * k + 1 := x / 256];
    LanesOfCompose(l[0], l[1], l[2], l[3]);
    ComposeOfLanes(v);
    if HalfLane(v, k) == x {
      assert l == Lanes(v);
    }
  }

  // ----- flag bits -----

  /** The low `n` bits of `v`, least significant first. */
  function Bits(v: nat, n: nat): (r: seq<bool>)
    ensures |r| == n
  {
    if n == 0 then [] else [v % 2 == 1] + Bits(v / 2, n - 1)
  }

  /** The number whose bits, least significant first, are `s`. */
  function FromBits(s: seq<bool>): nat
  {
    if s == [] then 0 else (if s[0] then 1 else 0) + 2 * FromBits(s[1..])
  }

  function Pow2(n: nat): (r: nat)
    ensures r >= 1
  {
    if n == 0 then 1 else 2 * Pow2(n - 1)
  }

  lemma {:induction false} FromBitsBound(s: seq<bool>)
    ensures FromBits(s) < Pow2(|s|)
  {
    if s != [] {
      FromBitsBound(s[1..]);
    }
  }

  lemma {:induction false} BitsOfFromBits(s: seq<bool>)
    ensures Bits(FromBits(s), |s|) == s
  {
    if s != [] {
      BitsOfFromBits(s[1..]);
      var v := FromBits(s);
      assert v % 2 == (if s[0] then 1 else 0);
      assert v / 2 == FromBits(s[1..]);
    }
  }

  lemma {:induction false} FromBitsOfBits(v: nat, n: nat)
    requires v < Pow2(n)
    ensures FromBits(Bits(v, n)) == v
  {
    if n != 0 {
      FromBitsOfBits(v / 2, n - 1);
      assert Bits(v, n)[1..] == Bits(v / 2, n - 1);
    }
  }

  lemma Pow2Of32()
    ensures Pow2(32) == TwoTo32
  {
    assert Pow2(8) == 256;
    assert Pow2(16) == 0x1_0000;
    assert Pow2(24) == 0x100_0000;
  }

  function WordBits(v: Word): (r: seq<bool>)
    ensures |r| == 32
  {
    Bits(v, 32)
  }

  function FromWordBits(s: seq<bool>): Word
    requires |s| == 32
  {
    FromBitsBound(s);
    Pow2Of32();
    FromBits(s)
  }

  lemma WordBitsRoundTrip(v: Word)
    ensures FromWordBits(WordBits(v)) == v
  {
    Pow2Of32();
    FromBitsOfBits(v, 32);
  }

  lemma FromWordBitsRoundTrip(s: seq<bool>)
    requires |s| == 32
    ensures WordBits(FromWordBits(s)) == s
  {
    BitsOfFromBits(s);
  }

  /** Equal bit patterns are equal words. */
  lemma WordBitsInjective(a: Word, b: Word)
    requires WordBits(a) == WordBits(b)
    ensures a == b
  {
    WordBitsRoundTrip(a);
    WordBitsRoundTrip(b);
  }

  /** `a | b` */
  function Or(a: Word, b: Word): (r: Word)
    ensures forall i :: 0 <= i < 32 ==> WordBits(r)[i] == (WordBits(a)[i] || WordBits(b)[i])
  {
    var s := seq(32, i requires 0 <= i < 32 => WordBits(a)[i] || WordBits(b)[i]);
    FromWordBitsRoundTrip(s);
    FromWordBits(s)
  }

  /** `a & b` */
  function And(a: Word, b: Word): (r: Word)
    ensures forall i :: 0 <= i < 32 ==> WordBits(r)[i] == (WordBits(a)[i] && WordBits(b)[i])
  {
    var s := seq(32, i requires 0 <= i < 32 => WordBits(a)[i] && WordBits(b)[i]);
    FromWordBitsRoundTrip(s);
    FromWordBits(s)
  }

  /** `a & ~b` */
  function AndNot(a: Word, b: Word): (r: Word)
    ensures forall i :: 0 <= i < 32 ==> WordBits(r)[i] == (WordBits(a)[i] && !WordBits(b)[i])
  {
    var s := seq(32, i requires 0 <= i < 32 => WordBits(a)[i] && !WordBits(b)[i]);
    FromWordBitsRoundTrip(s);
    FromWordBits(s)
  }

  lemma {:induction false} ZeroBits(n: nat)
    ensures forall i :: 0 <= i < n ==> !Bits(0, n)[i]
  {
    if n != 0 {
      ZeroBits(n - 1);
    }
  }

  /** A word is zero exactly when none of its bits is set. */
  lemma ZeroIffNoBits(v: Word)
    ensures v == 0 <==> forall i :: 0 <= i < 32 ==> !WordBits(v)[i]
  {
    ZeroBits(32);
    if forall i :: 0 <= i < 32 ==> !WordBits(v)[i] {
      assert WordBits(v) == WordBits(0);
      WordBitsInjective(v, 0);
    }
  }

  lemma {:induction false} Pow2Bits(k: nat, n: nat)
    requires k < n
    ensures forall i :: 0 <= i < n ==> Bits(Pow2(k), n)[i] == (i == k)
  {
    if k == 0 {
      ZeroBits(n - 1);
      assert Bits(Pow2(0), n) == [true] + Bits(0, n - 1);
    } else {
      Pow2Bits(k - 1, n - 1);
      assert Pow2(k) % 2 == 0 && Pow2(k) / 2 == Pow2(k - 1);
      assert Bits(Pow2(k), n) == [false] + Bits(Pow2(k - 1), n - 1);
    }
  }

  lemma Pow2Monotone(k: nat, n: nat)
    requires k <= n
    ensures Pow2(k) <= Pow2(n)
    decreases n
  {
    if k < n {
      Pow2Monotone(k, n - 1);
    }
  }

  /** The one-bit flag `1 << k`. */
  function Bit(k: nat): (r: Word)
    requires k < 32
    ensures forall i :: 0 <= i < 32 ==> WordBits(r)[i] == (i == k)
  {
    Pow2Monotone(k + 1, 32);
    Pow2Of32();
    Pow2Bits(k, 32);
    Pow2(k)
  }
}

=== FILE: world.dfy ===
/**
 * The world's session registry and admission queue: one session per
 * account, a first-in-first-out wait queue with 1-based positions whose
 * head is promoted when a slot frees, the add queue that new connections
 * are parked in until the next world update, and the reaping of sessions
 * whose update asks to be destroyed.  Sessions are handles; what admission
 * reads from a session is given by `info`, and what each session's own
 * update returns by `alive`.
 */
module World {
  import opened Word32
  import opened SharedDefines

  /** What the registry reads from a session. */
  datatype SessionInfo = SessionInfo(accountId: Word, security: nat, loading: bool)

  /** An auth response addressed to a session (its socket may still drop it). */
  datatype Notice = Notice(session: nat, response: AuthResponse)

  datatype World = World(
    sessions: map<Word, nat>,
    queue: seq<nat>,
    inQueue: set<nat>,
    addQueue: seq<nat>,
    playerLimit: Int32,
    maxActive: Word,
    maxQueued: Word)

  // ----- counts -----

  /** `GetActiveSessionCount`: sessions not waiting in the queue, as `uint32`. */
  function ActiveSessionCount(w: World): Word {
    Wrap(|w.sessions| - |w.queue|)
  }

  /** `GetPlayerAmountLimit`: a negative limit restricts by security level and counts as no limit here. */
  function PlayerAmountLimit(w: World): Word {
    if w.playerLimit >= 0 then w.playerLimit else 0
  }

  predicate Distinct(q: seq<nat>) {
    forall i, j :: 0 <= i < j < |q| ==> q[i] != q[j]
  }

  /**
   * The registry's invariant: the queue holds each session once, the
   * in-queue flag is set exactly on queued sessions, every queued session
   * is registered, and no session is registered under two accounts.
   */
  ghost predicate RegistryConsistent(w: World) {
    Distinct(w.queue)
    && (forall x :: x in w.inQueue <==> x in w.queue)
    && (forall k :: 0 <= k < |w.queue| ==> w.queue[k] in w.sessions.Values)
    && (forall a, b :: a in w.sessions && b in w.sessions && a != b ==> w.sessions[a] != w.sessions[b])
  }

  /** Every session is filed under its own account. */
  predicate Keyed(w: World, info: nat -> SessionInfo) {
    forall a :: a in w.sessions ==> info(w.sessions[a]).accountId == a
  }

  /** A session the registry has not seen. */
  predicate Fresh(w: World, s: nat) {
    s !in w.sessions.Values && s !in w.queue && s !in w.inQueue
  }

  /** Under the invariant, the queued sessions are some of the registered ones, so the active count does not wrap. */
  lemma QueueWithinSessions(w: World)
    requires RegistryConsistent(w)
    ensures |w.queue| <= |w.sessions|
    ensures |w.sessions| < TwoTo32 ==> ActiveSessionCount(w) == |w.sessions| - |w.queue|
  {
    QueueFits(w.queue, w.sessions);
  }

  /** A queue without repeats, drawn from the values of an injective map, is no longer than the map. */
  lemma {:induction false} QueueFits(q: seq<nat>, m: map<Word, nat>)
    requires Distinct(q)
    requires forall k :: 0 <= k < |q| ==> q[k] in m.Values
    requires forall a, b :: a in m && b in m && a != b ==> m[a] != m[b]
    ensures |q| <= |m|
    decreases |q|
  {
    if q != [] {
      assert q[0] in m.Values;
      var a :| a in m && m[a] == q[0];
      var rest := m - {a};
      forall k | 0 <= k < |q[1..]| ensures q[1..][k] in rest.Values {
        var b :| b in m && m[b] == q[k + 1];
        assert b != a;
        assert rest[b] == q[k + 1];
      }
      QueueFits(q[1..], rest);
    }
  }

  // ----- the wait queue -----

  /** `GetQueuedSessionPos`: the 1-based position of the first occurrence, 0 when absent. */
  function QueuedSessionPos(queue: seq<nat>, s: nat): (r: nat)
    ensures r == 0 <==> s !in queue
    ensures r > 0 ==> r <= |queue| && queue[r - 1] == s && s !in queue[..r - 1]
  {
    if queue == [] then 0
    else if queue[0] == s then 1
    else
      var p := QueuedSessionPos(queue[1..], s);
      assert p > 0 ==> queue[1..][..p - 1] == queue[1..p];
      if p == 0 then 0 else p + 1
  }

  /** In a queue without repeats, the session at index k stands at position k + 1. */
  lemma PositionOfDistinct(queue: seq<nat>, k: nat)
    requires Distinct(queue) && k < |queue|
    ensures QueuedSessionPos(queue, queue[k]) == k + 1
  {
    var p := QueuedSessionPos(queue, queue[k]);
    assert queue[p - 1] == queue[k];
  }

  /** The queue with the first occurrence of `s` taken out. */
  function Unqueue(queue: seq<nat>, s: nat): (r: seq<nat>)
    ensures s !in queue ==> r == queue
    ensures s in queue ==>
      (|r| == |queue| - 1 && r == queue[..QueuedSessionPos(queue, s) - 1] + queue[QueuedSessionPos(queue, s)..])
  {
    var p := QueuedSessionPos(queue, s);
    if p == 0 then queue else queue[..p - 1] + queue[p..]
  }

  /** Taking a session out of a queue without repeats leaves every other session, once each. */
  lemma UnqueueDistinct(queue: seq<nat>, s: nat)
    requires Distinct(queue)
    ensures Distinct(Unqueue(queue, s))
    ensures forall x :: x in Unqueue(queue, s) <==> x in queue && x != s
  {
    var p := QueuedSessionPos(queue, s);
    if p > 0 {
      var r := Unqueue(queue, s);
      assert forall k :: 0 <= k < |r| ==> r[k] == (if k < p - 1 then queue[k] else queue[k + 1]);
      forall x ensures x in r <==> x in queue && x != s {
        if x in queue && x != s {
          var k :| 0 <= k < |queue| && queue[k] == x;
          assert k != p - 1;
          if k < p - 1 { assert r[k] == x; } else { assert r[k - 1] == x; }
        }
      }
    }
  }

  /** Dropping the head of a queue without repeats leaves the others, once each. */
  lemma PopDistinct(queue: seq<nat>)
    requires Distinct(queue) && queue != []
    ensures Distinct(queue[1..])
    ensures forall x :: x in queue[1..] <==> x in queue && x != queue[0]
  {
    forall x | x in queue && x != queue[0] ensures x in queue[1..] {
      var k :| 0 <= k < |queue| && queue[k] == x;
      assert queue[1..][k - 1] == x;
    }
  }

  /** `SendAuthWaitQue(k + 1)` to every session from index `start` on: each is told where it now stands. */
  function Renotify(queue: seq<nat>, start: nat): (r: seq<Notice>)
    requires start <= |queue|
    ensures |r| == |queue| - start
    ensures forall i :: 0 <= i < |r| ==>
      r[i] == Notice(queue[start + i], AuthResponse(AUTH_WAIT_QUEUE, [Wrap(start + i + 1)]))
  {
    seq(|queue| - start, i requires 0 <= i < |queue| - start =>
      Notice(queue[start + i], AuthResponse(AUTH_WAIT_QUEUE, [Wrap(start + i + 1)])))
  }

  /** Whether freeing a slot lets the head of the queue in: no limit, or fewer sessions than it (as `int32`). */
  predicate SlotFree(w: World, count: Word) {
    w.playerLimit == 0 || ToInt32(count) < w.playerLimit
  }

  /**
   * `RemoveQueuedSession`: takes the session out of the queue if it is
   * there (clearing its flag) and reports whether it was.  If a slot is
   * then free — no limit, or the active count, less one when the session
   * was not queued, below the limit — the head is promoted with `AUTH_OK`
   * and everyone left is told their new position; otherwise only those
   * behind the removed session are.
   */
  function RemoveQueuedSession(w: World, s: nat): (r: (bool, World, seq<Notice>))
    ensures r.0 <==> s in w.queue
    ensures r.1 == w.(queue := r.1.queue, inQueue := r.1.inQueue)
    ensures var q1 := Unqueue(w.queue, s);
      r.1.queue == q1 || (q1 != [] && r.1.queue == q1[1..] && |r.2| > 0 && r.2[0] == Notice(q1[0], AuthResponse(AUTH_OK, [])))
  {
    var count := ActiveSessionCount(w);
    var pos := QueuedSessionPos(w.queue, s);
    var found := pos > 0;
    var q1 := Unqueue(w.queue, s);
    var in1 := if found then w.inQueue - {s} else w.inQueue;
    var count1 := if !found && count != 0 then count - 1 else count;
    if SlotFree(w, count1) && q1 != [] then
      (found, w.(queue := q1[1..], inQueue := in1 - {q1[0]}),
       [Notice(q1[0], AuthResponse(AUTH_OK, []))] + Renotify(q1[1..], 0))
    else
      (found, w.(queue := q1, inQueue := in1), Renotify(q1, if found then pos - 1 else |q1|))
  }

  /**
   * The head of the queue is promoted exactly when a slot is free and
   * someone is waiting; otherwise only the sessions that stood behind the
   * removed one are told their new positions.
   */
  lemma RemoveQueuedSessionPromotes(w: World, s: nat)
    ensures var r := RemoveQueuedSession(w, s);
      var q1 := Unqueue(w.queue, s);
      var active := ActiveSessionCount(w);
      var count := if s !in w.queue && active != 0 then active - 1 else active;
      (r.1.queue != q1 <==> SlotFree(w, count) && q1 != [])
      && (r.1.queue == q1 ==>
            var start := if s in w.queue then QueuedSessionPos(w.queue, s) - 1 else |q1|;
            |r.2| == |q1| - start && forall i :: 0 <= i < |r.2| ==> r.2[i].session == q1[start + i])
  {
    var q1 := Unqueue(w.queue, s);
    assert q1 != [] ==> q1[1..] != q1;
  }

  /** Removing from the queue keeps the invariant, and the session is no longer queued. */
  lemma RemoveQueuedSessionKeeps(w: World, s: nat)
    requires RegistryConsistent(w)
    ensures var r := RemoveQueuedSession(w, s).1;
      RegistryConsistent(r) && s !in r.queue && forall x :: x in r.queue ==> x in w.queue
  {
    var r := RemoveQueuedSession(w, s).1;
    var q1 := Unqueue(w.queue, s);
    UnqueueDistinct(w.queue, s);
    if r.queue != q1 {
      PopDistinct(q1);
    }
    forall k | 0 <= k < |r.queue| ensures r.queue[k] in r.sessions.Values {
      assert r.queue[k] in w.queue;
    }
  }

  /** Renotifying a queue without repeats tells each session its true position. */
  lemma RenotifyTruthful(q: seq<nat>, start: nat)
    requires Distinct(q) && start <= |q|
    ensures forall i :: 0 <= i < |Renotify(q, start)| ==>
      Renotify(q, start)[i].session in q
      && Renotify(q, start)[i].response.words == [Wrap(QueuedSessionPos(q, Renotify(q, start)[i].session))]
  {
    forall k | start <= k < |q|
      ensures QueuedSessionPos(q, q[k]) == k + 1
    {
      PositionOfDistinct(q, k);
    }
  }

  /** Every `AUTH_WAIT_QUEUE` position that a removal sends is the position the session really holds in the new queue. */
  lemma RemoveQueuedSessionPositions(w: World, s: nat)
    requires Distinct(w.queue)
    ensures var r := RemoveQueuedSession(w, s);
      forall i :: 0 <= i < |r.2| && r.2[i].response.code == AUTH_WAIT_QUEUE ==>
        r.2[i].session in r.1.queue
        && r.2[i].response.words == [Wrap(QueuedSessionPos(r.1.queue, r.2[i].session))]
  {
    var r := RemoveQueuedSession(w, s);
    var q1 := Unqueue(w.queue, s);
    UnqueueDistinct(w.queue, s);
    var q := r.1.queue;
    if q != q1 {
      PopDistinct(q1);
      RenotifyTruthful(q, 0);
      assert r.2 == [Notice(q1[0], AuthResponse(AUTH_OK, []))] + Renotify(q, 0);
    } else {
      var start := if s in w.queue then QueuedSessionPos(w.queue, s) - 1 else |q1|;
      RenotifyTruthful(q, start);
      assert r.2 == Renotify(q, start);
    }
  }

  /** `AddQueuedSession`: joins at the tail, sets the flag, and is told its position and a 0. */
  function AddQueuedSession(w: World, s: nat): (r: (World, Notice))
    ensures r.0 == w.(queue := w.queue + [s], inQueue := w.inQueue + {s})
    ensures s !in w.queue ==> r.1 == Notice(s, AuthResponse(AUTH_WAIT_QUEUE, [Wrap(|w.queue| + 1), 0]))
  {
    var q := w.queue + [s];
    var pos := QueuedSessionPos(q, s);
    assert q[..|w.queue|] == w.queue;
    (w.(queue := q, inQueue := w.inQueue + {s}), Notice(s, AuthResponse(AUTH_WAIT_QUEUE, [Wrap(pos), 0])))
  }

  /** `UpdateMaxSessionCounters`: the high-water marks only rise, to cover the current counts. */
  function UpdateMaxSessionCounters(w: World): (r: World)
    ensures r == w.(maxActive := r.maxActive, maxQueued := r.maxQueued)
    ensures r.maxActive >= w.maxActive && r.maxActive >= ActiveSessionCount(w)
    ensures r.maxActive == w.maxActive || r.maxActive == ActiveSessionCount(w)
    ensures r.maxQueued >= w.maxQueued && r.maxQueued >= Wrap(|w.queue|)
    ensures r.maxQueued == w.maxQueued || r.maxQueued == Wrap(|w.queue|)
  {
    var active := ActiveSessionCount(w);
    var queued := Wrap(|w.queue|);
    w.(maxActive := if w.maxActive >= active then w.maxActive else active,
       maxQueued := if w.maxQueued >= queued then w.maxQueued else queued)
  }

  // ----- admission -----

  /**
   * `RemoveSession`: refuses (false) when the account's session is loading
   * a player; otherwise kicks that session, if any, and agrees.
   */
  function RemoveSession(w: World, info: nat -> SessionInfo, id: Word): (r: (bool, seq<nat>))
    ensures !r.0 <==> id in w.sessions && info(w.sessions[id]).loading
    ensures r.1 == (if id in w.sessions && !info(w.sessions[id]).loading then [w.sessions[id]] else [])
  {
    if id in w.sessions then
      if info(w.sessions[id]).loading then (false, []) else (true, [w.sessions[id]])
    else (true, [])
  }

  /** `AddSession`: the connection is parked at the back of the add queue. */
  function AddSession(w: World, s: nat): (r: World)
    ensures r.addQueue == w.addQueue + [s]
    ensures r.(addQueue := w.addQueue) == w
  {
    w.(addQueue := w.addQueue + [s])
  }

  datatype Admission = Admission(world: World, notices: seq<Notice>, kicked: seq<nat>)

  /** Whether `AddSession_` queues a session: a positive amount limit reached by an ordinary player. */
  predicate MustQueue(w: World, info: nat -> SessionInfo, s: nat, count: Word) {
    PlayerAmountLimit(w) > 0 && count >= PlayerAmountLimit(w) && info(s).security == SEC_PLAYER
  }

  /**
   * `AddSession_`: when the account's session is loading a player, the
   * newcomer is kicked and dropped and nothing else changes.  Otherwise
   * the old session (kicked) leaves the queue, the newcomer takes the
   * account's slot, and it is queued when an ordinary player meets a
   * positive limit — the count leaving itself out unless the old session
   * was queued — or else told `AUTH_OK`.
   */
  function AddSessionNow(w: World, info: nat -> SessionInfo, s: nat): (r: Admission)
    ensures var acc := info(s).accountId;
      acc in w.sessions && info(w.sessions[acc]).loading ==> r == Admission(w, [], [s])
    ensures var acc := info(s).accountId;
      !(acc in w.sessions && info(w.sessions[acc]).loading) ==>
        r.world.sessions == w.sessions[acc := s]
        && r.kicked == (if acc in w.sessions then [w.sessions[acc]] else [])
        && |r.notices| >= 1 && r.notices[|r.notices| - 1].session == s
    ensures r.world.playerLimit == w.playerLimit && r.world.addQueue == w.addQueue
    ensures r.world.maxActive >= w.maxActive && r.world.maxQueued >= w.maxQueued
  {
    var acc := info(s).accountId;
    var removed := RemoveSession(w, info, acc);
    if !removed.0 then Admission(w, [], [s])
    else
      var first := if acc in w.sessions then RemoveQueuedSession(w, w.sessions[acc]) else (false, w, []);
      var w2 := first.1.(sessions := first.1.sessions[acc := s]);
      var count := if first.0 then Wrap(|w2.sessions|) else Wrap(|w2.sessions| - 1);
      if MustQueue(w2, info, s, count) then
        var queued := AddQueuedSession(w2, s);
        Admission(UpdateMaxSessionCounters(queued.0), first.2 + [queued.1], removed.1)
      else
        Admission(UpdateMaxSessionCounters(w2), first.2 + [Notice(s, AuthResponse(AUTH_OK, [0]))], removed.1)
  }

  /** `AddSession_` of a session the registry has not seen keeps the invariant and the filing by account. */
  lemma AddSessionKeeps(w: World, info: nat -> SessionInfo, s: nat)
    ensures RegistryConsistent(w) && Fresh(w, s) ==> RegistryConsistent(AddSessionNow(w, info, s).world)
    ensures Keyed(w, info) ==> Keyed(AddSessionNow(w, info, s).world, info)
  {
    var acc := info(s).accountId;
    if !(acc in w.sessions && info(w.sessions[acc]).loading) {
      var w1 := if acc in w.sessions then RemoveQueuedSession(w, w.sessions[acc]).1 else w;
      var w2 := w1.(sessions := w1.sessions[acc := s]);
      AddedSteps(w, info, s);
      AddedKeeps(w, info, s, w1, w2, AddSessionNow(w, info, s).world);
    }
  }

  /** What a successful `AddSession_` does to the queue and the registry: the old session out, the newcomer in, perhaps queued. */
  lemma AddedSteps(w: World, info: nat -> SessionInfo, s: nat)
    requires var acc := info(s).accountId;
      !(acc in w.sessions && info(w.sessions[acc]).loading)
    ensures var acc := info(s).accountId;
      var w1 := if acc in w.sessions then RemoveQueuedSession(w, w.sessions[acc]).1 else w;
      var r := AddSessionNow(w, info, s).world;
      r.sessions == w1.sessions[acc := s]
      && ((r.queue == w1.queue && r.inQueue == w1.inQueue)
          || (r.queue == w1.queue + [s] && r.inQueue == w1.inQueue + {s}))
  {
  }

  /** The invariant through the three steps of a successful `AddSession_`. */
  lemma AddedKeeps(w: World, info: nat -> SessionInfo, s: nat, w1: World, w2: World, w3: World)
    requires var acc := info(s).accountId;
      w1 == (if acc in w.sessions then RemoveQueuedSession(w, w.sessions[acc]).1 else w)
      && w2 == w1.(sessions := w1.sessions[acc := s])
      && w3.sessions == w2.sessions
      && ((w3.queue == w2.queue && w3.inQueue == w2.inQueue)
          || (w3.queue == w2.queue + [s] && w3.inQueue == w2.inQueue + {s}))
    ensures RegistryConsistent(w) && Fresh(w, s) ==> RegistryConsistent(w3)
    ensures Keyed(w, info) ==> Keyed(w3, info)
  {
    var acc := info(s).accountId;
    if RegistryConsistent(w) && Fresh(w, s) {
      if acc in w.sessions {
        RemoveQueuedSessionKeeps(w, w.sessions[acc]);
      }
      assert RegistryConsistent(w1);
      assert w1.sessions == w.sessions;
      forall k | 0 <= k < |w2.queue| ensures w2.queue[k] in w2.sessions.Values {
        var x := w2.queue[k];
        assert x in w1.queue;
        var a :| a in w1.sessions && w1.sessions[a] == x;
        assert a != acc;
        assert w2.sessions[a] == x;
      }
      forall a, b | a in w2.sessions && b in w2.sessions && a != b ensures w2.sessions[a] != w2.sessions[b] {
        if a == acc {
          assert w2.sessions[a] == s;
          assert w2.sessions[b] == w.sessions[b];
        } else if b == acc {
          assert w2.sessions[b] == s;
          assert w2.sessions[a] == w.sessions[a];
        }
      }
      assert RegistryConsistent(w2);
      if w3 != w2 {
        assert s !in w2.queue;
        assert s == w3.sessions[acc];
        assert forall k :: 0 <= k < |w2.queue| ==> w3.queue[k] == w2.queue[k];
      }
    }
  }

  // ----- the world update's session pass -----

  /** The add-queue loop, for any admission step: every parked session is admitted, in order. */
  function AdmitEach(w: World, pending: seq<nat>, step: (World, nat) -> Admission): Admission
    decreases |pending|
  {
    if pending == [] then Admission(w, [], [])
    else
      var first := step(w, pending[0]);
      var rest := AdmitEach(first.world, pending[1..], step);
      Admission(rest.world, first.notices + rest.notices, first.kicked + rest.kicked)
  }

  /** Admitting a non-empty batch is one step followed by the rest. */
  lemma AdmitEachCons(w: World, pending: seq<nat>, step: (World, nat) -> Admission)
    requires pending != []
    ensures var f := step(w, pending[0]);
      var r := AdmitEach(f.world, pending[1..], step);
      AdmitEach(w, pending, step) == Admission(r.world, f.notices + r.notices, f.kicked + r.kicked)
  {
  }

  /** Prefixing one step's output onto a joined admission joins its output onto the first part. */
  lemma PrefixJoined(f: Admission, a: Admission, b: Admission)
    ensures Admission(b.world, f.notices + (a.notices + b.notices), f.kicked + (a.kicked + b.kicked))
      == Admission(b.world, (f.notices + a.notices) + b.notices, (f.kicked + a.kicked) + b.kicked)
  {
  }

  /** Admitting two batches in turn is admitting their concatenation. */
  lemma {:induction false} AdmitEachAppend(w: World, p1: seq<nat>, p2: seq<nat>, step: (World, nat) -> Admission)
    ensures var a := AdmitEach(w, p1, step);
      var b := AdmitEach(a.world, p2, step);
      AdmitEach(w, p1 + p2, step) == Admission(b.world, a.notices + b.notices, a.kicked + b.kicked)
    decreases |p1|
  {
    if p1 == [] {
      assert p1 + p2 == p2;
    } else {
      var f := step(w, p1[0]);
      var a := AdmitEach(f.world, p1[1..], step);
      var b := AdmitEach(a.world, p2, step);
      assert (p1 + p2)[0] == p1[0] && (p1 + p2)[1..] == p1[1..] + p2;
      AdmitEachCons(w, p1 + p2, step);
      AdmitEachCons(w, p1, step);
      AdmitEachAppend(f.world, p1[1..], p2, step);
      PrefixJoined(f, a, b);
    }
  }

  /** One admission of `UpdateSessions`, as a step. */
  function AdmitStep(info: nat -> SessionInfo): (World, nat) -> Admission {
    (x: World, s: nat) => AddSessionNow(x, info, s)
  }

  /** The add-queue loop of `UpdateSessions`. */
  function AdmitAll(w: World, info: nat -> SessionInfo, pending: seq<nat>): (r: Admission)
    ensures r.world.playerLimit == w.playerLimit && r.world.addQueue == w.addQueue
    ensures r.world.maxActive >= w.maxActive && r.world.maxQueued >= w.maxQueued
  {
    AdmitAllLimits(w, info, pending);
    AdmitEach(w, pending, AdmitStep(info))
  }

  /** The loop leaves the limits and the add queue alone and only raises the counters. */
  lemma {:induction false} AdmitAllLimits(w: World, info: nat -> SessionInfo, pending: seq<nat>)
    ensures var r := AdmitEach(w, pending, AdmitStep(info));
      r.world.playerLimit == w.playerLimit && r.world.addQueue == w.addQueue
      && r.world.maxActive >= w.maxActive && r.world.maxQueued >= w.maxQueued
    decreases |pending|
  {
    if pending != [] {
      var f := AddSessionNow(w, info, pending[0]);
      AdmitAllLimits(f.world, info, pending[1..]);
    }
  }

  /** The first parked session is admitted first, into the registry as it stands. */
  lemma AdmitAllFirst(w: World, info: nat -> SessionInfo, pending: seq<nat>)
    requires pending != []
    ensures var f := AddSessionNow(w, info, pending[0]);
      var a := AdmitAll(f.world, info, pending[1..]);
      AdmitAll(w, info, pending) == Admission(a.world, f.notices + a.notices, f.kicked + a.kicked)
  {
  }

  /** Sessions parked in order are admitted in order: admitting two batches is admitting their concatenation. */
  lemma AdmitAllAppend(w: World, info: nat -> SessionInfo, p1: seq<nat>, p2: seq<nat>)
    ensures var a := AdmitAll(w, info, p1);
      var b := AdmitAll(a.world, info, p2);
      AdmitAll(w, info, p1 + p2) == Admission(b.world, a.notices + b.notices, a.kicked + b.kicked)
  {
    AdmitEachAppend(w, p1, p2, AdmitStep(info));
  }

  /** Sessions no registry has seen, none twice. */
  predicate FreshAll(w: World, pending: seq<nat>) {
    Distinct(pending) && forall k :: 0 <= k < |pending| ==> Fresh(w, pending[k])
  }

  /** Admitting fresh sessions keeps the invariant. */
  lemma {:induction false} AdmitAllKeeps(w: World, info: nat -> SessionInfo, pending: seq<nat>)
    requires RegistryConsistent(w) && FreshAll(w, pending)
    ensures RegistryConsistent(AdmitAll(w, info, pending).world)
    decreases |pending|
  {
    if pending != [] {
      var w1 := AddSessionNow(w, info, pending[0]).world;
      assert Fresh(w, pending[0]);
      forall k | 0 <= k < |pending[1..]| ensures Fresh(w1, pending[1..][k]) {
        var x := pending[1..][k];
        assert x == pending[k + 1] && x != pending[0];
        assert Fresh(w, x);
        AdmittedFrom(w, info, pending[0], x);
      }
      AddSessionKeeps(w, info, pending[0]);
      AdmitAllKeeps(w1, info, pending[1..]);
      AdmitAllFirst(w, info, pending);
    }
  }

  /** Admission files every session under its own account. */
  lemma {:induction false} AdmitAllKeyed(w: World, info: nat -> SessionInfo, pending: seq<nat>)
    requires Keyed(w, info)
    ensures Keyed(AdmitAll(w, info, pending).world, info)
    decreases |pending|
  {
    if pending != [] {
      AddSessionKeeps(w, info, pending[0]);
      AdmitAllKeyed(AddSessionNow(w, info, pending[0]).world, info, pending[1..]);
      AdmitAllFirst(w, info, pending);
    }
  }

  /** After `AddSession_` of `s`, a session the registry had not seen and that is not `s` is still unseen. */
  lemma AdmittedFrom(w: World, info: nat -> SessionInfo, s: nat, x: nat)
    requires RegistryConsistent(w) && Fresh(w, x) && x != s
    ensures Fresh(AddSessionNow(w, info, s).world, x)
  {
    var acc := info(s).accountId;
    var r := AddSessionNow(w, info, s).world;
    if !(acc in w.sessions && info(w.sessions[acc]).loading) {
      if acc in w.sessions {
        RemoveQueuedSessionKeeps(w, w.sessions[acc]);
      }
      assert x !in r.sessions.Values;
    }
  }

  /**
   * The reaping loop of `UpdateSessions`, over the registry in its
   * iteration order: a session whose update returned false leaves the queue
   * (which may promote the head) and the registry.
   */
  function Reap(w: World, alive: nat -> bool, order: seq<Word>): (r: (World, seq<Notice>))
    ensures r.0.playerLimit == w.playerLimit && r.0.addQueue == w.addQueue
    ensures r.0.maxActive == w.maxActive && r.0.maxQueued == w.maxQueued
    ensures forall a :: a in r.0.sessions <==> a in w.sessions && (a !in order || alive(w.sessions[a]))
    ensures forall a :: a in r.0.sessions ==> r.0.sessions[a] == w.sessions[a]
    decreases |order|
  {
    if order == [] then (w, [])
    else
      var a := order[0];
      if a in w.sessions && !alive(w.sessions[a]) then
        var removed := RemoveQueuedSession(w, w.sessions[a]);
        var rest := Reap(removed.1.(sessions := removed.1.sessions - {a}), alive, order[1..]);
        (rest.0, removed.2 + rest.1)
      else
        var rest := Reap(w, alive, order[1..]);
        (rest.0, rest.1)
  }

  /** Reaping keeps the invariant. */
  lemma {:induction false} ReapKeeps(w: World, alive: nat -> bool, order: seq<Word>)
    requires RegistryConsistent(w)
    ensures RegistryConsistent(Reap(w, alive, order).0)
    decreases |order|
  {
    if order != [] {
      var a := order[0];
      if a in w.sessions && !alive(w.sessions[a]) {
        var v := w.sessions[a];
        RemoveQueuedSessionKeeps(w, v);
        var w1 := RemoveQueuedSession(w, v).1;
        var w2 := w1.(sessions := w1.sessions - {a});
        forall k | 0 <= k < |w2.queue| ensures w2.queue[k] in w2.sessions.Values {
          var x := w2.queue[k];
          var b :| b in w1.sessions && w1.sessions[b] == x;
          assert b != a;
          assert w2.sessions[b] == x;
        }
        assert RegistryConsistent(w2);
        ReapKeeps(w2, alive, order[1..]);
      } else {
        ReapKeeps(w, alive, order[1..]);
      }
    }
  }

  /** `UpdateSessions`' result: the registry after, what was sent, and who was kicked. */
  datatype SessionPass = SessionPass(world: World, admitted: World, notices: seq<Notice>, kicked: seq<nat>)

  /**
   * `UpdateSessions`: admit the parked sessions in order and empty the add
   * queue, then visit every registered session once and drop exactly those
   * whose update returned false.  The high-water marks never fall.
   */
  function UpdateSessions(w: World, info: nat -> SessionInfo, alive: nat -> bool, order: seq<Word>): (r: SessionPass)
    requires forall a :: a in AdmitAll(w, info, w.addQueue).world.sessions <==> a in order
    ensures r.admitted == AdmitAll(w, info, w.addQueue).world.(addQueue := [])
    ensures r.world.addQueue == []
    ensures forall a :: a in r.world.sessions <==> a in r.admitted.sessions && alive(r.admitted.sessions[a])
    ensures forall a :: a in r.world.sessions ==> r.world.sessions[a] == r.admitted.sessions[a]
    ensures r.world.maxActive >= w.maxActive && r.world.maxQueued >= w.maxQueued
    ensures RegistryConsistent(w) && FreshAll(w, w.addQueue) ==>
      RegistryConsistent(r.world) && forall k :: 0 <= k < |r.world.queue| ==> alive(r.world.queue[k])
  {
    var admission := AdmitAll(w, info, w.addQueue);
    var admitted := admission.world.(addQueue := []);
    var reaped := Reap(admitted, alive, order);
    SessionPassKeeps(w, info, alive, order);
    SessionPass(reaped.0, admitted, admission.notices + reaped.1, admission.kicked)
  }

  /** The invariant through a whole session pass, and only live sessions left waiting. */
  lemma SessionPassKeeps(w: World, info: nat -> SessionInfo, alive: nat -> bool, order: seq<Word>)
    requires forall a :: a in AdmitAll(w, info, w.addQueue).world.sessions ==> a in order
    ensures var admitted := AdmitAll(w, info, w.addQueue).world.(addQueue := []);
      var reaped := Reap(admitted, alive, order).0;
      RegistryConsistent(w) && FreshAll(w, w.addQueue) ==>
        RegistryConsistent(reaped) && forall k :: 0 <= k < |reaped.queue| ==> alive(reaped.queue[k])
  {
    var admitted := AdmitAll(w, info, w.addQueue).world.(addQueue := []);
    if RegistryConsistent(w) && FreshAll(w, w.addQueue) {
      AdmitAllKeeps(w, info, w.addQueue);
      assert RegistryConsistent(admitted);
      ReapKeeps(admitted, alive, order);
      ReapedAlive(admitted, alive, order);
    }
  }

  /** When every key is visited, the registry keeps only live sessions, and so does a queue drawn from it. */
  lemma ReapedAlive(w: World, alive: nat -> bool, order: seq<Word>)
    requires forall a :: a in w.sessions ==> a in order
    requires RegistryConsistent(Reap(w, alive, order).0)
    ensures var r := Reap(w, alive, order).0;
      forall k :: 0 <= k < |r.queue| ==> alive(r.queue[k])
  {
    var r := Reap(w, alive, order).0;
    forall k | 0 <= k < |r.queue| ensures alive(r.queue[k]) {
      var x := r.queue[k];
      assert x in r.sessions.Values;
      var a :| a in r.sessions && r.sessions[a] == x;
    }
  }
}

=== FILE: world_config.dfy ===
/**
 * The integer option loaders of the world server's configuration pass, the
 * reload guard for options that may not change while running, the data
 * directory normalisation, and the player limit setter.
 *
 * The integer a config line holds is read by `std::stoi`, which this model
 * does not reproduce: each loader takes the `int32` that reading produced
 * (the default, as an `int32`, when the option is absent).
 */
module WorldConfig {
  import opened Word32
  import opened SharedDefines
  import opened Config

  // ----- integer options -----

  /** The value a `uint32` option holds once loaded: what the file gave, or the default when that is negative. */
  function LoadUInt(read: Int32, dflt: Word): (r: Word)
    ensures read >= 0 ==> r == read
    ensures read < 0 ==> r == dflt
  {
    var stored := FromInt32(read);
    if ToInt32(stored) < 0 then dflt else stored
  }

  /**
   * An absent option readings as its default passed through `int32`; the
   * loader hands back exactly the default, even one of 2^31 or more whose
   * `int32` reading is negative.
   */
  lemma AbsentUIntIsDefault(dflt: Word)
    ensures LoadUInt(ToInt32(dflt), dflt) == dflt
  {
  }

  /** Pulls a value into `[lo, hi]`: below `lo` gives `lo`, otherwise above `hi` gives `hi`. */
  function Clamp(v: int, lo: int, hi: int): (r: int)
    ensures r == v || r == lo || r == hi
  {
    if v < lo then lo else if v > hi then hi else v
  }

  /** `setConfigMin` for a `uint32` option: the loaded value, raised to the minimum. */
  function LoadUIntMin(read: Int32, dflt: Word, min: Word): (r: Word)
    ensures r >= min
    ensures LoadUInt(read, dflt) >= min ==> r == LoadUInt(read, dflt)
    ensures LoadUInt(read, dflt) < min ==> r == min
  {
    var v := LoadUInt(read, dflt);
    if v < min then min else v
  }

  /** `setConfigMinMax` for a `uint32` option: the loaded value, clamped. */
  function LoadUIntMinMax(read: Int32, dflt: Word, min: Word, max: Word): (r: Word)
    ensures var v := LoadUInt(read, dflt);
      (v < min ==> r == min) && (min <= v <= max ==> r == v) && (v >= min && v > max ==> r == max)
  {
    Clamp(LoadUInt(read, dflt), min, max)
  }

  /** `setConfigMin` for an `int32` option: the value read, raised to the minimum. */
  function LoadIntMin(read: Int32, min: Int32): (r: Int32)
    ensures r >= min
    ensures read >= min ==> r == read
  {
    if read < min then min else read
  }

  /** `setConfigMinMax` for an `int32` option: the value read, clamped. */
  function LoadIntMinMax(read: Int32, min: Int32, max: Int32): (r: Int32)
    ensures (read < min ==> r == min) && (min <= read <= max ==> r == read) && (read >= min && read > max ==> r == max)
  {
    Clamp(read, min, max)
  }

  /**
   * With a sensible range the clamped loaders always land inside it, and a
   * value already inside is left alone: loading is a projection onto the
   * range.
   */
  lemma MinMaxInRange(read: Int32, dflt: Word, umin: Word, umax: Word, min: Int32, max: Int32)
    ensures umin <= umax ==>
      var r := LoadUIntMinMax(read, dflt, umin, umax);
      umin <= r <= umax && Clamp(r, umin, umax) == r
    ensures min <= max ==>
      var r := LoadIntMinMax(read, min, max);
      min <= r <= max && LoadIntMinMax(r, min, max) == r
  {
  }

  /**
   * A range whose minimum exceeds its maximum lets nothing in between: the
   * loader answers the minimum for small values and the maximum otherwise.
   */
  lemma InvertedRange(read: Int32, min: Int32, max: Int32)
    requires max < min
    ensures LoadIntMinMax(read, min, max) == (if read < min then min else max)
  {
  }

  // ----- options that a reload may not change -----

  /** `configNoReload`: whether the option may be (re)loaded now — only on the first load. */
  predicate ConfigNoReload(reload: bool) {
    !reload
  }

  /**
   * A guarded `uint32` option: loaded on the first pass, and on a reload
   * kept at its current value whatever the file now says.
   */
  function LoadGuardedUInt(reload: bool, current: Word, read: Int32, dflt: Word): (r: Word)
    ensures reload ==> r == current
    ensures !reload ==> (read >= 0 ==> r == read) && (read < 0 ==> r == dflt)
  {
    if ConfigNoReload(reload) then LoadUInt(read, dflt) else current
  }

  /** Reloading never moves a guarded option, however often it happens. */
  lemma {:induction false} GuardedStable(current: Word, readings: seq<Int32>, dflt: Word)
    ensures GuardedAfter(current, readings, dflt) == current
    decreases |readings|
  {
    if readings != [] {
      GuardedStable(current, readings[1..], dflt);
    }
  }

  /** A guarded option's value after a run of reloads that read `readings`. */
  function GuardedAfter(current: Word, readings: seq<Int32>, dflt: Word): Word
    decreases |readings|
  {
    if readings == [] then current
    else GuardedAfter(LoadGuardedUInt(true, current, readings[0], dflt), readings[1..], dflt)
  }

  // ----- the data directory -----

  predicate IsSeparator(c: char) {
    c == '/' || c == '\\'
  }

  /**
   * The data directory path in `path/` or `path\` form: an empty setting
   * means the current directory, and a separator is appended when the path
   * does not already end in one.
   */
  function NormalizeDataDir(path: string): (r: string)
    ensures r != [] && IsSeparator(r[|r| - 1])
    ensures path == [] ==> r == "./"
    ensures path != [] ==> |path| <= |r| <= |path| + 1 && r[..|path|] == path
  {
    if path == [] then "./"
    else if IsSeparator(path[|path| - 1]) then path
    else path + "/"
  }

  /** Normalising a normalised path changes nothing, and a path already in form is kept as it is. */
  lemma NormalizeDataDirIdempotent(path: string)
    ensures NormalizeDataDir(NormalizeDataDir(path)) == NormalizeDataDir(path)
    ensures path != [] && IsSeparator(path[|path| - 1]) ==> NormalizeDataDir(path) == path
  {
  }

  /**
   * The data directory after a configuration pass: read (default "./") and
   * normalised on the first load; on a reload the current one stays.
   */
  function DataDir(c: Config, reload: bool, current: string): (r: string)
    ensures reload ==> r == current
    ensures !reload && !IsSet(c, "DataDir") ==> r == "./"
    ensures !reload ==> r != [] && IsSeparator(r[|r| - 1])
  {
    if reload then current else NormalizeDataDir(GetStringDefault(c, "DataDir", "./"))
  }

  // ----- the player limit -----

  /**
   * `SetPlayerLimit`: stores the limit, raised to at least
   * `-SEC_ADMINISTRATOR`, and says whether the realm list row must be
   * rewritten — when asked to, when the limit changes between a security
   * floor (negative) and a player count (not negative), or when one
   * security floor replaces another.
   */
  function SetPlayerLimit(current: Int32, limit: Int32, needUpdate: bool): (r: (Int32, bool))
    ensures r.0 >= -(SEC_ADMINISTRATOR as int)
    ensures limit >= -(SEC_ADMINISTRATOR as int) ==> r.0 == limit
    ensures limit < -(SEC_ADMINISTRATOR as int) ==> r.0 == -(SEC_ADMINISTRATOR as int)
  {
    var stored := if limit < -(SEC_ADMINISTRATOR as int) then -(SEC_ADMINISTRATOR as int) else limit;
    var dbUpdate := needUpdate || (stored < 0) != (current < 0) || (stored < 0 && current < 0 && stored != current);
    (stored, dbUpdate)
  }

  /**
   * The realm list row is rewritten only when it would otherwise go stale
   * or was asked for: setting the same limit again without asking rewrites
   * nothing, an unrequested rewrite needs a negative limit that changed,
   * and a second call stores what the first stored.
   */
  lemma SetPlayerLimitSettles(current: Int32, limit: Int32, needUpdate: bool)
    ensures var (stored, db) := SetPlayerLimit(current, limit, needUpdate);
      (!needUpdate && stored == current ==> !db)
      && (!needUpdate && db ==> (stored < 0 || current < 0) && stored != current)
      && SetPlayerLimit(stored, limit, false) == (stored, false)
  {
  }
}

=== FILE: world_session.dfy ===
/**
 * One client's session in the world server: its receive queue and the
 * status gate every queued packet passes, the packet filters that decide
 * whether the world update or a map update may log the session out, and
 * the logout bookkeeping.  The handlers a packet runs are an input (`exec`),
 * as is the clock.
 */
module WorldSessions {
  import opened Wrappers
  import opened Word32
  import opened Packet
  import opened Opcodes
  import opened SharedDefines

  /** The cooldown, in seconds, between a logout request and the logout. */
  const LOGOUT_DELAY: int := 20

  /** `_player`: no player, or one that is or is not in the world. */
  datatype PlayerSlot = NoPlayer | Attached(player: nat, inWorld: bool)

  datatype Session = Session(
    accountId: Word,
    security: nat,
    player: PlayerSlot,
    socketClosed: bool,
    logoutTime: int,
    inQueue: bool,
    loading: bool,
    logout: bool,
    recentlyLogout: bool,
    save: bool,
    recvQueue: seq<WorldPacket>)

  /** The constructor: no player, nothing queued, every flag clear, on an open socket. */
  function NewSession(accountId: Word, security: nat): (r: Session)
    ensures r.accountId == accountId && r.security == security
    ensures r.player == NoPlayer && !r.socketClosed && r.recvQueue == []
    ensures !IsLoggingOut(r) && !r.inQueue && !r.loading && !r.recentlyLogout && !r.save
  {
    Session(accountId, security, NoPlayer, false, 0, false, false, false, false, false, [])
  }

  // ----- logout cooldown -----

  /** `isLogingOut`: a logout has been requested or is under way. */
  predicate IsLoggingOut(s: Session) {
    s.logoutTime != 0 || s.logout
  }

  /** `LogoutRequest`: records the request time; 0 cancels. */
  function LogoutRequest(s: Session, requestTime: int): (r: Session)
    ensures r.logoutTime == requestTime
    ensures r.(logoutTime := s.logoutTime) == s
  {
    s.(logoutTime := requestTime)
  }

  /** `ShouldLogOut`: a request is pending and its cooldown has run out. */
  predicate ShouldLogOut(s: Session, currTime: int) {
    s.logoutTime > 0 && currTime >= s.logoutTime + LOGOUT_DELAY
  }

  /**
   * A request at a positive time makes the session log out from
   * `LOGOUT_DELAY` seconds later on, and never before; a request at time 0
   * cancels, and no later time makes it log out.
   */
  lemma LogoutCooldown(s: Session, requestTime: int, currTime: int)
    ensures requestTime > 0 ==>
      (ShouldLogOut(LogoutRequest(s, requestTime), currTime) <==> currTime >= requestTime + LOGOUT_DELAY)
    ensures !ShouldLogOut(LogoutRequest(s, 0), currTime)
    ensures requestTime != 0 ==> IsLoggingOut(LogoutRequest(s, requestTime))
  {
  }

  // ----- packet filters -----

  /** The three filters: the base class, the map-update filter and the world-update filter. */
  datatype Filter = PacketFilter | MapSessionFilter | WorldSessionFilter

  /** `ProcessLogout`: only the map-update filter forbids logging out. */
  predicate ProcessLogout(f: Filter) {
    !f.MapSessionFilter?
  }

  /** `MapSessionFilterHelper`: not thread-unsafe, and a player present and in the world. */
  predicate MapSafe(s: Session, h: OpcodeHandler) {
    h.processing != ProcessThreadUnsafe && s.player.Attached? && s.player.inWorld
  }

  /** `Process`: in-place opcodes pass every filter; otherwise the two derived filters split the rest. */
  function Process(f: Filter, s: Session, table: OpcodeMap, p: WorldPacket): (r: bool)
    ensures f.PacketFilter? ==> r
    ensures Handle(table, p.opcode).processing == ProcessInPlace ==> r
  {
    var h := Handle(table, p.opcode);
    match f
    case PacketFilter => true
    case MapSessionFilter => h.processing == ProcessInPlace || MapSafe(s, h)
    case WorldSessionFilter => h.processing == ProcessInPlace || !MapSafe(s, h)
  }

  /**
   * Every packet that is not handled in place passes exactly one of the two
   * derived filters, and the map-update filter takes it exactly when it is
   * thread-safe-or-better and the player is present and in the world.
   */
  lemma FiltersPartition(s: Session, table: OpcodeMap, p: WorldPacket)
    ensures var h := Handle(table, p.opcode);
      h.processing != ProcessInPlace ==>
        (Process(MapSessionFilter, s, table, p) != Process(WorldSessionFilter, s, table, p))
        && (Process(MapSessionFilter, s, table, p) <==>
              h.processing == ProcessThreadSafe && s.player.Attached? && s.player.inWorld)
    ensures Process(MapSessionFilter, s, table, p) || Process(WorldSessionFilter, s, table, p)
  {
  }

  // ----- receive queue -----

  /** `QueuePacket`: appends at the back and leaves the rest of the session alone. */
  function QueuePacket(s: Session, p: WorldPacket): (r: Session)
    ensures |r.recvQueue| == |s.recvQueue| + 1 && r.recvQueue[|s.recvQueue|] == p
    ensures r.recvQueue[..|s.recvQueue|] == s.recvQueue
    ensures r.(recvQueue := s.recvQueue) == s
  {
    s.(recvQueue := s.recvQueue + [p])
  }

  /**
   * The status gate of `Update` for one packet: the session to run its
   * handler on, or nothing when the packet is dropped.  An `AUTHED` packet
   * on a session that has passed the queue first clears the
   * recently-logged-out mark.
   */
  function Admit(s: Session, status: SessionStatus): (r: Option<Session>)
    ensures r.Some? && status != StatusAuthed ==> r.value == s
    ensures r.Some? && status == StatusAuthed ==> r.value == s.(recentlyLogout := false)
  {
    match status
    case StatusLoggedIn => if s.player.Attached? && s.player.inWorld then Some(s) else None
    case StatusLoggedInOrRecentlyLoggedOut => if !s.player.Attached? && !s.recentlyLogout then None else Some(s)
    case StatusTransfer => if !s.player.Attached? || s.player.inWorld then None else Some(s)
    case StatusAuthed => if s.inQueue then None else Some(s.(recentlyLogout := false))
    case StatusNever => None
    case StatusUnhandled => None
  }

  /**
   * What each status lets through: `LOGGEDIN` a player in the world,
   * `TRANSFER` a player out of it, `LOGGEDIN_OR_RECENTLY_LOGGEDOUT` a player
   * or a recent logout, `AUTHED` a session out of the queue; `NEVER` and
   * `UNHANDLED` nothing.  So no session state admits both a `LOGGEDIN` and a
   * `TRANSFER` packet.
   */
  lemma AdmitByStatus(s: Session)
    ensures Admit(s, StatusLoggedIn).Some? <==> s.player.Attached? && s.player.inWorld
    ensures Admit(s, StatusTransfer).Some? <==> s.player.Attached? && !s.player.inWorld
    ensures Admit(s, StatusLoggedInOrRecentlyLoggedOut).Some? <==> s.player.Attached? || s.recentlyLogout
    ensures Admit(s, StatusAuthed).Some? <==> !s.inQueue
    ensures Admit(s, StatusNever).None? && Admit(s, StatusUnhandled).None?
    ensures !(Admit(s, StatusLoggedIn).Some? && Admit(s, StatusTransfer).Some?)
  {
  }

  /** What `Update` did with one packet taken from the queue. */
  datatype Dispatch = Executed(opcode: nat) | Dropped(opcode: nat)

  /**
   * The packet loop of `Update`: while the socket is open and packets are
   * queued, take the front one and either run its handler or drop it.  A
   * handler may change anything but the receive queue (kicking, for one,
   * closes the socket).  The filter's `Process` is never asked.
   */
  function Drain(s: Session, table: OpcodeMap, exec: (Session, WorldPacket) -> Session): (r: (Session, seq<Dispatch>))
    ensures |r.1| + |r.0.recvQueue| == |s.recvQueue|
    ensures r.0.recvQueue == s.recvQueue[|r.1|..]
    ensures !r.0.socketClosed ==> r.0.recvQueue == []
    ensures s.socketClosed ==> r == (s, [])
    decreases |s.recvQueue|
  {
    if s.socketClosed || s.recvQueue == [] then (s, [])
    else
      var p := s.recvQueue[0];
      var s1 := s.(recvQueue := s.recvQueue[1..]);
      match Admit(s1, Handle(table, p.opcode).status)
      case None =>
        var rest := Drain(s1, table, exec);
        (rest.0, [Dropped(p.opcode)] + rest.1)
      case Some(s2) =>
        var s3 := exec(s2, p).(recvQueue := s1.recvQueue);
        var rest := Drain(s3, table, exec);
        (rest.0, [Executed(p.opcode)] + rest.1)
  }

  /**
   * Packets are dispatched in arrival order, and no handler runs for an
   * opcode whose status is "never" or "unhandled".
   */
  lemma {:induction false} DrainInOrder(s: Session, table: OpcodeMap, exec: (Session, WorldPacket) -> Session)
    ensures var d := Drain(s, table, exec).1;
      (forall k :: 0 <= k < |d| ==> d[k].opcode == s.recvQueue[k].opcode)
      && (forall k :: 0 <= k < |d| && d[k].Executed? ==>
            Handle(table, d[k].opcode).status !in {StatusNever, StatusUnhandled})
    decreases |s.recvQueue|
  {
    if !(s.socketClosed || s.recvQueue == []) {
      var p := s.recvQueue[0];
      var s1 := s.(recvQueue := s.recvQueue[1..]);
      var status := Handle(table, p.opcode).status;
      AdmitByStatus(s1);
      match Admit(s1, status)
      case None =>
        DrainInOrder(s1, table, exec);
      case Some(s2) =>
        DrainInOrder(exec(s2, p).(recvQueue := s1.recvQueue), table, exec);
    }
  }

  /**
   * The queue is first in, first out: a packet queued behind the others is
   * dispatched after all of them, and on a socket that stays open it is the
   * last one dispatched.
   */
  lemma QueueThenDrain(s: Session, p: WorldPacket, table: OpcodeMap, exec: (Session, WorldPacket) -> Session)
    ensures var d := Drain(QueuePacket(s, p), table, exec).1;
      (forall k :: 0 <= k < |d| && k < |s.recvQueue| ==> d[k].opcode == s.recvQueue[k].opcode)
      && (!Drain(QueuePacket(s, p), table, exec).0.socketClosed ==>
            |d| == |s.recvQueue| + 1 && d[|s.recvQueue|].opcode == p.opcode)
  {
    DrainInOrder(QueuePacket(s, p), table, exec);
  }

  // ----- logout -----

  /** What a logout did with the player. */
  datatype LogoutOutcome = AlreadyLoggedOut | NoPlayerToRemove | RemovedFromMap(player: nat) | DeletedFromWorld(player: nat)

  /** `SendPacket`: nothing leaves a closed socket. */
  function SendPacket(s: Session, p: WorldPacket): (r: seq<WorldPacket>)
    ensures s.socketClosed ==> r == []
    ensures !s.socketClosed ==> r == [p]
  {
    if s.socketClosed then [] else [p]
  }

  /**
   * `LogoutPlayer`: nothing after a recent logout.  Otherwise a player in
   * the world is removed from its map and one outside it deleted, the client
   * is told `SMSG_LOGOUT_COMPLETE`, and the session ends with no player, the
   * logout flags clear, the recently-logged-out mark set and no request
   * pending.  The database writes are not modelled.
   */
  function LogoutPlayer(s: Session, save: bool): (r: (Session, LogoutOutcome, seq<WorldPacket>))
    ensures s.recentlyLogout ==> r == (s, AlreadyLoggedOut, [])
    ensures !s.recentlyLogout ==>
      r.0 == s.(player := NoPlayer, logout := false, save := false, recentlyLogout := true, logoutTime := 0)
    ensures !s.recentlyLogout && s.player.NoPlayer? ==> r.1 == NoPlayerToRemove && r.2 == []
    ensures !s.recentlyLogout && s.player.Attached? ==>
      r.1 == (if s.player.inWorld then RemovedFromMap(s.player.player) else DeletedFromWorld(s.player.player))
      && r.2 == SendPacket(s, WorldPacket(SMSG_LOGOUT_COMPLETE, []))
  {
    if s.recentlyLogout then (s, AlreadyLoggedOut, [])
    else
      var during := s.(logout := true, save := save);
      var outcome :=
        match during.player
        case NoPlayer => NoPlayerToRemove
        case Attached(p, inWorld) => if inWorld then RemovedFromMap(p) else DeletedFromWorld(p);
      var sent := if during.player.Attached? then SendPacket(during, WorldPacket(SMSG_LOGOUT_COMPLETE, [])) else [];
      var after := LogoutRequest(during.(player := NoPlayer, logout := false, save := false, recentlyLogout := true), 0);
      (after, outcome, sent)
  }

  /**
   * After a logout that was not skipped the session holds no player and is
   * no longer logging out; either way a second logout changes nothing.
   */
  lemma LogoutSettles(s: Session, save: bool, again: bool)
    ensures var first := LogoutPlayer(s, save).0;
      (!s.recentlyLogout ==> !IsLoggingOut(first) && first.player.NoPlayer?)
      && first.recentlyLogout
      && LogoutPlayer(first, again) == (first, AlreadyLoggedOut, [])
  {
  }

  /** `KickPlayer`: closes the socket and nothing else. */
  function KickPlayer(s: Session): (r: Session)
    ensures r.socketClosed
    ensures r.(socketClosed := s.socketClosed) == s
  {
    s.(socketClosed := true)
  }

  /** `SendAuthWaitQue`: position 0 is `AUTH_OK`, any other is `AUTH_WAIT_QUEUE` with the position. */
  function SendAuthWaitQue(s: Session, position: Word): (r: seq<AuthResponse>)
    ensures s.socketClosed ==> r == []
    ensures !s.socketClosed && position == 0 ==> r == [AuthResponse(AUTH_OK, [])]
    ensures !s.socketClosed && position != 0 ==> r == [AuthResponse(AUTH_WAIT_QUEUE, [position])]
  {
    if s.socketClosed then []
    else if position == 0 then [AuthResponse(AUTH_OK, [])]
    else [AuthResponse(AUTH_WAIT_QUEUE, [position])]
  }

  // ----- update -----

  /** The result of one `Update`. */
  datatype UpdateResult = UpdateResult(session: Session, keep: bool, dispatched: seq<Dispatch>, logout: LogoutOutcome, sent: seq<WorldPacket>)

  /**
   * `Update`: drain the queue; then, when the filter permits logging out,
   * log out if the socket is closed or the cooldown has run out and no
   * player is loading, and ask to be destroyed if the socket is closed.
   */
  function Update(s: Session, f: Filter, table: OpcodeMap, exec: (Session, WorldPacket) -> Session, currTime: int): (r: UpdateResult)
    ensures var drained := Drain(s, table, exec);
      r.dispatched == drained.1
      && (!r.keep <==> ProcessLogout(f) && drained.0.socketClosed)
      && r.session.socketClosed == drained.0.socketClosed
    ensures var drained := Drain(s, table, exec).0;
      var logs := ProcessLogout(f) && (drained.socketClosed || (ShouldLogOut(drained, currTime) && !drained.loading));
      (logs ==> (r.session, r.logout, r.sent) == LogoutPlayer(drained, true))
      && (!logs ==> r.session == drained && r.logout == AlreadyLoggedOut && r.sent == [])
  {
    var drained := Drain(s, table, exec);
    var s1 := drained.0;
    if ProcessLogout(f) then
      var logs := s1.socketClosed || (ShouldLogOut(s1, currTime) && !s1.loading);
      var out := if logs then LogoutPlayer(s1, true) else (s1, AlreadyLoggedOut, []);
      UpdateResult(out.0, !s1.socketClosed, drained.1, out.1, out.2)
    else
      UpdateResult(s1, true, drained.1, AlreadyLoggedOut, [])
  }

  /**
   * A map update never logs a session out or asks for it to be destroyed;
   * the world update destroys exactly the sessions whose socket is closed,
   * after logging them out.
   */
  lemma MapUpdateNeverLogsOut(s: Session, table: OpcodeMap, exec: (Session, WorldPacket) -> Session, currTime: int)
    ensures var r := Update(s, MapSessionFilter, table, exec, currTime);
      r.keep && r.session == Drain(s, table, exec).0
    ensures var r := Update(s, WorldSessionFilter, table, exec, currTime);
      !r.keep ==>
        (r.session.recentlyLogout
         && (!Drain(s, table, exec).0.recentlyLogout ==> r.session.player.NoPlayer? && !IsLoggingOut(r.session)))
  {
  }
}

=== FILE: world_socket.dfy ===
/**
 * The world server's connection: cutting the inbound byte stream into
 * frames (resuming a frame whose payload has not fully arrived), routing
 * each frame, the ping flood counter, and the header of outbound frames.
 *
 * The byte order helpers are not part of this model; a little-endian host
 * is assumed, on which `EndianConvert` leaves a value alone and
 * `EndianConvertReverse` swaps its bytes.  The socket buffer's `Read` of
 * the header is taken to fail, consuming nothing, when fewer than six bytes
 * are buffered.  The account lookup of `HandleAuthSession` and the clock
 * are parameters.
 */
module WorldSocket {
  import opened Wrappers
  import opened Word32
  import opened Packet
  import opened Opcodes
  import opened SharedDefines

  /** `sizeof(ClientPktHeader)`: a `uint16` size and a `uint32` opcode, packed. */
  const HEADER_SIZE: nat := 6
  /** The largest frame size the client accepts. */
  const MAX_FRAME_SIZE: nat := 0x2800
  /** Pings closer together than this many seconds count as over-speed. */
  const PING_WINDOW: int := 27

  // ----- inbound headers -----

  datatype ClientHeader = ClientHeader(size: Half, cmd: Word)

  lemma Pow256Of4()
    ensures Pow256(4) == TwoTo32
  {
    assert Pow256(1) == 256;
    assert Pow256(2) == 0x1_0000;
  }

  /** The header as the server reads it: the size byte-swapped (big-endian on the wire), the opcode as is (little-endian). */
  function DecodeClientHeader(b: seq<Byte>): (h: ClientHeader)
    requires |b| == HEADER_SIZE
    ensures h.size == (b[0] as int) * 256 + b[1]
  {
    Pow256Of4();
    ClientHeader((b[0] as int) * 256 + b[1], FromLittleEndian(b[2..6]))
  }

  /** The six bytes a client writes for a header. */
  function EncodeClientHeader(h: ClientHeader): (b: seq<Byte>)
    ensures |b| == HEADER_SIZE
  {
    Pow256Of4();
    [h.size / 256, h.size % 256] + LittleEndian(h.cmd, 4)
  }

  /** Header encoding and decoding are inverse bijections between headers and six-byte strings. */
  lemma ClientHeaderRoundTrip(h: ClientHeader, b: seq<Byte>)
    requires |b| == HEADER_SIZE
    ensures DecodeClientHeader(EncodeClientHeader(h)) == h
    ensures EncodeClientHeader(DecodeClientHeader(b)) == b
  {
    Pow256Of4();
    var e := EncodeClientHeader(h);
    assert e[2..6] == LittleEndian(h.cmd, 4);
    LittleEndianRoundTrip(h.cmd, 4);
    FromLittleEndianRoundTrip(b[2..6]);
    var d := DecodeClientHeader(b);
    assert EncodeClientHeader(d)[2..6] == b[2..6];
  }

  /** A header the server accepts: room for the opcode, no more than the client's largest buffer, a known opcode. */
  predicate ValidHeader(h: ClientHeader) {
    4 <= h.size <= MAX_FRAME_SIZE && h.cmd < NUM_MSG_TYPES
  }

  // ----- the connection -----

  /** What the connection knows of its session: the account and its security level. */
  datatype SessionRef = SessionRef(accountId: Word, security: nat)

  /**
   * The connection: the unread input, the header saved from a frame whose
   * payload is still incomplete, whether the socket is closed, the session
   * once authenticated, and the ping flood state (no ping yet is `None`).
   */
  datatype Conn = Conn(input: seq<Byte>, saved: Option<ClientHeader>, closed: bool,
                       session: Option<SessionRef>, lastPing: Option<int>, overSpeedPings: Word)

  /** A fresh connection. */
  function Open(): (c: Conn)
    ensures c.input == [] && c.saved.None? && c.session.None? && c.lastPing.None? && c.overSpeedPings == 0
  {
    Conn([], None, false, None, None, 0)
  }

  /**
   * What the socket keeps true between calls: a saved header still sits
   * at the front of the input (the read pointer was moved back over it).
   */
  predicate Resumable(c: Conn) {
    c.saved.Some? ==> |c.input| >= HEADER_SIZE && DecodeClientHeader(c.input[..HEADER_SIZE]) == c.saved.value
  }

  /** More bytes arriving. */
  function Receive(c: Conn, more: seq<Byte>): (r: Conn)
    ensures r == c.(input := c.input + more)
    ensures Resumable(c) ==> Resumable(r)
  {
    var r := c.(input := c.input + more);
    assert Resumable(c) && c.saved.Some? ==> r.input[..HEADER_SIZE] == c.input[..HEADER_SIZE];
    r
  }

  // ----- outbound frames -----

  /**
   * `SendPacket`: nothing on a closed socket; otherwise the size (payload
   * plus four, truncated to `uint16`) big-endian, the opcode truncated to
   * `uint16` little-endian, then the payload when there is one.
   */
  function SendPacket(closed: bool, p: WorldPacket): (r: seq<Byte>)
    ensures closed ==> r == []
    ensures !closed ==> |r| == 4 + Size(p) && r[4..] == Bytes(p.items)
  {
    if closed then []
    else
      var size := (Size(p) + 4) % 0x1_0000;
      var cmd := p.opcode % 0x1_0000;
      [size / 256, size % 256, cmd % 256, cmd / 256] + (if Size(p) > 0 then Bytes(p.items) else [])
  }

  /** How a client reads an outbound header: the size and the opcode. */
  function DecodeServerHeader(b: seq<Byte>): (r: (nat, nat))
    requires |b| >= 4
  {
    ((b[0] as int) * 256 + b[1], b[2] + 256 * (b[3] as int))
  }

  /**
   * An outbound frame that fits the 16-bit fields reads back as the
   * packet's size plus four and its opcode, followed by exactly its
   * payload; a payload of 65532 bytes or more wraps the size field.
   */
  lemma ServerFrameRoundTrip(p: WorldPacket)
    ensures var f := SendPacket(false, p);
      DecodeServerHeader(f).1 == p.opcode % 0x1_0000
      && DecodeServerHeader(f).0 == (Size(p) + 4) % 0x1_0000
      && (Size(p) + 4 < 0x1_0000 ==> DecodeServerHeader(f).0 == Size(p) + 4)
      && (p.opcode < 0x1_0000 ==> DecodeServerHeader(f).1 == p.opcode)
  {
  }

  // ----- routing a frame -----

  /** What `HandleAuthSession` learned from its packet: unreadable, an unknown account, or the account's id. */
  datatype LoginAnswer = BadPacket | UnknownAccount | Account(id: Word)

  /** The world and configuration inputs a call depends on. */
  datatype Env = Env(now: int, maxOverSpeedPings: Word, kickOnBadPacket: bool, login: seq<Byte> -> LoginAnswer)

  /**
   * The result of one `ProcessIncomingData`: its return value, the
   * connection after it, the packets handed to the session's queue, the
   * accounts whose new session went to the world's add queue, and the bytes
   * sent back.
   */
  datatype Processed = Processed(ok: bool, conn: Conn, queued: seq<WorldPacket>, added: seq<Word>, sent: seq<Byte>)

  /** `std::chrono::duration_cast` to seconds of a millisecond count: division truncating toward zero. */
  function WholeSeconds(ms: int): (r: int)
    ensures ms >= 0 ==> 0 <= r && r * 1000 <= ms < (r + 1) * 1000
    ensures ms < 0 ==> r <= 0 && -ms >= -r * 1000
  {
    if ms >= 0 then ms / 1000 else -((-ms) / 1000)
  }

  /**
   * The ping flood counter after a ping at `now`: the first ping only
   * records the time; a later one less than 27 whole seconds after the
   * previous one counts one up (as `uint32`), any other resets it.
   */
  function PingCount(c: Conn, now: int): (r: Word)
    ensures c.lastPing.None? ==> r == c.overSpeedPings
    ensures c.lastPing.Some? && WholeSeconds(now - c.lastPing.value) >= PING_WINDOW ==> r == 0
    ensures c.lastPing.Some? && WholeSeconds(now - c.lastPing.value) < PING_WINDOW ==> r == Wrap(c.overSpeedPings + 1)
  {
    if c.lastPing.None? then c.overSpeedPings
    else if WholeSeconds(now - c.lastPing.value) < PING_WINDOW then Wrap(c.overSpeedPings + 1)
    else 0
  }

  /** Whether an over-speed ping gets the connection dropped: a non-zero limit exceeded by an ordinary player. */
  predicate PingFlooded(c: Conn, now: int, limit: Word) {
    c.lastPing.Some? && WholeSeconds(now - c.lastPing.value) < PING_WINDOW
    && limit != 0 && PingCount(c, now) > limit
    && c.session.Some? && c.session.value.security == SEC_PLAYER
  }

  /**
   * `HandlePing`: the ping and latency words are read first (a short packet
   * is a bad packet); then the time is recorded and the counter updated.
   * A flooding player, or a connection without a session, is refused;
   * otherwise the ping value goes back in a `PONG`.
   */
  function HandlePing(c: Conn, payload: seq<Byte>, env: Env): (r: Processed)
    ensures r.queued == [] && r.added == []
    ensures ReadUInt(payload, 4, 4).None? ==> r == Processed(!env.kickOnBadPacket, c, [], [], [])
    ensures ReadUInt(payload, 4, 4).Some? ==>
      r.conn == c.(lastPing := Some(env.now), overSpeedPings := PingCount(c, env.now))
      && (r.ok <==> !PingFlooded(c, env.now, env.maxOverSpeedPings) && c.session.Some?)
      && (r.ok ==> r.sent == SendPacket(c.closed, WorldPacket(SMSG_PONG, [U32(ReadUInt(payload, 0, 4).value)])))
      && (!r.ok ==> r.sent == [])
  {
    var ping := ReadUInt(payload, 0, 4);
    var latency := ReadUInt(payload, 4, 4);
    if latency.None? then Processed(!env.kickOnBadPacket, c, [], [], [])
    else
      var c1 := c.(lastPing := Some(env.now), overSpeedPings := PingCount(c, env.now));
      if PingFlooded(c, env.now, env.maxOverSpeedPings) || c.session.None? then Processed(false, c1, [], [], [])
      else
        assert ping.value < Pow256(4);
        Pow256Of4();
        Processed(true, c1, [], [], SendPacket(c.closed, WorldPacket(SMSG_PONG, [U32(ping.value)])))
  }

  /**
   * The switch of `ProcessIncomingData` on one complete frame: a second
   * `AUTH_SESSION` is refused, a first creates the session (always at
   * player security) and parks it with the world; `PING` goes to
   * `HandlePing`; `KEEP_ALIVE` is accepted and dropped; anything else is
   * refused without a session and queued on it otherwise.  A packet too
   * short for its handler is refused only when the configuration says to
   * kick for bad packets.
   */
  function Route(c: Conn, p: WorldPacket, payload: seq<Byte>, env: Env): (r: Processed)
    ensures p.opcode != CMSG_PING ==> r.sent == [] && r.conn.lastPing == c.lastPing
    ensures |r.queued| <= 1 && |r.added| <= 1
    ensures r.queued != [] <==>
      p.opcode !in {CMSG_AUTH_SESSION, CMSG_PING, CMSG_KEEP_ALIVE} && c.session.Some?
    ensures r.queued != [] ==> r.queued == [p] && r.ok
    ensures r.added != [] <==> p.opcode == CMSG_AUTH_SESSION && c.session.None? && env.login(payload).Account?
    ensures r.added != [] ==>
      r.ok && r.added == [env.login(payload).id] && r.conn.session == Some(SessionRef(env.login(payload).id, SEC_PLAYER))
    ensures p.opcode == CMSG_AUTH_SESSION && c.session.Some? ==> !r.ok && r.conn == c
    ensures r.conn.input == c.input && r.conn.saved == c.saved && r.conn.closed == c.closed
  {
    if p.opcode == CMSG_AUTH_SESSION then
      if c.session.Some? then Processed(false, c, [], [], [])
      else
        match env.login(payload)
        case BadPacket => Processed(!env.kickOnBadPacket, c, [], [], [])
        case UnknownAccount => Processed(false, c, [], [], [])
        case Account(id) => Processed(true, c.(session := Some(SessionRef(id, SEC_PLAYER))), [], [id], [])
    else if p.opcode == CMSG_PING then HandlePing(c, payload, env)
    else if p.opcode == CMSG_KEEP_ALIVE then Processed(true, c, [], [], [])
    else if c.session.None? then Processed(false, c, [], [], [])
    else Processed(true, c, [p], [], [])
  }

  /**
   * `ProcessIncomingData`: take a header (the saved one, skipping its bytes
   * again, or six fresh bytes), refuse a malformed one, and when the
   * payload is not all there yet save the header, leave the input as it
   * was and report false.  On a closed socket the header is consumed and
   * nothing else happens; otherwise the payload is consumed and the frame
   * routed.
   */
  function ProcessIncomingData(c: Conn, env: Env): (r: Processed)
    requires Resumable(c)
    ensures Resumable(r.conn)
    ensures r.conn.closed == c.closed
    ensures r.ok ==> |r.conn.input| < |c.input| && r.conn.saved.None?
    ensures c.saved.None? && |c.input| < HEADER_SIZE ==> r == Processed(false, c, [], [], [])
  {
    if c.saved.None? && |c.input| < HEADER_SIZE then Processed(false, c, [], [], [])
    else
      var h := if c.saved.Some? then c.saved.value else DecodeClientHeader(c.input[..HEADER_SIZE]);
      var rest := c.input[HEADER_SIZE..];
      var c1 := c.(input := rest, saved := None);
      if !ValidHeader(h) then Processed(false, c1, [], [], [])
      else
        var len := h.size - 4;
        if len > |rest| then Processed(false, c.(saved := Some(h)), [], [], [])
        else if c.closed then Processed(false, c1, [], [], [])
        else
          var payload := rest[..len];
          var p := WorldPacket(h.cmd, if len > 0 then [Raw(payload)] else []);
          Route(c1.(input := rest[len..]), p, payload, env)
  }

  /**
   * The main path: on an open socket with no header saved, a well-formed
   * header followed by its whole payload is consumed exactly, header and
   * payload, and the frame is routed as the packet it encodes; the bytes
   * after it stay for the next call.
   */
  lemma WholeFrameRouted(c: Conn, h: ClientHeader, payload: seq<Byte>, rest: seq<Byte>, env: Env)
    requires !c.closed && c.saved.None? && ValidHeader(h)
    requires c.input == EncodeClientHeader(h) + payload + rest && |payload| == h.size - 4
    ensures var r := ProcessIncomingData(c, env);
      && r == Route(c.(input := rest), WorldPacket(h.cmd, if payload == [] then [] else [Raw(payload)]), payload, env)
      && r.conn.input == rest && |c.input| - |r.conn.input| == HEADER_SIZE + |payload|
  {
    var e := EncodeClientHeader(h);
    ClientHeaderRoundTrip(h, e);
    assert c.input[..HEADER_SIZE] == e;
    assert c.input[HEADER_SIZE..] == payload + rest;
    assert (payload + rest)[..|payload|] == payload && (payload + rest)[|payload|..] == rest;
  }

  /** The header a call works with: the saved one or the one at the front of the input. */
  function HeaderOf(c: Conn): (h: ClientHeader)
    requires Resumable(c) && (c.saved.Some? || |c.input| >= HEADER_SIZE)
    ensures h == DecodeClientHeader(c.input[..HEADER_SIZE])
  {
    if c.saved.Some? then c.saved.value else DecodeClientHeader(c.input[..HEADER_SIZE])
  }

  /**
   * The frame checks: a malformed header is refused and nothing reaches
   * the session; a well-formed one whose payload is incomplete is saved,
   * the input kept whole, and false returned.
   */
  lemma FrameChecks(c: Conn, env: Env)
    requires Resumable(c) && (c.saved.Some? || |c.input| >= HEADER_SIZE)
    ensures var h := HeaderOf(c);
      var r := ProcessIncomingData(c, env);
      (!ValidHeader(h) ==> !r.ok && r.queued == [] && r.added == [] && r.conn.input == c.input[HEADER_SIZE..])
      && (ValidHeader(h) && h.size - 4 > |c.input| - HEADER_SIZE ==>
            r == Processed(false, c.(saved := Some(h)), [], [], []))
  {
  }

  /**
   * Resuming reuses the saved header without decoding it again, and that
   * changes nothing: a connection holding a saved header behaves exactly
   * as it would with the header decoded afresh from its input.
   */
  lemma ResumeAgrees(c: Conn, env: Env)
    requires Resumable(c) && c.saved.Some?
    ensures ProcessIncomingData(c, env) == ProcessIncomingData(c.(saved := None), env)
  {
  }

  /**
   * A frame split across arrivals: the first call saves the header and
   * reports false; once the rest arrives, the next call does exactly what
   * one call on the whole input would have done.
   */
  lemma SplitFrame(c: Conn, more: seq<Byte>, env: Env)
    requires c.saved.None? && |c.input| >= HEADER_SIZE
    ensures var h := DecodeClientHeader(c.input[..HEADER_SIZE]);
      var r1 := ProcessIncomingData(c, env);
      ValidHeader(h) && h.size - 4 > |c.input| - HEADER_SIZE ==>
        !r1.ok && r1.conn.saved == Some(h)
        && ProcessIncomingData(Receive(r1.conn, more), env) == ProcessIncomingData(Receive(c, more), env)
  {
    var h := DecodeClientHeader(c.input[..HEADER_SIZE]);
    var r1 := ProcessIncomingData(c, env);
    if ValidHeader(h) && h.size - 4 > |c.input| - HEADER_SIZE {
      var c2 := Receive(r1.conn, more);
      assert c2.(saved := None) == Receive(c, more);
      ResumeAgrees(c2, env);
    }
  }

  /**
   * Ping flooding: refusal happens exactly for a flooding ordinary player
   * or a connection without a session; a pong echoes the ping value; the
   * counter resets on a slow ping; and a second ping inside the window after
   * a refused one is refused again.
   */
  lemma PingFloodRule(c: Conn, payload: seq<Byte>, env: Env)
    requires |payload| >= 8
    ensures var r := HandlePing(c, payload, env);
      (r.ok <==> c.session.Some? && !PingFlooded(c, env.now, env.maxOverSpeedPings))
      && (r.ok && !c.closed ==> r.sent[4..] == payload[..4])
      && (c.lastPing.Some? && WholeSeconds(env.now - c.lastPing.value) >= PING_WINDOW ==> r.conn.overSpeedPings == 0)
  {
    var r := HandlePing(c, payload, env);
    if r.ok && !c.closed {
      var ping := ReadUInt(payload, 0, 4).value;
      Pow256Of4();
      assert payload[0..4] == payload[..4];
      FromLittleEndianRoundTrip(payload[..4]);
      BytesOne(U32(ping));
    }
  }

  // ----- client builds -----

  /** The entries of a zero-terminated list before its terminator. */
  function BeforeZero(list: seq<int>): (r: seq<int>)
    requires 0 in list
    ensures 0 !in r && |r| < |list| && list[|r|] == 0 && r == list[..|r|]
  {
    if list[0] == 0 then [] else [list[0]] + BeforeZero(list[1..])
  }

  /**
   * `IsAcceptableClientBuild`: the build, read as `int32`, is one of the
   * entries before the zero terminator of the accepted list.
   */
  function IsAcceptableClientBuild(build: Word, accepted: seq<int>): (r: bool)
    requires 0 in accepted
    ensures r <==> ToInt32(build) in BeforeZero(accepted)
    decreases |accepted|
  {
    if accepted[0] == 0 then false
    else if ToInt32(build) == accepted[0] then true
    else IsAcceptableClientBuild(build, accepted[1..])
  }

  /** Build 0 is never acceptable, and entries after the terminator do not count. */
  lemma AcceptedBuilds(build: Word, accepted: seq<int>, tail: seq<int>)
    requires 0 in accepted
    ensures !IsAcceptableClientBuild(0, accepted)
    ensures IsAcceptableClientBuild(build, accepted) == IsAcceptableClientBuild(build, BeforeZero(accepted) + [0] + tail)
  {
    var pre := BeforeZero(accepted);
    var l := pre + [0] + tail;
    assert l[|pre|] == 0;
    assert BeforeZero(l) == pre by {
      BeforeZeroPrefix(pre, tail);
    }
  }

  /** A terminated list's entries are the ones before its first zero. */
  lemma {:induction false} BeforeZeroPrefix(pre: seq<int>, tail: seq<int>)
    requires 0 !in pre
    ensures 0 in pre + [0] + tail && BeforeZero(pre + [0] + tail) == pre
    decreases |pre|
  {
    var l := pre + [0] + tail;
    assert l[|pre|] == 0;
    if pre != [] {
      assert l[1..] == pre[1..] + [0] + tail;
      BeforeZeroPrefix(pre[1..], tail);
    }
  }
}

=== FILE: wrappers.dfy ===
/** Optional values, standing for the nullable pointers and "not found" answers of the server. */
module Wrappers {
  datatype Option<T> = None | Some(value: T)
}
